=== FILE: README.md ===
# Correlated-trait tree-set likelihood: a Dafny model

This project models the core of a BEAST 2 package for two discrete traits that may evolve
dependently, evaluated over a set of phylogenetic trees instead of a single tree. The model
covers the following parts of the package.

- **Correlated substitution model** (`CorrelatedSubstitution`). It covers:
  - the dimension checks of `initAndValidate`;
  - the in-place construction of the nrOfStates × nrOfStates generator: seeding the single-flip cells of its 4×4 corner, scaling by the frequencies, setting the negated row sums, normalising to one expected substitution;
  - the mixed-radix `depends` test.
- **Consumers of `depends`**:
  - the prior on independent evolution (`IndependentEvolution`);
  - the independency logger (`Independency`).
- **No-change substitution model** (`NoChange`): the identity-like transition matrix and the accessors that always throw.
- **Rate-pair MCMC operator** (`RatesFreqs`): the reverse-direction pairing of off-diagonal rates, the bounded coupled up/down move and the rescaling to mean 1. The random index, the draw behind ε and the coin flip are arguments.
- **Tree-set bookkeeping** (`TreeSet`):
  - burn-in trimming with Java's 32-bit product and truncating division;
  - reconciliation of the set's taxa with a reference tree: pruning of excluded leaves, collapse of single-child nodes, post-order renumbering;
  - relabelling of leaves by reference index;
  - the max + log-mean-exp reduction.
- **Likelihood classes built on that bookkeeping**:
  - the sequential, threaded and indexed tree-set likelihoods of the `beast` package (`BeastTreeSet`, `ThreadedTreeSet`);
  - the summing and indexed likelihoods of the `tsa` package (`TsaTreeSet`);
  - the tree chosen from a set by index (`TreeFromSet`).
- **Data encoders and parsers**:
  - the compound alignment's size guessing and Horner encoding (`Compound`);
  - the D-PLACE trait alignment with its quote-aware splitter (`DPlaceAlignment`);
  - the D-PLACE CSV to XML converter with its per-language conflict counters (`DPlaceConverter`);
  - the model selector's helpers (`ModelSelector`);
  - the BEAUti compound trait import (`CompoundTraitProvider`).
- **Tree fossilisers** (`Fossiliser`, `BeastFossiliser`): configuration reading, the MRCA search by climbing heights, and the graft of a new leaf above a clade.

Modelling conventions:

- Java exceptions are `Err` results of a `Result` datatype; `JavaErrors` names the exception classes.
- Java `String.split`, `trim`, `Integer.parseInt` and the regular expressions used are written out in `JavaText`, edge cases included.
- Objects whose fields the source updates in place are classes with `modifies` frames. Arrays the source fills in loops stay arrays.
- Pure recursions such as `removeTaxa` are functions over a binary tree datatype, with the node counter threaded through. Because the datatype is binary, every internal node has two children by construction.
- The fossiliser's trees are an arena of nodes: parent and child links are indices, and a ghost depth witnesses acyclicity.
- The per-tree likelihood and `exp`/`log` are function parameters. Lemmas that need `exp(0) = 1` or `log(1) = 0` take these facts as preconditions.
- −∞ is a constructor of `ExtReal`.

Duplicated sources share one model:

- `src/beast/app/beauti/BeautiCompoundTraitProvider.java` is the same algorithm as the `correlatedtrait` copy (processTrait at lines 83-146, matches at lines 148-156). The rows below cite the `correlatedtrait` copy.
- The `beast.tools` fossiliser has its own class, because its MRCA search is inherited from a class that is not part of this model.

Behaviour modelled as the code has it:

- `nonzeroTransitions` accumulates across initialisations: `CorrelatedSubstitution.CorrelatedSubstitutionModel.InitAndValidate` adds Σ(size − 1) to the old value.
- The rate operator sizes `pair` from ⌊√dim⌋ + 1, so for eight rates two entries have no partner (`RatesFreqs.EightRatesPairSix`).
- The model selector stores `code + " " + raw` strings and compares codes against them, so repeated rows toggle between a code and "??". Its per-site counts stay zero.
- The D-PLACE converter decrements the counter of the previously stored label, even when that label is "??".

In two places the code differs from the system's general description, and the model follows the code:

- The `tsa` tree-set likelihood sums the per-tree log-likelihoods instead of averaging them.
- The `beast` indexed likelihood sets only the upper bound of its index parameter, to the tree count; the lower bound is left as it was.

## Model

| member | source | states |
|---|---|---|
| CorrelatedSubstitution.CorrelatedSubstitutionModel.InitAndValidate | src/tsa/correlatedcharacters/polycharacter/CorrelatedSubstitutionModel.java:69-131 | the shape comes from the shape input, else the alignment's, else the data type's, and none of them is the "One of shape, datatype, alignment must be specified." error with nothing else changed; the state count is the product of the sizes, Σ(size−1) is added to the old nonzeroTransitions (never reset), and it succeeds exactly when there is one frequency per state and states·nonzeroTransitions rates, after which the matrix is states × states with one frequency per state; otherwise the message is CheckDimensions' frequency-dimension message when the frequencies miss the state count, else its rates-dimension message |
| CorrelatedSubstitution.CorrelatedSubstitutionModel.CheckDimensions | src/tsa/correlatedcharacters/polycharacter/CorrelatedSubstitutionModel.java:99-131 | succeeds iff the frequency and rates dimensions match; a failure is Java's message with the frequency count and state count, or with the rate count, states, transitions and their product, the frequency mismatch first; only on success it takes the rates and allocates a fresh square matrix |
| CorrelatedSubstitution.CorrelatedSubstitutionModel.CountStates | src/tsa/correlatedcharacters/polycharacter/CorrelatedSubstitutionModel.java:93-97 | the loop leaves the product of the shape in nrOfStates and adds Σ(size−1) to nonzeroTransitions |
| CorrelatedSubstitution.TransitionsPrefix | src/tsa/correlatedcharacters/polycharacter/CorrelatedSubstitutionModel.java:94-97 | with positive sizes the transitions of a prefix of the shape lie between 0 and those of the whole shape |
| CorrelatedSubstitution.ProdSplit | src/tsa/correlatedcharacters/polycharacter/CorrelatedSubstitutionModel.java:93-97 | the state count factors into the product of the sizes before and from any component |
| CorrelatedSubstitution.ProdPositive | src/tsa/correlatedcharacters/polycharacter/CorrelatedSubstitutionModel.java:93-97 | positive sizes give at least one state |
| CorrelatedSubstitution.CorrelatedSubstitutionModel.GetShape | src/tsa/correlatedcharacters/polycharacter/CorrelatedSubstitutionModel.java:134-136 | returns a fresh array holding the shape |
| CorrelatedSubstitution.CorrelatedSubstitutionModel.constructor | src/tsa/correlatedcharacters/polycharacter/CorrelatedSubstitutionModel.java:55-60 | a new model has an empty shape and nonzeroTransitions 0 |
| CorrelatedSubstitution.CorrelatedSubstitutionModel.SetupRateMatrix | src/tsa/correlatedcharacters/polycharacter/CorrelatedSubstitutionModel.java:141-188 | fails with an array index out of bounds exactly when there are fewer than 4 states or fewer than 8 rates; otherwise a fresh matrix whose every cell is the normalised generator value when Σ −Q_ii·freq_i is nonzero (reported by the result) and the unnormalised generator otherwise; shape, counts, frequencies and rates are unchanged |
| CorrelatedSubstitution.CorrelatedSubstitutionModel.SeedMatrix | src/tsa/correlatedcharacters/polycharacter/CorrelatedSubstitutionModel.java:145-156 | an empty matrix fails before reallocation (Java reads its first row); otherwise the matrix is reallocated, and it fails with an array index out of bounds exactly when it is smaller than 4 × 4 or there are fewer than 8 rates, else every cell holds its seed value |
| CorrelatedSubstitution.SeedCells | src/tsa/correlatedcharacters/polycharacter/CorrelatedSubstitutionModel.java:149-156 | fails with an array index out of bounds exactly when the matrix is smaller than 4 × 4 or there are fewer than 8 rates; otherwise rates 0..7 sit at (0,1),(0,2),(1,0),(1,3),(2,0),(2,3),(3,1),(3,2) and every other cell stays zero |
| CorrelatedSubstitution.SeedsAreSingleFlips | src/tsa/correlatedcharacters/polycharacter/CorrelatedSubstitutionModel.java:149-156 | the seeded cells are exactly the single-flip cells of two binary traits, each holding one of the eight rates; the diagonal and the double-flip cells stay zero |
| CorrelatedSubstitution.CorrelatedSubstitutionModel.ScaleByFrequencies | src/tsa/correlatedcharacters/polycharacter/CorrelatedSubstitutionModel.java:158-164 | every off-diagonal cell (i, j) becomes its seed × freq[j], whichever of i, j is smaller |
| CorrelatedSubstitution.CorrelatedSubstitutionModel.SetDiagonal | src/tsa/correlatedcharacters/polycharacter/CorrelatedSubstitutionModel.java:166-175 | each diagonal cell becomes the negated sum of the scaled off-diagonal cells of its row; the others keep their scaled value |
| CorrelatedSubstitution.Generator | src/tsa/correlatedcharacters/polycharacter/CorrelatedSubstitutionModel.java:149-175 | off the diagonal, a cell that is not a single-character change is 0 |
| CorrelatedSubstitution.GeneratorRowsSumToZero | src/tsa/correlatedcharacters/polycharacter/CorrelatedSubstitutionModel.java:166-175 | every row of the generator sums to zero |
| CorrelatedSubstitution.RowTotalSplit | src/tsa/correlatedcharacters/polycharacter/CorrelatedSubstitutionModel.java:167-175 | a row prefix total is its off-diagonal sum plus the diagonal once the prefix passes it |
| CorrelatedSubstitution.CorrelatedSubstitutionModel.NormaliseMatrix | src/tsa/correlatedcharacters/polycharacter/CorrelatedSubstitutionModel.java:177-186 | fSubst is Σ −Q_ii·freq_i; when it is nonzero every cell is divided by it, and the result says whether it was |
| CorrelatedSubstitution.NormalisedRowsSumToZero | src/tsa/correlatedcharacters/polycharacter/CorrelatedSubstitutionModel.java:177-186 | rows still sum to zero after normalisation |
| CorrelatedSubstitution.NormalisedRowTotalScaled | src/tsa/correlatedcharacters/polycharacter/CorrelatedSubstitutionModel.java:182-186 | a normalised row prefix total is the unnormalised one divided by fSubst |
| CorrelatedSubstitution.NormalisedExpectedRateScaled | src/tsa/correlatedcharacters/polycharacter/CorrelatedSubstitutionModel.java:178-186 | the expected rate of the normalised matrix over a prefix of the states is the unnormalised one divided by fSubst |
| CorrelatedSubstitution.UnitExpectedRate | src/tsa/correlatedcharacters/polycharacter/CorrelatedSubstitutionModel.java:177-186 | after normalisation Σ −Q_ii·freq_i = 1, provided it was nonzero before |
| CorrelatedSubstitution.ScaledTerm | src/tsa/correlatedcharacters/polycharacter/CorrelatedSubstitutionModel.java:180-184 | dividing both the running sum and the term by fSubst divides their sum by it |
| CorrelatedSubstitution.CorrelatedSubstitutionModel.Depends | src/tsa/correlatedcharacters/polycharacter/CorrelatedSubstitutionModel.java:190-243 | the answer is true exactly when the frequencies are not all equal or some slot of `component` has different rates in two states that differ only in the `dependsOn` digit |
| CorrelatedSubstitution.DependsTable | src/tsa/correlatedcharacters/polycharacter/CorrelatedSubstitutionModel.java:190-243 | a components × components table whose cell (a, b) is the answer of depends(a, b) |
| CorrelatedSubstitution.CorrelatedSubstitutionModel.ComponentRange | src/tsa/correlatedcharacters/polycharacter/CorrelatedSubstitutionModel.java:208-219 | the slots of `component` are [Σ_{c<component}(size_c−1), Σ_{c≤component}(size_c−1)), and the step of `dependsOn` is the product of the sizes after it |
| CorrelatedSubstitution.CorrelatedSubstitutionModel.CompareSlots | src/tsa/correlatedcharacters/polycharacter/CorrelatedSubstitutionModel.java:223-238 | a true answer exhibits a slot and a digit value at which the state above `from` has a different rate; a false one means every such pair of rates is equal and `from`'s block is marked |
| CorrelatedSubstitution.SlotInRange | src/tsa/correlatedcharacters/polycharacter/CorrelatedSubstitutionModel.java:226-231 | the slot index from·nonzeroTransitions + componentTo lies within the rates vector |
| CorrelatedSubstitution.SlotsInRange | src/tsa/correlatedcharacters/polycharacter/CorrelatedSubstitutionModel.java:226-231 | every slot `depends` reads for a component lies in [0, states·nonzeroTransitions) |
| CorrelatedSubstitution.ShiftInRange | src/tsa/correlatedcharacters/polycharacter/CorrelatedSubstitutionModel.java:228 | otherIndex = from + step·other stays below the state count |
| CorrelatedSubstitution.ShiftDigit | src/tsa/correlatedcharacters/polycharacter/CorrelatedSubstitutionModel.java:227-229 | raising a zero digit to `other` gives a state with that digit and the same representative |
| CorrelatedSubstitution.RepFacts | src/tsa/correlatedcharacters/polycharacter/CorrelatedSubstitutionModel.java:222-229 | a state's digit is below the size, and clearing it gives a state no larger whose digit is zero |
| CorrelatedSubstitution.RepBounds | src/tsa/correlatedcharacters/polycharacter/CorrelatedSubstitutionModel.java:222-229 | clearing a digit stays between zero and the state |
| CorrelatedSubstitution.RepDigitZero | src/tsa/correlatedcharacters/polycharacter/CorrelatedSubstitutionModel.java:222-229 | the cleared digit reads back as zero |
| CorrelatedSubstitution.RepShift | src/tsa/correlatedcharacters/polycharacter/CorrelatedSubstitutionModel.java:222-229 | a state is its representative shifted by its own digit |
| CorrelatedSubstitution.StepFacts | src/tsa/correlatedcharacters/polycharacter/CorrelatedSubstitutionModel.java:210-218 | the step is positive and the state count is (sizes before) × size × step |
| CorrelatedSubstitution.DependsByRepresentatives | src/tsa/correlatedcharacters/polycharacter/CorrelatedSubstitutionModel.java:222-242 | rates differ between two states differing only in the `dependsOn` digit iff they differ between a state with that digit zero and a state above it, which is what the scan compares |
| CorrelatedSubstitution.RatesDifferAtRepresentative | src/tsa/correlatedcharacters/polycharacter/CorrelatedSubstitutionModel.java:222-242 | any such difference shows up against the representative |
| CorrelatedSubstitution.PairWitness | src/tsa/correlatedcharacters/polycharacter/CorrelatedSubstitutionModel.java:222-242 | two states with the same representative and different rates give a representative and a digit at which the rates differ |
| CorrelatedSubstitution.RepresentativeWitness | src/tsa/correlatedcharacters/polycharacter/CorrelatedSubstitutionModel.java:232-235 | one compared pair with different rates is enough for a difference against representatives |
| CorrelatedSubstitution.RepresentativeDifferenceIsRatesDiffer | src/tsa/correlatedcharacters/polycharacter/CorrelatedSubstitutionModel.java:232-235 | the pair at which the scan returns true is a witness that the rates differ (RatesDiffer holds) |
| CorrelatedSubstitution.NoRepresentativeDifference | src/tsa/correlatedcharacters/polycharacter/CorrelatedSubstitutionModel.java:240-242 | when every compared pair is equal RatesDiffer does not hold, so returning false is right |
| CorrelatedSubstitution.MarkedInitially | src/tsa/correlatedcharacters/polycharacter/CorrelatedSubstitutionModel.java:221 | the fresh `checked` array marks nothing |
| CorrelatedSubstitution.MarkedUnvisited | src/tsa/correlatedcharacters/polycharacter/CorrelatedSubstitutionModel.java:223 | an unmarked state reached by the scan has a zero `dependsOn` digit whenever there are slots to compare |
| CorrelatedSubstitution.MarkedSkip | src/tsa/correlatedcharacters/polycharacter/CorrelatedSubstitutionModel.java:222-223 | a marked state is skipped because it lies above an earlier representative |
| CorrelatedSubstitution.MarkedAdvance | src/tsa/correlatedcharacters/polycharacter/CorrelatedSubstitutionModel.java:222-240 | once a representative's block is marked the scan moves on |
| IndependentEvolution.PairRowSplit | src/correlatedtrait/evolution/distribution/IndependentEvolutionPrior.java:40-47 | what the inner loop adds for row a is the number of dependent entries in row a plus those in column a |
| IndependentEvolution.BlockNoColumns | src/correlatedtrait/evolution/distribution/IndependentEvolutionPrior.java:39-48 | an empty block of the grid holds no dependent pair |
| IndependentEvolution.BlockNextColumn | src/correlatedtrait/evolution/distribution/IndependentEvolutionPrior.java:39-48 | widening the block by one column adds that column's dependent entries |
| IndependentEvolution.TransposedIsBlock | src/correlatedtrait/evolution/distribution/IndependentEvolutionPrior.java:44-46 | counting depends(c2, c1) over the grid counts the same pairs as depends(c1, c2) |
| IndependentEvolution.PairCountSplit | src/correlatedtrait/evolution/distribution/IndependentEvolutionPrior.java:39-48 | the nested loops add the count of depends(c1, c2) plus the count of depends(c2, c1) |
| IndependentEvolution.PairCountIsTwiceOrdered | src/correlatedtrait/evolution/distribution/IndependentEvolutionPrior.java:39-48 | over the full grid (diagonal included) the loops count every dependent ordered pair twice |
| IndependentEvolution.NoDependentPairs | src/correlatedtrait/evolution/distribution/IndependentEvolutionPrior.java:39-48 | when depends is false for every ordered pair nothing is added, so logP = 0 |
| IndependentEvolution.NoneInRow | src/correlatedtrait/evolution/distribution/IndependentEvolutionPrior.java:40-47 | with no dependent pair, no row or column holds one |
| IndependentEvolution.RepeatedIsProduct | src/correlatedtrait/evolution/distribution/IndependentEvolutionPrior.java:42-45 | adding logPDependent n times gives n·logPDependent |
| IndependentEvolution.AddIf | src/correlatedtrait/evolution/distribution/IndependentEvolutionPrior.java:41-46 | one guarded addition adds logPDependent exactly when depends holds |
| IndependentEvolution.IndependentEvolutionPrior.constructor | src/correlatedtrait/evolution/distribution/IndependentEvolutionPrior.java:15-22 | a prior on the given model and pIndependent value |
| IndependentEvolution.IndependentEvolutionPrior.CalculateLogP | src/correlatedtrait/evolution/distribution/IndependentEvolutionPrior.java:24-30 | recomputes only when the calculation is dirty, otherwise returns the stored logP; the result is the stored logP |
| IndependentEvolution.IndependentEvolutionPrior.CalcLogP | src/correlatedtrait/evolution/distribution/IndependentEvolutionPrior.java:32-49 | logPDependent = log(1−p) − log(p); logP is logPDependent added once per dependent ordered pair counted in each direction, i.e. 2·#{(c1,c2) : depends(c1,c2)} times, over components = the shape length |
| IndependentEvolution.IndependentEvolutionPrior.SumOverPairs | src/correlatedtrait/evolution/distribution/IndependentEvolutionPrior.java:38-48 | the nested loops add x once for every depends(c1,c2) and once for every depends(c2,c1) |
| IndependentEvolution.IndependentEvolutionPrior.SumRow | src/correlatedtrait/evolution/distribution/IndependentEvolutionPrior.java:40-47 | the inner loop for row c1 adds x per dependent entry of that row and per dependent entry of that column |
| Independency.Pairs | src/tsa/correlatedcharacters/polycharacter/IndependencyLogger.java:27-40 | the loops visit only pairs (c1, c2) with c2 < c1 < components |
| Independency.Below | src/tsa/correlatedcharacters/polycharacter/IndependencyLogger.java:28-40 | the inner loop for c1 visits (c1, 0), …, (c1, c1−1) in order |
| Independency.PairsComplete | src/tsa/correlatedcharacters/polycharacter/IndependencyLogger.java:27-40 | the loops visit n·(n−1)/2 pairs, every pair of distinct components once |
| Independency.PairsCount | src/tsa/correlatedcharacters/polycharacter/IndependencyLogger.java:27-28 | there are n·(n−1)/2 visited pairs |
| Independency.PairsCover | src/tsa/correlatedcharacters/polycharacter/IndependencyLogger.java:27-28 | every pair c2 < c1 < n is visited |
| Independency.PairsDistinct | src/tsa/correlatedcharacters/polycharacter/IndependencyLogger.java:27-28 | no pair is visited twice |
| Independency.Header | src/tsa/correlatedcharacters/polycharacter/IndependencyLogger.java:25-33 | init prints two cells per visited pair |
| Independency.Row | src/tsa/correlatedcharacters/polycharacter/IndependencyLogger.java:36-56 | log prints four cells per visited pair (two values, two tabs) |
| Independency.RowAppend | src/tsa/correlatedcharacters/polycharacter/IndependencyLogger.java:39-54 | the log line of consecutive pair lists is the concatenation of their lines |
| Independency.RowOfNextPairs | src/tsa/correlatedcharacters/polycharacter/IndependencyLogger.java:39-54 | one more outer iteration appends the cells of the pairs (n, c2), c2 < n |
| Independency.HeaderOfNextPairs | src/tsa/correlatedcharacters/polycharacter/IndependencyLogger.java:27-32 | one more outer iteration of init appends the header cells of the pairs (n, c2), c2 < n |
| Independency.HeaderAppend | src/tsa/correlatedcharacters/polycharacter/IndependencyLogger.java:27-32 | the header of consecutive pair lists is the concatenation of their headers |
| Independency.HeaderAt | src/tsa/correlatedcharacters/polycharacter/IndependencyLogger.java:29-30 | the k-th pair (a, b) gives header cells "<id>_a_depends_on_b\t" then "<id>_b_depends_on_a\t" |
| Independency.RowAt | src/tsa/correlatedcharacters/polycharacter/IndependencyLogger.java:41-52 | the k-th pair (a, b) gives log cells depends(a, b) as 1/0, a tab, depends(b, a) as 1/0, a tab |
| Independency.CellCounts | src/tsa/correlatedcharacters/polycharacter/IndependencyLogger.java:27-40 | the header has components·(components−1) cells and the log line, with its tabs, twice as many |
| Independency.HeaderMatchesRow | src/tsa/correlatedcharacters/polycharacter/IndependencyLogger.java:25-56 | header and log line describe the same pairs in the same order: header cells 2k, 2k+1 name "a on b", "b on a" and log cells 4k, 4k+2 hold depends(a, b), depends(b, a) |
| Independency.OneComponentPrintsNothing | src/tsa/correlatedcharacters/polycharacter/IndependencyLogger.java:27-40 | with one component neither init nor log prints anything |
| Independency.IndependencyLogger.constructor | src/tsa/correlatedcharacters/polycharacter/IndependencyLogger.java:17-22 | a logger with its model and ID |
| Independency.IndependencyLogger.Table | src/tsa/correlatedcharacters/polycharacter/IndependencyLogger.java:41-47 | the dependency table has one row and one column per component |
| Independency.IndependencyLogger.Init | src/tsa/correlatedcharacters/polycharacter/IndependencyLogger.java:24-33 | init appends exactly the header cells of all pairs c2 < c1, in loop order |
| Independency.IndependencyLogger.InitRow | src/tsa/correlatedcharacters/polycharacter/IndependencyLogger.java:28-31 | the inner loop of init appends the cells of the pairs (c1, c2), c2 < c1 |
| Independency.IndependencyLogger.Log | src/tsa/correlatedcharacters/polycharacter/IndependencyLogger.java:35-56 | log appends exactly the 0/1 and tab cells of all pairs c2 < c1, in the header's order |
| Independency.IndependencyLogger.LogRows | src/tsa/correlatedcharacters/polycharacter/IndependencyLogger.java:39-54 | the outer loop of log appends the cells of the pairs of the first components |
| Independency.IndependencyLogger.DependsAt | src/tsa/correlatedcharacters/polycharacter/IndependencyLogger.java:41-47 | csm.depends(a, b) is the entry (a, b) of the dependency table |
| Independency.IndependencyLogger.LogPair | src/tsa/correlatedcharacters/polycharacter/IndependencyLogger.java:41-52 | one inner iteration appends depends(a,b) as 1/0, a tab, depends(b,a) as 1/0, a tab |
| Independency.IndependencyLogger.LogRow | src/tsa/correlatedcharacters/polycharacter/IndependencyLogger.java:40-53 | the inner loop of log appends the cells of the pairs (c1, c2), c2 < c1 |
| NoChange.CellAt | src/beast/evolution/substitutionmodel/NoChangeSubstitutionModel.java:23-27 | entry (i, j) of the written matrix is 1 when i = j and freq[i] > 0, and 0 otherwise |
| NoChange.RowSumIsIndicator | src/beast/evolution/substitutionmodel/NoChangeSubstitutionModel.java:23-27 | row i sums to 1 iff freq[i] > 0, and to 0 otherwise |
| NoChange.RowCells | src/beast/evolution/substitutionmodel/NoChangeSubstitutionModel.java:25-27 | in row i only the diagonal cell can be non-zero |
| NoChange.NoChangeSubstitutionModel.constructor | src/beast/evolution/substitutionmodel/NoChangeSubstitutionModel.java:13 | a model over the given frequencies, not yet initialised |
| NoChange.NoChangeSubstitutionModel.InitAndValidate | src/beast/evolution/substitutionmodel/NoChangeSubstitutionModel.java:15-19 | the state count is the length of the frequency vector |
| NoChange.NoChangeSubstitutionModel.GetTransitionProbabilities | src/beast/evolution/substitutionmodel/NoChangeSubstitutionModel.java:21-28 | every cell of the caller's array is the identity restricted to positive-frequency states (zero elsewhere), whatever the times and rate; an array shorter than n·n (n > 0) ends in ArrayIndexOutOfBoundsException, and only then |
| NoChange.NoChangeSubstitutionModel.GetRateMatrix | src/beast/evolution/substitutionmodel/NoChangeSubstitutionModel.java:31-34 | always throws the BEAGLE message |
| NoChange.NoChangeSubstitutionModel.GetEigenDecomposition | src/beast/evolution/substitutionmodel/NoChangeSubstitutionModel.java:36-40 | always throws the BEAGLE message |
| NoChange.NoChangeSubstitutionModel.CanHandleDataType | src/beast/evolution/substitutionmodel/NoChangeSubstitutionModel.java:42-45 | no data type is accepted |
| RatesFreqs.SqrtFrom | src/beast/evolution/operators/RatesFreqsOperator.java:36 | the upward search ends at the integer square root |
| RatesFreqs.FloorSqrt | src/beast/evolution/operators/RatesFreqsOperator.java:36 | (int) Math.sqrt(d) is the largest s with s² ≤ d |
| RatesFreqs.SqrtUnique | src/beast/evolution/operators/RatesFreqsOperator.java:36 | the integer square root is unique |
| RatesFreqs.RecoverStates | src/beast/evolution/operators/RatesFreqsOperator.java:36 | a dimension n·(n−1) gives back n as ⌊√dim⌋ + 1 |
| RatesFreqs.EightRatesPairSix | src/beast/evolution/operators/RatesFreqsOperator.java:36-61 | dimension 8 gives n = 3 and a pair array of 6 entries, so entries 6 and 7 have no partner |
| RatesFreqs.FlatRoundTrip | src/beast/evolution/operators/RatesFreqsOperator.java:37-45 | map numbers the off-diagonal cells row by row: cell (i, j) gets a number below n·(n−1) from which its row and column are recovered |
| RatesFreqs.UnflatRoundTrip | src/beast/evolution/operators/RatesFreqsOperator.java:37-45 | every number below n·(n−1) is the number of exactly one off-diagonal cell |
| RatesFreqs.PairIsInvolution | src/beast/evolution/operators/RatesFreqsOperator.java:46-54 | pair maps the number of (i, j) to that of (j, i): a fixed-point-free involution on [0, n·(n−1)) |
| RatesFreqs.Clamp | src/beast/evolution/operators/RatesFreqsOperator.java:117-119 | Math.max(Math.min(value, upper), lower) lies in [lower, upper] when lower ≤ upper, keeps in-range values and takes lower below, upper above |
| RatesFreqs.Moved | src/beast/evolution/operators/RatesFreqsOperator.java:68-77 | two setValue calls keep the dimension |
| RatesFreqs.MovedChangesOnlyPair | src/beast/evolution/operators/RatesFreqsOperator.java:60-78 | before normalisation only entries i and pair[i] change, each by the step |
| RatesFreqs.Normalised | src/beast/evolution/operators/RatesFreqsOperator.java:83-98 | normalising keeps the dimension |
| RatesFreqs.Mean | src/beast/evolution/operators/RatesFreqsOperator.java:84-88 | the mean of rates with a non-zero sum is non-zero and the sum divided by it is the dimension |
| RatesFreqs.Scale | src/beast/evolution/operators/RatesFreqsOperator.java:89-91 | dividing every rate keeps the dimension |
| RatesFreqs.ScaleKeepsRatios | src/beast/evolution/operators/RatesFreqsOperator.java:89-91 | dividing every rate by a common value keeps every ratio |
| RatesFreqs.NormalisedSumIsDimension | src/beast/evolution/operators/RatesFreqsOperator.java:83-98 | after normalisation the rates sum to the dimension (mean 1) |
| RatesFreqs.SumScale | src/beast/evolution/operators/RatesFreqsOperator.java:89-91 | dividing every rate by m divides the sum by m |
| RatesFreqs.CrossDivide | src/beast/evolution/operators/RatesFreqsOperator.java:90 | two values divided by the same m keep their ratio |
| RatesFreqs.NormalisedKeepsRatios | src/beast/evolution/operators/RatesFreqsOperator.java:83-98 | normalisation keeps every ratio between rates |
| RatesFreqs.RatesFreqsOperator.constructor | src/beast/evolution/operators/RatesFreqsOperator.java:24-27 | an operator on the given rates, with the initial scale factor and no pairing |
| RatesFreqs.RatesFreqsOperator.InitAndValidate | src/beast/evolution/operators/RatesFreqsOperator.java:29-55 | upper is the rates' upper bound, lower is max(rates' lower bound, 0), the state count is ⌊√dim⌋+1 and pair[k] is the number of the reverse cell of cell k, for n·(n−1) entries |
| RatesFreqs.RatesFreqsOperator.PairTable | src/beast/evolution/operators/RatesFreqsOperator.java:46-54 | a fresh pair array of n·(n−1) entries, each the reverse cell's number |
| RatesFreqs.RatesFreqsOperator.PairRow | src/beast/evolution/operators/RatesFreqsOperator.java:49-53 | one outer pass fills the n−1 entries of row i with their reverse cells' numbers |
| RatesFreqs.RatesFreqsOperator.CellNumbers | src/beast/evolution/operators/RatesFreqsOperator.java:37-45 | map[i][j] is the row-by-row number of every off-diagonal cell |
| RatesFreqs.RatesFreqsOperator.Proposal | src/beast/evolution/operators/RatesFreqsOperator.java:58-81 | an index without a partner entry throws ArrayIndexOutOfBoundsException with the rates untouched; otherwise the rates and result are those of Propose for entry i and pair[i]: −∞ with the rates untouched when either entry would leave its bounds, else the moved and rescaled rates with result 0 |
| RatesFreqs.RatesFreqsOperator.Shift | src/beast/evolution/operators/RatesFreqsOperator.java:68-77 | rates[i] and then rates[j] are increased by d |
| RatesFreqs.RatesFreqsOperator.Normalise | src/beast/evolution/operators/RatesFreqsOperator.java:83-98 | with a non-zero total every rate is divided by the mean; a zero total is reported and leaves the rates alone |
| RatesFreqs.RatesFreqsOperator.SetCoercableParameterValue | src/beast/evolution/operators/RatesFreqsOperator.java:116-119 | the scale factor becomes value clamped into [lower, upper]; nothing else changes |
| RatesFreqs.Propose | src/beast/evolution/operators/RatesFreqsOperator.java:59-81 | up: −∞ with rates unchanged when rates[i]+ε or rates[j]+ε exceeds upper; down: the same with δ = ε/(1+ε) below lower; a partner outside the rates throws ArrayIndexOutOfBoundsException once entry i has passed its test; otherwise both entries move by the step, the rates are rescaled to mean 1 (sum = dimension) and 0 is returned. Each outcome is stated by its condition: −∞ with the rates unchanged exactly when entry i, or then entry j, fails its bound test; 0 exactly when both pass and the moved rates do not sum to 0 |
| TreeSet.IndexOf | src/beast/evolution/likelihood/TreeSetLikelihood.java:148-156 | indexOf returns −1 iff id is absent, otherwise the first position holding exactly id |
| TreeSet.Leaves | src/beast/evolution/likelihood/TreeSetLikelihood.java:103-131 | a tree has at least one leaf and Leaves lists only leaves (the order against which pruning is stated) |
| TreeSet.Range | src/beast/evolution/likelihood/TreeSetLikelihood.java:88-128 | the consecutive numbers lo, …, hi−1 that the kept internal nodes receive |
| TreeSet.SurvivingSubset | src/beast/evolution/likelihood/TreeSetLikelihood.java:104-109 | the surviving leaves are leaves of the input and none of them is excluded |
| TreeSet.RemoveTaxa | src/beast/evolution/likelihood/TreeSetLikelihood.java:103-131 | null iff every leaf below is excluded; otherwise the surviving leaves are exactly the non-excluded ones in left-to-right order, single-child nodes are collapsed (the tree is binary), the kept internal nodes are numbered counter, counter+1, … in post-order and the counter ends one past the last |
| TreeSet.Relabel | src/beast/evolution/likelihood/TreeSetLikelihood.java:134-146 | leaves keep their IDs and order; each leaf with an ID gets indexOf(names, ID) as its number; internal numbers are unchanged |
| TreeSet.FilteredLeavesNumbered | src/beast/evolution/likelihood/TreeSetLikelihood.java:83-146 | after pruning the extra taxa and relabelling, every leaf number lies in [0, names.length) |
| TreeSet.BurninCount | src/beast/evolution/likelihood/TreeSetLikelihood.java:51-54 | the burn-in count is never negative (32-bit int product, truncating division, clamp at 0) |
| TreeSet.Wrap32 | src/beast/evolution/likelihood/TreeSetLikelihood.java:51 | the Java int product stays in the int range and equals the true product when that fits |
| TreeSet.BurninCountExact | src/beast/evolution/likelihood/TreeSetLikelihood.java:51-54 | without overflow and for a non-negative percentage the count is ⌊size·b/100⌋ |
| TreeSet.Tabu | src/beast/evolution/likelihood/TreeSetLikelihood.java:76-82 | the excluded taxa are exactly the names of the first set tree that the reference names lack |
| TreeSet.Filtered | src/beast/evolution/likelihood/TreeSetLikelihood.java:83-94 | pruning keeps one tree per tree of the set |
| TreeSet.RelabelAll | src/beast/evolution/likelihood/TreeSetLikelihood.java:97-100 | every tree is kept, its root relabelled against the names |
| TreeSet.FirstMissing | src/beast/evolution/likelihood/TreeSetLikelihood.java:69-74 | none iff every reference name occurs among the set's names; otherwise a reference name the set lacks |
| TreeSet.PreparedShape | src/beast/evolution/likelihood/TreeSetLikelihood.java:46-74 | an empty set throws the message naming the file and a burn-in above the size throws; on success the burn-in is below the size, exactly that many trees were dropped from the front and every reference taxon occurs in the first kept tree |
| TreeSet.PreparedMissingTaxon | src/beast/evolution/likelihood/TreeSetLikelihood.java:66-74 | a reference taxon missing from the first kept tree throws the message naming the first such taxon |
| TreeSet.NoExtraTaxaOnlyRelabels | src/beast/evolution/likelihood/TreeSetLikelihood.java:83-100 | when the first tree has no extra taxa the kept trees are the trees after the burn-in, in order, only relabelled |
| TreeSet.PrepareTrees | src/beast/evolution/likelihood/TreeSetLikelihood.java:36-102 | the loops of initAndValidate compute the specified preparation, error cases included, and also return the list the `trees` field holds when it stops: the prepared trees on success, TreesAtFailure on failure |
| TreeSet.Prepared | src/beast/evolution/likelihood/TreeSetLikelihood.java:46-74 | a successful preparation keeps a non-empty list of exactly size − burn-in trees |
| TreeSet.TreesAtFailure | src/beast/evolution/likelihood/TreeSetLikelihood.java:45-61 | the list the field holds after a failed preparation is a suffix of the parsed list: the parsed list itself when it is empty or the burn-in exceeds it, otherwise the list with the burn-in trees removed from the front |
| TreeSet.DropFront | src/beast/evolution/likelihood/TreeSetLikelihood.java:59-61 | removing the first tree count times leaves the trees after the first count, in order |
| TreeSet.FindMissing | src/beast/evolution/likelihood/TreeSetLikelihood.java:69-74 | the taxon check finds the first reference name absent from the first tree's names, or none when all are present |
| TreeSet.CollectTabu | src/beast/evolution/likelihood/TreeSetLikelihood.java:77-82 | the loop collects exactly the extra taxa |
| TreeSet.FilterTrees | src/beast/evolution/likelihood/TreeSetLikelihood.java:86-93 | the filtering loop gives the specified pruned tree list |
| TreeSet.FilteredFromStep | src/beast/evolution/likelihood/TreeSetLikelihood.java:87-92 | pruning the next tree appends it to the pruned trees, or fails when no taxon is left |
| TreeSet.RelabelTrees | src/beast/evolution/likelihood/TreeSetLikelihood.java:98-100 | the relabelling loop relabels every tree |
| TreeSet.Evaluated | src/beast/evolution/likelihood/TreeSetLikelihood.java:165-168 | the per-tree values, one per tree in list order |
| TreeSet.Shifted | src/beast/evolution/likelihood/TreeSetLikelihood.java:176-178 | exp(x_i − max) for every per-tree value |
| TreeSet.SumOfOnes | src/beast/evolution/likelihood/TreeSetLikelihood.java:176-179 | n terms of 1 sum to n (the mean of equal shifted values) |
| TreeSet.LogMeanExpOfEqual | src/beast/evolution/likelihood/TreeSetLikelihood.java:170-182 | when every tree has the same value x (so with one tree) the reduction returns x, given exp(0) = 1 and log(1) = 0 |
| TreeSet.EvaluateInTurn | src/beast/evolution/likelihood/TreeSetLikelihood.java:160-168 | a fresh array holding each tree's likelihood in list order; the working tree is left holding the last tree |
| TreeSet.Reduce | src/beast/evolution/likelihood/TreeSetLikelihood.java:170-182 | the reduction returns max + log(mean of exp(x_i − max)) with max the largest per-tree value |
| BeastTreeSet.TreeSetLikelihood.constructor | src/beast/evolution/likelihood/TreeSetLikelihood.java:33-34 | a likelihood over the reference tree, with no trees yet |
| BeastTreeSet.TreeSetLikelihood.InitAndValidate | src/beast/evolution/likelihood/TreeSetLikelihood.java:36-102 | succeeds iff the preparation succeeds and then keeps the prepared, non-empty tree set; otherwise fails with the preparation's message, and the tree field holds the parsed list as left by the failure (TreesAtFailure: trimmed of its burn-in once that was checked) |
| BeastTreeSet.TreeSetLikelihood.CalculateLogP | src/beast/evolution/likelihood/TreeSetLikelihood.java:158-183 | the result and stored logP are max + log-mean-exp of the trees' likelihoods in list order; the working tree is left holding the last tree |
| BeastTreeSet.IndexedTreeSetLikelihood.constructor | src/beast/evolution/likelihood/IndexedTreeSetLikelihood.java:15-16 | a likelihood with the given index parameter and no trees yet |
| BeastTreeSet.IndexedTreeSetLikelihood.InitAndValidate | src/beast/evolution/likelihood/IndexedTreeSetLikelihood.java:18-24 | the tree set as for the whole-set likelihood; on success prevTree is −1 and the index's upper bound is the tree count; on failure the trees are as for the whole-set likelihood and the index bound and prevTree are unchanged |
| BeastTreeSet.IndexedTreeSetLikelihood.CalculateLogP | src/beast/evolution/likelihood/IndexedTreeSetLikelihood.java:26-37 | an index < 0 or ≥ the tree count returns −∞ with the working tree untouched; otherwise the working tree becomes trees[index] and the result is its likelihood; the stored logP equals the result on both paths |
| BeastTreeSet.IndexedPicksSetValue | src/beast/evolution/likelihood/IndexedTreeSetLikelihood.java:34-36 | the indexed value is that tree's entry of the whole-set evaluation, and for a one-tree set the two likelihoods coincide |
| TsaTreeSet.SumAgreesWithMeanForOneTree | src/tsa/TreeSetLikelihood.java:51-59 | with one tree the summed likelihood equals the averaged one and that tree's value |
| TsaTreeSet.EvaluatedSplit | src/tsa/TreeSetLikelihood.java:54-57 | the summed likelihood of a set is the sum over any split of it |
| TsaTreeSet.TreeSetLikelihood.constructor | src/tsa/TreeSetLikelihood.java:27-28 | a likelihood with no trees yet |
| TsaTreeSet.TreeSetLikelihood.InitAndValidate | src/tsa/TreeSetLikelihood.java:27-47 | every parsed tree is kept (no burn-in, no filtering) and the working tree is a copy of tree 0; the tree field holds the parsed list in every case, since it is assigned before tree 0 is read, and an empty list fails with IndexOutOfBoundsException leaving the working tree unchanged |
| TsaTreeSet.TreeSetLikelihood.CalculateLogP | src/tsa/TreeSetLikelihood.java:50-59 | the result and logP are the plain sum of the trees' likelihoods in list order, and the working tree holds the last tree afterwards |
| TsaTreeSet.IndexedTreeSetLikelihood.constructor | src/tsa/evolution/likelihood/IndexedTreeSetLikelihood.java:15-16 | a likelihood with the given index parameter and bounds and no trees yet |
| TsaTreeSet.IndexedTreeSetLikelihood.InitAndValidate | src/tsa/evolution/likelihood/IndexedTreeSetLikelihood.java:18-25 | on success prevTree is −1 and the index bounds become 0 and the tree count; an empty list fails with IndexOutOfBoundsException, the tree field holding the (empty) parsed list and the bounds, prevTree and working tree unchanged |
| TsaTreeSet.IndexedTreeSetLikelihood.CalculateLogP | src/tsa/evolution/likelihood/IndexedTreeSetLikelihood.java:27-41 | an out-of-range index returns −∞ and assigns no tree; an in-range index assigns trees[index], marks it entirely dirty and returns its likelihood; the stored logP equals the result |
| TreeFromSet.IndexedTreeFromSet.constructor | src/tsa/evolution/tree/IndexedTreeFromSet.java:27 | a tree with the given content and index and no tree set yet |
| TreeFromSet.IndexedTreeFromSet.InitAndValidate | src/tsa/evolution/tree/IndexedTreeFromSet.java:29-96 | a failed preparation (no trees, burn-in over 100%, missing taxon, empty pruned tree) is reported unchanged, with the tree field holding the parsed list as left by the failure (TreesAtFailure) and the tree unchanged; otherwise the prepared set is kept and the tree becomes trees[index], or an index error for an index outside the set |
| TreeFromSet.IndexedTreeFromSet.AssignIndexed | src/tsa/evolution/tree/IndexedTreeFromSet.java:93 | the indexed tree becomes the content; an index outside the set is an error that leaves the content alone |
| TreeFromSet.IndexedTreeFromSet.Store | src/tsa/evolution/tree/IndexedTreeFromSet.java:152-155 | store changes nothing |
| TreeFromSet.IndexedTreeFromSet.Restore | src/tsa/evolution/tree/IndexedTreeFromSet.java:157-160 | restore re-reads trees[index] into the content (index error when out of range) |
| TreeFromSet.IndexedTreeFromSet.RequiresRecalculation | src/tsa/evolution/tree/IndexedTreeFromSet.java:162-166 | re-reads trees[index] and then returns the base class's answer |
| TreeFromSet.RestoreAfterChange | src/tsa/evolution/tree/IndexedTreeFromSet.java:152-160 | after store, any change to the content and restore, the tree equals trees[index] again |
| ThreadedTreeSet.WorkerOf | src/beast/evolution/likelihood/ThreadedTreeSetLikelihood.java:90-98 | the worker a tree index belongs to is always one of the workers |
| ThreadedTreeSet.BoundariesMonotone | src/beast/evolution/likelihood/ThreadedTreeSetLikelihood.java:90-98 | the boundaries start at 0, end at n and never decrease |
| ThreadedTreeSet.WorkerRange | src/beast/evolution/likelihood/ThreadedTreeSetLikelihood.java:85-98 | tree i lies in worker k's range [boundaries[k], boundaries[k+1]) iff k is its worker: every tree is in exactly one range |
| ThreadedTreeSet.RangeSizes | src/beast/evolution/likelihood/ThreadedTreeSetLikelihood.java:92-96 | every range but the last holds ⌊n/threadCount⌋ trees; the last also holds the remainder (so with more workers than trees, only the last is non-empty) |
| ThreadedTreeSet.ThreadedTreeSetLikelihood.constructor | src/beast/evolution/likelihood/ThreadedTreeSetLikelihood.java:50-57 | a likelihood over the tree of its tree likelihood, with no trees yet |
| ThreadedTreeSet.ThreadedTreeSetLikelihood.InitAndValidate | src/beast/evolution/likelihood/ThreadedTreeSetLikelihood.java:50-88 | fails exactly as the sequential preparation (burn-in, reconciliation) fails, the tree field then holding the parsed list as left by the failure (TreesAtFailure) and the per-tree array and boundaries unchanged; otherwise keeps the prepared trees, a zeroed per-tree array of their count and the boundaries of every worker |
| ThreadedTreeSet.ThreadedTreeSetLikelihood.CalcBoundaryPoints | src/beast/evolution/likelihood/ThreadedTreeSetLikelihood.java:90-98 | a fresh array of threadCount+1 entries, entry k = k·⌊n/threadCount⌋ for k < threadCount and n at the end |
| ThreadedTreeSet.ThreadedTreeSetLikelihood.Call | src/beast/evolution/likelihood/ThreadedTreeSetLikelihood.java:188-201 | a worker writes treeLogP[i] = likelihood of tree i for i in [start, end) and no other entry |
| ThreadedTreeSet.ThreadedTreeSetLikelihood.CalculateLogP | src/beast/evolution/likelihood/ThreadedTreeSetLikelihood.java:101-125 | for every order in which the workers run, the per-tree array holds every tree's likelihood and the result and stored logP are max + log-mean-exp of them, the value of the sequential class |
| ThreadedTreeSet.ThreadedTreeSetLikelihood.RunWorkers | src/beast/evolution/likelihood/ThreadedTreeSetLikelihood.java:103-109 | running each worker at least once, in any order, leaves every tree's likelihood at its index |
| Compound.Column | src/correlatedtrait/evolution/alignment/CompoundAlignment.java:53 | a site's column is the pattern its pattern index names, one value per taxon, and is one of the stored patterns |
| Compound.GuessedSizeIsLeastBound | src/correlatedtrait/evolution/alignment/CompoundAlignment.java:52-57 | the guessed size is never negative, exceeds every value of the site, and is 0 or one more than a value that occurs: 1 + the largest value |
| Compound.GuessSizes | src/correlatedtrait/evolution/alignment/CompoundAlignment.java:49-60 | a fresh array with one entry per site, each the guessed size of that site's column |
| Compound.ColumnSize | src/correlatedtrait/evolution/alignment/CompoundAlignment.java:52-57 | the inner loop over one site's pattern computes the guessed size of that column |
| Compound.Decode | src/correlatedtrait/evolution/alignment/CompoundAlignment.java:98-103 | reading a code back gives one digit per site (the inverse used by DecodeEncode) |
| Compound.EncodeBound | src/correlatedtrait/evolution/alignment/CompoundAlignment.java:98-103 | when every value is below its site size, the Horner code lies in [0, product of sizes) |
| Compound.DecodeEncode | src/correlatedtrait/evolution/alignment/CompoundAlignment.java:98-103 | decoding the Horner code of a digit tuple returns the tuple |
| Compound.EncodeInjective | src/correlatedtrait/evolution/alignment/CompoundAlignment.java:98-103 | distinct digit tuples get distinct compound codes |
| Compound.ChosenSizes | src/correlatedtrait/evolution/alignment/CompoundAlignment.java:66-83 | a compound user type keeps its sizes; the default nucleotide type gets the guessed size of every site; any other type throws the data-type message |
| Compound.GuessedSizesHoldDigits | src/correlatedtrait/evolution/alignment/CompoundAlignment.java:70-103 | with guessed sizes, every taxon's row (values read through the pattern index) of non-negative values is a digit tuple, so its code is in range and decodes back |
| Compound.GuessedCodesRecoverRows | src/correlatedtrait/evolution/alignment/CompoundAlignment.java:49-103 | with guessed sizes and non-negative values, decoding a taxon's code gives back its row, site by site |
| Compound.Encode | src/correlatedtrait/evolution/alignment/CompoundAlignment.java:98-101 | a row of zeros has code 0 (the fold starts from 0); DecodeEncode, EncodeInjective and EncodeBound state its meaning |
| Compound.CompoundAlignment.constructor | src/correlatedtrait/evolution/alignment/CompoundAlignment.java:45-47 | an empty alignment: no taxa, counts or state counts |
| Compound.CompoundAlignment.InitAndValidate | src/correlatedtrait/evolution/alignment/CompoundAlignment.java:62-121 | succeeds iff the data type is accepted, there is a taxon, the sizes cover the sites and no site weights are given; then every taxon holds the single Horner code of its row, the values read through the site's pattern index (first site most significant) and the product of the sizes as its state count. Failures carry Java's exceptions in Java's order: the data-type message, ArrayIndexOutOfBoundsException for sizes shorter than the sites, IndexOutOfBoundsException for no taxon, then the site-weights message |
| Compound.CompoundAlignment.EncodeRows | src/correlatedtrait/evolution/alignment/CompoundAlignment.java:98-103 | the nested encoding loops, reading each site through its pattern index, give each taxon the Horner fold acc·size + value over its row |
| Compound.CompoundAlignment.EncodeRowsAsWritten | src/correlatedtrait/evolution/alignment/CompoundAlignment.java:98-103 | the loops as written, which read pattern number site instead of the site's pattern, compute EncodeAsWritten |
| Compound.EncodeAsWritten | src/correlatedtrait/evolution/alignment/CompoundAlignment.java:98-103 | the as-written fold throws ArrayIndexOutOfBoundsException exactly when there is a taxon and the sizes or the stored patterns are fewer than the sites; otherwise one code per taxon |
| Compound.AsWrittenAgreesOnOwnPatterns | src/correlatedtrait/evolution/alignment/CompoundAlignment.java:98-103 | when every site is stored as its own pattern (pattern index = site), the as-written loops give the intended codes |
| Compound.AsWrittenRepeatedSite | src/correlatedtrait/evolution/alignment/CompoundAlignment.java:98-103 | two taxa and two identical sites stored as one pattern: the as-written loops throw, while the rows have codes 3 and 0 |
| Compound.AsWrittenSwapsCodes | src/correlatedtrait/evolution/alignment/CompoundAlignment.java:98-103 | two sites whose patterns are stored in swapped order: the as-written loops succeed with the two taxa's codes exchanged |
| DPlaceAlignment.SplitFields | src/beast/evolution/alignment/AlignmentFromTraitForDPLace.java:165-188 | fails, with the index-out-of-bounds error, exactly when the line ends inside an unclosed quote; otherwise returns the fields cut at the commas and tabs outside quotes |
| DPlaceAlignment.ReadQuoted | src/beast/evolution/alignment/AlignmentFromTraitForDPLace.java:174-180 | from the opening quote, copies up to and including the closing quote, ending on it with the quotes balanced; reports running off the end exactly when the quote is not closed |
| DPlaceAlignment.ScanQuoted | src/beast/evolution/alignment/AlignmentFromTraitForDPLace.java:175-179 | copies characters inside the quotes until the next quote or the end of the line, keeping the fields read so far |
| DPlaceAlignment.Fields | src/beast/evolution/alignment/AlignmentFromTraitForDPLace.java:165-188 | there is always at least one field |
| DPlaceAlignment.FieldsShape | src/beast/evolution/alignment/AlignmentFromTraitForDPLace.java:165-188 | there is one more field than there are separators outside quotes, and the fields put back together are the line without exactly those separators, quoted text and its quote marks kept in place |
| DPlaceAlignment.FieldsCount | src/beast/evolution/alignment/AlignmentFromTraitForDPLace.java:171-186 | each separator outside quotes starts one more field |
| DPlaceAlignment.FieldsConcat | src/beast/evolution/alignment/AlignmentFromTraitForDPLace.java:168-186 | the fields concatenated are the line minus its separators outside quotes |
| DPlaceAlignment.ExtendLastField | src/beast/evolution/alignment/AlignmentFromTraitForDPLace.java:180-183 | a character that is not a separator outside quotes is appended to the current field |
| DPlaceAlignment.PrefixStep | src/beast/evolution/alignment/AlignmentFromTraitForDPLace.java:169-185 | one more character toggles the quote state on a quote and either starts a field or extends the last one |
| DPlaceAlignment.CodeSet | src/beast/evolution/alignment/AlignmentFromTraitForDPLace.java:32-43 | the loop collects exactly the codes of the input: a code is in the set exactly when it is a trimmed item of the input split at commas |
| DPlaceAlignment.DefaultCodes | src/beast/evolution/alignment/AlignmentFromTraitForDPLace.java:20-21 | the default input "1" gives exactly the code "1" |
| DPlaceAlignment.FindColumns | src/beast/evolution/alignment/AlignmentFromTraitForDPLace.java:54-67 | the loop finds the header's columns as ColumnsOf gives them: col1 is the first column starting "Code", col2 the last such column after it, iso the last column matching "ISO.code", and each is −1 exactly when there is no such column |
| DPlaceAlignment.ColumnsOfMeaning | src/beast/evolution/alignment/AlignmentFromTraitForDPLace.java:54-67 | the columns ColumnsOf gives are the first "Code" column, the last "Code" column after it and the last "ISO.code" column, each −1 exactly when there is none |
| DPlaceAlignment.ColumnsOf | src/beast/evolution/alignment/AlignmentFromTraitForDPLace.java:54-67 | each column found lies inside the header, and a second feature column lies after the first |
| DPlaceAlignment.Classify | src/beast/evolution/alignment/AlignmentFromTraitForDPLace.java:78-96 | 15 exactly when either value is "NA"; otherwise a number in 0..3 whose high bit says the first value is a code of the first feature and whose low bit says the second is a code of the second |
| DPlaceAlignment.ReadRowsLoop | src/beast/evolution/alignment/AlignmentFromTraitForDPLace.java:72-98 | the map after all rows is that of applying each row in order; the first bad row ends the reading with its error, and the map then stands as the rows before it left it |
| DPlaceAlignment.Partial | src/beast/evolution/alignment/AlignmentFromTraitForDPLace.java:72-98 | the map the rows leave behind is the map after all rows whenever every row succeeds |
| DPlaceAlignment.ReadOneRow | src/beast/evolution/alignment/AlignmentFromTraitForDPLace.java:73-97 | one row: an unclosed quote or a missing column is an error, and an ISO code of at least three characters gets the row's class |
| DPlaceAlignment.ReadRowsStep | src/beast/evolution/alignment/AlignmentFromTraitForDPLace.java:72-98 | the map after one more row is the current map with that row applied |
| DPlaceAlignment.ReadRowsErrorSticks | src/beast/evolution/alignment/AlignmentFromTraitForDPLace.java:72-98 | once a row fails, the result is that error and the map is the one the failing row found, whatever rows follow |
| DPlaceAlignment.LastRowWins | src/beast/evolution/alignment/AlignmentFromTraitForDPLace.java:78-97 | an ISO code ends with the class of the last row naming it |
| DPlaceAlignment.FileData | src/beast/evolution/alignment/AlignmentFromTraitForDPLace.java:46-107 | a successful read maps every tabu code to 15 |
| DPlaceAlignment.FileDataLastRow | src/beast/evolution/alignment/AlignmentFromTraitForDPLace.java:72-107 | in a successful read, a non-tabu ISO code ends with the class of the last row naming it |
| DPlaceAlignment.ForceTabu | src/beast/evolution/alignment/AlignmentFromTraitForDPLace.java:105-107 | the keys are the old ones plus the tabu codes, each tabu code maps to 15 and every other key keeps its value |
| DPlaceAlignment.MakeTabu | src/beast/evolution/alignment/AlignmentFromTraitForDPLace.java:105-107 | the loop gives exactly that map |
| DPlaceAlignment.ForceTabuStep | src/beast/evolution/alignment/AlignmentFromTraitForDPLace.java:105-107 | one more tabu code is one more update to 15 |
| DPlaceAlignment.IsTabu | src/beast/evolution/alignment/AlignmentFromTraitForDPLace.java:191-198 | true exactly when the name is one of the tabu codes |
| DPlaceAlignment.NonTabu | src/beast/evolution/alignment/AlignmentFromTraitForDPLace.java:133-145 | the taxa kept are names from the list, none of them tabu, and no more than the list |
| DPlaceAlignment.NonTabuMissing | src/beast/evolution/alignment/AlignmentFromTraitForDPLace.java:133-139 | a non-tabu name is among the kept taxa |
| DPlaceAlignment.RemoveFirst | src/beast/evolution/alignment/AlignmentFromTraitForDPLace.java:149-154 | without the code the list is unchanged; with it, exactly one occurrence is removed |
| DPlaceAlignment.RemoveAllKeepsOthers | src/beast/evolution/alignment/AlignmentFromTraitForDPLace.java:148-155 | removing the tabu taxa keeps every other ID as often as before and removes at most one taxon per tabu code |
| DPlaceAlignment.RemoveTabuTaxa | src/beast/evolution/alignment/AlignmentFromTraitForDPLace.java:147-155 | the loop removes, per tabu code in order, the first taxon with that ID |
| DPlaceAlignment.RemoveAt | src/beast/evolution/alignment/AlignmentFromTraitForDPLace.java:149-153 | removing at the first position holding the ID is removing its first occurrence |
| DPlaceAlignment.FirstUnvalued | src/beast/evolution/alignment/AlignmentFromTraitForDPLace.java:133-138 | the least index of a non-tabu taxon without a value: every earlier taxon is tabu or has one; none exactly when every taxon is tabu or has one |
| DPlaceAlignment.FirstUnvaluedMeaning | src/beast/evolution/alignment/AlignmentFromTraitForDPLace.java:133-138 | there is no such index exactly when every kept (non-tabu) taxon has a value |
| DPlaceAlignment.BuildCounts | src/beast/evolution/alignment/AlignmentFromTraitForDPLace.java:132-145 | stops at the first non-tabu taxon without a value (FirstUnvalued) and returns its index; the lists returned hold, in order, the value as the one site and the data type's state count of every kept taxon before that point, or of all kept taxa when there is none |
| DPlaceAlignment.AlignmentFromTraitForDPLace.InitAndValidate | src/beast/evolution/alignment/AlignmentFromTraitForDPLace.java:26-162 | a failed file read (null line, unclosed header quote, missing columns, bad row) is its error with the rows before a bad row recorded; otherwise the map is exactly the file's, and then: no trait set succeeds with nothing more; no data type is the "expected user data type to be set" error; blank traits give a one-entry pattern index; with traits it succeeds exactly when every non-tabu taxon has a value, each kept taxon gets its value as its one site and the tabu taxa are removed, and otherwise fails naming the first non-tabu taxon index without a value, with the sequences built before it kept; every tabu code maps to 15 |
| DPlaceAlignment.AlignmentFromTraitForDPLace.ReadFile | src/beast/evolution/alignment/AlignmentFromTraitForDPLace.java:32-107 | succeeds exactly when FileData does, with the map FileData gives: fewer than two lines is a null-pointer error, an unclosed quote in the header an index error, a header without both feature columns and the ISO column the D-PLACE message, a bad row its error; on failure the map keeps the rows before a bad row |
| DPlaceAlignment.AlignmentFromTraitForDPLace.SetupTaxa | src/beast/evolution/alignment/AlignmentFromTraitForDPLace.java:112-161 | without a trait set nothing more happens; without a user data type it is an error; blank traits give a one-entry pattern index; otherwise it succeeds iff every non-tabu taxon has a value, in which case the sequences and state counts are set and the taxon names lose the tabu taxa, and fails with "Trait not specified for " and the first such index, the kept taxa before it holding their sequences |
| DPlaceAlignment.AlignmentFromTraitForDPLace.KeepTaxa | src/beast/evolution/alignment/AlignmentFromTraitForDPLace.java:132-158 | succeeds exactly when every non-tabu taxon has a value, then sets the sequences and removes the tabu taxa; otherwise throws "Trait not specified for " with the index of the first non-tabu taxon without a value, leaving the sequences and state counts of the kept taxa before it and the taxon set untouched |
| DPlaceAlignment.AlignmentFromTraitForDPLace.constructor | src/beast/evolution/alignment/AlignmentFromTraitForDPLace.java:23 | the map starts empty |
| DPlaceConverter.Label | src/beast/evolution/alignment/DPlaceCSVtoXML.java:105-160 | "??" exactly for a missing feature; otherwise one of "00", "01", "10", "11" whose first character is 1 iff the first value is a code of the first feature and whose second is 1 iff the second value is a code of the second |
| DPlaceConverter.Step | src/beast/evolution/alignment/DPlaceCSVtoXML.java:104-163 | one row keeps every label known and every tally entry present (a missing feature makes the language unknown and leaves the tally; a first sighting is recorded and counted; a disagreeing sighting makes it unknown and takes one off its old label's tally, "??" included) |
| DPlaceConverter.StepInPlace | src/beast/evolution/alignment/DPlaceCSVtoXML.java:104-163 | the branches on the two maps compute exactly that row step |
| DPlaceConverter.StepKeepsBalance | src/beast/evolution/alignment/DPlaceCSVtoXML.java:104-158 | as long as a missing feature does not overwrite a classified language, each class's tally stays the number of languages holding it |
| DPlaceConverter.TallyRowsBalanced | src/beast/evolution/alignment/DPlaceCSVtoXML.java:98-164 | over rows without a missing feature, each class's tally ends as the number of languages labelled with it |
| DPlaceConverter.MissingAfterSightingOvercounts | src/beast/evolution/alignment/DPlaceCSVtoXML.java:159-161 | a language first seen as "11" and then with a missing feature is no longer labelled "11" but still counted under "11" |
| DPlaceConverter.CountRemove | src/beast/evolution/alignment/DPlaceCSVtoXML.java:109-116 | taking a language out of the labels takes it out of the set of its label |
| DPlaceConverter.CountUpdate | src/beast/evolution/alignment/DPlaceCSVtoXML.java:109-116 | relabelling a language moves it from its old label's set to the new one's |
| DPlaceConverter.TallyRow | src/beast/evolution/alignment/DPlaceCSVtoXML.java:99-163 | one row keeps the tally well kept and only adds labels; a row too short for a column it reads throws StringIndexOutOfBoundsException or ArrayIndexOutOfBoundsException |
| DPlaceConverter.TallyRows | src/beast/evolution/alignment/DPlaceCSVtoXML.java:98-164 | the tally after the rows keeps every label known and every tally entry present |
| DPlaceConverter.ReadTally | src/beast/evolution/alignment/DPlaceCSVtoXML.java:98-164 | the loop gives the tally of the rows in order; the first bad row ends it with its error, and the tally then stands as the rows before it left it |
| DPlaceConverter.TallyPartial | src/beast/evolution/alignment/DPlaceCSVtoXML.java:98-164 | the tally the rows leave behind is the tally after all rows whenever every row succeeds |
| DPlaceConverter.ReadRow | src/beast/evolution/alignment/DPlaceCSVtoXML.java:99-163 | one row: an unclosed quote or a missing column is an error; an ISO code of at least three characters takes the row's label |
| DPlaceConverter.TallyRowsStep | src/beast/evolution/alignment/DPlaceCSVtoXML.java:98-164 | the tally after one more row is the current tally with that row applied |
| DPlaceConverter.TallyErrorSticks | src/beast/evolution/alignment/DPlaceCSVtoXML.java:98-164 | once a row fails, the result is that error and the tally is the one the failing row found, whatever rows follow |
| DPlaceConverter.TallyFile | src/beast/evolution/alignment/DPlaceCSVtoXML.java:69-164 | a successful read needs at least two lines and leaves a well-kept tally; failures are NullPointerException, StringIndexOutOfBoundsException, the missing-columns message or ArrayIndexOutOfBoundsException |
| DPlaceConverter.TallyOnFailure | src/beast/evolution/alignment/DPlaceCSVtoXML.java:98-164 | when reading succeeds the tally Java holds is the read tally |
| DPlaceConverter.ReadInput | src/beast/evolution/alignment/DPlaceCSVtoXML.java:54-169 | the result is TallyFile's: fewer than two lines is a null-pointer error, an unclosed header quote an index error, missing columns the D-PLACE message, a bad row its error; otherwise the tally of the rows and the headings of the two feature columns; on failure the tally reached is returned too |
| DPlaceConverter.ForceUnknown | src/beast/evolution/alignment/DPlaceCSVtoXML.java:171-173 | the keys are the old ones plus the tabu codes, each tabu code is "??" and every other key keeps its label |
| DPlaceConverter.MakeUnknown | src/beast/evolution/alignment/DPlaceCSVtoXML.java:171-173 | the loop gives exactly that map |
| DPlaceConverter.ForceUnknownStep | src/beast/evolution/alignment/DPlaceCSVtoXML.java:171-173 | one more tabu code is one more update to "??" |
| DPlaceConverter.SequenceLines | src/beast/evolution/alignment/DPlaceCSVtoXML.java:182-187 | one sequence line per listed ISO code, in order, holding its label or "??" |
| DPlaceConverter.TaxaLinesExact | src/beast/evolution/alignment/DPlaceCSVtoXML.java:182-190 | a language has a taxon line exactly when it is listed and its label is known |
| DPlaceConverter.TaxonLineInjective | src/beast/evolution/alignment/DPlaceCSVtoXML.java:189 | distinct languages give distinct taxon lines |
| DPlaceConverter.TabuNeverListed | src/beast/evolution/alignment/DPlaceCSVtoXML.java:171-190 | no tabu language is ever among the taxa with data |
| DPlaceConverter.BuildOutput | src/beast/evolution/alignment/DPlaceCSVtoXML.java:181-191 | the loop gives exactly the sequence lines and taxon lines over the list |
| DPlaceConverter.DPlaceCSVtoXML.Run | src/beast/evolution/alignment/DPlaceCSVtoXML.java:42-191 | the tally starts from zero; a failed read is its error, with the maps as the rows before a bad row left them; otherwise the tally is exactly that of the rows, the labels are those of the rows with the tabu languages unknown, the alignment is the comment naming the two feature headings and codes followed by one sequence line per listed ISO code, and the taxa with data are the taxon lines of the listed languages with a known label |
| DPlaceConverter.DPlaceCSVtoXML.constructor | src/beast/evolution/alignment/DPlaceCSVtoXML.java:36-39 | the maps start empty and the ISO list is the one given |
| ModelSelector.IndicesGrouping | src/tsa/TSAModelSelector.java:121-141 | in model i two of the eight rates share a group id exactly when they are the same rate or form one of the pairs (0,5), (1,3), (2,7), (4,6) whose bit 3, 2, 1, 0 of i is 0 |
| ModelSelector.DistinctIds | src/tsa/TSAModelSelector.java:121-141 | model i has 4 + popcount(i) distinct rate groups, from 4 for model 0 to 8 for model 15 |
| ModelSelector.TableChecks | src/tsa/TSAModelSelector.java:121-141 | each of the sixteen rows agrees with the pair rule on every pair of rates and has 4 + popcount(i) groups |
| ModelSelector.PartnerIsPairRule | src/tsa/TSAModelSelector.java:121-141 | the partner function picks out exactly the pair rule |
| ModelSelector.PartnerSymmetric | src/tsa/TSAModelSelector.java:121-141 | partners come in pairs |
| ModelSelector.Other | src/tsa/TSAModelSelector.java:121-141 | the other rate of a pair is a different rate of the same pair |
| ModelSelector.PairBit | src/tsa/TSAModelSelector.java:121-141 | every rate belongs to the pair of one of the four bits |
| ModelSelector.CheckPairsSound | src/tsa/TSAModelSelector.java:121-141 | a row passing the pair check from q0 agrees with the pair rule at every q from q0 on |
| ModelSelector.CheckFromSound | src/tsa/TSAModelSelector.java:121-141 | a row passing the check from p0 agrees with the pair rule on every later pair |
| ModelSelector.NewIdsCount | src/tsa/TSAModelSelector.java:121-141 | counting first occurrences counts the distinct ids |
| ModelSelector.IsOn | src/tsa/TSAModelSelector.java:215-221 | a 0/1 table of sixteen entries; a rate other than 1 to 4 keeps the all-zero table |
| ModelSelector.IsOnIsBit | src/tsa/TSAModelSelector.java:215-221 | for rates 1, 2, 3, 4 the table marks exactly the models whose bit 3, 2, 1, 0 is set |
| ModelSelector.CheckOnSound | src/tsa/TSAModelSelector.java:216-221 | a row passing the bit check from j0 equals the bit at every later model |
| ModelSelector.Odds | src/tsa/TSAModelSelector.java:210-232 | p0 and p1 are the percentages of the weight exp(ml − max ml) on the models where the rate is tied and where it is separate; they are non-negative and add up to 100 |
| ModelSelector.MaxOf16 | src/tsa/TSAModelSelector.java:211-214 | the loop finds the largest marginal likelihood |
| ModelSelector.Weights | src/tsa/TSAModelSelector.java:222-225 | the loop sums the weights of the models on each side |
| ModelSelector.WeightPositive | src/tsa/TSAModelSelector.java:222-226 | with a positive exp both weights are non-negative and their total is positive, so the division is defined |
| ModelSelector.Percentages | src/tsa/TSAModelSelector.java:226-228 | dividing by a hundredth of the total gives percentages that add up to 100 |
| ModelSelector.BinaryLabel | src/tsa/TSAModelSelector.java:188-273 | the label of model i has four binary digits, denotes i, and digit k is bit 3 − k of i |
| ModelSelector.BinaryString | src/tsa/TSAModelSelector.java:188-270 | toBinaryString gives at least one binary digit |
| ModelSelector.BinaryStringValue | src/tsa/TSAModelSelector.java:188-270 | toBinaryString denotes its argument, in at most k digits below 2^k |
| ModelSelector.LeadingZero | src/tsa/TSAModelSelector.java:189-273 | padding with a zero keeps the value |
| ModelSelector.LabelBits | src/tsa/TSAModelSelector.java:188-192 | in a four-digit label digit k is bit 3 − k of its value |
| ModelSelector.NibbleBits | src/tsa/TSAModelSelector.java:188-192 | the four bits of 8a + 4b + 2c + d are d, c, b, a |
| ModelSelector.Thresholds | src/tsa/TSAModelSelector.java:734-737 | a successful reading lists only values in [0, 100); a failure is NumberFormatException or ArrayIndexOutOfBoundsException |
| ModelSelector.ToBoolean | src/tsa/TSAModelSelector.java:731-739 | succeeds exactly when every comma-separated piece, with white space removed, is an integer in 0..99, and then slot v is set iff v is listed; otherwise the first bad piece decides the number-format or index exception |
| ModelSelector.ThresholdsMeaning | src/tsa/TSAModelSelector.java:731-739 | reading the pieces succeeds iff every piece is an integer in 0..99, yields exactly the listed values, and otherwise fails on the first bad piece with the matching exception |
| ModelSelector.ThresholdsOk | src/tsa/TSAModelSelector.java:735-737 | the reading succeeds iff every piece is valid |
| ModelSelector.ThresholdsValues | src/tsa/TSAModelSelector.java:735-737 | a successful reading yields exactly the listed values |
| ModelSelector.ThresholdsFirstBad | src/tsa/TSAModelSelector.java:735-737 | a failed reading fails on the first invalid piece with its exception |
| ModelSelector.ThresholdsPrefixErr | src/tsa/TSAModelSelector.java:735-737 | once a prefix fails, the whole reading fails the same way |
| ModelSelector.ThresholdTable | src/tsa/TSAModelSelector.java:731-739 | a successful table has 100 slots |
| ModelSelector.Normalise | src/tsa/TSAModelSelector.java:741-755 | "?" exactly for "NA" or text that is not an integer; an integer outside 0..99 throws the index exception, because only the number-format exception is caught; "1" exactly when it is a valid integer whose slot is set; otherwise "0" |
| ModelSelector.NormaliseListed | src/tsa/TSAModelSelector.java:731-755 | with the table read from a threshold list, a value normalises to "1" exactly when it is an integer that is listed |
| ModelSelector.FirstQuote | src/tsa/TSAModelSelector.java:669 | the first double quote, with none before it, or none at all |
| ModelSelector.RemoveQuoted | src/tsa/TSAModelSelector.java:669 | removing quoted sections never lengthens the line |
| ModelSelector.PlainKept | src/tsa/TSAModelSelector.java:669 | text without quotes is kept as it is |
| ModelSelector.QuotedRemoved | src/tsa/TSAModelSelector.java:669 | a quote, at least one other character and a closing quote are removed together |
| ModelSelector.FirstQuoteAfterPlain | src/tsa/TSAModelSelector.java:669 | the first quote after plain text is where that text ends |
| ModelSelector.ColumnsPrefix | src/tsa/TSAModelSelector.java:623-643 | counting columns over a prefix of the header never exceeds counting over the whole |
| ModelSelector.SelectorColumnsOf | src/tsa/TSAModelSelector.java:617-655 | found columns are non-negative indices; FindSelectorColumns states which column counts give which outcome |
| ModelSelector.FindSelectorColumns | src/tsa/TSAModelSelector.java:617-655 | the loop gives SelectorColumnsOf's outcome: it succeeds exactly when the header has one column named by the code input and two "Code: " columns, and then names them in order; a second code column or a third feature column throws as soon as it is met, whichever comes first; a missing code column, no feature column or only one throw after the scan, in that order |
| ModelSelector.ScanErrorSticks | src/tsa/TSAModelSelector.java:622-640 | once the header scan throws, the outcome is that exception whatever columns follow |
| ModelSelector.RowCode | src/tsa/TSAModelSelector.java:678-682 | "??" exactly when either value is missing; otherwise the two normalised digits |
| ModelSelector.MergeToggles | src/tsa/TSAModelSelector.java:683-691 | because a stored entry carries the raw values after the code, the code never equals it: a taxon holding "??" takes the row and a taxon holding a row becomes "??", whether the codes agree or not |
| ModelSelector.RepeatedRowsToggle | src/tsa/TSAModelSelector.java:683-691 | two rows with the same code leave a taxon at "??" and a third brings the code back |
| ModelSelector.RowUpdate | src/tsa/TSAModelSelector.java:666-695 | an updated map has the same taxa as before, and every taxon other than the row's keeps its entry |
| ModelSelector.RowUpdateKeeps | src/tsa/TSAModelSelector.java:666-695 | a row changes at most the entry of the taxon in its code column, never the set of taxa, keeps entries well formed, and changes nothing for a code that is not a tree taxon |
| ModelSelector.RowsUpdateKeeps | src/tsa/TSAModelSelector.java:666-695 | reading all rows keeps the tree taxa and keeps every entry "??" or a code with its raw values |
| ModelSelector.ReadSelectorRows | src/tsa/TSAModelSelector.java:666-695 | the loop applies the rows in order; the first row that throws ends it with its exception |
| ModelSelector.RowsUpdateStep | src/tsa/TSAModelSelector.java:666-695 | reading one more row applies it to the map read so far |
| ModelSelector.RowsPrefixErr | src/tsa/TSAModelSelector.java:666-695 | once a row throws, the result is that exception whatever rows follow |
| ModelSelector.StoredData | src/tsa/TSAModelSelector.java:704-705 | the first part of a stored entry is its code, or "??" |
| ModelSelector.PiecesPrefix | src/tsa/TSAModelSelector.java:704 | the first piece of a split is the text before the first separator |
| ModelSelector.OutputSequencesShape | src/tsa/TSAModelSelector.java:703-711 | with well-formed entries every taxon gets a sequence, in map order, whose data is one of "00", "01", "10", "11", "??" |
| ModelSelector.SiteSlot | src/tsa/TSAModelSelector.java:712-717 | at most one of the four slots |
| ModelSelector.NoSiteSlot | src/tsa/TSAModelSelector.java:712-717 | the switch compares the whole stored string, which always holds more than a code, so no case matches |
| ModelSelector.SiteCountsZero | src/tsa/TSAModelSelector.java:702-718 | with well-formed entries siteCount stays all zero |
| ModelSelector.WriteSequences | src/tsa/TSAModelSelector.java:698-718 | the loop gives one sequence per taxon, numbered from 0, and the siteCount tally |
| ModelSelector.OutputLength | src/tsa/TSAModelSelector.java:703-711 | one sequence per taxon |
| ModelSelector.OutputPrefixErr | src/tsa/TSAModelSelector.java:703-711 | a failed entry ends the output with its error |
| ModelSelector.Dedup | src/tsa/TSAModelSelector.java:658-661 | the keys of the LinkedHashMap: the same names as the list, each once |
| ModelSelector.Prefill | src/tsa/TSAModelSelector.java:658-661 | every tree taxon starts at "??" |
| ModelSelector.SelectorData | src/tsa/TSAModelSelector.java:610-729 | on success one sequence per distinct tree taxon, in first-seen order, each named by its taxon and holding one of the row codes |
| ModelSelector.SelectorDataOk | src/tsa/TSAModelSelector.java:610-729 | the data file is read exactly when it has a header line, the header scan succeeds, both threshold lists parse and every row is read; writing the sequences never fails |
| ModelSelector.TSAModelSelector.ProcessDataFile | src/tsa/TSAModelSelector.java:610-729 | the result is exactly SelectorData's: a file without a header line is a null-pointer error, then the header scan's exception, then the first or second threshold list's exception, then the first bad row's exception; otherwise one sequence per distinct tree taxon in first-occurrence order, with a code or "??" as data, and siteCount becomes all zero; on failure siteCount is unchanged |
| ModelSelector.TSAModelSelector.constructor | src/tsa/TSAModelSelector.java:110 | siteCount starts empty |
| CompoundTraitProvider.RowOf | src/correlatedtrait/app/beauti/BeautiCompoundTraitProvider.java:92-104 | a line gives a row exactly when it has at least three tab fields |
| CompoundTraitProvider.UsedRows | src/correlatedtrait/app/beauti/BeautiCompoundTraitProvider.java:91-108 | the rows used are at most as many as the lines |
| CompoundTraitProvider.Entries | src/correlatedtrait/app/beauti/BeautiCompoundTraitProvider.java:104 | a non-empty trait text ends in ",\n", an empty row list gives the empty text |
| CompoundTraitProvider.TaxaOf | src/correlatedtrait/app/beauti/BeautiCompoundTraitProvider.java:103 | every row's taxon is among the taxa done |
| CompoundTraitProvider.TaxaOfMember | src/correlatedtrait/app/beauti/BeautiCompoundTraitProvider.java:95-103 | a taxon among those done is the taxon of one of the rows, so the duplicate test only refuses repeats |
| CompoundTraitProvider.FirstValues | src/correlatedtrait/app/beauti/BeautiCompoundTraitProvider.java:105 | every row's first value is in the first value set |
| CompoundTraitProvider.SecondValues | src/correlatedtrait/app/beauti/BeautiCompoundTraitProvider.java:106 | every row's second value is in the second value set |
| CompoundTraitProvider.ScanMeaning | src/correlatedtrait/app/beauti/BeautiCompoundTraitProvider.java:91-108 | the line loop gets through exactly when the used rows name taxa of the tree, each once, and then holds their entries in order, their taxa and their two value sets |
| CompoundTraitProvider.AcceptedStep | src/correlatedtrait/app/beauti/BeautiCompoundTraitProvider.java:95-102 | one more row is accepted exactly when its taxon is known and not yet done |
| CompoundTraitProvider.AcceptedPrefix | src/correlatedtrait/app/beauti/BeautiCompoundTraitProvider.java:95-102 | once a row is refused, more rows do not make the file accepted |
| CompoundTraitProvider.ScanPrefixNone | src/correlatedtrait/app/beauti/BeautiCompoundTraitProvider.java:97-101 | a null return on a prefix of the lines is the result for the whole file |
| CompoundTraitProvider.ScanTraitLines | src/correlatedtrait/app/beauti/BeautiCompoundTraitProvider.java:85-108 | the line loop computes that scan, returning null at the first duplicate or unknown taxon |
| CompoundTraitProvider.Code | src/correlatedtrait/app/beauti/BeautiCompoundTraitProvider.java:124 | the state is one of 0 to 3 |
| CompoundTraitProvider.RowEntries | src/correlatedtrait/app/beauti/BeautiCompoundTraitProvider.java:122-127 | the inner loop gives one entry per second value, in order, whose state is Code(later1, position > 0) |
| CompoundTraitProvider.CodeEntriesLength | src/correlatedtrait/app/beauti/BeautiCompoundTraitProvider.java:121-129 | the nested loops write one entry per pair of values |
| CompoundTraitProvider.CodeEntryAt | src/correlatedtrait/app/beauti/BeautiCompoundTraitProvider.java:121-129 | the entry for the i-th first value and j-th second value sits at i·|values2|+j and has state 0, 1, 2 or 3 by whether i and j are past the first |
| CompoundTraitProvider.CodesCoverStates | src/correlatedtrait/app/beauti/BeautiCompoundTraitProvider.java:120-129 | with two values per trait all four states occur: 0 and 2 for the first first-value, 1 and 3 for the second |
| CompoundTraitProvider.CodeText | src/correlatedtrait/app/beauti/BeautiCompoundTraitProvider.java:125 | a non-empty code map ends in a comma, an empty one is empty |
| CompoundTraitProvider.EntryText | src/correlatedtrait/app/beauti/BeautiCompoundTraitProvider.java:125 | every code map entry ends in a comma |
| CompoundTraitProvider.CodeTextAppend | src/correlatedtrait/app/beauti/BeautiCompoundTraitProvider.java:121-129 | the text of consecutive entries is the concatenation of their texts |
| CompoundTraitProvider.CodeMapOf | src/correlatedtrait/app/beauti/BeautiCompoundTraitProvider.java:119-129 | the nested loops write the text of all entries in order |
| CompoundTraitProvider.CodeRowOf | src/correlatedtrait/app/beauti/BeautiCompoundTraitProvider.java:122-127 | the inner loop writes the text of one first value's entries |
| CompoundTraitProvider.CodeMapStep | src/correlatedtrait/app/beauti/BeautiCompoundTraitProvider.java:121-128 | one more first value appends its row's text |
| CompoundTraitProvider.RowTextStep | src/correlatedtrait/app/beauti/BeautiCompoundTraitProvider.java:123-126 | one more second value appends its entry's text |
| CompoundTraitProvider.TraitImport | src/correlatedtrait/app/beauti/BeautiCompoundTraitProvider.java:84-137 | the only exception of an import is StringIndexOutOfBoundsException (deleting the last character of an empty buffer) |
| CompoundTraitProvider.TraitImportFailures | src/correlatedtrait/app/beauti/BeautiCompoundTraitProvider.java:84-118 | processTrait throws StringIndexOutOfBoundsException exactly when the rows are accepted but none is used, and returns null exactly when a row is refused or, with rows used, either trait has fewer than two values |
| CompoundTraitProvider.CodeMapNonEmpty | src/correlatedtrait/app/beauti/BeautiCompoundTraitProvider.java:119-130 | with two values per trait the code map has |values1|·|values2| entries and is not empty, so its final delete cannot throw |
| CompoundTraitProvider.TraitImportTraitValue | src/correlatedtrait/app/beauti/BeautiCompoundTraitProvider.java:91-137 | a returned trait string, with its deleted newline put back, is the entries of the used rows, which name known taxa once each |
| CompoundTraitProvider.TraitImportCodeMap | src/correlatedtrait/app/beauti/BeautiCompoundTraitProvider.java:111-133 | a returned data type has 4 states, code length -1, and the code map of both value sets (each of at least two values) without its final comma, of |values1|·|values2| entries |
| CompoundTraitProvider.DistinctCount | src/correlatedtrait/app/beauti/BeautiCompoundTraitProvider.java:121-123 | iterating a set lists as many values as the set holds |
| CompoundTraitProvider.TraitValueEndsInComma | src/correlatedtrait/app/beauti/BeautiCompoundTraitProvider.java:104-109 | deleting only the last newline leaves a trailing comma in the trait string |
| CompoundTraitProvider.ProcessTrait | src/correlatedtrait/app/beauti/BeautiCompoundTraitProvider.java:84-147 | processTrait computes TraitImport: the null returns, the exception and the returned trait and data type |
| CompoundTraitProvider.Matches | src/correlatedtrait/app/beauti/BeautiCompoundTraitProvider.java:149-157 | 20 exactly when some output of the alignment is a CompoundTreeLikelihood, else 0 |
| Fossiliser.AncestorTrans | src/correlatedtrait/tools/TreeFossiliser.java:169-171 | ancestry along parent links is transitive |
| Fossiliser.AncestorAbove | src/correlatedtrait/tools/TreeFossiliser.java:141-155 | with heights that never decrease toward the root, an ancestor is no lower and no deeper than its descendant, and a proper ancestor is strictly shallower |
| Fossiliser.AncestorAntisymmetric | src/correlatedtrait/tools/TreeFossiliser.java:169-178 | two nodes that are each other's ancestors are the same node |
| Fossiliser.RootAbove | src/correlatedtrait/tools/TreeFossiliser.java:169-171 | the only node without a parent is an ancestor of every node, so the upward walk always ends at the root |
| Fossiliser.MrcaUnique | src/correlatedtrait/tools/TreeFossiliser.java:195-210 | two nodes that are both the most recent common ancestor of the same leaves are equal |
| Fossiliser.ClimbStep | src/correlatedtrait/tools/TreeFossiliser.java:144-155 | a node that is not an ancestor of the other has a parent, and every common ancestor of the two is also above that parent |
| Fossiliser.ClimbingSymmetric | src/correlatedtrait/tools/TreeFossiliser.java:141-191 | the climb's state does not depend on which node is called n1 |
| Fossiliser.ClimbKeeps | src/correlatedtrait/tools/TreeFossiliser.java:144-155 | moving the non-ancestor to its parent keeps both nodes above their starting leaves and below every common ancestor, and lowers the depth |
| Fossiliser.ClimbDone | src/correlatedtrait/tools/TreeFossiliser.java:141-192 | when the two climbing nodes meet, the meeting node is the most recent common ancestor of the two starting nodes |
| Fossiliser.MarksGrowTrans | src/correlatedtrait/tools/TreeFossiliser.java:133-155 | marks made by successive climb steps are never cleared |
| Fossiliser.SameHeightAncestor | src/correlatedtrait/tools/TreeFossiliser.java:156-165 | a proper ancestor at the same height as a node forces a zero-length branch above that node |
| Fossiliser.NonBlank | src/correlatedtrait/tools/TreeFossiliser.java:109-114 | the lines kept are not white space only and come from the file, so there are at most as many as lines |
| Fossiliser.CfgEntriesShape | src/correlatedtrait/tools/TreeFossiliser.java:105-129 | the configuration is read exactly when every non-blank line has a second tab field, and then entry k is read from the k-th non-blank line |
| Fossiliser.CfgLineReads | src/correlatedtrait/tools/TreeFossiliser.java:120-125 | a line written as name, tab and comma list reads back as that name and the set of the list's items |
| Fossiliser.PiecesOfTwo | src/correlatedtrait/tools/TreeFossiliser.java:120 | splitting text made of two separator-free parts joined by the separator gives those two parts |
| Fossiliser.PiecesOfNone | src/correlatedtrait/tools/TreeFossiliser.java:123 | text without the separator splits into itself alone |
| Fossiliser.ReadCfg | src/correlatedtrait/tools/TreeFossiliser.java:105-129 | the loop over the lines yields the entries of the non-blank lines in order, or the exception of the first line without a tab field |
| Fossiliser.CfgEntriesStep | src/correlatedtrait/tools/TreeFossiliser.java:118-127 | one more line adds nothing when blank, else its entry or its exception |
| Fossiliser.CfgPrefixErr | src/correlatedtrait/tools/TreeFossiliser.java:118-128 | once a line has thrown, the later lines do not change the outcome |
| Fossiliser.ReplaceChild | src/correlatedtrait/tools/TreeFossiliser.java:81-85 | the child list keeps its length and every slot holding src now holds the new node, the others unchanged |
| Fossiliser.ReplaceInChildren | src/correlatedtrait/tools/TreeFossiliser.java:81-85 | the setChild loop computes exactly that replacement |
| Fossiliser.GraftDepth | src/correlatedtrait/tools/TreeFossiliser.java:78-95 | the grafted clade moves one level down; the new node takes src's old depth and the leaf lies one below it |
| Fossiliser.GraftLinked | src/correlatedtrait/tools/TreeFossiliser.java:78-95 | the node links after the graft remain acyclic |
| Fossiliser.GraftedParent | src/correlatedtrait/tools/TreeFossiliser.java:80-95 | the graft adds exactly two nodes |
| Fossiliser.GraftedChildren | src/correlatedtrait/tools/TreeFossiliser.java:81-94 | the graft adds exactly two child lists |
| Fossiliser.GraftValid | src/correlatedtrait/tools/TreeFossiliser.java:71-96 | the graft keeps the tree well formed: one root, agreeing parent and child links, heights that never decrease upward, node numbers within the node count |
| Fossiliser.GraftRootAndHeights | src/correlatedtrait/tools/TreeFossiliser.java:76-93 | after the graft the root is still the only parentless node and heights still never decrease upward, because both new nodes take src's height |
| Fossiliser.GraftParentsListed | src/correlatedtrait/tools/TreeFossiliser.java:80-95 | after the graft every node with a parent is listed among that parent's children |
| Fossiliser.GraftChildrenPointBack | src/correlatedtrait/tools/TreeFossiliser.java:80-95 | after the graft every listed child points back to the node that lists it |
| Fossiliser.Graft | src/correlatedtrait/tools/TreeFossiliser.java:73-95 | a root src throws NullPointerException and leaves the tree unchanged; otherwise a new node at src's height replaces src among its parent's children and holds src and a new leaf carrying the taxon name at the same height, nothing else changes, and the tree stays well formed |
| Fossiliser.Leaves | src/correlatedtrait/tools/TreeFossiliser.java:196-201 | the nodes kept are exactly the external nodes whose ID is in the clade |
| Fossiliser.CollectLeaves | src/correlatedtrait/tools/TreeFossiliser.java:196-201 | the loop collects exactly those leaves, in external-node order |
| Fossiliser.TreeFossiliser.constructor | src/correlatedtrait/tools/TreeFossiliser.java:50-65 | a new fossiliser has no configuration, no marks and nseen 0 |
| Fossiliser.TreeFossiliser.ProcessCfgFile | src/correlatedtrait/tools/TreeFossiliser.java:105-129 | succeeds exactly when every non-blank line has a tab field, and then holds one name and one clade per non-blank line in file order; the marks and nseen are untouched |
| Fossiliser.TreeFossiliser.Mark | src/correlatedtrait/tools/TreeFossiliser.java:133-140 | marks a node number and raises nseen exactly when the node was not marked before |
| Fossiliser.TreeFossiliser.IsAncestorWalk | src/correlatedtrait/tools/TreeFossiliser.java:168-172 | the upward walk from n1 stops at n2 exactly when n2 is n1 or one of its ancestors |
| Fossiliser.TreeFossiliser.ClimbsFirst | src/correlatedtrait/tools/TreeFossiliser.java:142-185 | the lower node climbs; at equal heights n2 climbs when n1's branch is positive, n1 climbs when only n2's is, and with two zero-length branches n1 climbs exactly when n2 is its ancestor; the climber is never an ancestor of the other node |
| Fossiliser.TreeFossiliser.ClimbOnce | src/correlatedtrait/tools/TreeFossiliser.java:144-189 | one loop step moves exactly one node to its parent, marks it, keeps the climb's state and lowers the total depth |
| Fossiliser.TreeFossiliser.GetCommonAncestor | src/correlatedtrait/tools/TreeFossiliser.java:131-193 | the climb ends, returns the most recent common ancestor of the two nodes, marks both nodes and the result, never clears a mark, and nseen grows by the number of new marks |
| Fossiliser.TreeFossiliser.FoldCommonAncestor | src/correlatedtrait/tools/TreeFossiliser.java:204-209 | folding getCommonAncestor over the leaves from the first gives their most recent common ancestor |
| Fossiliser.TreeFossiliser.GetMRCA | src/correlatedtrait/tools/TreeFossiliser.java:195-210 | with fresh marks sized by the node count, returns the most recent common ancestor of the clade's external nodes, or IndexOutOfBoundsException when the clade names none; nseen then counts the marks of this search on top of the old value |
| Fossiliser.TreeFossiliser.FossiliseTree | src/correlatedtrait/tools/TreeFossiliser.java:71-96 | the loop succeeds exactly when every clade names an external node whose MRCA in the tree as read is not the root; otherwise the exception is that of the first clade that does not (IndexOutOfBoundsException for no node, NullPointerException for the root). On success taxon k's joining node sits on the branch above its clade's original MRCA at that node's height, its leaf carries the k-th name at the same height, and the original nodes keep their ancestry |
| Fossiliser.TreeFossiliser.GraftTaxa | src/correlatedtrait/tools/TreeFossiliser.java:71-96 | the loop either stops at the first clade that cannot be grafted, with its exception, or has made one graft per taxon above the original MRCA of each clade |
| Fossiliser.TreeFossiliser.GraftNext | src/correlatedtrait/tools/TreeFossiliser.java:72-95 | one turn either throws for a clade that cannot be grafted, which is then the first such clade, or extends the record of grafts by that clade's original MRCA |
| Fossiliser.TreeFossiliser.FossiliseOne | src/correlatedtrait/tools/TreeFossiliser.java:72-95 | the graft goes through exactly when the clade names an external node and their MRCA is not the root; it then places a new node above that MRCA holding a leaf named after the taxon, and otherwise throws IndexOutOfBoundsException or NullPointerException with the tree untouched |
| Fossiliser.TreeFossiliser.FossiliseAt | src/correlatedtrait/tools/TreeFossiliser.java:69-71 | fossilising one tree of a batch leaves the other trees untouched; it succeeds exactly when every clade can be grafted into that tree as read, which is then fossilised, and otherwise throws the exception of the first clade that cannot (IndexOutOfBoundsException for no node, NullPointerException for the root) |
| Fossiliser.TreeFossiliser.Run | src/correlatedtrait/tools/TreeFossiliser.java:50-98 | a configuration error is the result; otherwise the run succeeds exactly when every clade can be grafted into every tree as read, and then every tree is fossilised; on an exception the tree that threw could not take some clade and the exception is that of its first such clade, every tree before it is fossilised and every tree after it is untouched |
| Fossiliser.TreeFossiliser.FossiliseTrees | src/correlatedtrait/tools/TreeFossiliser.java:68-98 | the trees are fossilised in order; it succeeds exactly when every tree can take every clade, and otherwise stops at the first tree that cannot, with that tree's first-failing-clade exception, the trees before it fossilised and the trees after it untouched |
| Fossiliser.GraftAncestor | src/correlatedtrait/tools/TreeFossiliser.java:77-95 | after one graft above src the earlier nodes keep their ancestry, the new node is above exactly what src is above, and the new leaf is above no earlier node |
| Fossiliser.GraftedAboveStep | src/correlatedtrait/tools/TreeFossiliser.java:71-96 | one more graft above an original node extends the record of grafts by that node |
| Fossiliser.GraftedAboveMrca | src/correlatedtrait/tools/TreeFossiliser.java:72 | earlier grafts do not change the MRCA of original nodes |
| Fossiliser.LeavesPrefix | src/correlatedtrait/tools/TreeFossiliser.java:196-201 | IDs appended by grafts do not change which external nodes a clade names |
| Fossiliser.GraftableKept | src/correlatedtrait/tools/TreeFossiliser.java:72-83 | earlier grafts do not change whether a clade can be grafted |
| Fossiliser.ProgressGraftable | src/correlatedtrait/tools/TreeFossiliser.java:71-83 | in the loop, the next clade names the same external nodes and can be grafted exactly when it could be in the tree as read |
| Fossiliser.ProgressStep | src/correlatedtrait/tools/TreeFossiliser.java:72-95 | a graft above the next clade's MRCA advances the loop's record |
| Fossiliser.ProgressDone | src/correlatedtrait/tools/TreeFossiliser.java:71-96 | after the last graft the tree is the original one fossilised with every taxon, and every clade could be grafted |
| Fossiliser.FossilLabelsGrow | src/correlatedtrait/tools/TreeFossiliser.java:89-95 | one more graft appends a joining node and a leaf of the same height named after the taxon, extending the labelling |
| Fossiliser.AllFalse | src/correlatedtrait/tools/TreeFossiliser.java:203 | a freshly allocated mark table counts no marks |
| Fossiliser.MrcaExtend | src/correlatedtrait/tools/TreeFossiliser.java:206-208 | the MRCA of the MRCA of the first k leaves and leaf k is the MRCA of the first k+1 leaves |
| BeastFossiliser.BeastTreeFossiliser.constructor | src/beast/tools/TreeFossiliser.java:40-55 | a new fossiliser holds no configuration |
| BeastFossiliser.BeastTreeFossiliser.ProcessCfgFile | src/beast/tools/TreeFossiliser.java:95-119 | succeeds exactly when every non-blank line has a tab field, and then holds one name and one clade per non-blank line in file order |
| BeastFossiliser.GraftStep | src/beast/tools/TreeFossiliser.java:62-85 | one graft fails exactly when the search throws or finds the root; otherwise it adds two nodes, keeps the earlier IDs and heights, and gives the new leaf the taxon name at its joining node's height |
| BeastFossiliser.GraftAll | src/beast/tools/TreeFossiliser.java:61-86 | the loop over the taxa, on values: on success the tree has grown by two nodes per taxon |
| BeastFossiliser.GraftAllPrefix | src/beast/tools/TreeFossiliser.java:61-86 | the grafts only append nodes, so the earlier IDs and heights are kept |
| BeastFossiliser.GraftAllLabel | src/beast/tools/TreeFossiliser.java:80-85 | the leaf of graft k carries the k-th name at the height of its joining node |
| BeastFossiliser.GraftAllLabels | src/beast/tools/TreeFossiliser.java:61-86 | every added leaf carries its taxon's name at the height of its joining node |
| BeastFossiliser.BeastTreeFossiliser.FossiliseTree | src/beast/tools/TreeFossiliser.java:61-86 | the per-tree loop changes the tree exactly as the fold of the grafts over the taxa does, or throws that fold's exception; root and external nodes are unchanged |
| BeastFossiliser.BeastTreeFossiliser.FossiliseAt | src/beast/tools/TreeFossiliser.java:59-61 | fossilising one tree of a batch leaves the other trees untouched and gives that tree the fold's outcome |
| BeastFossiliser.BeastTreeFossiliser.Run | src/beast/tools/TreeFossiliser.java:40-88 | a configuration error is the result; on success every tree is the fold of the grafts over its original shape; on an exception some tree k failed with it, the trees before k were fossilised and the trees after k are untouched |
| JavaText.RemoveSpaces | src/tsa/TSAModelSelector.java:733 | the result holds no white-space character and is no longer than the input |
| JavaText.Split | src/tsa/TSAModelSelector.java:734 | a string without the separator is its one field; otherwise the last field is never empty (trailing empty fields are dropped) |
| JavaText.ParseInt | src/tsa/TSAModelSelector.java:736 | a parsed value lies in the 32-bit int range; ParseIntOfNat states that the decimal form of a non-negative int parses back to it |
| JavaText.Trim | src/beast/evolution/alignment/DPlaceCSVtoXML.java:58 | the result is no longer than the input and neither starts nor ends with a character up to U+0020 |
| Common.NatToString | src/correlatedtrait/app/beauti/BeautiCompoundTraitProvider.java:125 | Java's decimal form of a natural number: non-empty and made of digits only |

## Left out

- Floating point: rates, frequencies, heights and log-likelihoods are Dafny `real`s. IEEE rounding, NaN and infinities other than the explicit −∞ are not modelled.
- `Math.exp` and `Math.log` are function parameters, not computed. The reduction's agreement with log(mean(exp(x))) is stated only through these parameters.
- Per-tree likelihood evaluation (`TreeLikelihood`, the substitution models' eigen systems, `getTransitionProbabilities` of the correlated model) is a function parameter of the tree.
- Concurrency: the threaded likelihood's thread pool, `invokeAll`, the latch and `System.exit` in workers are left out. The workers run as a sequential loop over disjoint ranges, in any order given as a parameter.
- `ThreadedTreeSetLikelihood.duplicate` and the reflective copying behind it are left out. They use `newInstance` and input listing, and have no contract beyond ID naming.
- File and stream I/O is left out: reading nexus, CSV and XML files, template substitution, `PrintStream` and `Log` output, and Newick output of the fossilised trees. File contents are string parameters. Written output is a returned string or sequence of cells.
- `CorrelatedSubstitutionModel.init`, `log` and `close` (src/tsa/correlatedcharacters/polycharacter/CorrelatedSubstitutionModel.java:246-267) print fixed labels and rate values and are not modelled.
- The `correlatedtrait` copy of `CorrelatedSubstitutionModel` is not part of this model. The prior and the logger use the `tsa` model's `depends`.
- `tsa.evolution.likelihood.TreeSetLikelihood`, the parent of the `tsa` indexed likelihood, is not part of this model. The indexed likelihood is built on the `tsa` tree-set likelihood in `src/tsa/TreeSetLikelihood.java`.
- `TreeCombiner`, whose `getMRCA` the `beast.tools` fossiliser inherits, is not part of this model. `BeastFossiliser.BeastTreeFossiliser.FossiliseTree` takes the search as a parameter, assumed to return a node of the tree or an error, so no MRCA property is claimed for that fossiliser.
- The iteration order of Java `HashSet`s is a parameter: any enumeration that lists each element once.
- The `RatesFreqsOperator` random draws are arguments: the index, the draw behind ε, and the up/down coin. `optimize` and `getPerformanceSuggestion` are left out; they tune with exp, log and pow.
- `TSAModelSelector` is modelled only in its helpers: the `indices` table, `odds`, binary labels, `toBoolean`, `normalise` and `processDataFile`. Left out are:
  - the nested-sampling runs and their executor;
  - `buildModel*` and `toXML`;
  - the dot text of `toDot`;
  - the printing of `reportStats`.
- The BEAUti dialogs, the `getAlignments`/`editAlignment` UI and the registration of the created objects with the document are left out. The model returns the trait string and data type that `processTrait` registers.
- The tests are read as evidence only and are not modelled.
- RatesFreqs.RatesFreqsOperator.Normalise: a zero total is reported as a failure that leaves the rates alone. Java divides by a zero mean and writes infinities or NaN, which `real`s cannot represent.
- RatesFreqs.RatesFreqsOperator.Proposal: requires 1 + ε ≠ 0 for the down step δ = ε/(1 + ε). Java would produce an infinite step there. With ε drawn from [0, scaleFactor) this happens only for a negative scale factor.
- Compound.Encode: the compound code is an unbounded integer. Java's `int` fold (src/correlatedtrait/evolution/alignment/CompoundAlignment.java:99-101) wraps modulo 2^32 once a code passes 2^31 − 1; `Compound.EncodeBound` bounds the code by the product of the sizes, so the two agree whenever that product is at most 2^31 − 1.
- TreeSet.TreesAtFailure: trees are values. When pruning fails on a later tree, Java has already rewired the nodes of the earlier trees in place; the model's failure list holds those trees as parsed.
- RatesFreqs.Propose: when the moved rates sum to zero, the result is the `ZeroTotal` failure together with the moved rates, as `Normalise` reports it; Java would go on with a NaN rescaling.
- Compound.CompoundAlignment.InitAndValidate: the encoding reads each site through its pattern index, which is the evidently intended behaviour (see Findings). `Compound.CompoundAlignment.EncodeRowsAsWritten` models the loops as written.
- JavaText.ParseInt: only the ASCII digits 0–9 are read as digits. `Integer.parseInt` also accepts the decimal digits of other Unicode scripts, through `Character.digit`.
- Fossiliser.TreeFossiliser.GetCommonAncestor: the most-recent-common-ancestor guarantee relies on heights that never decrease toward the root, which `Fossiliser.Tree.Valid` assumes and the source does not check.
- Fossiliser.TreeFossiliser.Run: the first tree that Java reads before the configuration, only to collect taxon names that `processCfgFile` does not use, is not modelled. The tree-set reader is not part of this model, so what an empty tree file does at that read is not described; the model reads the configuration and, with no trees, succeeds. The same holds for `BeastFossiliser.BeastTreeFossiliser.Run`.
- Fossiliser.TreeFossiliser.ProcessCfgFile: on an exception the arrays Java has allocated and partly filled are not described. The result is the exception alone.
- Fossiliser.Graft: the new nodes keep the default node number 0, as in Java, and the tree's external-node list is not extended. Java's tree does not record the new leaf there either.
- Fossiliser.TreeFossiliser.GetMRCA: `nodesTraversed` and `nseen` are modelled as the diagnostic counters they are. Their values do not influence the search.
- CorrelatedSubstitution.CorrelatedSubstitutionModel.SetupRateMatrix: when the failing seed write is not the first, Java has already stored the earlier seed cells in the fresh matrix. The model leaves that matrix all zero on failure.
- ModelSelector.TSAModelSelector.ProcessDataFile: the "could not find code column" message omits the column input's printed form, which Java appends through the `Input` object's `toString`.
- DPlaceConverter.DPlaceCSVtoXML.Run: the 1197-entry ISO list is the constant `DPlaceConverter.Isos` and is passed in by the constructor, so the proofs do not unfold the literal.

## Findings

| source | as written | input that shows it | evidently intended | confidence | as-written member | corrected member |
|---|---|---|---|---|---|---|
| src/correlatedtrait/evolution/alignment/CompoundAlignment.java:101 | the encoding fold adds `alignment.getPattern(taxon_, site_)`, the entry of pattern number `site_`, not of the site's pattern | two taxa with rows (1,1) and (0,0): both sites are one stored pattern, so pattern 1 does not exist and ArrayIndexOutOfBoundsException is thrown (`Compound.AsWrittenRepeatedSite`); sites (1,0) and (0,1) stored as patterns [(0,1),(1,0)]: the codes 2 and 1 come out as 1 and 2 (`Compound.AsWrittenSwapsCodes`) | `alignment.getPattern(taxon_, alignment.getPatternIndex(site_))`, as `guessSizes` reads each site at line 53 | medium, not executed | Compound.CompoundAlignment.EncodeRowsAsWritten | Compound.CompoundAlignment.EncodeRows |

=== FILE: AlignmentFromTraitForDPLace.dfy ===
/**
 * A two-feature trait alignment built from a file exported from the D-PLACE database. Each row
 * names a language by ISO code and gives the values of two features; each language is classed
 * by whether its first value is one of the codes of the first feature and its second one of the
 * codes of the second, as a two-bit number, or 15 when either value is missing ("NA"). Fields of
 * a line are separated by commas or tabs outside double quotes.
 */
module DPlaceAlignment {
  import opened Common
  import opened JavaErrors
  import opened JavaText

  /** Whether s ends inside a quoted section: it holds an odd number of double quotes. */
  predicate InQuote(s: string)
  {
    if |s| == 0 then false else InQuote(s[..|s| - 1]) != (s[|s| - 1] == '"')
  }

  predicate IsSeparator(c: char)
  {
    c == ',' || c == '\t'
  }

  /** Position k holds a separator outside quotes: an even number of quotes comes before it. */
  predicate Sep(s: string, k: nat)
    requires k < |s|
  {
    IsSeparator(s[k]) && !InQuote(s[..k])
  }

  /** The fields of s: the text between the separators that lie outside quotes. */
  function Fields(s: string): (fs: seq<string>)
    ensures |fs| >= 1
  {
    if |s| == 0 then [""]
    else
      var n := |s| - 1;
      var fs := Fields(s[..n]);
      if Sep(s, n) then fs + [""]
      else fs[..|fs| - 1] + [fs[|fs| - 1] + [s[n]]]
  }

  /** Number of separators outside quotes. */
  function SepCount(s: string): nat
  {
    if |s| == 0 then 0 else SepCount(s[..|s| - 1]) + (if Sep(s, |s| - 1) then 1 else 0)
  }

  /** s with its separators outside quotes deleted. */
  function Kept(s: string): string
  {
    if |s| == 0 then "" else Kept(s[..|s| - 1]) + (if Sep(s, |s| - 1) then "" else [s[|s| - 1]])
  }

  function Concat(fs: seq<string>): string
  {
    if |fs| == 0 then "" else Concat(fs[..|fs| - 1]) + fs[|fs| - 1]
  }

  lemma ConcatSnoc(fs: seq<string>, f: string)
    ensures Concat(fs + [f]) == Concat(fs) + f
  {
    assert (fs + [f])[..|fs|] == fs;
  }

  /**
   * There is one more field than there are separators outside quotes, and the fields put back
   * together give the input without exactly those separators: quoted text, quote marks included,
   * stays in its field.
   */
  lemma FieldsShape(s: string)
    ensures |Fields(s)| == SepCount(s) + 1
    ensures Concat(Fields(s)) == Kept(s)
  {
    FieldsCount(s);
    FieldsConcat(s);
  }

  /** Every separator outside quotes starts one more field. */
  lemma {:induction false} FieldsCount(s: string)
    ensures |Fields(s)| == SepCount(s) + 1
  {
    if |s| > 0 {
      FieldsCount(s[..|s| - 1]);
    }
  }

  /** The fields put back together are the input without its separators outside quotes. */
  lemma {:induction false} FieldsConcat(s: string)
    ensures Concat(Fields(s)) == Kept(s)
  {
    if |s| > 0 {
      var n := |s| - 1;
      FieldsConcat(s[..n]);
      var fs := Fields(s[..n]);
      if Sep(s, n) {
        assert Fields(s) == fs + [""] && Kept(s) == Kept(s[..n]);
        ConcatSnoc(fs, "");
      } else {
        var init, last := fs[..|fs| - 1], fs[|fs| - 1];
        assert fs == init + [last];
        assert Fields(s) == init + [last + [s[n]]] && Kept(s) == Kept(s[..n]) + [s[n]];
        ConcatExtendLast(init, last, s[n]);
      }
    }
  }

  /** Appending a character to the last field appends it to the concatenation. */
  lemma ConcatExtendLast(init: seq<string>, last: string, c: char)
    ensures Concat(init + [last + [c]]) == Concat(init + [last]) + [c]
  {
    ConcatSnoc(init, last);
    ConcatSnoc(init, last + [c]);
    assert Concat(init) + (last + [c]) == (Concat(init) + last) + [c];
  }

  /** Extending a prefix by one character, for the loop of Split. */
  lemma PrefixStep(s: string, k: nat)
    requires k < |s|
    ensures InQuote(s[..k + 1]) == (InQuote(s[..k]) != (s[k] == '"'))
    ensures Sep(s[..k + 1], k) == Sep(s, k)
    ensures var fs := Fields(s[..k]);
      Fields(s[..k + 1]) == if Sep(s, k) then fs + [""] else fs[..|fs| - 1] + [fs[|fs| - 1] + [s[k]]]
  {
    assert s[..k + 1][..k] == s[..k];
  }

  /** A character that is not a separator outside quotes extends the last field. */
  lemma ExtendLastField(s: string, k: nat, strs: seq<string>, str2: string)
    requires k < |s| && !Sep(s, k) && strs + [str2] == Fields(s[..k])
    ensures strs + [str2 + [s[k]]] == Fields(s[..k + 1])
    ensures InQuote(s[..k + 1]) == (InQuote(s[..k]) != (s[k] == '"'))
  {
    PrefixStep(s, k);
    var fs := Fields(s[..k]);
    assert fs[..|fs| - 1] == strs && fs[|fs| - 1] == str2;
  }

  /**
   * split: fields are cut at every comma or tab outside quotes and a quoted section is copied
   * whole; an opening quote without a closing one reads past the end of the string.
   */
  method SplitFields(str: string) returns (r: Result<seq<string>>)
    ensures r.Err? <==> InQuote(str)
    ensures r.Err? ==> r.msg == StringIndexOutOfBounds
    ensures r.Ok? ==> r.value == Fields(str)
  {
    var strs: seq<string> := [];
    var i := 0;
    var str2 := "";
    while i < |str|
      invariant 0 <= i <= |str|
      invariant !InQuote(str[..i])
      invariant strs + [str2] == Fields(str[..i])
    {
      var c := str[i];
      if c == ',' || c == '\t' {
        PrefixStep(str, i);
        strs := strs + [str2];
        str2 := "";
      } else if c == '"' {
        var ok;
        i, str2, ok := ReadQuoted(str, i, strs, str2);
        if !ok {
          return Err(StringIndexOutOfBounds);
        }
      } else {
        ExtendLastField(str, i, strs, str2);
        str2 := str2 + [c];
      }
      i := i + 1;
    }
    assert str[..i] == str;
    strs := strs + [str2];
    return Ok(strs);
  }

  /**
   * The quoted part of split: from the opening quote at i0, characters are copied up to and
   * including the closing quote, which is where i ends; without one the read runs off the end.
   */
  method ReadQuoted(str: string, i0: nat, ghost strs: seq<string>, str20: string) returns (i: nat, str2: string, ok: bool)
    requires i0 < |str| && str[i0] == '"'
    requires !InQuote(str[..i0]) && strs + [str20] == Fields(str[..i0])
    ensures !ok ==> InQuote(str)
    ensures ok ==> i0 < i < |str| && !InQuote(str[..i + 1]) && strs + [str2] == Fields(str[..i + 1])
  {
    ExtendLastField(str, i0, strs, str20);
    i, str2 := ScanQuoted(str, i0 + 1, strs, str20 + ['"']);
    if i >= |str| {
      assert str[..i] == str;
      return i, str2, false;
    }
    ExtendLastField(str, i, strs, str2);
    str2 := str2 + [str[i]];
    return i, str2, true;
  }

  /** Inside quotes: characters are copied until the next quote or the end of the string. */
  method ScanQuoted(str: string, i0: nat, ghost strs: seq<string>, str20: string) returns (i: nat, str2: string)
    requires i0 <= |str| && InQuote(str[..i0]) && strs + [str20] == Fields(str[..i0])
    ensures i0 <= i <= |str| && (i < |str| ==> str[i] == '"')
    ensures InQuote(str[..i]) && strs + [str2] == Fields(str[..i])
  {
    i, str2 := i0, str20;
    while i < |str| && str[i] != '"'
      invariant i0 <= i <= |str|
      invariant InQuote(str[..i])
      invariant strs + [str2] == Fields(str[..i])
    {
      ExtendLastField(str, i, strs, str2);
      str2 := str2 + [str[i]];
      i := i + 1;
    }
  }

  /** The fixed list of excluded ISO codes. */
  const Tabu: seq<string> := ["san", "tgu", "wit", "djk", "daf", "afr", "dep", "srm", "egy", "kzh", "tmr", "hat", "lat"]

  /** The codes of a feature: the comma-separated items of its input, trimmed. */
  function Codes(input: string): set<string>
  {
    set k | 0 <= k < |JavaText.Split(input, ',')| :: Trim(JavaText.Split(input, ',')[k])
  }

  /** The loop collecting the codes of a feature. */
  method CodeSet(input: string) returns (codes: set<string>)
    ensures codes == Codes(input)
    ensures forall x :: x in codes <==> exists k :: 0 <= k < |JavaText.Split(input, ',')| && x == Trim(JavaText.Split(input, ',')[k])
  {
    var strs := JavaText.Split(input, ',');
    codes := {};
    for k := 0 to |strs|
      invariant forall x :: x in codes <==> exists j :: 0 <= j < k && x == Trim(strs[j])
    {
      codes := codes + {Trim(strs[k])};
    }
  }

  /** The default code input "1" gives the single code "1". */
  lemma DefaultCodes()
    ensures JavaText.Split("1", ',') == ["1"] && Trim("1") == "1"
  {
    assert ',' !in "1";
    assert TrimStart("1") == "1";
  }

  predicate IsCodeColumn(name: string)
  {
    StartsWith(name, "Code")
  }

  /** `name.matches("ISO.code")`: "ISO", one character other than a line terminator, "code". */
  predicate IsIsoColumn(name: string)
  {
    |name| == 8 && name[..3] == "ISO" && name[4..] == "code"
    && name[3] != '\n' && name[3] != '\r' && name[3] != '\U{0085}' && name[3] != '\U{2028}' && name[3] != '\U{2029}'
  }

  /** The header columns: first feature, second feature, ISO code; −1 when not found. */
  datatype Columns = Columns(col1: int, col2: int, iso: int)

  /**
   * The columns found in a header, column by column: a "Code…" column is col1 when none was
   * found yet and col2 otherwise; an "ISO.code" column is iso.
   */
  function ColumnsOf(header: seq<string>): (c: Columns)
    ensures -1 <= c.col1 < |header| && -1 <= c.col2 < |header| && -1 <= c.iso < |header|
    ensures c.col2 >= 0 ==> 0 <= c.col1 < c.col2
  {
    if |header| == 0 then Columns(-1, -1, -1)
    else
      var i := |header| - 1;
      var c := ColumnsOf(header[..i]);
      var code := IsCodeColumn(header[i]);
      Columns(if code && c.col1 < 0 then i else c.col1,
              if code && c.col1 >= 0 then i else c.col2,
              if IsIsoColumn(header[i]) then i else c.iso)
  }

  /**
   * The columns a header gives: col1 is the first "Code…" column, col2 the last "Code…" column
   * after it, iso the last column matching "ISO.code"; each is −1 when there is none.
   */
  lemma {:induction false} ColumnsOfMeaning(header: seq<string>)
    ensures var c := ColumnsOf(header);
      (c.col1 == -1 <==> forall k :: 0 <= k < |header| ==> !IsCodeColumn(header[k]))
      && (c.col1 >= 0 ==> (IsCodeColumn(header[c.col1]) && forall k :: 0 <= k < c.col1 ==> !IsCodeColumn(header[k])))
      && (c.col2 == -1 <==> forall k :: 0 <= k < |header| && c.col1 < k ==> !IsCodeColumn(header[k]))
      && (c.col2 >= 0 ==> (IsCodeColumn(header[c.col2]) && forall k :: c.col2 < k < |header| ==> !IsCodeColumn(header[k])))
      && (c.iso == -1 <==> forall k :: 0 <= k < |header| ==> !IsIsoColumn(header[k]))
      && (c.iso >= 0 ==> (IsIsoColumn(header[c.iso]) && forall k :: c.iso < k < |header| ==> !IsIsoColumn(header[k])))
  {
    if |header| > 0 {
      var i := |header| - 1;
      var h := header[..i];
      ColumnsOfMeaning(h);
      assert forall k :: 0 <= k < i ==> h[k] == header[k];
    }
  }

  /** The header scan of readFile, one column at a time. */
  method FindColumns(header: seq<string>) returns (c: Columns)
    ensures c == ColumnsOf(header)
    ensures c.col1 == -1 <==> forall k :: 0 <= k < |header| ==> !IsCodeColumn(header[k])
    ensures c.col1 >= 0 ==> (c.col1 < |header| && IsCodeColumn(header[c.col1])
      && forall k :: 0 <= k < c.col1 ==> !IsCodeColumn(header[k]))
    ensures c.col2 == -1 <==> forall k :: 0 <= k < |header| && c.col1 < k ==> !IsCodeColumn(header[k])
    ensures c.col2 >= 0 ==> (c.col1 >= 0 && c.col1 < c.col2 < |header| && IsCodeColumn(header[c.col2])
      && forall k :: c.col2 < k < |header| ==> !IsCodeColumn(header[k]))
    ensures c.iso == -1 <==> forall k :: 0 <= k < |header| ==> !IsIsoColumn(header[k])
    ensures c.iso >= 0 ==> (c.iso < |header| && IsIsoColumn(header[c.iso])
      && forall k :: c.iso < k < |header| ==> !IsIsoColumn(header[k]))
  {
    var col1, col2, iso := -1, -1, -1;
    for i := 0 to |header|
      invariant Columns(col1, col2, iso) == ColumnsOf(header[..i])
    {
      assert header[..i + 1][..i] == header[..i];
      if StartsWith(header[i], "Code") {
        if col1 >= 0 {
          col2 := i;
        } else {
          col1 := i;
        }
      }
      if IsIsoColumn(header[i]) {
        iso := i;
      }
    }
    assert header[..|header|] == header;
    ColumnsOfMeaning(header);
    return Columns(col1, col2, iso);
  }

  /** All three columns were found. */
  predicate Found(c: Columns)
  {
    c.col1 >= 0 && c.col2 >= 0 && c.iso >= 0
  }

  /** The value of a row: 15 when either feature is "NA", else 2·[s1 is a code of feature 1] + [s2 is a code of feature 2]. */
  function Classify(s1: string, s2: string, code1: set<string>, code2: set<string>): (v: int)
    ensures v == 15 <==> s1 == "NA" || s2 == "NA"
    ensures v != 15 ==> 0 <= v <= 3 && (v / 2 == 1 <==> s1 in code1) && (v % 2 == 1 <==> s2 in code2)
  {
    if s1 != "NA" && s2 != "NA" then
      if s1 in code1 then (if s2 in code2 then 3 else 2)
      else (if s2 in code2 then 1 else 0)
    else 15
  }

  const ColumnsMissing: string := "Could not find columns with Code: and/or ISO code in them. The file does not appear to be exported from DPLace"

  /** What one data row does to the map: a row whose ISO has at least 3 characters records its value under that ISO. */
  function RowStep(d: map<string, int>, line: string, c: Columns, code1: set<string>, code2: set<string>): Result<map<string, int>>
    requires Found(c)
  {
    if InQuote(line) then Err(StringIndexOutOfBounds)
    else
      var f := Fields(line);
      if c.col1 >= |f| || c.col2 >= |f| || c.iso >= |f| then Err(ArrayIndexOutOfBounds)
      else if |f[c.iso]| >= 3 then Ok(d[f[c.iso] := Classify(f[c.col1], f[c.col2], code1, code2)])
      else Ok(d)
  }

  /** The map after the rows, in order; the first failing row ends the reading. */
  function ReadRows(d: map<string, int>, rows: seq<string>, c: Columns, code1: set<string>, code2: set<string>): Result<map<string, int>>
    requires Found(c)
  {
    if |rows| == 0 then Ok(d)
    else
      var prev := ReadRows(d, rows[..|rows| - 1], c, code1, code2);
      if prev.Err? then prev else RowStep(prev.value, rows[|rows| - 1], c, code1, code2)
  }

  /**
   * Later rows overwrite earlier ones: after all rows, an ISO holds the value of the last row
   * naming it, whatever came before.
   */
  lemma {:induction false} LastRowWins(d: map<string, int>, rows: seq<string>, c: Columns, code1: set<string>, code2: set<string>,
                                       k: nat, iso0: string)
    requires Found(c) && k < |rows| && ReadRows(d, rows, c, code1, code2).Ok?
    requires !InQuote(rows[k]) && c.iso < |Fields(rows[k])| && Fields(rows[k])[c.iso] == iso0 && |iso0| >= 3
    requires c.col1 < |Fields(rows[k])| && c.col2 < |Fields(rows[k])|
    requires forall j :: k < j < |rows| ==> InQuote(rows[j]) || c.iso >= |Fields(rows[j])| || Fields(rows[j])[c.iso] != iso0
    ensures iso0 in ReadRows(d, rows, c, code1, code2).value
    ensures ReadRows(d, rows, c, code1, code2).value[iso0]
      == Classify(Fields(rows[k])[c.col1], Fields(rows[k])[c.col2], code1, code2)
  {
    var n := |rows| - 1;
    assert rows[..n + 1] == rows;
    if k < n {
      LastRowWins(d, rows[..n], c, code1, code2, k, iso0);
    }
  }

  /**
   * The map the rows leave behind, as Java writes into it while reading: the map after every row
   * when all succeed, else the map after the rows before the first failing one.
   */
  function Partial(d: map<string, int>, rows: seq<string>, c: Columns, code1: set<string>, code2: set<string>): (r: map<string, int>)
    requires Found(c)
    ensures ReadRows(d, rows, c, code1, code2).Ok? ==> r == ReadRows(d, rows, c, code1, code2).value
  {
    if |rows| == 0 then d
    else
      var n := |rows| - 1;
      var prev := ReadRows(d, rows[..n], c, code1, code2);
      if prev.Err? then Partial(d, rows[..n], c, code1, code2)
      else
        var step := RowStep(prev.value, rows[n], c, code1, code2);
        if step.Err? then prev.value else step.value
  }

  /**
   * The row loop: read each remaining line, split it and record its value. Besides the result,
   * the map as it stands when the loop stops.
   */
  method ReadRowsLoop(d0: map<string, int>, rows: seq<string>, c: Columns, code1: set<string>, code2: set<string>)
    returns (r: Result<map<string, int>>, reached: map<string, int>)
    requires Found(c)
    ensures r == ReadRows(d0, rows, c, code1, code2)
    ensures reached == Partial(d0, rows, c, code1, code2)
  {
    var d := d0;
    for i := 0 to |rows|
      invariant ReadRows(d0, rows[..i], c, code1, code2) == Ok(d)
    {
      var next := ReadOneRow(d, rows[i], c, code1, code2);
      ReadRowsStep(d0, rows, c, code1, code2, i);
      if next.Err? {
        assert rows[..i + 1][..i] == rows[..i];
        ReadRowsErrorSticks(d0, rows, c, code1, code2, i + 1);
        return next, d;
      }
      d := next.value;
    }
    assert rows[..|rows|] == rows;
    return Ok(d), d;
  }

  /** The map after one more row is the map so far with that row applied. */
  lemma ReadRowsStep(d0: map<string, int>, rows: seq<string>, c: Columns, code1: set<string>, code2: set<string>, i: nat)
    requires Found(c) && i < |rows| && ReadRows(d0, rows[..i], c, code1, code2).Ok?
    ensures ReadRows(d0, rows[..i + 1], c, code1, code2)
      == RowStep(ReadRows(d0, rows[..i], c, code1, code2).value, rows[i], c, code1, code2)
  {
    assert rows[..i + 1][..i] == rows[..i];
  }

  /** The body of the row loop: split the line, check the columns, record the value. */
  method ReadOneRow(d: map<string, int>, line: string, c: Columns, code1: set<string>, code2: set<string>)
    returns (r: Result<map<string, int>>)
    requires Found(c)
    ensures r == RowStep(d, line, c, code1, code2)
  {
    var strs := SplitFields(line);
    if strs.Err? {
      return Err(StringIndexOutOfBounds);
    }
    var f := strs.value;
    if c.col1 >= |f| || c.col2 >= |f| || c.iso >= |f| {
      return Err(ArrayIndexOutOfBounds);
    }
    var s1, s2, iso0 := f[c.col1], f[c.col2], f[c.iso];
    if |iso0| >= 3 {
      return Ok(d[iso0 := Classify(s1, s2, code1, code2)]);
    }
    return Ok(d);
  }

  /**
   * Once reading fails, it fails with the same message whatever rows follow, and the map stays as
   * the failing row found it.
   */
  lemma {:induction false} ReadRowsErrorSticks(d: map<string, int>, rows: seq<string>, c: Columns, code1: set<string>, code2: set<string>, k: nat)
    requires Found(c) && 0 < k <= |rows|
    requires ReadRows(d, rows[..k], c, code1, code2).Err?
    ensures ReadRows(d, rows, c, code1, code2) == ReadRows(d, rows[..k], c, code1, code2)
    ensures Partial(d, rows, c, code1, code2) == Partial(d, rows[..k], c, code1, code2)
  {
    if k < |rows| {
      var n := |rows| - 1;
      assert rows[..n][..k] == rows[..k];
      ReadRowsErrorSticks(d, rows[..n], c, code1, code2, k);
      assert ReadRows(d, rows, c, code1, code2) == ReadRows(d, rows[..n], c, code1, code2);
    } else {
      assert rows[..k] == rows;
    }
  }

  /** The map with every tabu ISO code forced to 15. */
  function ForceTabu(d: map<string, int>, tabu: seq<string>): (r: map<string, int>)
    ensures forall x :: x in r <==> x in d || x in tabu
    ensures forall x :: x in r ==> r[x] == if x in tabu then 15 else d[x]
  {
    if |tabu| == 0 then d else ForceTabu(d, tabu[..|tabu| - 1])[tabu[|tabu| - 1] := 15]
  }

  /** The loop giving each tabu code the value 15. */
  method MakeTabu(d0: map<string, int>, tabu: seq<string>) returns (d: map<string, int>)
    ensures d == ForceTabu(d0, tabu)
  {
    d := d0;
    for t := 0 to |tabu|
      invariant d == ForceTabu(d0, tabu[..t])
    {
      ForceTabuStep(d0, tabu, t);
      d := d[tabu[t] := 15];
    }
    assert tabu[..|tabu|] == tabu;
  }

  /** One more tabu code is one more update. */
  lemma ForceTabuStep(d0: map<string, int>, tabu: seq<string>, t: nat)
    requires t < |tabu|
    ensures ForceTabu(d0, tabu[..t + 1]) == ForceTabu(d0, tabu[..t])[tabu[t] := 15]
  {
    assert tabu[..t + 1][..t] == tabu[..t];
  }

  /** isTabu: whether the name equals one of the tabu codes. */
  function IsTabu(name: string, tabu: seq<string>): (b: bool)
    ensures b <==> name in tabu
  {
    if |tabu| == 0 then false else tabu[0] == name || IsTabu(name, tabu[1..])
  }

  /** The taxa that are not tabu, in order. */
  function NonTabu(names: seq<string>, tabu: seq<string>): (r: seq<string>)
    ensures |r| <= |names|
    ensures forall k :: 0 <= k < |r| ==> r[k] in names && r[k] !in tabu
  {
    if |names| == 0 then []
    else NonTabu(names[..|names| - 1], tabu) + (if names[|names| - 1] in tabu then [] else [names[|names| - 1]])
  }

  /** The list with the first occurrence of s removed, if any. */
  function RemoveFirst(xs: seq<string>, s: string): (r: seq<string>)
    ensures s !in xs ==> r == xs
    ensures s in xs ==> |r| == |xs| - 1 && multiset(r) == multiset(xs) - multiset{s}
  {
    if |xs| == 0 then xs
    else
      assert xs == [xs[0]] + xs[1..];
      if xs[0] == s then xs[1..] else [xs[0]] + RemoveFirst(xs[1..], s)
  }

  /** The list after removing, for each tabu code in order, its first occurrence. */
  function RemoveAll(xs: seq<string>, tabu: seq<string>): seq<string>
  {
    if |tabu| == 0 then xs else RemoveFirst(RemoveAll(xs, tabu[..|tabu| - 1]), tabu[|tabu| - 1])
  }

  /** Removing the tabu codes keeps the others and their multiplicities: only tabu occurrences go, at most one per code. */
  lemma {:induction false} RemoveAllKeepsOthers(xs: seq<string>, tabu: seq<string>, x: string)
    requires x !in tabu
    ensures multiset(RemoveAll(xs, tabu))[x] == multiset(xs)[x]
    ensures |xs| - |tabu| <= |RemoveAll(xs, tabu)| <= |xs|
  {
    if |tabu| > 0 {
      RemoveAllKeepsOthers(xs, tabu[..|tabu| - 1], x);
    }
  }

  /** The loop removing, per tabu code, the first taxon with that ID. */
  method RemoveTabuTaxa(taxa: seq<string>, tabu: seq<string>) returns (r: seq<string>)
    ensures r == RemoveAll(taxa, tabu)
  {
    r := taxa;
    for t := 0 to |tabu|
      invariant r == RemoveAll(taxa, tabu[..t])
    {
      assert tabu[..t + 1][..t] == tabu[..t];
      var s := tabu[t];
      var i := 0;
      while i < |r|
        invariant 0 <= i <= |r| && s !in r[..i]
      {
        if r[i] == s {
          RemoveAt(r, i, s);
          r := r[..i] + r[i + 1..];
          break;
        }
        assert r[..i + 1] == r[..i] + [r[i]];
        i := i + 1;
      }
      if i == |r| {
        assert r[..i] == r;
      }
    }
    assert tabu[..|tabu|] == tabu;
  }

  /** Removing the element at the first position holding s is RemoveFirst. */
  lemma {:induction false} RemoveAt(xs: seq<string>, i: nat, s: string)
    requires i < |xs| && xs[i] == s && s !in xs[..i]
    ensures RemoveFirst(xs, s) == xs[..i] + xs[i + 1..]
  {
    if i > 0 {
      var tail := xs[1..];
      assert tail[..i - 1] == xs[..i][1..];
      assert xs[0] == xs[..i][0];
      RemoveAt(tail, i - 1, s);
      assert RemoveFirst(xs, s) == [xs[0]] + (tail[..i - 1] + tail[i..]);
      assert xs[..i] == [xs[0]] + tail[..i - 1] && xs[i + 1..] == tail[i..];
    }
  }

  /**
   * What reading the data file gives: the second line is the header, the later lines the rows.
   * A file of fewer than two lines hands split a null line; an unclosed quote in the header, a
   * header without the two feature columns or the ISO column, or a bad row is an error; otherwise
   * the map after the rows with every tabu code forced to 15.
   */
  function FileData(d: map<string, int>, code1Input: string, code2Input: string, lines: seq<string>): (r: Result<map<string, int>>)
    ensures r.Ok? ==> forall x :: x in Tabu ==> x in r.value && r.value[x] == 15
  {
    if |lines| < 2 then Err(NullPointer)
    else if InQuote(lines[1]) then Err(StringIndexOutOfBounds)
    else
      var c := ColumnsOf(Fields(lines[1]));
      if !Found(c) then Err(ColumnsMissing)
      else
        var rows := ReadRows(d, lines[2..], c, Codes(code1Input), Codes(code2Input));
        if rows.Err? then Err(rows.msg) else Ok(ForceTabu(rows.value, Tabu))
  }

  /** The map Java has written when reading the file fails: the rows read before a failing row. */
  function DataOnFailure(d: map<string, int>, code1Input: string, code2Input: string, lines: seq<string>): map<string, int>
  {
    if |lines| < 2 || InQuote(lines[1]) || !Found(ColumnsOf(Fields(lines[1]))) then d
    else Partial(d, lines[2..], ColumnsOf(Fields(lines[1])), Codes(code1Input), Codes(code2Input))
  }

  /**
   * An ISO code read from the file ends with the class of the last row naming it, unless it is a
   * tabu code, which ends with 15.
   */
  lemma FileDataLastRow(d: map<string, int>, code1Input: string, code2Input: string, lines: seq<string>, k: nat, iso0: string)
    requires |lines| >= 2 && FileData(d, code1Input, code2Input, lines).Ok?
    requires 2 <= k < |lines| && iso0 !in Tabu
    requires var c := ColumnsOf(Fields(lines[1]));
      !InQuote(lines[k]) && c.iso < |Fields(lines[k])| && Fields(lines[k])[c.iso] == iso0 && |iso0| >= 3
      && c.col1 < |Fields(lines[k])| && c.col2 < |Fields(lines[k])|
      && forall j :: k < j < |lines| ==> InQuote(lines[j]) || c.iso >= |Fields(lines[j])| || Fields(lines[j])[c.iso] != iso0
    ensures var c := ColumnsOf(Fields(lines[1]));
      iso0 in FileData(d, code1Input, code2Input, lines).value
      && FileData(d, code1Input, code2Input, lines).value[iso0]
        == Classify(Fields(lines[k])[c.col1], Fields(lines[k])[c.col2], Codes(code1Input), Codes(code2Input))
  {
    var c := ColumnsOf(Fields(lines[1]));
    var rows := lines[2..];
    assert forall j :: k - 2 < j < |rows| ==> rows[j] == lines[j + 2];
    LastRowWins(d, rows, c, Codes(code1Input), Codes(code2Input), k - 2, iso0);
  }

  /** The trait set input of the alignment: the taxon names, and the trait text if any. */
  datatype TraitSet = TraitSet(taxaNames: seq<string>, traits: Option<string>)

  const UserTypeMissing: string := "expected user data type to be set"
  const TraitNotSpecified: string := "Trait not specified for "

  class AlignmentFromTraitForDPLace {
    var data: map<string, int>
    var taxaNames: seq<string>
    /** The IDs of the taxa of the trait set's taxon set. */
    var taxa: seq<string>
    /** Per kept taxon, its one-site sequence, and its state count. */
    var counts: seq<seq<int>>
    var stateCounts: seq<int>
    var patternIndexLength: nat

    constructor ()
      ensures data == map[] && taxaNames == [] && taxa == [] && counts == [] && stateCounts == [] && patternIndexLength == 0
    {
      data := map[];
      taxaNames := [];
      taxa := [];
      counts := [];
      stateCounts := [];
      patternIndexLength := 0;
    }

    /**
     * initAndValidate: the data file is read into the map from ISO code to value, then the taxa of
     * the trait set get their values. Every tabu code ends with value 15 and no tabu taxon gets a
     * sequence.
     */
    method InitAndValidate(code1Input: string, code2Input: string, lines: seq<string>,
                           traitSet: Option<TraitSet>, userStateCount: Option<int>) returns (r: Result<()>)
      modifies this
      ensures var f := FileData(old(data), code1Input, code2Input, lines);
        (f.Err? ==> r == Err(f.msg) && data == DataOnFailure(old(data), code1Input, code2Input, lines))
        && (f.Ok? ==> data == f.value)
        && (f.Ok? && traitSet.None? ==> r.Ok? && patternIndexLength == 0 && counts == [] && taxaNames == old(taxaNames))
        && (f.Ok? && traitSet.Some? && userStateCount.None? ==> r == Err(UserTypeMissing))
        && (f.Ok? && traitSet.Some? && userStateCount.Some?
              && (traitSet.value.traits.None? || IsBlank(traitSet.value.traits.value)) ==>
            r.Ok? && patternIndexLength == 1 && counts == [] && taxaNames == traitSet.value.taxaNames)
      ensures r.Ok? ==> forall x :: x in Tabu ==> x in data && data[x] == 15
      ensures (FileData(old(data), code1Input, code2Input, lines).Ok? && traitSet.Some? && userStateCount.Some?
               && traitSet.value.traits.Some? && !IsBlank(traitSet.value.traits.value)) ==>
        var kept := NonTabu(traitSet.value.taxaNames, Tabu);
        (r.Ok? <==> forall k :: 0 <= k < |kept| ==> kept[k] in data)
        && (r.Ok? ==> (|counts| == |kept| == |stateCounts|
              && (forall k :: 0 <= k < |kept| ==> kept[k] !in Tabu && counts[k] == [data[kept[k]]] && stateCounts[k] == userStateCount.value)
              && taxaNames == RemoveAll(traitSet.value.taxaNames, Tabu)))
      ensures (FileData(old(data), code1Input, code2Input, lines).Ok? && traitSet.Some? && userStateCount.Some?
               && traitSet.value.traits.Some? && !IsBlank(traitSet.value.traits.value)) ==>
        var names := traitSet.value.taxaNames;
        var miss := FirstUnvalued(names, data, 0);
        r.Err? ==>
          (miss.Some? && r.msg == TraitNotSpecified + NatToString(miss.value)
           && CountsOf(counts, stateCounts, NonTabu(names[..miss.value], Tabu), data, userStateCount.value)
           && taxaNames == names)
    {
      r := ReadFile(code1Input, code2Input, lines);
      if r.Err? {
        return;
      }
      r := SetupTaxa(traitSet, userStateCount);
    }

    /**
     * The data-file part of initAndValidate: the first line is skipped, the second is the header
     * and every further line a row; afterwards every tabu code maps to 15. The result is that of
     * FileData, and on failure the map keeps the rows read before the failing one.
     */
    method ReadFile(code1Input: string, code2Input: string, lines: seq<string>) returns (r: Result<()>)
      modifies this`data
      ensures var f := FileData(old(data), code1Input, code2Input, lines);
        (r.Ok? <==> f.Ok?) && (r.Ok? ==> data == f.value) && (r.Err? ==> r.msg == f.msg)
      ensures r.Err? ==> data == DataOnFailure(old(data), code1Input, code2Input, lines)
    {
      var code1 := CodeSet(code1Input);
      var code2 := CodeSet(code2Input);
      if |lines| < 2 {
        return Err(NullPointer);
      }
      var header := SplitFields(lines[1]);
      if header.Err? {
        return Err(header.msg);
      }
      var c := FindColumns(header.value);
      if c.col1 < 0 || c.col2 < 0 || c.iso < 0 {
        return Err(ColumnsMissing);
      }
      var d, reached := ReadRowsLoop(data, lines[2..], c, code1, code2);
      if d.Err? {
        data := reached;
        return Err(d.msg);
      }
      data := MakeTabu(d.value, Tabu);
      return Ok(());
    }

    /**
     * The trait part of initAndValidate: without a trait set nothing more happens; without a
     * user data type it is an error; with blank traits the pattern index gets one entry and
     * nothing more happens. Otherwise every non-tabu taxon gets its recorded value as its one
     * site (none recorded is an error), the first taxon with each tabu ID is removed from the
     * taxon set, and the taxon names are re-read from it.
     */
    method SetupTaxa(traitSet: Option<TraitSet>, userStateCount: Option<int>) returns (r: Result<()>)
      modifies this
      ensures data == old(data)
      ensures traitSet.None? ==> r.Ok? && patternIndexLength == 0 && counts == [] && taxaNames == old(taxaNames)
      ensures traitSet.Some? && userStateCount.None? ==> r == Err(UserTypeMissing)
      ensures traitSet.Some? && userStateCount.Some? && (traitSet.value.traits.None? || IsBlank(traitSet.value.traits.value)) ==>
        r.Ok? && patternIndexLength == 1 && counts == [] && taxaNames == traitSet.value.taxaNames
      ensures traitSet.Some? && userStateCount.Some? && traitSet.value.traits.Some? && !IsBlank(traitSet.value.traits.value) ==>
        var kept := NonTabu(traitSet.value.taxaNames, Tabu);
        (r.Ok? <==> forall k :: 0 <= k < |kept| ==> kept[k] in data)
        && (r.Ok? ==> (|counts| == |kept| == |stateCounts|
              && (forall k :: 0 <= k < |kept| ==> counts[k] == [data[kept[k]]] && stateCounts[k] == userStateCount.value)
              && taxa == RemoveAll(traitSet.value.taxaNames, Tabu) && taxaNames == taxa))
      ensures traitSet.Some? && userStateCount.Some? && traitSet.value.traits.Some? && !IsBlank(traitSet.value.traits.value) ==>
        var names := traitSet.value.taxaNames;
        var miss := FirstUnvalued(names, data, 0);
        r.Err? ==>
          (miss.Some? && r.msg == TraitNotSpecified + NatToString(miss.value)
           && CountsOf(counts, stateCounts, NonTabu(names[..miss.value], Tabu), data, userStateCount.value)
           && taxaNames == names)
    {
      patternIndexLength := 0;
      counts := [];
      if traitSet.None? {
        return Ok(());
      }
      if userStateCount.None? {
        return Err(UserTypeMissing);
      }
      taxaNames := traitSet.value.taxaNames;
      if traitSet.value.traits.None? || IsBlank(traitSet.value.traits.value) {
        patternIndexLength := 1;
        return Ok(());
      }
      r := KeepTaxa(traitSet.value.taxaNames, userStateCount.value);
    }

    /**
     * The end of initAndValidate with traits given: the non-tabu taxa get their sequences and the
     * tabu ones leave the taxon set. The first non-tabu taxon without a value throws, naming its
     * index, after the taxa before it have been given their sequences.
     */
    method KeepTaxa(names: seq<string>, stateCount: int) returns (r: Result<()>)
      requires taxaNames == names
      modifies this`counts, this`stateCounts, this`taxa, this`taxaNames
      ensures var kept := NonTabu(names, Tabu);
        (r.Ok? <==> forall k :: 0 <= k < |kept| ==> kept[k] in data)
        && (r.Ok? ==> (|counts| == |kept| == |stateCounts|
              && (forall k :: 0 <= k < |kept| ==> counts[k] == [data[kept[k]]] && stateCounts[k] == stateCount)
              && taxa == RemoveAll(names, Tabu) && taxaNames == taxa))
      ensures var miss := FirstUnvalued(names, data, 0);
        r.Err? ==>
          (miss.Some? && r.msg == TraitNotSpecified + NatToString(miss.value)
           && CountsOf(counts, stateCounts, NonTabu(names[..miss.value], Tabu), data, stateCount)
           && taxa == old(taxa) && taxaNames == old(taxaNames))
    {
      var missing;
      missing, counts, stateCounts := BuildCounts(names, data, stateCount);
      FirstUnvaluedMeaning(names, data);
      if missing.Some? {
        return Err(TraitNotSpecified + NatToString(missing.value));
      }
      assert names[..|names|] == names;
      taxa := RemoveTabuTaxa(names, Tabu);
      taxaNames := taxa;
      return Ok(());
    }
  }

  /**
   * The first index, from i on, of a non-tabu name without a value: where the loop over the
   * taxon names throws.
   */
  function FirstUnvalued(names: seq<string>, data: map<string, int>, i: nat): (r: Option<nat>)
    requires i <= |names|
    decreases |names| - i
    ensures r.Some? ==>
      (i <= r.value < |names| && names[r.value] !in Tabu && names[r.value] !in data
       && forall j :: i <= j < r.value ==> names[j] in Tabu || names[j] in data)
    ensures r.None? ==> forall j :: i <= j < |names| ==> names[j] in Tabu || names[j] in data
  {
    if i == |names| then None
    else if names[i] !in Tabu && names[i] !in data then Some(i)
    else FirstUnvalued(names, data, i + 1)
  }

  /** The taxa `kept` have the one-site sequences and state counts given by their values. */
  predicate CountsOf(counts: seq<seq<int>>, stateCounts: seq<int>, kept: seq<string>, data: map<string, int>, stateCount: int)
  {
    |counts| == |kept| == |stateCounts|
    && forall k :: 0 <= k < |kept| ==> kept[k] in data && counts[k] == [data[kept[k]]] && stateCounts[k] == stateCount
  }

  /** The loop throws exactly when some kept taxon has no value. */
  lemma FirstUnvaluedMeaning(names: seq<string>, data: map<string, int>)
    ensures var kept := NonTabu(names, Tabu);
      FirstUnvalued(names, data, 0).None? <==> forall k :: 0 <= k < |kept| ==> kept[k] in data
  {
    var kept := NonTabu(names, Tabu);
    var miss := FirstUnvalued(names, data, 0);
    if miss.Some? {
      NonTabuMissing(names, miss.value);
    }
  }

  /**
   * The loop over the taxon names giving each non-tabu taxon its value and the data type's state
   * count. It stops at the first non-tabu taxon without a value, returning its index and the
   * lists built up to it.
   */
  method BuildCounts(names: seq<string>, data: map<string, int>, stateCount: int)
    returns (missing: Option<nat>, counts: seq<seq<int>>, stateCounts: seq<int>)
    ensures missing == FirstUnvalued(names, data, 0)
    ensures CountsOf(counts, stateCounts, NonTabu(names[..if missing.Some? then missing.value else |names|], Tabu), data, stateCount)
  {
    counts := [];
    stateCounts := [];
    for i := 0 to |names|
      invariant FirstUnvalued(names, data, 0) == FirstUnvalued(names, data, i)
      invariant CountsOf(counts, stateCounts, NonTabu(names[..i], Tabu), data, stateCount)
    {
      assert names[..i + 1][..i] == names[..i];
      var name := names[i];
      if !IsTabu(name, Tabu) {
        if name !in data {
          return Some(i), counts, stateCounts;
        }
        counts := counts + [[data[name]]];
        stateCounts := stateCounts + [stateCount];
      }
    }
    return None, counts, stateCounts;
  }

  /** A non-tabu name without a value is a kept taxon without a value. */
  lemma {:induction false} NonTabuMissing(names: seq<string>, i: nat)
    requires i < |names| && names[i] !in Tabu
    ensures names[i] in NonTabu(names, Tabu)
  {
    if i < |names| - 1 {
      NonTabuMissing(names[..|names| - 1], i);
    }
  }
}

=== FILE: BeastTreeFossiliser.dfy ===
/**
 * The fossiliser of the `beast.tools` package: the same configuration reading and graft as the
 * fossiliser in `Fossiliser`, with the MRCA search inherited from `TreeCombiner`. That class is
 * not part of this model: its search is a parameter, a function of the tree's parent links, node
 * IDs and the clade, that yields a node of the tree or the exception it throws.
 */
module BeastFossiliser {
  import opened Common
  import opened JavaText
  import opened Fossiliser
  import opened JavaErrors

  /** An MRCA search that answers with nodes of the tree it is given. */
  ghost predicate SearchInTree(mrca: (seq<int>, seq<string>, set<string>) -> Result<nat>)
  {
    forall parent, id, clade :: mrca(parent, id, clade).Ok? ==> mrca(parent, id, clade).value < |parent|
  }

  /** The node links, IDs and heights of a tree, as values. */
  datatype Shape = Shape(parent: seq<int>, id: seq<string>, height: seq<real>)

  function ShapeOf(t: Tree): Shape
    reads t
  {
    Shape(t.parent, t.id, t.height)
  }

  /** One ID and one height per node. */
  predicate Fits(s: Shape)
  {
    |s.id| == |s.parent| && |s.height| == |s.parent|
  }

  /**
   * One step of the per-tree loop of `run` on values: taxon name is grafted above the node the
   * search gives for clade. A failed search, or a node without a parent, throws.
   */
  function GraftStep(s: Shape, clade: set<string>, name: string,
                     mrca: (seq<int>, seq<string>, set<string>) -> Result<nat>): (r: Result<Shape>)
    requires Fits(s) && SearchInTree(mrca)
    ensures r.Err? <==> mrca(s.parent, s.id, clade).Err? || s.parent[mrca(s.parent, s.id, clade).value] < 0
    ensures r.Ok? ==> (Fits(r.value) && |r.value.parent| == |s.parent| + 2
      && r.value.id[..|s.parent|] == s.id && r.value.height[..|s.parent|] == s.height
      && r.value.id[|s.parent| + 1] == name && r.value.height[|s.parent| + 1] == r.value.height[|s.parent|])
  {
    var src := mrca(s.parent, s.id, clade);
    if src.Err? then Err(src.msg)
    else if s.parent[src.value] < 0 then Err(NullPointer)
    else
      var h := s.height[src.value];
      Ok(Shape(GraftedParent(s.parent, src.value), s.id + ["", name], s.height + [h, h]))
  }

  /**
   * The per-tree loop of `run` on values: taxon names[0] is grafted above the node the search
   * gives for clades[0], then the rest in order on the grown tree; the first exception ends it.
   */
  function GraftAll(s: Shape, clades: seq<set<string>>, names: seq<string>,
                    mrca: (seq<int>, seq<string>, set<string>) -> Result<nat>): (r: Result<Shape>)
    requires Fits(s) && |clades| == |names| && SearchInTree(mrca)
    ensures r.Ok? ==> Fits(r.value) && |r.value.parent| == |s.parent| + 2 * |names|
    decreases |names|
  {
    if |names| == 0 then Ok(s)
    else
      var s' := GraftStep(s, clades[0], names[0], mrca);
      if s'.Err? then s' else GraftAll(s'.value, clades[1..], names[1..], mrca)
  }

  /** The grafts only append nodes: the earlier nodes keep their IDs and heights. */
  lemma {:induction false} GraftAllPrefix(s: Shape, clades: seq<set<string>>, names: seq<string>,
                                          mrca: (seq<int>, seq<string>, set<string>) -> Result<nat>)
    requires Fits(s) && |clades| == |names| && SearchInTree(mrca) && GraftAll(s, clades, names, mrca).Ok?
    ensures var g := GraftAll(s, clades, names, mrca).value;
      g.id[..|s.parent|] == s.id && g.height[..|s.parent|] == s.height
    decreases |names|
  {
    if |names| > 0 {
      var base := |s.parent|;
      var s' := GraftStep(s, clades[0], names[0], mrca).value;
      GraftAllPrefix(s', clades[1..], names[1..], mrca);
      var g := GraftAll(s', clades[1..], names[1..], mrca).value;
      assert g.id[..base] == g.id[..base + 2][..base];
      assert g.height[..base] == g.height[..base + 2][..base];
    }
  }

  /** The leaf of graft k carries names[k] at the height of its joining node. */
  lemma {:induction false} GraftAllLabel(s: Shape, clades: seq<set<string>>, names: seq<string>,
                                         mrca: (seq<int>, seq<string>, set<string>) -> Result<nat>, k: nat)
    requires Fits(s) && |clades| == |names| && SearchInTree(mrca) && GraftAll(s, clades, names, mrca).Ok?
    requires k < |names|
    ensures var g, base := GraftAll(s, clades, names, mrca).value, |s.parent|;
      g.id[base + 2 * k + 1] == names[k] && g.height[base + 2 * k + 1] == g.height[base + 2 * k]
    decreases k
  {
    var base := |s.parent|;
    var s' := GraftStep(s, clades[0], names[0], mrca).value;
    var g := GraftAll(s', clades[1..], names[1..], mrca).value;
    if k == 0 {
      GraftAllPrefix(s', clades[1..], names[1..], mrca);
      assert g.id[base + 1] == g.id[..base + 2][base + 1];
      assert g.height[base + 1] == g.height[..base + 2][base + 1];
      assert g.height[base] == g.height[..base + 2][base];
    } else {
      GraftAllLabel(s', clades[1..], names[1..], mrca, k - 1);
      assert names[1..][k - 1] == names[k];
      assert base + 2 * k + 1 == (base + 2) + 2 * (k - 1) + 1;
    }
  }

  /** The leaf of every graft carries its taxon name at the height of its joining node. */
  lemma GraftAllLabels(s: Shape, clades: seq<set<string>>, names: seq<string>,
                       mrca: (seq<int>, seq<string>, set<string>) -> Result<nat>)
    requires Fits(s) && |clades| == |names| && SearchInTree(mrca) && GraftAll(s, clades, names, mrca).Ok?
    ensures var g, base := GraftAll(s, clades, names, mrca).value, |s.parent|;
      forall k :: 0 <= k < |names| ==> g.id[base + 2 * k + 1] == names[k] && g.height[base + 2 * k + 1] == g.height[base + 2 * k]
  {
    forall k | 0 <= k < |names|
      ensures var g, base := GraftAll(s, clades, names, mrca).value, |s.parent|;
        g.id[base + 2 * k + 1] == names[k] && g.height[base + 2 * k + 1] == g.height[base + 2 * k]
    {
      GraftAllLabel(s, clades, names, mrca, k);
    }
  }

  /** The tree of s is the one of s0 with every configured taxon grafted. */
  ghost predicate Grafted(s0: Shape, s: Shape, clades: seq<set<string>>, names: seq<string>,
                          mrca: (seq<int>, seq<string>, set<string>) -> Result<nat>)
  {
    Fits(s0) && |clades| == |names| && SearchInTree(mrca)
    && GraftAll(s0, clades, names, mrca).Ok? && s == GraftAll(s0, clades, names, mrca).value
  }

  /** Grafting every configured taxon into the tree of s0 throws, with message msg. */
  ghost predicate Fails(s0: Shape, clades: seq<set<string>>, names: seq<string>,
                        mrca: (seq<int>, seq<string>, set<string>) -> Result<nat>, msg: string)
  {
    Fits(s0) && |clades| == |names| && SearchInTree(mrca)
    && GraftAll(s0, clades, names, mrca).Err? && GraftAll(s0, clades, names, mrca).msg == msg
  }

  class BeastTreeFossiliser {
    var taxonName: seq<string>
    var subTaxonSets: seq<set<string>>

    constructor ()
      ensures taxonName == [] && subTaxonSets == []
    {
      taxonName := [];
      subTaxonSets := [];
    }

    /** processCfgFile: one name and one clade per non-blank line, in file order. */
    method ProcessCfgFile(cfg: string) returns (r: Result<()>)
      modifies this
      ensures var e := CfgEntries(Split(cfg, '\n'));
        (r.Ok? <==> e.Ok?) && (r.Err? ==> r.msg == e.msg)
        && (r.Ok? ==> (|taxonName| == |e.value| == |subTaxonSets|
             && forall k :: 0 <= k < |e.value| ==> taxonName[k] == e.value[k].name && subTaxonSets[k] == e.value[k].clade))
    {
      var entries := ReadCfg(cfg);
      if entries.Err? {
        return Err(entries.msg);
      }
      taxonName := seq(|entries.value|, k requires 0 <= k < |entries.value| => entries.value[k].name);
      subTaxonSets := seq(|entries.value|, k requires 0 <= k < |entries.value| => entries.value[k].clade);
      return Ok(());
    }

    /**
     * The per-tree step of `run`: every configured taxon, in file order, is grafted above the
     * node the MRCA search gives for its clade in the tree as already changed by the earlier
     * grafts; the first exception ends the step.
     */
    method FossiliseTree(t: Tree, mrca: (seq<int>, seq<string>, set<string>) -> Result<nat>) returns (r: Result<()>)
      requires t.Valid() && |taxonName| == |subTaxonSets| && SearchInTree(mrca)
      modifies t
      ensures t.Valid()
      ensures t.root == old(t.root) && t.externalNodes == old(t.externalNodes)
      ensures r.Ok? ==> Grafted(old(ShapeOf(t)), ShapeOf(t), subTaxonSets, taxonName, mrca)
      ensures r.Err? ==> Fails(old(ShapeOf(t)), subTaxonSets, taxonName, mrca, r.msg)
    {
      ghost var s0 := ShapeOf(t);
      var i := 0;
      while i < |taxonName|
        invariant 0 <= i <= |taxonName| && t.Valid()
        invariant t.root == old(t.root) && t.externalNodes == old(t.externalNodes)
        invariant GraftAll(s0, subTaxonSets, taxonName, mrca)
          == GraftAll(ShapeOf(t), subTaxonSets[i..], taxonName[i..], mrca)
      {
        ghost var s := ShapeOf(t);
        assert subTaxonSets[i..][0] == subTaxonSets[i] && taxonName[i..][0] == taxonName[i];
        assert subTaxonSets[i..][1..] == subTaxonSets[i + 1..] && taxonName[i..][1..] == taxonName[i + 1..];
        var src := mrca(t.parent, t.id, subTaxonSets[i]);
        if src.Err? {
          return Err(src.msg);
        }
        var g := Graft(t, src.value, taxonName[i]);
        if g.Err? {
          return g;
        }
        i := i + 1;
      }
      assert subTaxonSets[i..] == [] && taxonName[i..] == [];
      return Ok(());
    }

    /** Fossilises the i-th of a batch of distinct trees; the other trees are untouched. */
    method FossiliseAt(trees: seq<Tree>, i: nat, mrca: (seq<int>, seq<string>, set<string>) -> Result<nat>) returns (r: Result<()>)
      requires i < |trees| && |taxonName| == |subTaxonSets|
      requires SearchInTree(mrca)
      requires forall k :: 0 <= k < |trees| ==> trees[k].Valid()
      requires forall j, k :: 0 <= j < k < |trees| ==> trees[j] != trees[k]
      modifies trees[i]
      ensures forall k :: 0 <= k < |trees| ==> trees[k].Valid()
      ensures forall k :: 0 <= k < |trees| && k != i ==> unchanged(trees[k])
      ensures r.Ok? ==> Grafted(old(ShapeOf(trees[i])), ShapeOf(trees[i]), subTaxonSets, taxonName, mrca)
      ensures r.Err? ==> Fails(old(ShapeOf(trees[i])), subTaxonSets, taxonName, mrca, r.msg)
    {
      r := FossiliseTree(trees[i], mrca);
    }

    /**
     * run: the configuration is read, then every tree of the set, in order, is fossilised, until
     * one throws; the trees after it are untouched. Writing the trees out is not modelled.
     */
    method Run(cfg: string, trees: seq<Tree>, mrca: (seq<int>, seq<string>, set<string>) -> Result<nat>) returns (r: Result<()>)
      requires forall k :: 0 <= k < |trees| ==> trees[k].Valid()
      requires forall j, k :: 0 <= j < k < |trees| ==> trees[j] != trees[k]
      requires SearchInTree(mrca)
      modifies this, set k | 0 <= k < |trees| :: trees[k]
      ensures CfgEntries(Split(cfg, '\n')).Err? ==> r == Err(CfgEntries(Split(cfg, '\n')).msg)
      ensures forall k :: 0 <= k < |trees| ==> trees[k].Valid()
      ensures r.Ok? ==> (CfgEntries(Split(cfg, '\n')).Ok? && |taxonName| == |CfgEntries(Split(cfg, '\n')).value|
        && forall k :: 0 <= k < |trees| ==> Grafted(old(ShapeOf(trees[k])), ShapeOf(trees[k]), subTaxonSets, taxonName, mrca))
      ensures r.Err? && CfgEntries(Split(cfg, '\n')).Ok? ==> exists k :: (0 <= k < |trees|
        && Fails(old(ShapeOf(trees[k])), subTaxonSets, taxonName, mrca, r.msg)
        && (forall j :: 0 <= j < k ==> Grafted(old(ShapeOf(trees[j])), ShapeOf(trees[j]), subTaxonSets, taxonName, mrca))
        && (forall j :: k < j < |trees| ==> unchanged(trees[j])))
    {
      r := ProcessCfgFile(cfg);
      if r.Err? {
        return;
      }
      var i := 0;
      while i < |trees|
        invariant 0 <= i <= |trees| && |taxonName| == |subTaxonSets|
        invariant |taxonName| == |CfgEntries(Split(cfg, '\n')).value| && CfgEntries(Split(cfg, '\n')).Ok? && r.Ok?
        invariant forall k :: 0 <= k < |trees| ==> trees[k].Valid()
        invariant forall k :: i <= k < |trees| ==> unchanged(trees[k])
        invariant forall k :: 0 <= k < i ==> Grafted(old(ShapeOf(trees[k])), ShapeOf(trees[k]), subTaxonSets, taxonName, mrca)
      {
        r := FossiliseAt(trees, i, mrca);
        if r.Err? {
          return;
        }
        i := i + 1;
      }
    }
  }
}

=== FILE: Common.dfy ===
/** Values and arithmetic helpers shared by every component of the model. */
module Common {

  /** A value or nothing (Java's null). */
  datatype Option<T> = None | Some(value: T)

  /** A value, or the message of the exception the Java code throws instead. */
  datatype Result<T> = Ok(value: T) | Err(msg: string)

  /** A log-probability that may be Double.NEGATIVE_INFINITY. */
  datatype ExtReal = NegInf | Finite(r: real)

  /** Left-to-right sum, in the order the source's accumulating loops add. */
  function Sum(xs: seq<real>): real
  {
    if |xs| == 0 then 0.0 else Sum(xs[..|xs| - 1]) + xs[|xs| - 1]
  }

  function RealMax(a: real, b: real): real
  {
    if a >= b then a else b
  }

  /** `max = xs[0]; for (d : xs) max = Math.max(d, max);` */
  function Max(xs: seq<real>): real
    requires |xs| > 0
  {
    if |xs| == 1 then xs[0] else RealMax(xs[|xs| - 1], Max(xs[..|xs| - 1]))
  }

  /** The maximum bounds every element and is one of them. */
  lemma {:induction false} MaxIsMaximum(xs: seq<real>)
    requires |xs| > 0
    ensures forall k :: 0 <= k < |xs| ==> xs[k] <= Max(xs)
    ensures exists k :: 0 <= k < |xs| && xs[k] == Max(xs)
  {
    if |xs| == 1 {
      assert xs[0] == Max(xs);
    } else {
      var n := |xs| - 1;
      var init := xs[..n];
      MaxIsMaximum(init);
      assert forall k :: 0 <= k < n ==> init[k] == xs[k];
      var w :| 0 <= w < n && init[w] == Max(init);
      assert Max(xs) == RealMax(xs[n], Max(init));
      if xs[n] >= Max(init) {
        assert xs[n] == Max(xs);
      } else {
        assert xs[w] == Max(xs);
      }
    }
  }

  /** Sum is additive over concatenation. */
  lemma {:induction false} SumAppend(xs: seq<real>, ys: seq<real>)
    ensures Sum(xs + ys) == Sum(xs) + Sum(ys)
  {
    if |ys| > 0 {
      assert (xs + ys)[..|xs + ys| - 1] == xs + ys[..|ys| - 1];
      SumAppend(xs, ys[..|ys| - 1]);
    } else {
      assert xs + ys == xs;
    }
  }

  /** Dividing every term divides the sum. */
  lemma {:induction false} SumScaled(xs: seq<real>, ys: seq<real>, d: real)
    requires d != 0.0
    requires |xs| == |ys|
    requires forall k :: 0 <= k < |xs| ==> ys[k] == xs[k] / d
    ensures Sum(ys) == Sum(xs) / d
  {
    if |xs| > 0 {
      var n := |xs| - 1;
      SumScaled(xs[..n], ys[..n], d);
      assert Sum(ys) == Sum(xs[..n]) / d + xs[n] / d;
    }
  }

  /** Two sequences that agree everywhere have the same sum. */
  lemma SumPointwise(xs: seq<real>, ys: seq<real>)
    requires |xs| == |ys|
    requires forall k :: 0 <= k < |xs| ==> xs[k] == ys[k]
    ensures Sum(xs) == Sum(ys)
  {
    assert xs == ys;
  }

  /** Number of true entries. */
  function CountTrue(s: seq<bool>): nat
  {
    if |s| == 0 then 0 else CountTrue(s[..|s| - 1]) + (if s[|s| - 1] then 1 else 0)
  }

  /** Setting one false entry to true adds exactly one. */
  lemma {:induction false} CountTrueSet(s: seq<bool>, i: nat)
    requires i < |s| && !s[i]
    ensures CountTrue(s[i := true]) == CountTrue(s) + 1
  {
    var n := |s| - 1;
    if i == n {
      assert s[i := true][..n] == s[..n];
    } else {
      assert s[i := true][..n] == s[..n][i := true];
      CountTrueSet(s[..n], i);
    }
  }

  /** Decimal digits of a natural number, as Java prints an int. */
  function NatToString(n: nat): (r: string)
    ensures |r| > 0
    ensures forall k :: 0 <= k < |r| ==> '0' <= r[k] <= '9'
  {
    if n < 10 then [DigitChar(n)] else NatToString(n / 10) + [DigitChar(n % 10)]
  }

  /** Java's decimal form of an int: a minus sign before the digits of a negative value. */
  function IntToString(n: int): (r: string)
    ensures |r| > 0 && (r[0] == '-' <==> n < 0)
  {
    if n < 0 then "-" + NatToString(-n) else NatToString(n)
  }

  function DigitChar(d: nat): (c: char)
    requires d < 10
    ensures '0' <= c <= '9' && c as int - '0' as int == d
  {
    ('0' as int + d) as char
  }

  lemma MulMonotone(x: int, y: int, m: int)
    requires x <= y && m >= 0
    ensures x * m <= y * m
  {
    assert (y - x) * m >= 0;
  }

  /** Quotient and remainder are determined by a == q·m + r with 0 <= r < m. */
  lemma DivModUnique(a: int, m: int, q: int, r: int)
    requires m > 0 && 0 <= r < m && a == q * m + r
    ensures a / m == q && a % m == r
  {
    var q', r' := a / m, a % m;
    assert a == q' * m + r';
    assert (q - q') * m == r' - r;
    if q - q' >= 1 {
      MulMonotone(1, q - q', m);
    } else if q' - q >= 1 {
      MulMonotone(1, q' - q, m);
    }
  }

  lemma DivAdd(a: real, b: real, e: real)
    requires e != 0.0
    ensures (a + b) / e == a / e + b / e
  {
  }

  lemma NegDivMul(g: real, f: real, e: real)
    requires e != 0.0
    ensures -(g / e) * f == (-g * f) / e
  {
  }

  /** Java's int `/`, which truncates toward zero (Dafny's `/` is Euclidean). */
  function JavaDiv(a: int, b: int): (q: int)
    requires b != 0
  {
    if a >= 0 then
      (if b > 0 then a / b else -(a / -b))
    else
      (if b > 0 then -((-a) / b) else (-a) / (-b))
  }

  /** A java.io.PrintStream reduced to the strings printed to it, in order. */
  class PrintStream {
    var printed: seq<string>

    constructor ()
      ensures printed == []
    {
      printed := [];
    }

    method Print(s: string)
      modifies this
      ensures printed == old(printed) + [s]
    {
      printed := printed + [s];
    }
  }
}

/** Messages of the Java runtime exceptions the model's error paths stand for. */
module JavaErrors {
  const ArrayIndexOutOfBounds: string := "java.lang.ArrayIndexOutOfBoundsException"
  const IndexOutOfBounds: string := "java.lang.IndexOutOfBoundsException"
  const NullPointer: string := "java.lang.NullPointerException"
  const StringIndexOutOfBounds: string := "java.lang.StringIndexOutOfBoundsException"
}

=== FILE: CompoundAlignment.dfy ===
/**
 * An alignment whose every taxon has one compound state: the values of the component alignment's
 * sites, read as the digits of a mixed-radix number with the first site most significant. The
 * component sizes come from a compound data type that is given or, with the default data type,
 * are guessed from the data as one more than the largest value at each site.
 */
module Compound {
  import opened Common
  import opened JavaErrors
  import opened JavaText

  /**
   * A component alignment as it is stored: the taxon names, the table of site patterns (each
   * pattern holds one value per taxon) and, per site, the index of that site's pattern. Sites
   * with the same values share one pattern.
   */
  datatype Alignment = Alignment(taxa: seq<string>, patterns: seq<seq<int>>, patternIndex: seq<int>)

  /** getSiteCount: one pattern index per site. */
  function SiteCount(a: Alignment): nat
  {
    |a.patternIndex|
  }

  /** Every pattern has one value per taxon and every site names a pattern of the table. */
  predicate WellFormed(a: Alignment)
  {
    (forall p :: 0 <= p < |a.patterns| ==> |a.patterns[p]| == |a.taxa|)
    && forall s :: 0 <= s < |a.patternIndex| ==> 0 <= a.patternIndex[s] < |a.patterns|
  }

  /** getPattern(getPatternIndex(site)): the values at one site, taxon by taxon. */
  function Column(a: Alignment, site: nat): (col: seq<int>)
    requires WellFormed(a) && site < SiteCount(a)
    ensures |col| == |a.taxa| && col in a.patterns
  {
    a.patterns[a.patternIndex[site]]
  }

  /** The values of one taxon, site by site: its sequence in the alignment. */
  function Row(a: Alignment, t: nat): (row: seq<int>)
    requires WellFormed(a) && t < |a.taxa|
    ensures |row| == SiteCount(a) && forall s :: 0 <= s < SiteCount(a) ==> row[s] == Column(a, s)[t]
  {
    seq(SiteCount(a), s requires 0 <= s < SiteCount(a) => Column(a, s)[t])
  }

  /** The size guessed for a site, scanning its values in order and raising the guess past each value it does not exceed. */
  function GuessedSize(col: seq<int>): int
  {
    if |col| == 0 then 0
    else
      var g := GuessedSize(col[..|col| - 1]);
      if col[|col| - 1] >= g then col[|col| - 1] + 1 else g
  }

  /** The guess is 1 + the largest value, or 0 when there is no non-negative value: the least non-negative bound above every value. */
  lemma {:induction false} GuessedSizeIsLeastBound(col: seq<int>)
    ensures GuessedSize(col) >= 0
    ensures forall t :: 0 <= t < |col| ==> col[t] < GuessedSize(col)
    ensures GuessedSize(col) == 0 || GuessedSize(col) - 1 in col
  {
    if |col| > 0 {
      GuessedSizeIsLeastBound(col[..|col| - 1]);
      assert forall t :: 0 <= t < |col| - 1 ==> col[t] == col[..|col| - 1][t];
      if GuessedSize(col[..|col| - 1]) > 0 && col[|col| - 1] < GuessedSize(col[..|col| - 1]) {
        assert GuessedSize(col[..|col| - 1]) - 1 in col[..|col| - 1];
      }
    }
  }

  /** guessSizes: one guessed size per site. */
  method GuessSizes(a: Alignment) returns (sizes: array<int>)
    requires WellFormed(a)
    ensures fresh(sizes) && sizes.Length == SiteCount(a)
    ensures forall s :: 0 <= s < SiteCount(a) ==> sizes[s] == GuessedSize(Column(a, s))
  {
    sizes := new int[SiteCount(a)];
    for site := 0 to SiteCount(a)
      invariant forall s :: 0 <= s < site ==> sizes[s] == GuessedSize(Column(a, s))
    {
      sizes[site] := ColumnSize(a, site);
    }
  }

  /** The inner loop of guessSizes over one site's pattern. */
  method ColumnSize(a: Alignment, site: nat) returns (g: int)
    requires WellFormed(a) && site < SiteCount(a)
    ensures g == GuessedSize(Column(a, site))
  {
    var col := a.patterns[a.patternIndex[site]];
    g := 0;
    for t := 0 to |col|
      invariant g == GuessedSize(col[..t])
    {
      assert col[..t + 1][..t] == col[..t];
      if col[t] >= g {
        g := col[t] + 1;
      }
    }
    assert col[..|col|] == col;
  }

  /** The product of the sizes. */
  function Product(sizes: seq<int>): int
  {
    if |sizes| == 0 then 1 else Product(sizes[..|sizes| - 1]) * sizes[|sizes| - 1]
  }

  /** The Horner fold acc·size[s] + value[s] from 0, first site most significant. */
  function Encode(sizes: seq<int>, vals: seq<int>): (e: int)
    requires |vals| == |sizes|
    ensures (forall s :: 0 <= s < |vals| ==> vals[s] == 0) ==> e == 0
  {
    if |vals| == 0 then 0
    else Encode(sizes[..|sizes| - 1], vals[..|vals| - 1]) * sizes[|sizes| - 1] + vals[|vals| - 1]
  }

  /** Every value is a digit of its site: 0 ≤ value < size. */
  predicate Digits(sizes: seq<int>, vals: seq<int>)
  {
    |vals| == |sizes| && forall s :: 0 <= s < |vals| ==> 0 <= vals[s] < sizes[s]
  }

  /** The digits of a code, last site least significant: the inverse of Encode. */
  function Decode(sizes: seq<int>, code: int): (vals: seq<int>)
    requires forall s :: 0 <= s < |sizes| ==> sizes[s] > 0
    ensures |vals| == |sizes|
  {
    if |sizes| == 0 then []
    else
      var m := sizes[|sizes| - 1];
      Decode(sizes[..|sizes| - 1], code / m) + [code % m]
  }

  /** Digit tuples encode into [0, product of sizes). */
  lemma {:induction false} EncodeBound(sizes: seq<int>, vals: seq<int>)
    requires Digits(sizes, vals)
    ensures 0 <= Encode(sizes, vals) < Product(sizes)
  {
    if |vals| > 0 {
      var n := |vals| - 1;
      var ss, vs := sizes[..n], vals[..n];
      assert Digits(ss, vs);
      EncodeBound(ss, vs);
      var e, p, m := Encode(ss, vs), Product(ss), sizes[n];
      MulMonotone(e, p - 1, m);
      MulMonotone(0, e, m);
      assert (p - 1) * m + m == p * m;
    }
  }

  /** Decoding an encoded digit tuple gives it back. */
  lemma {:induction false} DecodeEncode(sizes: seq<int>, vals: seq<int>)
    requires Digits(sizes, vals)
    ensures Decode(sizes, Encode(sizes, vals)) == vals
  {
    if |vals| > 0 {
      var n := |vals| - 1;
      var ss, vs := sizes[..n], vals[..n];
      assert Digits(ss, vs);
      DecodeEncode(ss, vs);
      EncodeBound(ss, vs);
      DivModUnique(Encode(sizes, vals), sizes[n], Encode(ss, vs), vals[n]);
      assert vals == vs + [vals[n]];
    }
  }

  /** Distinct digit tuples get distinct codes. */
  lemma EncodeInjective(sizes: seq<int>, a: seq<int>, b: seq<int>)
    requires Digits(sizes, a) && Digits(sizes, b)
    requires Encode(sizes, a) == Encode(sizes, b)
    ensures a == b
  {
    DecodeEncode(sizes, a);
    DecodeEncode(sizes, b);
  }

  /** The data type inputs: a compound user data type with its component sizes, the default nucleotide type, or another type. */
  datatype DataTypeChoice = UserCompound(sizes: seq<int>) | DefaultNucleotide | OtherType

  const WrongDataType: string := "CompoundAlignment data type is either a CompoundDataType or derived from Alignment and may not be specified otherwise"
  const SiteWeightsGiven: string := "No need to specify siteWeights for only one site, did you do something wrong?"

  /** The message of a first taxon whose state count is not the data type's. */
  function SizeMismatch(dataTypeStates: int, maxStateCount: int): (msg: string)
    ensures StartsWith(msg, "Size of data type (")
  {
    "Size of data type (" + IntToString(dataTypeStates) + ") and of alignments ("
      + IntToString(maxStateCount) + ") do not match"
  }

  /** The component sizes of the data type chosen: the user's, the guessed ones, or none for another type. */
  function ChosenSizes(a: Alignment, choice: DataTypeChoice): (r: Result<seq<int>>)
    requires WellFormed(a)
    ensures choice.UserCompound? ==> r == Ok(choice.sizes)
    ensures choice.DefaultNucleotide? ==> (r.Ok? && |r.value| == SiteCount(a)
      && forall s :: 0 <= s < SiteCount(a) ==> r.value[s] == GuessedSize(Column(a, s)))
    ensures choice.OtherType? ==> r == Err(WrongDataType)
  {
    match choice
    case UserCompound(sizes) => Ok(sizes)
    case DefaultNucleotide => Ok(seq(SiteCount(a), s requires 0 <= s < SiteCount(a) => GuessedSize(Column(a, s))))
    case OtherType => Err(WrongDataType)
  }

  /** The guessed sizes bound every value, so with the default type every row of state indices is a digit tuple. */
  lemma GuessedSizesHoldDigits(a: Alignment, t: nat)
    requires WellFormed(a) && t < |a.taxa|
    requires forall s :: 0 <= s < SiteCount(a) ==> Column(a, s)[t] >= 0
    ensures Digits(ChosenSizes(a, DefaultNucleotide).value, Row(a, t))
  {
    var sizes := ChosenSizes(a, DefaultNucleotide).value;
    forall s | 0 <= s < SiteCount(a)
      ensures 0 <= Row(a, t)[s] < sizes[s]
    {
      GuessedSizeIsLeastBound(Column(a, s));
    }
  }

  /**
   * With guessed sizes and non-negative values, every taxon's code decodes back to its values
   * at every site, in site order: no two taxa with different sequences share a code.
   */
  lemma GuessedCodesRecoverRows(a: Alignment, t: nat)
    requires WellFormed(a) && t < |a.taxa|
    requires forall s :: 0 <= s < SiteCount(a) ==> Column(a, s)[t] >= 0
    ensures var sizes := ChosenSizes(a, DefaultNucleotide).value;
      Digits(sizes, Row(a, t)) && sizes[..SiteCount(a)] == sizes
      && Decode(sizes, Encode(sizes, Row(a, t))) == Row(a, t)
  {
    var sizes := ChosenSizes(a, DefaultNucleotide).value;
    GuessedSizesHoldDigits(a, t);
    assert sizes[..SiteCount(a)] == sizes;
    DecodeEncode(sizes, Row(a, t));
  }

  class CompoundAlignment {
    var taxaNames: seq<string>
    /** Per taxon, its one-site sequence. */
    var counts: seq<seq<int>>
    /** Per taxon, its state count. */
    var stateCounts: seq<int>
    var maxStateCount: int
    /** The component sizes of the chosen compound data type; its state count is their product. */
    var componentSizes: seq<int>

    constructor ()
      ensures taxaNames == [] && counts == [] && stateCounts == [] && maxStateCount == 0 && componentSizes == []
    {
      taxaNames := [];
      counts := [];
      stateCounts := [];
      maxStateCount := 0;
      componentSizes := [];
    }

    /**
     * The private initAndValidate on a component alignment: the data type is chosen, every taxon
     * gets one site holding the Horner code of its row and the compound state count, and the
     * first taxon's state count must equal the data type's. No taxa (the first state count cannot
     * be read), fewer sizes than sites, another data type or given site weights are errors.
     * The codes fold each site's value, read through the site's pattern; the loops as written
     * read pattern number `site` instead, which EncodeRowsAsWritten keeps apart.
     */
    method InitAndValidate(a: Alignment, choice: DataTypeChoice, siteWeights: bool) returns (r: Result<()>)
      requires WellFormed(a) && counts == [] && stateCounts == []
      modifies this
      ensures var sizes := ChosenSizes(a, choice);
        r.Ok? <==> sizes.Ok? && |a.taxa| > 0 && |sizes.value| >= SiteCount(a) && !siteWeights
      ensures r.Ok? ==>
        var sizes := ChosenSizes(a, choice).value;
        componentSizes == sizes && taxaNames == a.taxa
        && maxStateCount == Product(sizes)
        && |counts| == |a.taxa| == |stateCounts|
        && forall t :: 0 <= t < |a.taxa| ==>
             counts[t] == [Encode(sizes[..SiteCount(a)], Row(a, t))] && stateCounts[t] == Product(sizes)
      ensures r.Err? ==>
        r.msg == (if choice.OtherType? then WrongDataType
                  else if |a.taxa| > 0 && |ChosenSizes(a, choice).value| < SiteCount(a) then ArrayIndexOutOfBounds
                  else if |a.taxa| == 0 then IndexOutOfBounds
                  else SiteWeightsGiven)
    {
      var sizes: seq<int>;
      match choice {
        case UserCompound(s) => sizes := s;
        case DefaultNucleotide =>
          var guessed := GuessSizes(a);
          sizes := guessed[..];
        case OtherType => return Err(WrongDataType);
      }
      componentSizes := sizes;
      taxaNames := a.taxa;
      maxStateCount := 1;
      var stateCount := Product(sizes);
      var n := |a.taxa|;
      for i := 0 to n
        invariant counts == seq(i, _ => [0]) && stateCounts == seq(i, _ => stateCount)
        invariant componentSizes == sizes && taxaNames == a.taxa
      {
        counts := counts + [[0]];
        stateCounts := stateCounts + [stateCount];
      }
      if n > 0 && |sizes| < SiteCount(a) {
        return Err(ArrayIndexOutOfBounds);
      }
      var codes := EncodeRows(a, sizes);
      counts := seq(n, t requires 0 <= t < n => [codes[t]]);
      if n == 0 {
        return Err(IndexOutOfBounds);
      }
      maxStateCount := stateCounts[0];
      if maxStateCount != Product(componentSizes) {
        return Err(SizeMismatch(Product(componentSizes), maxStateCount));
      }
      if siteWeights {
        return Err(SiteWeightsGiven);
      }
      return Ok(());
    }

    /**
     * The encoding loops, with each site's value read through the site's pattern as guessSizes
     * reads it: per taxon, acc := acc·size[site] + value from 0 over the sites.
     */
    static method EncodeRows(a: Alignment, sizes: seq<int>) returns (codes: seq<int>)
      requires WellFormed(a) && (|a.taxa| == 0 || |sizes| >= SiteCount(a))
      ensures |codes| == |a.taxa|
      ensures forall t :: 0 <= t < |a.taxa| ==> codes[t] == Encode(sizes[..SiteCount(a)], Row(a, t))
    {
      codes := [];
      for t := 0 to |a.taxa|
        invariant |codes| == t
        invariant forall k :: 0 <= k < t ==> codes[k] == Encode(sizes[..SiteCount(a)], Row(a, k))
      {
        var acc := 0;
        ghost var row := Row(a, t);
        for site := 0 to SiteCount(a)
          invariant acc == Encode(sizes[..site], row[..site])
        {
          assert sizes[..site + 1][..site] == sizes[..site] && row[..site + 1][..site] == row[..site];
          acc := acc * sizes[site] + a.patterns[a.patternIndex[site]][t];
        }
        assert row[..SiteCount(a)] == row;
        codes := codes + [acc];
      }
    }

    /**
     * The encoding loops as they are written: the value folded at site s of a taxon is that
     * taxon's entry of pattern number s. The size of the site is read first, then the pattern.
     */
    static method EncodeRowsAsWritten(a: Alignment, sizes: seq<int>) returns (r: Result<seq<int>>)
      requires WellFormed(a)
      ensures r == EncodeAsWritten(a, sizes)
    {
      var n := SiteCount(a);
      var codes: seq<int> := [];
      for t := 0 to |a.taxa|
        invariant |codes| == t
        invariant t > 0 ==> |sizes| >= n && |a.patterns| >= n
        invariant forall k :: 0 <= k < t ==> codes[k] == Encode(sizes[..n], BySiteNumber(a, k, n))
      {
        var acc := 0;
        for site := 0 to n
          invariant site <= |sizes| && site <= |a.patterns|
          invariant acc == Encode(sizes[..site], BySiteNumber(a, t, site))
        {
          if site >= |sizes| || site >= |a.patterns| {
            return Err(ArrayIndexOutOfBounds);
          }
          assert sizes[..site + 1][..site] == sizes[..site];
          assert BySiteNumber(a, t, site + 1)[..site] == BySiteNumber(a, t, site);
          acc := acc * sizes[site] + a.patterns[site][t];
        }
        codes := codes + [acc];
      }
      assert |a.taxa| > 0 ==> |sizes| >= n && |a.patterns| >= n;
      assert codes == EncodeAsWritten(a, sizes).value;
      return Ok(codes);
    }
  }

  /** A taxon's entries of patterns 0, 1, …, m − 1: what the loops as written take for its first m sites. */
  function BySiteNumber(a: Alignment, t: nat, m: nat): (vals: seq<int>)
    requires WellFormed(a) && t < |a.taxa| && m <= |a.patterns|
    ensures |vals| == m && forall s :: 0 <= s < m ==> vals[s] == a.patterns[s][t]
  {
    seq(m, s requires 0 <= s < m => a.patterns[s][t])
  }

  /**
   * What the encoding loops as written compute: an index error as soon as a site number has no
   * size or no pattern of that number, otherwise per taxon the Horner code of its entries of
   * patterns 0, 1, …, one per site.
   */
  function EncodeAsWritten(a: Alignment, sizes: seq<int>): (r: Result<seq<int>>)
    requires WellFormed(a)
    ensures r.Err? <==> |a.taxa| > 0 && (|sizes| < SiteCount(a) || |a.patterns| < SiteCount(a))
    ensures r.Err? ==> r.msg == ArrayIndexOutOfBounds
    ensures r.Ok? ==> |r.value| == |a.taxa|
  {
    var n := SiteCount(a);
    if |a.taxa| > 0 && (|sizes| < n || |a.patterns| < n) then Err(ArrayIndexOutOfBounds)
    else Ok(seq(|a.taxa|, t requires 0 <= t < |a.taxa| => Encode(sizes[..n], BySiteNumber(a, t, n))))
  }

  /**
   * When every site is stored as the pattern of its own number, the loops as written read every
   * site's value and give the same codes as reading through the pattern index.
   */
  lemma AsWrittenAgreesOnOwnPatterns(a: Alignment, sizes: seq<int>)
    requires WellFormed(a) && |sizes| >= SiteCount(a)
    requires forall s :: 0 <= s < SiteCount(a) ==> a.patternIndex[s] == s
    ensures EncodeAsWritten(a, sizes).Ok?
    ensures forall t :: 0 <= t < |a.taxa| ==>
      EncodeAsWritten(a, sizes).value[t] == Encode(sizes[..SiteCount(a)], Row(a, t))
  {
    var n := SiteCount(a);
    if n > 0 {
      assert a.patternIndex[n - 1] == n - 1;
    }
    forall t | 0 <= t < |a.taxa|
      ensures EncodeAsWritten(a, sizes).value[t] == Encode(sizes[..n], Row(a, t))
    {
      assert BySiteNumber(a, t, n) == Row(a, t);
    }
  }

  /**
   * Two taxa and two sites with the same values, so one pattern: the loops as written look for
   * a second pattern and throw, where the taxa's values give the codes 3 and 0.
   */
  lemma AsWrittenRepeatedSite()
    ensures var a := Alignment(["A", "B"], [[1, 0]], [0, 0]);
      WellFormed(a) && Row(a, 0) == [1, 1] && Row(a, 1) == [0, 0]
      && EncodeAsWritten(a, [2, 2]) == Err(ArrayIndexOutOfBounds)
      && Encode([2, 2], Row(a, 0)) == 3 && Encode([2, 2], Row(a, 1)) == 0
  {
    var a := Alignment(["A", "B"], [[1, 0]], [0, 0]);
    assert Row(a, 0) == [1, 1] && Row(a, 1) == [0, 0];
    assert [2, 2][..1] == [2] && [1, 1][..1] == [1] && [0, 0][..1] == [0];
  }

  /** The alignment of the swap example: sites (1, 0) and (0, 1), stored as patterns [(0, 1), (1, 0)]. */
  const SwapExample: Alignment := Alignment(["A", "B"], [[0, 1], [1, 0]], [1, 0])

  /** The taxa's values in the swap example, site by site. */
  lemma SwapExampleRows()
    ensures WellFormed(SwapExample) && Row(SwapExample, 0) == [1, 0] && Row(SwapExample, 1) == [0, 1]
  {
    assert Row(SwapExample, 0) == [1, 0];
    assert Row(SwapExample, 1) == [0, 1];
  }

  /** The codes the loops as written give the swap example. */
  lemma SwapExampleAsWritten()
    ensures EncodeAsWritten(SwapExample, [2, 2]) == Ok([1, 2])
  {
    var a := SwapExample;
    assert [2, 2][..2] == [2, 2];
    assert BySiteNumber(a, 0, 2) == [0, 1];
    assert BySiteNumber(a, 1, 2) == [1, 0];
    assert Encode([2, 2], [0, 1]) == 1 by {
      assert [2, 2][..1] == [2] && [0, 1][..1] == [0];
    }
    assert Encode([2, 2], [1, 0]) == 2 by {
      assert [2, 2][..1] == [2] && [1, 0][..1] == [1];
    }
    assert SiteCount(a) == 2 && |a.patterns| == 2;
    var r := EncodeAsWritten(a, [2, 2]);
    assert r.Ok? && |r.value| == 2;
    assert r.value[0] == 1 && r.value[1] == 2;
    assert r.value == [1, 2];
  }

  /**
   * In the swap example the loops as written give the two taxa each other's codes: taxon A,
   * whose values are (1, 0), gets 1 instead of 2, and taxon B gets 2 instead of 1.
   */
  lemma AsWrittenSwapsCodes()
    ensures WellFormed(SwapExample) && Row(SwapExample, 0) == [1, 0] && Row(SwapExample, 1) == [0, 1]
    ensures Encode([2, 2], Row(SwapExample, 0)) == 2 && Encode([2, 2], Row(SwapExample, 1)) == 1
    ensures EncodeAsWritten(SwapExample, [2, 2]) == Ok([1, 2])
  {
    SwapExampleRows();
    SwapExampleAsWritten();
    assert Encode([2, 2], [1, 0]) == 2 by {
      assert [2, 2][..1] == [2] && [1, 0][..1] == [1];
    }
    assert Encode([2, 2], [0, 1]) == 1 by {
      assert [2, 2][..1] == [2] && [0, 1][..1] == [0];
    }
  }
}

=== FILE: CompoundTraitProvider.dfy ===
/**
 * The BEAUti provider for a compound trait: a tab-separated file with a taxon and two trait
 * values per line becomes a trait string "taxon=v1-v2,..." and a four-state user data type whose
 * code map gives each pair of values one of the states 0 to 3.
 *
 * A null return after an alert is `Ok(None)`; an exception is `Err`. The iteration order of a
 * Java HashSet is a parameter, any order that lists each element once.
 */
module CompoundTraitProvider {
  import opened Common
  import opened JavaErrors
  import opened JavaText

  // ---------------------------------------------------------------------------------------------
  // Reading the data lines

  /** A data line with at least three tab fields: the taxon and its two trait values. */
  datatype TraitRow = TraitRow(taxon: string, v1: string, v2: string)

  /** The row a line holds; lines with fewer than three tab fields are skipped. */
  function RowOf(line: string): (r: Option<TraitRow>)
    ensures r.Some? <==> |Split(line, '\t')| >= 3
  {
    var f := Split(line, '\t');
    if |f| >= 3 then Some(TraitRow(f[0], f[1], f[2])) else None
  }

  /** The rows of the lines that are not skipped, in order. */
  function UsedRows(lines: seq<string>): (r: seq<TraitRow>)
    ensures |r| <= |lines|
  {
    if |lines| == 0 then []
    else
      var before := UsedRows(lines[..|lines| - 1]);
      match RowOf(lines[|lines| - 1])
      case None => before
      case Some(row) => before + [row]
  }

  /** The trait string's entry for one row. */
  function Entry(row: TraitRow): string
  {
    row.taxon + "=" + row.v1 + "-" + row.v2 + ",\n"
  }

  function Entries(rows: seq<TraitRow>): (r: string)
    ensures |rows| > 0 ==> |r| >= 2 && r[|r| - 1] == '\n' && r[|r| - 2] == ','
    ensures |rows| == 0 ==> r == ""
  {
    if |rows| == 0 then "" else Entries(rows[..|rows| - 1]) + Entry(rows[|rows| - 1])
  }

  /** The taxa the rows name. */
  function TaxaOf(rows: seq<TraitRow>): (r: set<string>)
    ensures forall i :: 0 <= i < |rows| ==> rows[i].taxon in r
  {
    if |rows| == 0 then {} else TaxaOf(rows[..|rows| - 1]) + {rows[|rows| - 1].taxon}
  }

  /** A taxon in TaxaOf(rows) is the taxon of one of the rows. */
  lemma {:induction false} TaxaOfMember(rows: seq<TraitRow>, x: string)
    requires x in TaxaOf(rows)
    ensures exists i :: 0 <= i < |rows| && rows[i].taxon == x
  {
    var n := |rows| - 1;
    if rows[n].taxon != x {
      TaxaOfMember(rows[..n], x);
      var i :| 0 <= i < n && rows[..n][i].taxon == x;
      assert rows[i].taxon == x;
    }
  }

  /** The first-trait values of the rows. */
  function FirstValues(rows: seq<TraitRow>): (r: set<string>)
    ensures forall i :: 0 <= i < |rows| ==> rows[i].v1 in r
  {
    if |rows| == 0 then {} else FirstValues(rows[..|rows| - 1]) + {rows[|rows| - 1].v1}
  }

  /** The second-trait values of the rows. */
  function SecondValues(rows: seq<TraitRow>): (r: set<string>)
    ensures forall i :: 0 <= i < |rows| ==> rows[i].v2 in r
  {
    if |rows| == 0 then {} else SecondValues(rows[..|rows| - 1]) + {rows[|rows| - 1].v2}
  }

  /** The rows name taxa of the tree, each at most once. */
  predicate RowsAccepted(rows: seq<TraitRow>, taxa: seq<string>)
  {
    (forall i :: 0 <= i < |rows| ==> rows[i].taxon in taxa)
    && forall i, j :: 0 <= i < j < |rows| ==> rows[i].taxon != rows[j].taxon
  }

  /** What the line loop has gathered: taxa done, the trait text, and the two value sets. */
  datatype Scan = Scan(done: set<string>, text: string, values1: set<string>, values2: set<string>)

  /** The line loop of processTrait; None where a duplicate or unknown taxon returns null. */
  function ScanLines(lines: seq<string>, taxa: seq<string>): Option<Scan>
  {
    if |lines| == 0 then Some(Scan({}, "", {}, {}))
    else
      var before := ScanLines(lines[..|lines| - 1], taxa);
      if before.None? then None
      else
        match RowOf(lines[|lines| - 1])
        case None => before
        case Some(row) =>
          var s := before.value;
          if row.taxon in s.done || row.taxon !in taxa then None
          else Some(Scan(s.done + {row.taxon}, s.text + Entry(row), s.values1 + {row.v1}, s.values2 + {row.v2}))
  }

  /**
   * The scan succeeds exactly when the used rows name known taxa, each once; it then holds their
   * entries in order, their taxa and the sets of their first and second values.
   */
  lemma {:induction false} ScanMeaning(lines: seq<string>, taxa: seq<string>)
    ensures ScanLines(lines, taxa).Some? <==> RowsAccepted(UsedRows(lines), taxa)
    ensures ScanLines(lines, taxa).Some? ==>
      ScanLines(lines, taxa).value == Scan(TaxaOf(UsedRows(lines)), Entries(UsedRows(lines)),
                                           FirstValues(UsedRows(lines)), SecondValues(UsedRows(lines)))
  {
    if |lines| > 0 {
      var init := lines[..|lines| - 1];
      ScanMeaning(init, taxa);
      var before := UsedRows(init);
      match RowOf(lines[|lines| - 1]) {
        case None =>
        case Some(row) =>
          var rows := before + [row];
          assert UsedRows(lines) == rows;
          assert rows[..|rows| - 1] == before;
          if ScanLines(init, taxa).Some? {
            AcceptedStep(before, row, taxa);
          } else {
            AcceptedPrefix(before, row, taxa);
          }
      }
    }
  }

  /** One more row keeps the rows accepted exactly when its taxon is known and new. */
  lemma AcceptedStep(before: seq<TraitRow>, row: TraitRow, taxa: seq<string>)
    requires RowsAccepted(before, taxa)
    ensures RowsAccepted(before + [row], taxa) <==> row.taxon !in TaxaOf(before) && row.taxon in taxa
  {
    var rows := before + [row];
    assert forall i :: 0 <= i < |before| ==> rows[i] == before[i];
    if row.taxon in TaxaOf(before) {
      TaxaOfMember(before, row.taxon);
      var i :| 0 <= i < |before| && before[i].taxon == row.taxon;
      assert rows[i].taxon == rows[|before|].taxon;
    } else if row.taxon in taxa {
      forall i, j | 0 <= i < j < |rows|
        ensures rows[i].taxon != rows[j].taxon
      {
        if j == |before| {
          assert rows[i].taxon in TaxaOf(before);
        }
      }
    } else {
      assert rows[|before|].taxon !in taxa;
    }
  }

  /** Rows that are not accepted stay so when more rows follow. */
  lemma AcceptedPrefix(before: seq<TraitRow>, row: TraitRow, taxa: seq<string>)
    requires !RowsAccepted(before, taxa)
    ensures !RowsAccepted(before + [row], taxa)
  {
    var rows := before + [row];
    assert forall i :: 0 <= i < |before| ==> rows[i] == before[i];
    if !(forall i :: 0 <= i < |before| ==> before[i].taxon in taxa) {
      var i :| 0 <= i < |before| && before[i].taxon !in taxa;
      assert rows[i].taxon !in taxa;
    } else {
      var i, j :| 0 <= i < j < |before| && before[i].taxon == before[j].taxon;
      assert rows[i].taxon == rows[j].taxon;
    }
  }

  /** A prefix that returns null makes the whole file return null. */
  lemma {:induction false} ScanPrefixNone(lines: seq<string>, n: nat, taxa: seq<string>)
    requires n <= |lines| && ScanLines(lines[..n], taxa).None?
    ensures ScanLines(lines, taxa).None?
    decreases |lines| - n
  {
    if n < |lines| {
      assert lines[..n + 1][..n] == lines[..n];
      ScanPrefixNone(lines, n + 1, taxa);
    } else {
      assert lines[..n] == lines;
    }
  }

  // ---------------------------------------------------------------------------------------------
  // The code map

  /**
   * The state of a pair of values: 0 for (first, first), 2 for (first, later), 1 for (later,
   * first) and 3 for (later, later), where later1 and later2 say whether each value comes after
   * the first one of its set.
   */
  function Code(later1: bool, later2: bool): (c: nat)
    ensures c < 4
  {
    if later1 then (if later2 then 3 else 1) else (if later2 then 2 else 0)
  }

  /** One entry of the code map: the pair of values and its state. */
  datatype CodeEntry = CodeEntry(v1: string, v2: string, code: nat)

  /** The inner loop's entries for one first-trait value. */
  function RowEntries(v1: string, later1: bool, o2: seq<string>): (r: seq<CodeEntry>)
    ensures |r| == |o2|
    ensures forall j :: 0 <= j < |o2| ==> r[j] == CodeEntry(v1, o2[j], Code(later1, j > 0))
  {
    if |o2| == 0 then []
    else RowEntries(v1, later1, o2[..|o2| - 1]) + [CodeEntry(v1, o2[|o2| - 1], Code(later1, |o2| > 1))]
  }

  /** The nested loops' entries: the first-trait values outside, the second-trait values inside. */
  function CodeEntries(o1: seq<string>, o2: seq<string>): seq<CodeEntry>
  {
    if |o1| == 0 then []
    else CodeEntries(o1[..|o1| - 1], o2) + RowEntries(o1[|o1| - 1], |o1| > 1, o2)
  }

  lemma {:induction false} CodeEntriesLength(o1: seq<string>, o2: seq<string>)
    ensures |CodeEntries(o1, o2)| == |o1| * |o2|
  {
    if |o1| > 0 {
      CodeEntriesLength(o1[..|o1| - 1], o2);
      assert (|o1| - 1) * |o2| + |o2| == |o1| * |o2|;
    }
  }

  /** The entry for the i-th first value and the j-th second value, at i·|o2| + j. */
  lemma {:induction false} CodeEntryAt(o1: seq<string>, o2: seq<string>, i: nat, j: nat)
    requires i < |o1| && j < |o2|
    ensures i * |o2| + j < |CodeEntries(o1, o2)|
    ensures CodeEntries(o1, o2)[i * |o2| + j] == CodeEntry(o1[i], o2[j], Code(i > 0, j > 0))
  {
    var n := |o1| - 1;
    var m := |o2|;
    CodeEntriesLength(o1[..n], o2);
    assert |CodeEntries(o1[..n], o2)| == n * m;
    if i < n {
      CodeEntryAt(o1[..n], o2, i, j);
    } else {
      assert i * m + j == n * m + j;
    }
  }

  /** With two values in each set, every one of the four states occurs. */
  lemma CodesCoverStates(o1: seq<string>, o2: seq<string>)
    requires |o1| >= 2 && |o2| >= 2
    ensures var e := CodeEntries(o1, o2);
      |e| > |o2| + 1 && e[0].code == 0 && e[1].code == 2 && e[|o2|].code == 1 && e[|o2| + 1].code == 3
  {
    CodeEntryAt(o1, o2, 0, 0);
    CodeEntryAt(o1, o2, 0, 1);
    CodeEntryAt(o1, o2, 1, 0);
    CodeEntryAt(o1, o2, 1, 1);
  }

  /** The code map's text before its last comma is removed. */
  function CodeText(entries: seq<CodeEntry>): (r: string)
    ensures |entries| > 0 ==> |r| > 0 && r[|r| - 1] == ','
    ensures |entries| == 0 ==> r == ""
  {
    if |entries| == 0 then "" else CodeText(entries[..|entries| - 1]) + EntryText(entries[|entries| - 1])
  }

  /** One entry of the code map: "v1-v2=code,". */
  function EntryText(e: CodeEntry): (r: string)
    ensures |r| > 0 && r[|r| - 1] == ','
  {
    e.v1 + "-" + e.v2 + "=" + NatToString(e.code) + ","
  }

  lemma {:induction false} CodeTextAppend(a: seq<CodeEntry>, b: seq<CodeEntry>)
    ensures CodeText(a + b) == CodeText(a) + CodeText(b)
    decreases |b|
  {
    if |b| > 0 {
      assert (a + b)[..|a + b| - 1] == a + b[..|b| - 1];
      CodeTextAppend(a, b[..|b| - 1]);
    } else {
      assert a + b == a;
    }
  }

  // ---------------------------------------------------------------------------------------------
  // processTrait

  /** The user data type and trait set processTrait registers. */
  datatype CompoundTrait = CompoundTrait(traitValue: string, codeMap: string, states: int, codeLength: int)

  /** xs lists the elements of s, each once: a HashSet's iteration order. */
  ghost predicate Enumerates(xs: seq<string>, s: set<string>)
  {
    (forall x :: x in xs <==> x in s) && forall i, j :: 0 <= i < j < |xs| ==> xs[i] != xs[j]
  }

  /**
   * processTrait: null after a duplicate or unknown taxon; an exception when no line has three
   * fields, since the last character of an empty buffer is deleted; null when either trait has
   * fewer than two values; otherwise the trait string without its final newline and the code map
   * without its final comma, with 4 states and code length -1.
   */
  function TraitImport(str: string, taxa: seq<string>, order: set<string> -> seq<string>): (r: Result<Option<CompoundTrait>>)
    ensures r.Err? ==> r.msg == StringIndexOutOfBounds
  {
    var scan := ScanLines(Split(str, '\n'), taxa);
    if scan.None? then Ok(None)
    else
      var s := scan.value;
      if |s.text| == 0 then Err(StringIndexOutOfBounds)
      else if |s.values1| < 2 || |s.values2| < 2 then Ok(None)
      else
        var codeMap := CodeText(CodeEntries(order(s.values1), order(s.values2)));
        if |codeMap| == 0 then Err(StringIndexOutOfBounds)
        else Ok(Some(CompoundTrait(s.text[..|s.text| - 1], codeMap[..|codeMap| - 1], 4, -1)))
  }

  /**
   * When processTrait fails: an exception exactly when the file's rows are accepted but none is
   * used, and null exactly when a row is refused or, with rows used, either trait has fewer than
   * two values.
   */
  lemma TraitImportFailures(str: string, taxa: seq<string>, order: set<string> -> seq<string>)
    requires forall s :: Enumerates(order(s), s)
    ensures var rows := UsedRows(Split(str, '\n'));
      var r := TraitImport(str, taxa, order);
      (r.Err? <==> RowsAccepted(rows, taxa) && |rows| == 0)
      && (r.Err? ==> r.msg == StringIndexOutOfBounds)
      && (r == Ok(None) <==>
            !RowsAccepted(rows, taxa) || (|rows| > 0 && (|FirstValues(rows)| < 2 || |SecondValues(rows)| < 2)))
  {
    var lines := Split(str, '\n');
    ScanMeaning(lines, taxa);
    var scan := ScanLines(lines, taxa);
    if scan.Some? {
      var s := scan.value;
      if |s.text| > 0 && |s.values1| >= 2 && |s.values2| >= 2 {
        CodeMapNonEmpty(order, s.values1, s.values2);
      }
    }
  }

  /** With two values per trait the code map has |values1|·|values2| entries and is not empty. */
  lemma CodeMapNonEmpty(order: set<string> -> seq<string>, values1: set<string>, values2: set<string>)
    requires forall s :: Enumerates(order(s), s)
    requires |values1| >= 2 && |values2| >= 2
    ensures |CodeEntries(order(values1), order(values2))| == |values1| * |values2|
    ensures |CodeText(CodeEntries(order(values1), order(values2)))| > 0
  {
    var o1, o2 := order(values1), order(values2);
    DistinctCount(o1, values1);
    DistinctCount(o2, values2);
    CodeEntriesLength(o1, o2);
    MulMonotone(2, |o1|, |o2|);
  }

  /**
   * The trait string processTrait returns: the entries of the used rows, which name known taxa
   * once each, without the final newline.
   */
  lemma TraitImportTraitValue(str: string, taxa: seq<string>, order: set<string> -> seq<string>)
    requires TraitImport(str, taxa, order).Ok? && TraitImport(str, taxa, order).value.Some?
    ensures var rows := UsedRows(Split(str, '\n'));
      RowsAccepted(rows, taxa) && TraitImport(str, taxa, order).value.value.traitValue + "\n" == Entries(rows)
  {
    var lines := Split(str, '\n');
    var s := ScanLines(lines, taxa).value;
    assert TraitImport(str, taxa, order).value.value.traitValue == s.text[..|s.text| - 1];
    ScanMeaning(lines, taxa);
    RestoreLast(s.text, '\n');
  }

  /**
   * The data type processTrait returns: 4 states, code length -1, and the code map of the two
   * value sets, each of at least two values, without its final comma.
   */
  lemma TraitImportCodeMap(str: string, taxa: seq<string>, order: set<string> -> seq<string>)
    requires forall s :: Enumerates(order(s), s)
    requires TraitImport(str, taxa, order).Ok? && TraitImport(str, taxa, order).value.Some?
    ensures var rows := UsedRows(Split(str, '\n'));
      var t := TraitImport(str, taxa, order).value.value;
      var entries := CodeEntries(order(FirstValues(rows)), order(SecondValues(rows)));
      |FirstValues(rows)| >= 2 && |SecondValues(rows)| >= 2
      && t.codeMap + "," == CodeText(entries)
      && |entries| == |FirstValues(rows)| * |SecondValues(rows)|
      && t.states == 4 && t.codeLength == -1
  {
    var lines := Split(str, '\n');
    var s := ScanLines(lines, taxa).value;
    var codeMap := CodeText(CodeEntries(order(s.values1), order(s.values2)));
    assert TraitImport(str, taxa, order).value.value == CompoundTrait(s.text[..|s.text| - 1], codeMap[..|codeMap| - 1], 4, -1);
    ScanMeaning(lines, taxa);
    CodeMapNonEmpty(order, s.values1, s.values2);
    RestoreLast(codeMap, ',');
  }

  /** A list of distinct elements that enumerates a set is as long as the set is large. */
  lemma {:induction false} DistinctCount(xs: seq<string>, s: set<string>)
    requires Enumerates(xs, s)
    ensures |xs| == |s|
  {
    if |xs| > 0 {
      var x := xs[|xs| - 1];
      var init := xs[..|xs| - 1];
      assert x !in init;
      assert Enumerates(init, s - {x});
      DistinctCount(init, s - {x});
    } else {
      assert s == {};
    }
  }

  /** The trait string ends in the comma that joined its last entry. */
  lemma TraitValueEndsInComma(str: string, taxa: seq<string>, order: set<string> -> seq<string>)
    requires TraitImport(str, taxa, order).Ok? && TraitImport(str, taxa, order).value.Some?
    ensures var t := TraitImport(str, taxa, order).value.value;
      |t.traitValue| > 0 && t.traitValue[|t.traitValue| - 1] == ','
  {
    TraitImportTraitValue(str, taxa, order);
    var rows := UsedRows(Split(str, '\n'));
    var t := TraitImport(str, taxa, order).value.value;
    assert t.traitValue + "\n" == Entries(rows);
    assert (t.traitValue + "\n")[|t.traitValue| - 1] == t.traitValue[|t.traitValue| - 1];
  }

  /** processTrait, loop by loop. */
  method ProcessTrait(str: string, taxa: seq<string>, order: set<string> -> seq<string>) returns (r: Result<Option<CompoundTrait>>)
    ensures r == TraitImport(str, taxa, order)
  {
    var scan := ScanTraitLines(Split(str, '\n'), taxa);
    if scan.None? {
      return Ok(None);
    }
    var s := scan.value;
    var b := s.text;
    if |b| == 0 {
      return Err(StringIndexOutOfBounds);
    }
    b := b[..|b| - 1];
    if |s.values1| < 2 {
      return Ok(None);
    }
    if |s.values2| < 2 {
      return Ok(None);
    }
    var codeMap := CodeMapOf(order(s.values1), order(s.values2));
    if |codeMap| == 0 {
      return Err(StringIndexOutOfBounds);
    }
    r := Ok(Some(CompoundTrait(b, codeMap[..|codeMap| - 1], 4, -1)));
    assert r == TraitImport(str, taxa, order);
  }

  /** The line loop of processTrait; None where it returns null. */
  method ScanTraitLines(strs: seq<string>, taxa: seq<string>) returns (r: Option<Scan>)
    ensures r == ScanLines(strs, taxa)
  {
    var b := "";
    var done: set<string> := {};
    var values1: set<string> := {};
    var values2: set<string> := {};
    var k := 0;
    while k < |strs|
      invariant 0 <= k <= |strs|
      invariant ScanLines(strs[..k], taxa) == Some(Scan(done, b, values1, values2))
    {
      assert strs[..k + 1][..k] == strs[..k];
      var strs2 := Split(strs[k], '\t');
      if |strs2| >= 3 {
        var taxon := strs2[0];
        if taxon in done || taxon !in taxa {
          ScanPrefixNone(strs, k + 1, taxa);
          return None;
        }
        done := done + {taxon};
        b := b + (taxon + "=" + strs2[1] + "-" + strs2[2] + ",\n");
        values1 := values1 + {strs2[1]};
        values2 := values2 + {strs2[2]};
      }
      k := k + 1;
    }
    assert strs[..k] == strs;
    return Some(Scan(done, b, values1, values2));
  }

  /** The nested loops that write the code map, one "v1-v2=c," per pair. */
  method CodeMapOf(o1: seq<string>, o2: seq<string>) returns (codeMap: string)
    ensures codeMap == CodeText(CodeEntries(o1, o2))
  {
    codeMap := "";
    var later1 := false;
    var i := 0;
    while i < |o1|
      invariant 0 <= i <= |o1| && later1 == (i > 0)
      invariant codeMap == CodeText(CodeEntries(o1[..i], o2))
    {
      var row := CodeRowOf(o1[i], later1, o2);
      CodeMapStep(o1, o2, i);
      codeMap := codeMap + row;
      later1 := true;
      i := i + 1;
    }
    assert o1[..i] == o1;
  }

  /** One more first-trait value appends its row's text to the code map. */
  lemma CodeMapStep(o1: seq<string>, o2: seq<string>, i: nat)
    requires i < |o1|
    ensures CodeText(CodeEntries(o1[..i + 1], o2)) == CodeText(CodeEntries(o1[..i], o2)) + CodeText(RowEntries(o1[i], i > 0, o2))
  {
    assert o1[..i + 1][..i] == o1[..i];
    CodeTextAppend(CodeEntries(o1[..i], o2), RowEntries(o1[i], i > 0, o2));
  }

  /** One more second-trait value appends its entry to the row's text. */
  lemma RowTextStep(v1: string, later1: bool, o2: seq<string>, j: nat)
    requires j < |o2|
    ensures CodeText(RowEntries(v1, later1, o2[..j + 1]))
      == CodeText(RowEntries(v1, later1, o2[..j])) + EntryText(CodeEntry(v1, o2[j], Code(later1, j > 0)))
  {
    assert o2[..j + 1][..j] == o2[..j];
    var rs := RowEntries(v1, later1, o2[..j + 1]);
    assert rs[..|rs| - 1] == RowEntries(v1, later1, o2[..j]);
  }

  /** The inner loop of the code map, for one first-trait value. */
  method CodeRowOf(v1: string, later1: bool, o2: seq<string>) returns (text: string)
    ensures text == CodeText(RowEntries(v1, later1, o2))
  {
    text := "";
    var later2 := false;
    var j := 0;
    while j < |o2|
      invariant 0 <= j <= |o2| && later2 == (j > 0)
      invariant text == CodeText(RowEntries(v1, later1, o2[..j]))
    {
      var v := Code(later1, later2);
      RowTextStep(v1, later1, o2, j);
      text := text + (v1 + "-" + o2[j] + "=" + NatToString(v) + ",");
      later2 := true;
      j := j + 1;
    }
    assert o2[..j] == o2;
  }

  // ---------------------------------------------------------------------------------------------
  // matches

  /** An output of an alignment, as far as matches looks at it. */
  datatype BeastObject = CompoundTreeLikelihood | OtherObject

  /** matches: 20 when some output of the alignment is a CompoundTreeLikelihood, else 0. */
  method Matches(outputs: seq<BeastObject>) returns (r: int)
    ensures CompoundTreeLikelihood in outputs ==> r == 20
    ensures CompoundTreeLikelihood !in outputs ==> r == 0
  {
    var k := 0;
    while k < |outputs|
      invariant 0 <= k <= |outputs| && CompoundTreeLikelihood !in outputs[..k]
    {
      if outputs[k] == CompoundTreeLikelihood {
        return 20;
      }
      assert outputs[..k + 1] == outputs[..k] + [outputs[k]];
      k := k + 1;
    }
    assert outputs[..k] == outputs;
    return 0;
  }
}

=== FILE: CorrelatedSubstitutionModel.dfy ===
/**
 * The correlated discrete-trait substitution model (Pagel & Meade): compound states are
 * mixed-radix tuples of component states, each state has one rate slot per single-component
 * transition, and the generator is built in place in an nrOfStates-square matrix whose 4×4
 * corner holds the rates of two binary traits.
 */
module CorrelatedSubstitution {
  import opened Common
  import opened JavaErrors
  import opened JavaText

  // ---------------------------------------------------------------------------------------
  // Mixed-radix arithmetic over the trait shape
  // ---------------------------------------------------------------------------------------

  /** Product of the component sizes: the number of compound states. */
  function Prod(s: seq<int>): int
  {
    if |s| == 0 then 1 else s[0] * Prod(s[1..])
  }

  /** Σ (size − 1): the number of single-component transitions out of one compound state. */
  function Transitions(s: seq<int>): int
  {
    if |s| == 0 then 0 else Transitions(s[..|s| - 1]) + (s[|s| - 1] - 1)
  }

  predicate PositiveShape(s: seq<int>)
  {
    forall c :: 0 <= c < |s| ==> s[c] >= 1
  }

  lemma {:induction false} ProdSnoc(s: seq<int>, x: int)
    ensures Prod(s + [x]) == Prod(s) * x
  {
    if |s| > 0 {
      assert (s + [x])[1..] == s[1..] + [x];
      ProdSnoc(s[1..], x);
    } else {
      assert (s + [x])[1..] == [];
    }
  }

  lemma {:induction false} ProdSplit(s: seq<int>, k: nat)
    requires k <= |s|
    ensures Prod(s) == Prod(s[..k]) * Prod(s[k..])
  {
    if k > 0 {
      assert s[..k][1..] == s[1..][..k - 1];
      assert s[k..] == s[1..][k - 1..];
      ProdSplit(s[1..], k - 1);
    } else {
      assert s[k..] == s;
    }
  }

  /** One more size multiplies the number of states. */
  lemma ProdStep(s: seq<int>, k: nat)
    requires k < |s|
    ensures Prod(s[..k + 1]) == Prod(s[..k]) * s[k]
  {
    assert s[..k + 1] == s[..k] + [s[k]];
    ProdSnoc(s[..k], s[k]);
  }

  /** One more size adds its transitions. */
  lemma TransitionsStep(s: seq<int>, c: nat)
    requires c < |s|
    ensures Transitions(s[..c + 1]) == Transitions(s[..c]) + (s[c] - 1)
  {
    assert s[..c + 1][..c] == s[..c];
  }

  /** Dividing the product of a suffix by its first size gives the product of the rest. */
  lemma ProdDivHead(s: seq<int>, c: nat)
    requires PositiveShape(s) && c < |s|
    ensures Prod(s[c..]) / s[c] == Prod(s[c + 1..])
  {
    assert s[c..][1..] == s[c + 1..];
    assert PositiveShape(s[c + 1..]);
    DivModUnique(Prod(s[c..]), s[c], Prod(s[c + 1..]), 0);
  }

  lemma {:induction false} ProdPositive(s: seq<int>)
    requires PositiveShape(s)
    ensures Prod(s) >= 1
  {
    if |s| > 0 {
      ProdPositive(s[1..]);
    }
  }

  lemma {:induction false} TransitionsPrefix(s: seq<int>, k: nat)
    requires PositiveShape(s) && k <= |s|
    ensures 0 <= Transitions(s[..k]) <= Transitions(s)
  {
    if k < |s| {
      var n := |s| - 1;
      assert s[..n][..k] == s[..k];
      TransitionsPrefix(s[..n], k);
    } else {
      assert s[..k] == s;
      if k > 0 {
        TransitionsPrefix(s[..k - 1], k - 1);
        assert s[..k - 1][..k - 1] == s[..k - 1];
      }
    }
  }

  /** The digit of state `s` for the component whose place value is `step` and size `size`. */
  function Digit(s: int, step: int, size: int): int
    requires step > 0 && size > 0
  {
    (s / step) % size
  }

  /** The state with the same digits as `s` except that this digit is zero. */
  function Rep(s: int, step: int, size: int): int
    requires step > 0 && size > 0
  {
    s - Digit(s, step, size) * step
  }

  lemma RepFacts(s: int, step: int, size: int)
    requires s >= 0 && step > 0 && size > 0
    ensures 0 <= Digit(s, step, size) < size
    ensures 0 <= Rep(s, step, size) <= s
    ensures Digit(Rep(s, step, size), step, size) == 0
  {
    RepBounds(s, step, size);
    RepDigitZero(s, step, size);
  }

  /** Clearing a digit neither goes below zero nor above the state. */
  lemma RepBounds(s: int, step: int, size: int)
    requires s >= 0 && step > 0 && size > 0
    ensures 0 <= Rep(s, step, size) <= s
  {
    var q, r := s / step, s % step;
    var d := q % size;
    assert s == q * step + r && 0 <= r && q >= 0;
    assert 0 <= d <= q;
    MulMonotone(0, d, step);
    MulMonotone(d, q, step);
  }

  /** The cleared digit reads back as zero. */
  lemma RepDigitZero(s: int, step: int, size: int)
    requires s >= 0 && step > 0 && size > 0
    ensures Digit(Rep(s, step, size), step, size) == 0
  {
    var q, r := s / step, s % step;
    var d := q % size;
    assert s == q * step + r && 0 <= r < step;
    assert q - d == (q / size) * size;
    assert Rep(s, step, size) == (q - d) * step + r;
    DivModUnique(Rep(s, step, size), step, q - d, r);
    DivModUnique(q - d, size, q / size, 0);
  }

  /** The state `o` steps of `step` above `f`. */
  function Shift(f: int, step: int, o: int): int
  {
    f + step * o
  }

  /** A state is its representative shifted by its own digit. */
  lemma RepShift(s: int, step: int, size: int)
    requires s >= 0 && step > 0 && size > 0
    ensures 0 <= Digit(s, step, size) < size && 0 <= Rep(s, step, size) <= s
    ensures Digit(Rep(s, step, size), step, size) == 0
    ensures s == Shift(Rep(s, step, size), step, Digit(s, step, size))
  {
    RepFacts(s, step, size);
  }

  /** Setting a zero digit to `o` moves `step * o` states on and keeps the representative. */
  lemma ShiftDigit(f: int, o: int, step: int, size: int)
    requires f >= 0 && step > 0 && size > 0 && 0 <= o < size
    requires Digit(f, step, size) == 0
    ensures Digit(Shift(f, step, o), step, size) == o
    ensures Rep(Shift(f, step, o), step, size) == f
  {
    var q := f / step;
    assert f == q * step + f % step;
    assert q == (q / size) * size;
    DivModUnique(f + step * o, step, q + o, f % step);
    DivModUnique(q + o, size, q / size, o);
  }

  /** A state with a zero digit stays in range when that digit is raised. */
  lemma ShiftInRange(f: int, o: int, step: int, size: int, hi: int)
    requires f >= 0 && step > 0 && size > 0 && 0 <= o < size && hi >= 0
    requires Digit(f, step, size) == 0 && f < hi * (size * step)
    ensures Shift(f, step, o) < hi * (size * step)
  {
    var block := size * step;
    var q := f / step;
    var b := q / size;
    var rem := f % step;
    assert f == q * step + rem;
    assert q == b * size;
    assert q * step == b * block;
    if b >= hi {
      MulMonotone(hi, b, block);
    }
    MulMonotone(b + 1, hi, block);
    MulMonotone(o + 1, size, step);
    assert Shift(f, step, o) == b * block + rem + step * o;
    assert (o + 1) * step == step * o + step;
    assert (b + 1) * block == b * block + block;
  }

  /** Slot `ct` of state `s` is at flat index s·nonzeroTransitions + ct. */
  lemma SlotInRange(s: int, ct: int, states: int, nz: int)
    requires 0 <= s < states && 0 <= ct < nz
    ensures 0 <= s * nz + ct < states * nz
  {
    assert (s + 1) * nz <= states * nz;
  }

  // ---------------------------------------------------------------------------------------
  // What `depends` decides
  // ---------------------------------------------------------------------------------------

  predicate AllEqual(f: seq<real>)
  {
    forall k :: 0 <= k < |f| ==> f[k] == f[0]
  }

  /** The rate of slot `ct` of state `s` in the flat rates vector. */
  function RateAt(rates: seq<real>, nz: int, s: int, ct: int): real
  {
    if 0 <= s * nz + ct < |rates| then rates[s * nz + ct] else 0.0
  }

  /** depends(a, b) for every ordered pair of components: row a, column b. */
  function DependsTable(shape: seq<int>, nz: int, freqs: seq<real>, rates: seq<real>): (t: seq<seq<bool>>)
    requires PositiveShape(shape)
    ensures |t| == |shape| && forall a :: 0 <= a < |t| ==> |t[a]| == |shape|
    ensures forall a, b :: 0 <= a < |shape| && 0 <= b < |shape| ==> t[a][b] == DependsSpec(shape, nz, freqs, rates, a, b)
  {
    seq(|shape|, a requires 0 <= a < |shape| =>
      seq(|shape|, b requires 0 <= b < |shape| => DependsSpec(shape, nz, freqs, rates, a, b)))
  }

  predicate WellShaped(shape: seq<int>, nz: int, freqs: seq<real>, rates: seq<real>)
  {
    PositiveShape(shape) && |freqs| == Prod(shape) && nz >= Transitions(shape) && |rates| == Prod(shape) * nz
  }

  /** Place value of component `d`: the product of the sizes after it. */
  function StepOf(shape: seq<int>, d: nat): int
    requires d < |shape|
  {
    Prod(shape[d + 1..])
  }

  /**
   * Some slot of `component` has different rates in two states that differ only in the digit
   * of `dependsOn`.
   */
  predicate RatesDiffer(shape: seq<int>, nz: int, rates: seq<real>, component: nat, dependsOn: nat)
    requires PositiveShape(shape) && component < |shape| && dependsOn < |shape|
  {
    ProdPositive(shape[dependsOn + 1..]);
    var step, size := StepOf(shape, dependsOn), shape[dependsOn];
    exists s, t, ct :: 0 <= s < Prod(shape) && 0 <= t < Prod(shape)
      && Rep(s, step, size) == Rep(t, step, size)
      && Transitions(shape[..component]) <= ct < Transitions(shape[..component + 1])
      && RateAt(rates, nz, s, ct) != RateAt(rates, nz, t, ct)
  }

  /** The same, stated over the states whose `dependsOn` digit is zero and the states above them. */
  predicate RepresentativesDiffer(shape: seq<int>, nz: int, rates: seq<real>, component: nat, dependsOn: nat)
    requires PositiveShape(shape) && component < |shape| && dependsOn < |shape|
  {
    ProdPositive(shape[dependsOn + 1..]);
    var step, size := StepOf(shape, dependsOn), shape[dependsOn];
    exists f, o, ct :: 0 <= f < Prod(shape) && Digit(f, step, size) == 0 && 1 <= o < size
      && Transitions(shape[..component]) <= ct < Transitions(shape[..component + 1])
      && RateAt(rates, nz, f, ct) != RateAt(rates, nz, Shift(f, step, o), ct)
  }

  /**
   * Whether the rates of `component` vary with the state of `dependsOn`: always when the
   * frequencies are not all equal, otherwise exactly when some rate differs as above.
   */
  predicate DependsSpec(shape: seq<int>, nz: int, freqs: seq<real>, rates: seq<real>, component: nat, dependsOn: nat)
    requires PositiveShape(shape) && component < |shape| && dependsOn < |shape|
  {
    !AllEqual(freqs) || RatesDiffer(shape, nz, rates, component, dependsOn)
  }

  lemma StepFacts(shape: seq<int>, d: nat)
    requires PositiveShape(shape) && d < |shape|
    ensures StepOf(shape, d) >= 1
    ensures Prod(shape) == Prod(shape[..d]) * (shape[d] * StepOf(shape, d))
    ensures Prod(shape[..d]) >= 1
  {
    ProdPositive(shape[d + 1..]);
    ProdPositive(shape[..d]);
    ProdSplit(shape, d);
    assert shape[d..][1..] == shape[d + 1..];
  }

  /** A difference between two states that differ only in one digit shows up against their representative. */
  lemma RatesDifferAtRepresentative(shape: seq<int>, nz: int, rates: seq<real>, component: nat, dependsOn: nat)
    requires PositiveShape(shape) && component < |shape| && dependsOn < |shape|
    requires RatesDiffer(shape, nz, rates, component, dependsOn)
    ensures RepresentativesDiffer(shape, nz, rates, component, dependsOn)
  {
    ProdPositive(shape[dependsOn + 1..]);
    var step, size := StepOf(shape, dependsOn), shape[dependsOn];
    var lo, up := Transitions(shape[..component]), Transitions(shape[..component + 1]);
    var s, t, ct :| 0 <= s < Prod(shape) && 0 <= t < Prod(shape)
      && Rep(s, step, size) == Rep(t, step, size) && lo <= ct < up
      && RateAt(rates, nz, s, ct) != RateAt(rates, nz, t, ct);
    var f, o := PairWitness(rates, nz, step, size, s, t, ct);
    RepresentativeWitness(shape, nz, rates, component, dependsOn, f, o, ct);
  }

  /**
   * Two states with the same representative and different rates in slot `ct`: the representative
   * differs from one of them, whose digit is then non-zero.
   */
  lemma PairWitness(rates: seq<real>, nz: int, step: int, size: int, s: int, t: int, ct: int) returns (f: int, o: int)
    requires s >= 0 && t >= 0 && step > 0 && size > 0
    requires Rep(s, step, size) == Rep(t, step, size)
    requires RateAt(rates, nz, s, ct) != RateAt(rates, nz, t, ct)
    ensures 0 <= f <= s && Digit(f, step, size) == 0 && 1 <= o < size
    ensures RateAt(rates, nz, f, ct) != RateAt(rates, nz, Shift(f, step, o), ct)
  {
    RepShift(s, step, size);
    RepShift(t, step, size);
    f := Rep(s, step, size);
    if RateAt(rates, nz, f, ct) != RateAt(rates, nz, s, ct) {
      o := Digit(s, step, size);
    } else {
      o := Digit(t, step, size);
    }
  }

  /** A representative f, an offset o and a column ct where the rates differ witness RepresentativesDiffer. */
  lemma RepresentativeWitness(shape: seq<int>, nz: int, rates: seq<real>, component: nat, dependsOn: nat, f: int, o: int, ct: int)
    requires PositiveShape(shape) && component < |shape| && dependsOn < |shape|
    requires StepOf(shape, dependsOn) >= 1
    requires 0 <= f < Prod(shape) && Digit(f, StepOf(shape, dependsOn), shape[dependsOn]) == 0 && 1 <= o < shape[dependsOn]
    requires Transitions(shape[..component]) <= ct < Transitions(shape[..component + 1])
    requires RateAt(rates, nz, f, ct) != RateAt(rates, nz, Shift(f, StepOf(shape, dependsOn), o), ct)
    ensures RepresentativesDiffer(shape, nz, rates, component, dependsOn)
  { }

  /** A difference between a representative and a state above it is a difference between two states. */
  lemma RepresentativeDifferenceIsRatesDiffer(shape: seq<int>, nz: int, rates: seq<real>, component: nat, dependsOn: nat,
                                              f: int, o: int, ct: int)
    requires PositiveShape(shape) && component < |shape| && dependsOn < |shape|
    requires StepOf(shape, dependsOn) >= 1
    requires 0 <= f < Prod(shape) && Digit(f, StepOf(shape, dependsOn), shape[dependsOn]) == 0 && 1 <= o < shape[dependsOn]
    requires Transitions(shape[..component]) <= ct < Transitions(shape[..component + 1])
    requires RateAt(rates, nz, f, ct) != RateAt(rates, nz, Shift(f, StepOf(shape, dependsOn), o), ct)
    ensures RatesDiffer(shape, nz, rates, component, dependsOn)
  {
    var step, size := StepOf(shape, dependsOn), shape[dependsOn];
    var t := Shift(f, step, o);
    assert Rep(f, step, size) == Rep(t, step, size) by {
      ShiftDigit(f, o, step, size);
      ShiftDigit(f, 0, step, size);
      assert Shift(f, step, 0) == f;
    }
    assert 0 <= t < Prod(shape) by {
      StepFacts(shape, dependsOn);
      ShiftInRange(f, o, step, size, Prod(shape[..dependsOn]));
    }
    assert 0 <= f < Prod(shape) && 0 <= t < Prod(shape) && Rep(f, step, size) == Rep(t, step, size)
      && Transitions(shape[..component]) <= ct < Transitions(shape[..component + 1])
      && RateAt(rates, nz, f, ct) != RateAt(rates, nz, t, ct);
  }

  /** With every representative agreeing with the states above it, no two such states differ. */
  lemma NoRepresentativeDifference(shape: seq<int>, nz: int, rates: seq<real>, component: nat, dependsOn: nat)
    requires PositiveShape(shape) && component < |shape| && dependsOn < |shape|
    requires StepOf(shape, dependsOn) >= 1
    requires forall f, o, ct ::
      (0 <= f < Prod(shape) && Digit(f, StepOf(shape, dependsOn), shape[dependsOn]) == 0
       && 1 <= o < shape[dependsOn] && Transitions(shape[..component]) <= ct < Transitions(shape[..component + 1]))
      ==> RateAt(rates, nz, f, ct) == RateAt(rates, nz, Shift(f, StepOf(shape, dependsOn), o), ct)
    ensures !RatesDiffer(shape, nz, rates, component, dependsOn)
  {
    if RatesDiffer(shape, nz, rates, component, dependsOn) {
      RatesDifferAtRepresentative(shape, nz, rates, component, dependsOn);
    }
  }

  /** Comparing every pair of states that differ only in one digit is the same as comparing each representative with the states above it. */
  lemma DependsByRepresentatives(shape: seq<int>, nz: int, rates: seq<real>, component: nat, dependsOn: nat)
    requires PositiveShape(shape) && component < |shape| && dependsOn < |shape|
    ensures RatesDiffer(shape, nz, rates, component, dependsOn) <==> RepresentativesDiffer(shape, nz, rates, component, dependsOn)
  {
    if RatesDiffer(shape, nz, rates, component, dependsOn) {
      RatesDifferAtRepresentative(shape, nz, rates, component, dependsOn);
    }
    if RepresentativesDiffer(shape, nz, rates, component, dependsOn) {
      StepFacts(shape, dependsOn);
      var step, size := StepOf(shape, dependsOn), shape[dependsOn];
      var f, o, ct :| 0 <= f < Prod(shape) && Digit(f, step, size) == 0 && 1 <= o < size
        && Transitions(shape[..component]) <= ct < Transitions(shape[..component + 1])
        && RateAt(rates, nz, f, ct) != RateAt(rates, nz, Shift(f, step, o), ct);
      RepresentativeDifferenceIsRatesDiffer(shape, nz, rates, component, dependsOn, f, o, ct);
    }
  }

  /** Every rate slot `depends` can read lies inside the rates vector. */
  lemma SlotsInRange(shape: seq<int>, nz: int, freqs: seq<real>, rates: seq<real>, component: nat, s: int, ct: int)
    requires WellShaped(shape, nz, freqs, rates) && component < |shape|
    requires 0 <= s < Prod(shape) && Transitions(shape[..component]) <= ct < Transitions(shape[..component + 1])
    ensures 0 <= s * nz + ct < |rates|
    ensures RateAt(rates, nz, s, ct) == rates[s * nz + ct]
  {
    TransitionsPrefix(shape, component);
    TransitionsPrefix(shape, component + 1);
    SlotInRange(s, ct, Prod(shape), nz);
  }

  // ---------------------------------------------------------------------------------------
  // The generator matrix built by setupRateMatrix
  // ---------------------------------------------------------------------------------------

  /** Rates 0..7 at the eight single-flip cells of the 4×4 block, in target-state order; zero elsewhere. */
  function Seed(rates: seq<real>, i: int, j: int): real
    requires |rates| >= 8
  {
    if i == 0 && j == 1 then rates[0]
    else if i == 0 && j == 2 then rates[1]
    else if i == 1 && j == 0 then rates[2]
    else if i == 1 && j == 3 then rates[3]
    else if i == 2 && j == 0 then rates[4]
    else if i == 2 && j == 3 then rates[5]
    else if i == 3 && j == 1 then rates[6]
    else if i == 3 && j == 2 then rates[7]
    else 0.0
  }

  /** States 0..3 read as two binary traits (high bit, low bit) that differ in exactly one trait. */
  predicate SingleFlip(i: int, j: int)
  {
    0 <= i < 4 && 0 <= j < 4 && ((i / 2 == j / 2) != (i % 2 == j % 2))
  }

  /** Only single-flip cells are seeded; the double-flip cells and the diagonal stay zero. */
  lemma SeedsAreSingleFlips(rates: seq<real>, i: int, j: int)
    requires |rates| >= 8
    ensures !SingleFlip(i, j) ==> Seed(rates, i, j) == 0.0
    ensures SingleFlip(i, j) ==> exists k :: 0 <= k < 8 && Seed(rates, i, j) == rates[k]
  {
    if SingleFlip(i, j) {
      var k := if i == 0 && j == 1 then 0 else if i == 0 && j == 2 then 1
        else if i == 1 && j == 0 then 2 else if i == 1 && j == 3 then 3
        else if i == 2 && j == 0 then 4 else if i == 2 && j == 3 then 5
        else if i == 3 && j == 1 then 6 else 7;
      assert Seed(rates, i, j) == rates[k];
    }
  }

  /** Each off-diagonal cell weighted by the frequency of its target state. */
  function Scaled(rates: seq<real>, freqs: seq<real>, i: int, j: int): real
    requires |rates| >= 8 && 0 <= j < |freqs|
  {
    if i == j then Seed(rates, i, j) else Seed(rates, i, j) * freqs[j]
  }

  /** Σ of the off-diagonal cells (i, j) for j < k. */
  function OffRowSum(rates: seq<real>, freqs: seq<real>, i: int, k: int): real
    requires |rates| >= 8 && 0 <= k <= |freqs|
  {
    if k == 0 then 0.0
    else OffRowSum(rates, freqs, i, k - 1) + (if k - 1 == i then 0.0 else Scaled(rates, freqs, i, k - 1))
  }

  /** The unnormalised generator: off-diagonal cells as scaled, the diagonal the negated row sum. */
  function Generator(rates: seq<real>, freqs: seq<real>, i: int, j: int): (q: real)
    requires |rates| >= 8 && 0 <= j < |freqs| && 0 <= i < |freqs|
    ensures i != j && !SingleFlip(i, j) ==> q == 0.0
  {
    if i == j then -OffRowSum(rates, freqs, i, |freqs|) else Scaled(rates, freqs, i, j)
  }

  /** Σ_{i<k} −Q_ii·freq_i: the expected substitution rate, accumulated in state order. */
  function ExpectedRate(rates: seq<real>, freqs: seq<real>, k: int): real
    requires |rates| >= 8 && 0 <= k <= |freqs|
  {
    if k == 0 then 0.0
    else ExpectedRate(rates, freqs, k - 1) + -Generator(rates, freqs, k - 1, k - 1) * freqs[k - 1]
  }

  /** The generator scaled to one expected substitution per unit time. */
  function Normalised(rates: seq<real>, freqs: seq<real>, i: int, j: int): real
    requires |rates| >= 8 && 0 <= j < |freqs| && 0 <= i < |freqs|
    requires ExpectedRate(rates, freqs, |freqs|) != 0.0
  {
    Generator(rates, freqs, i, j) / ExpectedRate(rates, freqs, |freqs|)
  }

  /** Σ_{j<k} of row i of the generator. */
  function RowTotal(rates: seq<real>, freqs: seq<real>, i: int, k: int): real
    requires |rates| >= 8 && 0 <= k <= |freqs| && 0 <= i < |freqs|
  {
    if k == 0 then 0.0 else RowTotal(rates, freqs, i, k - 1) + Generator(rates, freqs, i, k - 1)
  }

  lemma {:induction false} RowTotalSplit(rates: seq<real>, freqs: seq<real>, i: int, k: int)
    requires |rates| >= 8 && 0 <= k <= |freqs| && 0 <= i < |freqs|
    ensures RowTotal(rates, freqs, i, k) == OffRowSum(rates, freqs, i, k) + (if i < k then Generator(rates, freqs, i, i) else 0.0)
  {
    if k > 0 {
      RowTotalSplit(rates, freqs, i, k - 1);
    }
  }

  /** Every row of the generator sums to zero. */
  lemma GeneratorRowsSumToZero(rates: seq<real>, freqs: seq<real>, i: int)
    requires |rates| >= 8 && 0 <= i < |freqs|
    ensures RowTotal(rates, freqs, i, |freqs|) == 0.0
  {
    RowTotalSplit(rates, freqs, i, |freqs|);
  }

  /** Σ_{j<k} of row i of the normalised generator. */
  function NormalisedRowTotal(rates: seq<real>, freqs: seq<real>, i: int, k: int): real
    requires |rates| >= 8 && 0 <= k <= |freqs| && 0 <= i < |freqs|
    requires ExpectedRate(rates, freqs, |freqs|) != 0.0
  {
    if k == 0 then 0.0 else NormalisedRowTotal(rates, freqs, i, k - 1) + Normalised(rates, freqs, i, k - 1)
  }

  lemma {:induction false} NormalisedRowTotalScaled(rates: seq<real>, freqs: seq<real>, i: int, k: int)
    requires |rates| >= 8 && 0 <= k <= |freqs| && 0 <= i < |freqs|
    requires ExpectedRate(rates, freqs, |freqs|) != 0.0
    ensures NormalisedRowTotal(rates, freqs, i, k) == RowTotal(rates, freqs, i, k) / ExpectedRate(rates, freqs, |freqs|)
  {
    if k > 0 {
      NormalisedRowTotalScaled(rates, freqs, i, k - 1);
      DivAdd(RowTotal(rates, freqs, i, k - 1), Generator(rates, freqs, i, k - 1), ExpectedRate(rates, freqs, |freqs|));
    }
  }

  /** Normalisation keeps every row sum at zero. */
  lemma NormalisedRowsSumToZero(rates: seq<real>, freqs: seq<real>, i: int)
    requires |rates| >= 8 && 0 <= i < |freqs|
    requires ExpectedRate(rates, freqs, |freqs|) != 0.0
    ensures NormalisedRowTotal(rates, freqs, i, |freqs|) == 0.0
  {
    NormalisedRowTotalScaled(rates, freqs, i, |freqs|);
    GeneratorRowsSumToZero(rates, freqs, i);
  }

  /** Σ_{i<k} −N_ii·freq_i for the normalised matrix N. */
  function NormalisedExpectedRate(rates: seq<real>, freqs: seq<real>, k: int): real
    requires |rates| >= 8 && 0 <= k <= |freqs|
    requires ExpectedRate(rates, freqs, |freqs|) != 0.0
  {
    if k == 0 then 0.0
    else NormalisedExpectedRate(rates, freqs, k - 1) + -Normalised(rates, freqs, k - 1, k - 1) * freqs[k - 1]
  }

  lemma {:induction false} NormalisedExpectedRateScaled(rates: seq<real>, freqs: seq<real>, k: int)
    requires |rates| >= 8 && 0 <= k <= |freqs|
    requires ExpectedRate(rates, freqs, |freqs|) != 0.0
    ensures NormalisedExpectedRate(rates, freqs, k) == ExpectedRate(rates, freqs, k) / ExpectedRate(rates, freqs, |freqs|)
  {
    if k > 0 {
      var e := ExpectedRate(rates, freqs, |freqs|);
      var g := Generator(rates, freqs, k - 1, k - 1);
      var a := ExpectedRate(rates, freqs, k - 1);
      var fr := freqs[k - 1];
      NormalisedExpectedRateScaled(rates, freqs, k - 1);
      assert Normalised(rates, freqs, k - 1, k - 1) == g / e;
      assert NormalisedExpectedRate(rates, freqs, k) == a / e + -(g / e) * fr;
      assert ExpectedRate(rates, freqs, k) == a + -g * fr;
      ScaledTerm(a, g, fr, e);
    }
  }

  /** One term of the expected rate, scaled by 1/e. */
  lemma ScaledTerm(a: real, g: real, fr: real, e: real)
    requires e != 0.0
    ensures a / e + -(g / e) * fr == (a + -g * fr) / e
  {
    DivAdd(a, -g * fr, e);
    NegDivMul(g, fr, e);
  }

  /** After normalisation the expected number of substitutions per unit time is one. */
  lemma UnitExpectedRate(rates: seq<real>, freqs: seq<real>)
    requires |rates| >= 8
    requires ExpectedRate(rates, freqs, |freqs|) != 0.0
    ensures NormalisedExpectedRate(rates, freqs, |freqs|) == 1.0
  {
    NormalisedExpectedRateScaled(rates, freqs, |freqs|);
  }

  // ---------------------------------------------------------------------------------------
  // The model object
  // ---------------------------------------------------------------------------------------

  /**
   * Writes the eight rates of two binary traits into the single-flip cells of an all-zero matrix.
   * A matrix smaller than 4 × 4 or fewer than eight rates is an array index out of bounds.
   */
  method SeedCells(m: array2<real>, rates: seq<real>) returns (r: Result<()>)
    requires forall i, j :: 0 <= i < m.Length0 && 0 <= j < m.Length1 ==> m[i, j] == 0.0
    modifies m
    ensures r.Err? <==> m.Length0 < 4 || m.Length1 < 4 || |rates| < 8
    ensures r.Err? ==> r.msg == ArrayIndexOutOfBounds
    ensures r.Ok? ==> forall i, j :: 0 <= i < m.Length0 && 0 <= j < m.Length1 ==> m[i, j] == Seed(rates, i, j)
  {
    if m.Length0 < 4 || m.Length1 < 4 || |rates| < 8 {
      return Err(ArrayIndexOutOfBounds);
    }
    m[0, 1] := rates[0];
    m[0, 2] := rates[1];
    m[1, 0] := rates[2];
    m[1, 3] := rates[3];
    m[2, 0] := rates[4];
    m[2, 3] := rates[5];
    m[3, 1] := rates[6];
    m[3, 2] := rates[7];
    return Ok(());
  }

  /** The message of a frequency vector whose length is not the number of states. */
  function FrequenciesMismatch(freqCount: int, states: int): (msg: string)
    ensures StartsWith(msg, "Dimension of input 'frequencies' is ")
  {
    "Dimension of input 'frequencies' is " + IntToString(freqCount)
      + " but the shape input gives a total dimension of " + IntToString(states)
  }

  /** The message of a rates vector whose length is not states × transitions. */
  function RatesMismatch(rateCount: int, states: int, transitions: int): (msg: string)
    ensures StartsWith(msg, "Dimension of input 'rates' is ")
  {
    "Dimension of input 'rates' is " + IntToString(rateCount) + " but a rate matrix of dimension "
      + IntToString(states) + "x" + IntToString(transitions) + "=" + IntToString(states * transitions)
      + " was expected"
  }

  class CorrelatedSubstitutionModel {
    var shape: seq<int>
    var nrOfStates: int
    /** Accumulated with += on every initialisation and never reset. */
    var nonzeroTransitions: int
    var frequencies: seq<real>
    var rates: seq<real>
    var rateMatrix: array2<real>

    constructor ()
      ensures shape == [] && nrOfStates == 0 && nonzeroTransitions == 0
      ensures frequencies == [] && rates == []
    {
      shape := [];
      nrOfStates := 0;
      nonzeroTransitions := 0;
      frequencies := [];
      rates := [];
      rateMatrix := new real[0, 0];
    }

    /** The state every query relies on after a successful initialisation with a positive shape. */
    predicate Ready()
      reads this
    {
      nrOfStates == Prod(shape) && WellShaped(shape, nonzeroTransitions, frequencies, rates)
    }

    /** What a successful initialisation leaves: an nrOfStates-square matrix and one frequency per state. */
    predicate MatrixShaped()
      reads this
    {
      rateMatrix.Length0 == nrOfStates && rateMatrix.Length1 == nrOfStates && |frequencies| == nrOfStates
    }

    /** The matrix is at least 4 × 4 and there are the eight rates of two binary traits. */
    predicate MatrixReady()
      reads this
    {
      MatrixShaped() && nrOfStates >= 4 && |rates| >= 8
    }

    /**
     * initAndValidate: the shape comes from the shape input, else the alignment's compound data
     * type, else the data type input; none of them is an error. The state count is the product of
     * the sizes and Σ(size − 1) is added to nonzeroTransitions; the frequency vector must have one
     * entry per state and the rates vector stateCount·nonzeroTransitions entries.
     */
    method InitAndValidate(shapeInput: Option<seq<int>>, alignmentStateCounts: Option<seq<int>>,
                           datatypeStateCounts: Option<seq<int>>, freqs: seq<real>, ratesValue: seq<real>)
      returns (r: Result<()>)
      modifies this
      ensures frequencies == freqs
      ensures shapeInput.None? && alignmentStateCounts.None? && datatypeStateCounts.None? ==>
        r == Err("One of shape, datatype, alignment must be specified.")
        && shape == old(shape) && nrOfStates == old(nrOfStates) && nonzeroTransitions == old(nonzeroTransitions)
        && rates == old(rates) && rateMatrix == old(rateMatrix)
      ensures shapeInput.Some? || alignmentStateCounts.Some? || datatypeStateCounts.Some? ==>
        var sh := if shapeInput.Some? then shapeInput.value
          else if alignmentStateCounts.Some? then alignmentStateCounts.value else datatypeStateCounts.value;
        shape == sh && nrOfStates == Prod(sh)
        && nonzeroTransitions == old(nonzeroTransitions) + Transitions(sh)
        && (r.Ok? <==> |freqs| == Prod(sh) && |ratesValue| == Prod(sh) * nonzeroTransitions)
        && (r.Err? ==> r.msg == if |freqs| != Prod(sh) then FrequenciesMismatch(|freqs|, Prod(sh))
                                else RatesMismatch(|ratesValue|, Prod(sh), nonzeroTransitions))
      ensures r.Ok? ==> (rates == ratesValue && fresh(rateMatrix)
        && rateMatrix.Length0 == nrOfStates && rateMatrix.Length1 == nrOfStates)
      ensures r.Err? ==> rates == old(rates) && rateMatrix == old(rateMatrix)
      ensures r.Ok? ==> MatrixShaped()
      ensures r.Ok? && old(nonzeroTransitions) >= 0 && PositiveShape(shape) ==> Ready()
    {
      frequencies := freqs;
      var sh: seq<int>;
      if shapeInput.None? {
        if alignmentStateCounts.None? {
          if datatypeStateCounts.None? {
            return Err("One of shape, datatype, alignment must be specified.");
          } else {
            sh := datatypeStateCounts.value;
          }
        } else {
          sh := alignmentStateCounts.value;
        }
      } else {
        sh := shapeInput.value;
      }
      shape := sh;

      ghost var nz0 := nonzeroTransitions;
      CountStates();

      r := CheckDimensions(ratesValue);
      if r.Ok? && nz0 >= 0 && PositiveShape(shape) {
        TransitionsPrefix(shape, |shape|);
      }
    }

    /**
     * The checks ending initAndValidate: one frequency per state and nonzeroTransitions rates per
     * state, else an error naming the input; then the matrix is allocated and the rates taken.
     */
    method CheckDimensions(ratesValue: seq<real>) returns (r: Result<()>)
      modifies this`rates, this`rateMatrix
      ensures r.Ok? <==> |frequencies| == nrOfStates && |ratesValue| == nrOfStates * nonzeroTransitions
      ensures r.Err? ==> r.msg == if |frequencies| != nrOfStates then FrequenciesMismatch(|frequencies|, nrOfStates)
        else RatesMismatch(|ratesValue|, nrOfStates, nonzeroTransitions)
      ensures r.Ok? ==> (rates == ratesValue && fresh(rateMatrix)
        && rateMatrix.Length0 == nrOfStates && rateMatrix.Length1 == nrOfStates)
      ensures r.Err? ==> rates == old(rates) && rateMatrix == old(rateMatrix)
    {
      if nrOfStates != |frequencies| {
        return Err(FrequenciesMismatch(|frequencies|, nrOfStates));
      }
      if |ratesValue| != nrOfStates * nonzeroTransitions {
        return Err(RatesMismatch(|ratesValue|, nrOfStates, nonzeroTransitions));
      }
      rateMatrix := new real[nrOfStates, nrOfStates];
      rates := ratesValue;
      return Ok(());
    }

    /** The shape loop of initAndValidate: the number of states and the transitions added per component. */
    method CountStates()
      modifies this`nrOfStates, this`nonzeroTransitions
      ensures nrOfStates == Prod(shape) && nonzeroTransitions == old(nonzeroTransitions) + Transitions(shape)
    {
      nrOfStates := 1;
      for k := 0 to |shape|
        invariant nrOfStates == Prod(shape[..k])
        invariant nonzeroTransitions == old(nonzeroTransitions) + Transitions(shape[..k])
      {
        ProdStep(shape, k);
        TransitionsStep(shape, k);
        nrOfStates := nrOfStates * shape[k];
        nonzeroTransitions := nonzeroTransitions + (shape[k] - 1);
      }
      assert shape[..|shape|] == shape;
    }

    /** getShape: a fresh copy of the shape. */
    method GetShape() returns (r: array<int>)
      ensures fresh(r) && r[..] == shape
    {
      r := new int[|shape|](k requires 0 <= k < |shape| reads this => shape[k]);
    }

    /**
     * setupRateMatrix: a fresh all-zero matrix, seeded, scaled by frequencies, completed with the
     * diagonal and normalised. The result says whether the normalisation constant was nonzero; a
     * matrix smaller than 4 × 4 or fewer than eight rates fails on the seeding.
     */
    method SetupRateMatrix() returns (r: Result<bool>)
      requires MatrixShaped()
      modifies this
      ensures shape == old(shape) && nrOfStates == old(nrOfStates) && nonzeroTransitions == old(nonzeroTransitions)
      ensures frequencies == old(frequencies) && rates == old(rates)
      ensures r.Err? <==> nrOfStates < 4 || |rates| < 8
      ensures r.Err? ==> r.msg == ArrayIndexOutOfBounds
      ensures nrOfStates == 0 ==> rateMatrix == old(rateMatrix)
      ensures nrOfStates > 0 ==> fresh(rateMatrix) && MatrixShaped()
      ensures r.Ok? ==> (r.value <==> ExpectedRate(rates, frequencies, nrOfStates) != 0.0)
      ensures r.Ok? && r.value ==> forall i, j :: 0 <= i < nrOfStates && 0 <= j < nrOfStates ==>
        rateMatrix[i, j] == Normalised(rates, frequencies, i, j)
      ensures r.Ok? && !r.value ==> forall i, j :: 0 <= i < nrOfStates && 0 <= j < nrOfStates ==>
        rateMatrix[i, j] == Generator(rates, frequencies, i, j)
    {
      var seeded := SeedMatrix();
      if seeded.Err? {
        return Err(seeded.msg);
      }
      ScaleByFrequencies();
      SetDiagonal();
      var normalised := NormaliseMatrix();
      return Ok(normalised);
    }

    /**
     * Reallocates the matrix with zeros and places rates 0..7 at the single-flip cells. Java takes
     * the old matrix's first row for the width, so an empty matrix fails before reallocation.
     */
    method SeedMatrix() returns (r: Result<()>)
      requires MatrixShaped()
      modifies this`rateMatrix
      ensures r.Err? <==> nrOfStates < 4 || |rates| < 8
      ensures r.Err? ==> r.msg == ArrayIndexOutOfBounds
      ensures nrOfStates == 0 ==> rateMatrix == old(rateMatrix)
      ensures nrOfStates > 0 ==> fresh(rateMatrix) && MatrixShaped()
      ensures r.Ok? ==> forall i, j :: 0 <= i < nrOfStates && 0 <= j < nrOfStates ==> rateMatrix[i, j] == Seed(rates, i, j)
    {
      if rateMatrix.Length0 == 0 {
        return Err(ArrayIndexOutOfBounds);
      }
      var m := new real[rateMatrix.Length0, rateMatrix.Length1]((i, j) => 0.0);
      rateMatrix := m;
      r := SeedCells(m, rates);
    }

    /** Multiplies (i, j) by freq[j] and (j, i) by freq[i] for every i < j. */
    method ScaleByFrequencies()
      requires MatrixReady()
      requires forall i, j :: 0 <= i < nrOfStates && 0 <= j < nrOfStates ==> rateMatrix[i, j] == Seed(rates, i, j)
      modifies rateMatrix
      ensures forall i, j :: 0 <= i < nrOfStates && 0 <= j < nrOfStates ==>
        rateMatrix[i, j] == Scaled(rates, frequencies, i, j)
    {
      var n := nrOfStates;
      for i := 0 to n
        invariant forall r, c :: 0 <= r < n && 0 <= c < n ==>
          rateMatrix[r, c] == if r != c && (r < i || c < i) then Scaled(rates, frequencies, r, c) else Seed(rates, r, c)
      {
        for j := i + 1 to n
          invariant forall r, c :: 0 <= r < n && 0 <= c < n ==>
            rateMatrix[r, c] == if r != c && (r < i || c < i || (r == i && c < j) || (c == i && r < j))
              then Scaled(rates, frequencies, r, c) else Seed(rates, r, c)
        {
          rateMatrix[i, j] := rateMatrix[i, j] * frequencies[j];
          rateMatrix[j, i] := rateMatrix[j, i] * frequencies[i];
        }
      }
    }

    /** Sets each diagonal cell to the negated sum of the other cells of its row. */
    method SetDiagonal()
      requires MatrixReady()
      requires forall i, j :: 0 <= i < nrOfStates && 0 <= j < nrOfStates ==>
        rateMatrix[i, j] == Scaled(rates, frequencies, i, j)
      modifies rateMatrix
      ensures forall i, j :: 0 <= i < nrOfStates && 0 <= j < nrOfStates ==>
        rateMatrix[i, j] == Generator(rates, frequencies, i, j)
    {
      var n := nrOfStates;
      for i := 0 to n
        invariant forall r, c :: 0 <= r < n && 0 <= c < n ==>
          rateMatrix[r, c] == if r == c && r < i then Generator(rates, frequencies, r, c) else Scaled(rates, frequencies, r, c)
      {
        var rowsum := 0.0;
        for j := 0 to n
          invariant rowsum == OffRowSum(rates, frequencies, i, j)
        {
          if j != i {
            rowsum := rowsum + rateMatrix[i, j];
          }
        }
        rateMatrix[i, i] := -rowsum;
      }
    }

    /** Divides every cell by Σ −Q_ii·freq_i when that is nonzero. */
    method NormaliseMatrix() returns (normalised: bool)
      requires MatrixReady()
      requires forall i, j :: 0 <= i < nrOfStates && 0 <= j < nrOfStates ==>
        rateMatrix[i, j] == Generator(rates, frequencies, i, j)
      modifies rateMatrix
      ensures normalised <==> ExpectedRate(rates, frequencies, nrOfStates) != 0.0
      ensures normalised ==> forall i, j :: 0 <= i < nrOfStates && 0 <= j < nrOfStates ==>
        rateMatrix[i, j] == Normalised(rates, frequencies, i, j)
      ensures !normalised ==> forall i, j :: 0 <= i < nrOfStates && 0 <= j < nrOfStates ==>
        rateMatrix[i, j] == Generator(rates, frequencies, i, j)
    {
      var n := nrOfStates;
      var fSubst := 0.0;
      for i := 0 to n
        invariant fSubst == ExpectedRate(rates, frequencies, i)
      {
        fSubst := fSubst + -rateMatrix[i, i] * frequencies[i];
      }
      normalised := fSubst != 0.0;
      if normalised {
        for i := 0 to n
          invariant forall r, c :: 0 <= r < n && 0 <= c < n ==>
            rateMatrix[r, c] == if r < i then Normalised(rates, frequencies, r, c) else Generator(rates, frequencies, r, c)
        {
          for j := 0 to n
            invariant forall r, c :: 0 <= r < n && 0 <= c < n ==>
              rateMatrix[r, c] == if r < i || (r == i && c < j) then Normalised(rates, frequencies, r, c)
                else Generator(rates, frequencies, r, c)
          {
            rateMatrix[i, j] := rateMatrix[i, j] / fSubst;
          }
        }
      }
    }

    /**
     * The scan-range arithmetic of `depends`: the slots of `component` are
     * [Σ_{c<component}(size_c − 1), Σ_{c<=component}(size_c − 1)), and the place value of
     * `dependsOn` is the state count divided by the sizes up to and including it.
     */
    method ComponentRange(component: nat, dependsOn: nat) returns (componentMin: int, componentMax: int, dependsOnStep: int)
      requires Ready()
      requires component < |shape| && dependsOn < |shape|
      ensures componentMin == Transitions(shape[..component])
      ensures componentMax == Transitions(shape[..component + 1])
      ensures componentMax == componentMin + shape[component] - 1
      ensures dependsOnStep == StepOf(shape, dependsOn)
    {
      componentMax := 0;
      componentMin := 0;
      dependsOnStep := nrOfStates;
      var c := 0;
      assert shape[0..] == shape && PositiveShape(shape);
      while c <= component || c <= dependsOn
        decreases component + dependsOn + 1 - c
        invariant 0 <= c <= |shape|
        invariant c <= component + 1 || c <= dependsOn + 1
        invariant c <= component + 1 ==> componentMax == Transitions(shape[..c])
        invariant c <= component + 1 && c > 0 ==> componentMin == Transitions(shape[..c - 1])
        invariant c > component + 1 ==> componentMax == Transitions(shape[..component + 1])
        invariant c > component + 1 ==> componentMin == Transitions(shape[..component])
        invariant c <= dependsOn + 1 ==> dependsOnStep == Prod(shape[c..])
        invariant c > dependsOn + 1 ==> dependsOnStep == Prod(shape[dependsOn + 1..])
      {
        if c <= component {
          TransitionsStep(shape, c);
          componentMin := componentMax;
          componentMax := componentMax + (shape[c] - 1);
        }
        if c <= dependsOn {
          ProdDivHead(shape, c);
          dependsOnStep := dependsOnStep / shape[c];
        }
        c := c + 1;
      }
      assert shape[..component + 1][..component] == shape[..component];
    }

    /**
     * Marks `from` and, for each slot in [componentMin, componentMax), compares its rate with the
     * same slot of every state above `from` in the `dependsOn` digit, marking those states too;
     * stops at the first difference.
     */
    method CompareSlots(checked: array<bool>, from: int, componentMin: int, componentMax: int,
                        step: int, size: int, ghost hi: int) returns (differs: bool, ghost o: int, ghost ct: int)
      requires step >= 1 && size >= 1 && hi >= 0
      requires checked.Length == nrOfStates == hi * (size * step)
      requires 0 <= componentMin <= componentMax <= nonzeroTransitions
      requires |rates| == nrOfStates * nonzeroTransitions
      requires 0 <= from < nrOfStates
      requires componentMin < componentMax ==> Digit(from, step, size) == 0
      requires Marked(checked, from, step, size, componentMin < componentMax, 0)
      modifies checked
      ensures differs ==> (1 <= o < size && componentMin <= ct < componentMax
        && RateAt(rates, nonzeroTransitions, from, ct) != RateAt(rates, nonzeroTransitions, Shift(from, step, o), ct))
      ensures !differs ==> Marked(checked, from, step, size, componentMin < componentMax,
        if componentMin < componentMax then size else 1)
      ensures !differs ==> forall o, ct :: 1 <= o < size && componentMin <= ct < componentMax ==>
        RateAt(rates, nonzeroTransitions, from, ct) == RateAt(rates, nonzeroTransitions, Shift(from, step, o), ct)
    {
      ghost var marks := componentMin < componentMax;
      RepFacts(from, step, size);
      checked[from] := true;
      assert Marked(checked, from, step, size, marks, 1);
      for componentTo := componentMin to componentMax
        invariant Marked(checked, from, step, size, marks, if componentTo > componentMin then size else 1)
        invariant forall o, ct :: 1 <= o < size && componentMin <= ct < componentTo ==>
          RateAt(rates, nonzeroTransitions, from, ct) == RateAt(rates, nonzeroTransitions, Shift(from, step, o), ct)
      {
        SlotInRange(from, componentTo, nrOfStates, nonzeroTransitions);
        var thisRate := rates[from * nonzeroTransitions + componentTo];
        for other := 1 to size
          invariant Marked(checked, from, step, size, marks, if componentTo > componentMin then size else other)
          invariant forall o :: 1 <= o < other ==>
            thisRate == RateAt(rates, nonzeroTransitions, Shift(from, step, o), componentTo)
        {
          var otherIndex := from + step * other;
          ShiftDigit(from, other, step, size);
          ShiftInRange(from, other, step, size, hi);
          assert otherIndex == Shift(from, step, other);
          checked[otherIndex] := true;
          SlotInRange(otherIndex, componentTo, nrOfStates, nonzeroTransitions);
          var otherRate := rates[otherIndex * nonzeroTransitions + componentTo];
          if thisRate != otherRate {
            return true, other, componentTo;
          }
        }
      }
      return false, 0, 0;
    }

    /**
     * depends: whether the rates of `component` vary with the state of `dependsOn`. Unequal
     * frequencies answer true at once; otherwise each unmarked state is compared, slot by slot,
     * with the states that differ from it only in the `dependsOn` digit, which are then marked.
     */
    method Depends(component: nat, dependsOn: nat) returns (r: bool)
      requires Ready()
      requires component < |shape| && dependsOn < |shape|
      ensures r == DependsSpec(shape, nonzeroTransitions, frequencies, rates, component, dependsOn)
    {
      ProdPositive(shape);
      var freq0 := frequencies[0];
      for k := 0 to |frequencies|
        invariant forall k' :: 0 <= k' < k ==> frequencies[k'] == freq0
      {
        if frequencies[k] != freq0 {
          return true;
        }
      }

      var componentMin, componentMax, dependsOnStep := ComponentRange(component, dependsOn);
      StepFacts(shape, dependsOn);
      TransitionsPrefix(shape, component);
      TransitionsPrefix(shape, component + 1);
      var size := shape[dependsOn];
      ghost var marks := componentMin < componentMax;
      var checked := new bool[nrOfStates](_ => false);
      MarkedInitially(checked, dependsOnStep, size, marks);
      for from := 0 to nrOfStates
        invariant Marked(checked, from, dependsOnStep, size, marks, 0)
        invariant forall f, o, ct ::
          (0 <= f < from && Digit(f, dependsOnStep, size) == 0 && 1 <= o < size && componentMin <= ct < componentMax)
          ==> RateAt(rates, nonzeroTransitions, f, ct) == RateAt(rates, nonzeroTransitions, Shift(f, dependsOnStep, o), ct)
      {
        if !checked[from] {
          MarkedUnvisited(checked, from, dependsOnStep, size, marks);
          var differs;
          ghost var o, ct;
          differs, o, ct := CompareSlots(checked, from, componentMin, componentMax, dependsOnStep, size, Prod(shape[..dependsOn]));
          if differs {
            RepresentativeDifferenceIsRatesDiffer(shape, nonzeroTransitions, rates, component, dependsOn, from, o, ct);
            return true;
          }
          MarkedAdvance(checked, from, dependsOnStep, size, marks);
        } else {
          MarkedSkip(checked, from, dependsOnStep, size, marks);
        }
      }
      NoRepresentativeDifference(shape, nonzeroTransitions, rates, component, dependsOn);
      return false;
    }
  }

  /**
   * The marks `depends` has made before finishing state `from`: every state below `from`, the
   * states above an earlier representative (when there are slots to compare), and, once `cur`
   * is positive, `from` itself and the states above it whose digit is below `cur`.
   */
  predicate Marked(checked: array<bool>, from: int, step: int, size: int, marks: bool, cur: int)
    requires step > 0 && size > 0
    reads checked
  {
    forall x :: 0 <= x < checked.Length ==>
      (checked[x] <==> (x < from || (marks && Digit(x, step, size) > 0 && Rep(x, step, size) < from)
        || (cur > 0 && x == from) || (Rep(x, step, size) == from && 0 < Digit(x, step, size) < cur)))
  }

  /** Nothing is marked before the scan starts. */
  lemma MarkedInitially(checked: array<bool>, step: int, size: int, marks: bool)
    requires step > 0 && size > 0
    requires forall x :: 0 <= x < checked.Length ==> !checked[x]
    ensures Marked(checked, 0, step, size, marks, 0)
  {
    forall x | 0 <= x < checked.Length
      ensures Rep(x, step, size) >= 0
    {
      RepFacts(x, step, size);
    }
  }

  /** An unmarked state has a zero digit whenever there are slots to compare. */
  lemma MarkedUnvisited(checked: array<bool>, from: int, step: int, size: int, marks: bool)
    requires step > 0 && size > 0 && 0 <= from < checked.Length
    requires Marked(checked, from, step, size, marks, 0) && !checked[from]
    ensures marks ==> Digit(from, step, size) == 0
  {
    RepFacts(from, step, size);
  }

  /** A marked state at the scan position lies above an earlier representative. */
  lemma MarkedSkip(checked: array<bool>, from: int, step: int, size: int, marks: bool)
    requires step > 0 && size > 0 && 0 <= from < checked.Length
    requires Marked(checked, from, step, size, marks, 0) && checked[from]
    ensures Marked(checked, from + 1, step, size, marks, 0)
    ensures marks && Digit(from, step, size) > 0
  {
    RepFacts(from, step, size);
    forall x | 0 <= x < checked.Length
      ensures Digit(Rep(x, step, size), step, size) == 0 && Rep(x, step, size) <= x
    {
      RepFacts(x, step, size);
    }
  }

  /** Once the block of `from` is marked, the scan moves on. */
  lemma MarkedAdvance(checked: array<bool>, from: int, step: int, size: int, marks: bool)
    requires step > 0 && size > 0 && 0 <= from < checked.Length
    requires Marked(checked, from, step, size, marks, if marks then size else 1)
    ensures Marked(checked, from + 1, step, size, marks, 0)
  {
    forall x | 0 <= x < checked.Length
      ensures 0 <= Digit(x, step, size) < size
    {
      RepFacts(x, step, size);
    }
  }
}

=== FILE: DPlaceCSVtoXML.dfy ===
/**
 * The converter from a D-PLACE two-feature export to alignment XML. Rows are read as for the
 * trait alignment, but each language gets a two-character label ("00", "01", "10", "11") instead
 * of a number, a language whose rows disagree becomes unknown ("??"), and a tally of the labels
 * handed out is kept. The output lists every language of a fixed ISO list with its label, and the
 * languages whose label is known.
 */
module DPlaceConverter {
  import opened Common
  import opened JavaErrors
  import opened JavaText
  import opened DPlaceAlignment

  /** The four labels of a classified language. */
  const Classes: set<string> := {"00", "01", "10", "11"}
  const Unknown: string := "??"

  /** The label of a value of the trait alignment: its two bits as characters, or "??" for a missing feature. */
  function Label(v: int): (l: string)
    requires v == 15 || 0 <= v <= 3
    ensures l == Unknown <==> v == 15
    ensures v != 15 ==> l in Classes && (l[0] == '1' <==> v / 2 == 1) && (l[1] == '1' <==> v % 2 == 1)
  {
    if v == 15 then Unknown
    else [if v / 2 == 1 then '1' else '0', if v % 2 == 1 then '1' else '0']
  }

  /** The labels handed out so far and the tally per label. */
  datatype Tally = Tally(data: map<string, string>, count: map<string, int>)

  /** Every label is a known one and every label has a tally entry. */
  predicate WellKept(t: Tally)
  {
    (forall k :: k in t.data ==> t.data[k] in Classes || t.data[k] == Unknown)
    && (forall c :: c in Classes ==> c in t.count) && Unknown in t.count
  }

  /** The tally run starts from: all five entries zero. */
  const Initial: map<string, int> := map["00" := 0, "01" := 0, "10" := 0, "11" := 0, "??" := 0]

  /**
   * One data row's label l for language iso: a missing feature makes it unknown and leaves the
   * tally alone; a first sighting records l and counts it; a sighting that disagrees with the
   * recorded label makes it unknown and takes one off the tally of the recorded label.
   */
  function Step(t: Tally, iso: string, l: string): (r: Tally)
    requires WellKept(t) && (l in Classes || l == Unknown)
    ensures WellKept(r)
  {
    if l == Unknown then Tally(t.data[iso := Unknown], t.count)
    else if iso !in t.data then Tally(t.data[iso := l], t.count[l := t.count[l] + 1])
    else if t.data[iso] != l then
      var s := t.data[iso];
      Tally(t.data[iso := Unknown], t.count[s := t.count[s] - 1])
    else t
  }

  /** Number of languages holding label c. */
  function CountOf(data: map<string, string>, c: string): nat
  {
    |set k | k in data && data[k] == c|
  }

  /** Taking one language out of the map takes it out of the set of its label. */
  lemma CountRemove(data: map<string, string>, key: string, c: string)
    ensures CountOf(data, c) == CountOf(data - {key}, c) + (if key in data && data[key] == c then 1 else 0)
  {
    var d2 := data - {key};
    var a := set k | k in data && data[k] == c;
    var rest := set k | k in d2 && d2[k] == c;
    if key in data && data[key] == c {
      assert a == rest + {key};
    } else {
      assert a == rest;
    }
  }

  /** Setting one language's label moves it from the set of its old label to that of its new one. */
  lemma CountUpdate(data: map<string, string>, key: string, v: string, c: string)
    ensures CountOf(data[key := v], c)
      == CountOf(data, c) - (if key in data && data[key] == c then 1 else 0) + (if v == c then 1 else 0)
  {
    CountRemove(data, key, c);
    CountRemove(data[key := v], key, c);
    assert data[key := v] - {key} == data - {key};
  }

  /** Every class's tally is the number of languages holding it. */
  predicate Balanced(t: Tally)
    requires WellKept(t)
  {
    forall c :: c in Classes ==> t.count[c] == CountOf(t.data, c)
  }

  /**
   * A row keeps the tally exact unless a missing feature overwrites a classified language: first
   * sightings are counted and a disagreement takes its language off its old tally.
   */
  lemma StepKeepsBalance(t: Tally, iso: string, l: string)
    requires WellKept(t) && Balanced(t) && (l in Classes || l == Unknown)
    requires l == Unknown ==> iso !in t.data || t.data[iso] !in Classes
    ensures Balanced(Step(t, iso, l))
  {
    var r := Step(t, iso, l);
    forall c | c in Classes
      ensures r.count[c] == CountOf(r.data, c)
    {
      if l == Unknown || (iso in t.data && t.data[iso] != l) {
        CountUpdate(t.data, iso, Unknown, c);
      } else if iso !in t.data {
        CountUpdate(t.data, iso, l, c);
      }
    }
  }

  /** A missing feature after a classified sighting leaves the tally of the old class one too high. */
  lemma MissingAfterSightingOvercounts()
    ensures var t1 := Step(Tally(map[], Initial), "abc", "11");
      var t2 := Step(t1, "abc", Unknown);
      t2.count["11"] == 1 && CountOf(t2.data, "11") == 0
  {
    var t1 := Step(Tally(map[], Initial), "abc", "11");
    var t2 := Step(t1, "abc", Unknown);
    assert t2.data == map["abc" := Unknown];
    assert (set k | k in t2.data && t2.data[k] == "11") == {};
  }

  /** What one data row does: a row whose ISO has at least 3 characters contributes its label. */
  function TallyRow(t: Tally, line: string, c: Columns, code1: set<string>, code2: set<string>): (r: Result<Tally>)
    requires Found(c) && WellKept(t)
    ensures r.Ok? ==> WellKept(r.value) && t.data.Keys <= r.value.data.Keys
    ensures r.Err? ==> r.msg == StringIndexOutOfBounds || r.msg == ArrayIndexOutOfBounds
  {
    if InQuote(line) then Err(StringIndexOutOfBounds)
    else
      var f := Fields(line);
      if c.col1 >= |f| || c.col2 >= |f| || c.iso >= |f| then Err(ArrayIndexOutOfBounds)
      else if |f[c.iso]| >= 3 then Ok(Step(t, f[c.iso], Label(Classify(f[c.col1], f[c.col2], code1, code2))))
      else Ok(t)
  }

  /** The tally after the rows in order; the first failing row ends the reading. */
  function TallyRows(t: Tally, rows: seq<string>, c: Columns, code1: set<string>, code2: set<string>): (r: Result<Tally>)
    requires Found(c) && WellKept(t)
    ensures r.Ok? ==> WellKept(r.value)
    ensures r.Err? ==> r.msg == StringIndexOutOfBounds || r.msg == ArrayIndexOutOfBounds
  {
    if |rows| == 0 then Ok(t)
    else
      var prev := TallyRows(t, rows[..|rows| - 1], c, code1, code2);
      if prev.Err? then prev else TallyRow(prev.value, rows[|rows| - 1], c, code1, code2)
  }

  /**
   * Rows without a missing feature keep the tally exact: afterwards each class's tally is the
   * number of languages labelled with it.
   */
  lemma {:induction false} TallyRowsBalanced(t: Tally, rows: seq<string>, c: Columns, code1: set<string>, code2: set<string>)
    requires Found(c) && WellKept(t) && Balanced(t)
    requires forall j :: 0 <= j < |rows| && !InQuote(rows[j]) && c.col1 < |Fields(rows[j])| && c.col2 < |Fields(rows[j])| ==>
      Fields(rows[j])[c.col1] != "NA" && Fields(rows[j])[c.col2] != "NA"
    requires TallyRows(t, rows, c, code1, code2).Ok?
    ensures Balanced(TallyRows(t, rows, c, code1, code2).value)
  {
    if |rows| > 0 {
      var n := |rows| - 1;
      var prev := TallyRows(t, rows[..n], c, code1, code2);
      TallyRowsBalanced(t, rows[..n], c, code1, code2);
      var line := rows[n];
      var f := Fields(line);
      if |f[c.iso]| >= 3 {
        StepKeepsBalance(prev.value, f[c.iso], Label(Classify(f[c.col1], f[c.col2], code1, code2)));
      }
    }
  }

  /** The label a language of the output list shows: its recorded label, or "??". */
  function ValueOf(data: map<string, string>, iso: string): string
  {
    if iso in data then data[iso] else Unknown
  }

  function SequenceLine(iso: string, value: string): string
  {
    "<sequence taxon=\"" + iso + "\" value=\"" + value + "\"/>\n"
  }

  function TaxonLine(iso: string): string
  {
    "<taxon id=\"" + iso + "\"/>\n"
  }

  /** Distinct languages give distinct taxon lines. */
  lemma TaxonLineInjective(a: string, b: string)
    requires TaxonLine(a) == TaxonLine(b)
    ensures a == b
  {
    var p := "<taxon id=\"";
    assert |a| == |b|;
    assert a == TaxonLine(a)[|p|..|p| + |a|];
  }

  /** The sequence lines: one per listed language, in order. */
  function SequenceLines(isos: seq<string>, data: map<string, string>): (ls: seq<string>)
    ensures |ls| == |isos|
    ensures forall k :: 0 <= k < |isos| ==> ls[k] == SequenceLine(isos[k], ValueOf(data, isos[k]))
  {
    if |isos| == 0 then [] else SequenceLines(isos[..|isos| - 1], data) + [SequenceLine(isos[|isos| - 1], ValueOf(data, isos[|isos| - 1]))]
  }

  /** The taxon lines: one per listed language with a known label, in order. */
  function TaxaLines(isos: seq<string>, data: map<string, string>): seq<string>
  {
    if |isos| == 0 then []
    else
      var iso := isos[|isos| - 1];
      TaxaLines(isos[..|isos| - 1], data) + (if ValueOf(data, iso) != Unknown then [TaxonLine(iso)] else [])
  }

  /** A language has a taxon line exactly when it is listed and its label is known. */
  lemma {:induction false} TaxaLinesExact(isos: seq<string>, data: map<string, string>, iso: string)
    ensures TaxonLine(iso) in TaxaLines(isos, data) <==> iso in isos && ValueOf(data, iso) != Unknown
  {
    if |isos| > 0 {
      var n := |isos| - 1;
      TaxaLinesExact(isos[..n], data, iso);
      assert isos == isos[..n] + [isos[n]];
      if TaxonLine(iso) == TaxonLine(isos[n]) {
        TaxonLineInjective(iso, isos[n]);
      }
    }
  }

  /** No tabu language is listed among the taxa with data once the tabu languages are made unknown. */
  lemma TabuNeverListed(d: map<string, string>, isos: seq<string>, x: string)
    requires x in Tabu
    ensures TaxonLine(x) !in TaxaLines(isos, ForceUnknown(d, Tabu))
  {
    TaxaLinesExact(isos, ForceUnknown(d, Tabu), x);
  }

  /** The XML comment heading the alignment: the two feature columns and the codes mapped to 1. */
  function Comment(description1: string, description2: string, code1Input: string, code2Input: string): seq<string>
  {
    ["<!--\n",
     "First column: " + description1 + ". 1 for DPLACE values " + code1Input + "\n",
     "Second column: " + description2 + ". 1 for DPLACE values " + code2Input + "\n",
     "-->\n"]
  }

  /** The two texts run produces, as the pieces appended to them. */
  datatype Output = Output(alignment: seq<string>, taxaWithData: seq<string>)

  /** The fixed ISO list of the output, the static isos array; a converter is constructed with it. */
  const Isos: seq<string> := [
    "aaq", "ach", "aeb", "agt", "aka", "ako", "ale", "aly", "anq", "aoc", "apc", "apd", "apf", "arq", "ars", "ary",
    "axk", "axl", "bdy", "bej", "bem", "bfa", "biy", "bkc", "bla", "bvr", "cce", "cea", "ciw", "col", "coo", "csi",
    "ctc", "dbl", "ddj", "dgc", "dih", "djb", "dnj", "drl", "efe", "esi", "esk", "ess", "esu", "eus", "ewe", "fij",
    "fla", "fln", "fuv", "gbd", "gbu", "gce", "gia", "gil", "git", "gup", "guq", "gur", "gvn", "gwj", "gyd", "haa",
    "hax", "hei", "hgm", "hoi", "hrc", "hur", "ike", "iow", "jnj", "kal", "kat", "kcg", "kdd", "kdj", "kee", "kej",
    "khm", "kjq", "kju", "kld", "koy", "ktw", "lbz", "len", "lol", "lrg", "mah", "mbr", "mdj", "mjd", "mjp", "mpb",
    "mpj", "mra", "msh", "mwp", "naq", "nay", "ngc", "ngh", "nju", "nmn", "nol", "nso", "nsq", "ntj", "nuy", "nya",
    "nyy", "ojb", "ojs", "oka", "oma", "ood", "oon", "orh", "oun", "pao", "pbu", "pcf", "pes", "piu", "pjt", "pko",
    "plt", "plw", "por", "ppi", "ptw", "ron", "rxw", "sbl", "sge", "shh", "shi", "shu", "sii", "skd", "som", "str",
    "swh", "tap", "taq", "tat", "tew", "thv", "tig", "tik", "tjw", "ttm", "ttq", "twf", "tyu", "udm", "ukr", "ump",
    "unn", "ute", "vmv", "wbt", "wgu", "wnw", "woe", "wrg", "wro", "wub", "xeg", "xet", "xgf", "xho", "xnz", "xtz",
    "xuj", "xuu", "yak", "yok", "yor", "yuf", "yuq", "zku", "aar", "abk", "abr", "abs", "abt", "abu", "acm", "acs",
    "acv", "ada", "adi", "adz", "aec", "aer", "aes", "afo", "ahg", "ahk", "ahs", "aim", "ain", "aiw", "aji", "ajp",
    "akl", "akp", "alc", "ald", "aln", "alz", "amc", "amf", "amh", "ami", "anc", "anu", "any", "aoi", "aol", "aon",
    "apb", "apj", "apk", "apl", "apm", "apn", "apq", "apw", "ari", "arn", "arp", "arv", "arw", "arz", "asa", "asb",
    "ati", "ats", "atw", "avi", "awe", "axb", "ayl", "ayn", "ayr", "bab", "bak", "bam", "ban", "bax", "bbc", "bbo",
    "bbp", "bca", "bci", "bcp", "bcy", "bdm", "bdp", "bdu", "bea", "bel", "ben", "bet", "bex", "bez", "bfd", "bfm",
    "bfo", "bfz", "bgo", "bgp", "bhb", "bho", "bib", "bif", "bin", "bip", "biv", "bja", "bjg", "bji", "bjw", "bkh",
    "bkm", "bko", "bkq", "bky", "blc", "ble", "bmi", "bmw", "bnm", "bnn", "bnp", "bod", "bol", "bom", "bor", "bot",
    "boz", "bpg", "bpr", "bqi", "brf", "bri", "brm", "brt", "bsc", "bsk", "bst", "bta", "bud", "buf", "buk", "bul",
    "bun", "buu", "bux", "bvb", "bwd", "bwr", "bwu", "bxk", "bxr", "byi", "byn", "byz", "bza", "bzd", "bze", "bzw",
    "caa", "cab", "cad", "caf", "cak", "cal", "cao", "caq", "car", "cax", "cbi", "ccg", "cch", "ccp", "cde", "cdr",
    "ceb", "ceg", "ces", "cgg", "cha", "chb", "chc", "chd", "che", "chh", "chk", "chl", "cho", "chp", "chr", "chv",
    "chy", "cic", "cid", "cjk", "cjm", "ckb", "ckt", "clc", "clm", "cmn", "cni", "coc", "cod", "com", "cou", "crd",
    "crj", "crk", "cro", "crq", "crx", "crz", "csa", "csm", "csw", "csz", "ctm", "cub", "cup", "cwe", "dag", "dak",
    "daq", "dav", "dbw", "dga", "dgr", "dhv", "did", "dif", "dig", "dik", "dil", "dim", "diz", "dje", "dnt", "dob",
    "dos", "dow", "doz", "dri", "drs", "dsh", "dta", "dtp", "dua", "dug", "duj", "dya", "dyo", "dyu", "dzg", "ebo",
    "efi", "ekg", "ell", "emp", "ems", "eng", "enq", "erg", "est", "ets", "etu", "evn", "eya", "eyo", "fan", "fip",
    "fll", "fmp", "foi", "fon", "for", "fra", "fub", "fuc", "fud", "fuf", "fuh", "fuj", "fuy", "fvr", "gaa", "gag",
    "gax", "gaz", "gby", "gde", "ggu", "giz", "gld", "gle", "gnc", "gno", "goa", "gog", "gol", "gow", "grh", "grt",
    "gta", "guc", "guh", "gui", "guj", "gun", "guu", "gux", "guz", "gwi", "gya", "gym", "haq", "has", "hau", "haw",
    "hay", "haz", "hch", "hdn", "hea", "heb", "heh", "her", "hid", "hke", "hmb", "hne", "hnn", "hoc", "hop", "hoz",
    "hts", "hun", "hup", "hus", "huu", "huv", "hwo", "hye", "ian", "iar", "iba", "ibb", "ibo", "ich", "ida", "idu",
    "ifb", "ife", "igb", "igl", "iii", "ijn", "ikt", "ilb", "ing", "irk", "isl", "iso", "itl", "its", "izh", "jac",
    "jav", "jbu", "jib", "jic", "jiv", "jle", "jpn", "kab", "kac", "kad", "kai", "kam", "kao", "kas", "kay", "kaz",
    "kbc", "kbd", "kbk", "kbl", "kbp", "kbr", "kby", "kca", "kde", "kdh", "kdn", "kdr", "ked", "kei", "kel", "ken",
    "keo", "ket", "kfa", "kff", "kgo", "kgq", "kha", "khk", "khu", "khy", "kib", "kic", "kig", "kij", "kik", "kin",
    "kio", "kjd", "kki", "kkz", "kla", "klb", "klu", "kmo", "kmw", "kna", "knb", "knk", "kns", "kod", "kog", "koo",
    "koq", "kor", "kos", "kot", "kpc", "kpg", "kpj", "kpy", "kpz", "kqi", "kqn", "kqq", "kqs", "kqy", "krh", "krn",
    "kru", "krw", "ksb", "ksf", "ksv", "kts", "ktz", "kui", "kum", "kun", "kus", "kut", "kvb", "kvj", "kvn", "kwd",
    "kwe", "kwk", "kwy", "kxc", "kxu", "kyh", "kzy", "lac", "lag", "laj", "lak", "lal", "lam", "lav", "lbk", "lbn",
    "lch", "lcp", "lea", "leb", "led", "leg", "lel", "lep", "les", "lgg", "lgu", "lic", "lil", "lin", "lit", "liv",
    "lkr", "lkt", "lle", "llx", "lmi", "lmp", "lmu", "lmw", "lns", "lnu", "lob", "log", "lot", "loz", "lse", "lua",
    "lub", "lue", "lug", "lui", "lum", "lun", "luo", "lus", "maf", "mai", "mak", "mal", "mam", "mas", "mau", "mav",
    "maw", "mbb", "mbc", "mch", "mcn", "mcu", "mdd", "mdi", "mdp", "mdy", "mei", "mek", "men", "mer", "meu", "mey",
    "mez", "mfq", "mfz", "mgd", "mgo", "mgp", "mgr", "mgs", "mgu", "mgz", "mhi", "mhj", "mhk", "mhq", "mhr", "mia",
    "mic", "mik", "min", "miq", "mir", "mjg", "mji", "mjw", "mlq", "mmg", "mmk", "mnc", "mng", "mnr", "mns", "mnv",
    "moe", "mor", "mos", "mot", "mov", "mox", "mqu", "mrc", "mrh", "mri", "mrl", "mrq", "mrt", "mrv", "mrz", "mtq",
    "mtt", "mua", "mug", "mus", "mva", "mvb", "mvf", "mvi", "mvy", "mwf", "mwm", "mwn", "mwt", "mwv", "mxa", "mya",
    "mye", "myh", "myk", "mym", "myo", "myu", "myv", "myx", "mzb", "mzm", "mzv", "nab", "nak", "nan", "nap", "nar",
    "nau", "nav", "nbm", "ncf", "nci", "ncm", "ncz", "ndc", "nde", "ndi", "ndo", "ndr", "neb", "neg", "nez", "ngb",
    "ngi", "ngo", "ngp", "nhn", "nhr", "nio", "niq", "niu", "niv", "njh", "njm", "njo", "njy", "nku", "nld", "nmg",
    "nmu", "nnw", "nrb", "nre", "nsk", "nsm", "nsz", "ntp", "ntu", "nuk", "nup", "nus", "nwi", "nyf", "nyi", "nyk",
    "nym", "nyn", "nyo", "nza", "oaa", "oac", "ojc", "ojg", "ojv", "ojw", "oki", "okv", "old", "olo", "ona", "opt",
    "ori", "oro", "oss", "ote", "otr", "otw", "pab", "pan", "par", "pau", "paw", "pbb", "pbg", "pbh", "pbi", "pbo",
    "peb", "pei", "pej", "pem", "peq", "pib", "pid", "pio", "piw", "pkb", "pkp", "pll", "plu", "pmt", "pna", "pnh",
    "poc", "pof", "poi", "pon", "pot", "pub", "pwi", "pwn", "pwo", "pyu", "quc", "qui", "qun", "quz", "qxq", "rad",
    "ram", "rap", "rar", "reg", "res", "rif", "rim", "rkh", "rki", "rtm", "ruf", "run", "rus", "rwm", "rys", "ryu",
    "sac", "sad", "sah", "saq", "sat", "sax", "sbb", "sbd", "sbk", "sbp", "scl", "scs", "sda", "sdj", "sea", "see",
    "sef", "seh", "sei", "sek", "sel", "ser", "sez", "sgc", "sgw", "shb", "shc", "she", "shk", "shp", "shr", "shs",
    "sht", "shy", "sid", "sil", "sin", "sis", "siw", "siz", "sjw", "skg", "skt", "slh", "sln", "slp", "slu", "smd",
    "smj", "smo", "smw", "sna", "snd", "sng", "snk", "snp", "sns", "sod", "soo", "sop", "sot", "soz", "spa", "squ",
    "srp", "srq", "srr", "srs", "ssb", "ssw", "sub", "suk", "suq", "sus", "suw", "sva", "swp", "syb", "szb", "taf",
    "tah", "tam", "tao", "tar", "tau", "tay", "tbi", "tbw", "tbz", "tca", "tcc", "tcx", "tcz", "tdx", "teh", "tel",
    "tem", "teo", "ter", "tet", "tey", "tfn", "tha", "thp", "tht", "tia", "tic", "til", "tir", "tiv", "tiw", "tix",
    "tjm", "tkg", "tkl", "tkm", "tkp", "tlb", "tli", "tll", "tmj", "tnq", "tob", "tod", "tog", "toi", "tol", "ton",
    "toq", "tos", "tow", "tpn", "tpy", "tpz", "tqb", "tqn", "tsb", "tsi", "tsn", "tso", "tsv", "tsz", "ttj", "ttr",
    "ttv", "tub", "tuf", "tui", "tuk", "tum", "tuo", "tuq", "tur", "tuu", "tuv", "tva", "tvl", "tvu", "twa", "twu",
    "tzh", "tzm", "ubu", "ude", "ulc", "uli", "ulk", "uma", "umb", "umo", "unr", "ure", "uzn", "vag", "vai", "ved",
    "ven", "vep", "ver", "vie", "vka", "vmw", "vor", "vot", "vut", "wac", "wao", "wap", "was", "waw", "way", "wba",
    "wbp", "wca", "wic", "wim", "win", "wiv", "wiy", "wlk", "wln", "wls", "wlv", "wnc", "woc", "wol", "wrp", "wuu",
    "wuv", "wya", "wyb", "xac", "xal", "xam", "xav", "xaw", "xbr", "xcw", "xer", "xnn", "xog", "xok", "xom", "xon",
    "xpe", "xsi", "xsl", "xsm", "xsr", "xsu", "xvi", "yad", "yae", "yaf", "yag", "yal", "yao", "yap", "yaq", "yar",
    "yaz", "yer", "ykg", "yle", "ynn", "yns", "yom", "yrk", "yua", "yuc", "yue", "yuk", "yum", "yup", "yur", "yyr",
    "zen", "zin", "ziw", "zkk", "zlm", "zmi", "zmp", "zms", "zmz", "zne", "zpu", "zul", "zun"]

  class DPlaceCSVtoXML {
    var data: map<string, string>
    var count: map<string, int>
    /** The static list of ISO codes the output is written over: Isos in the program. */
    const isos: seq<string>

    constructor (isoList: seq<string>)
      ensures data == map[] && count == map[] && isos == isoList
    {
      data := map[];
      count := map[];
      isos := isoList;
    }

    /**
     * run: the tally is set to zero, the file is read, the tabu languages are made unknown and the
     * output is built over the ISO list. Reading fails as for the trait alignment, and then the
     * maps keep what the rows before the failing one wrote.
     */
    method Run(code1Input: string, code2Input: string, lines: seq<string>) returns (r: Result<Output>)
      requires forall k :: k in data ==> data[k] in Classes || data[k] == Unknown
      modifies this
      ensures var f := TallyFile(Tally(old(data), Initial), code1Input, code2Input, lines);
        (f.Err? ==> r == Err(f.msg) && Tally(data, count) == TallyOnFailure(Tally(old(data), Initial), code1Input, code2Input, lines))
        && (f.Ok? ==> (count == f.value.tally.count && data == ForceUnknown(f.value.tally.data, Tabu)
              && r == Ok(Output(Comment(f.value.description1, f.value.description2, code1Input, code2Input)
                                  + SequenceLines(isos, data), TaxaLines(isos, data)))))
    {
      count := Initial;
      var read, reached := ReadInput(code1Input, code2Input, lines, Tally(data, count));
      if read.Err? {
        data, count := reached.data, reached.count;
        return Err(read.msg);
      }
      var t := read.value.tally;
      var d := MakeUnknown(t.data, Tabu);
      data, count := d, t.count;
      var seqs, taxa := BuildOutput(isos, data);
      return Ok(Output(Comment(read.value.description1, read.value.description2, code1Input, code2Input) + seqs, taxa));
    }
  }

  /** The tally after the rows, and the headings of the two feature columns. */
  datatype Read = Read(tally: Tally, description1: string, description2: string)

  /**
   * What reading the export gives, as for the trait alignment: a file of fewer than two lines
   * hands split a null line; an unclosed quote in the header, missing columns or a bad row is an
   * error; otherwise the tally after the rows and the two feature headings.
   */
  function TallyFile(t0: Tally, code1Input: string, code2Input: string, lines: seq<string>): (r: Result<Read>)
    requires WellKept(t0)
    ensures r.Ok? ==> |lines| >= 2 && WellKept(r.value.tally)
    ensures r.Err? ==> r.msg in {NullPointer, StringIndexOutOfBounds, ColumnsMissing, ArrayIndexOutOfBounds}
  {
    if |lines| < 2 then Err(NullPointer)
    else if InQuote(lines[1]) then Err(StringIndexOutOfBounds)
    else
      var header := Fields(lines[1]);
      var c := ColumnsOf(header);
      if !Found(c) then Err(ColumnsMissing)
      else
        var rows := TallyRows(t0, lines[2..], c, Codes(code1Input), Codes(code2Input));
        if rows.Err? then Err(rows.msg) else Ok(Read(rows.value, header[c.col1], header[c.col2]))
  }

  /** The tally Java has written when reading fails: the rows read before a failing row. */
  function TallyOnFailure(t0: Tally, code1Input: string, code2Input: string, lines: seq<string>): (t: Tally)
    requires WellKept(t0)
    ensures TallyFile(t0, code1Input, code2Input, lines).Ok? ==> t == TallyFile(t0, code1Input, code2Input, lines).value.tally
  {
    if |lines| < 2 || InQuote(lines[1]) || !Found(ColumnsOf(Fields(lines[1]))) then t0
    else TallyPartial(t0, lines[2..], ColumnsOf(Fields(lines[1])), Codes(code1Input), Codes(code2Input))
  }

  /** The reading part of run: codes, header, columns and rows; besides, the tally as reading leaves it. */
  method ReadInput(code1Input: string, code2Input: string, lines: seq<string>, t0: Tally) returns (r: Result<Read>, reached: Tally)
    requires WellKept(t0)
    ensures r == TallyFile(t0, code1Input, code2Input, lines)
    ensures r.Err? ==> reached == TallyOnFailure(t0, code1Input, code2Input, lines)
    ensures r.Ok? ==> reached == r.value.tally
  {
    var code1 := CodeSet(code1Input);
    var code2 := CodeSet(code2Input);
    if |lines| < 2 {
      return Err(NullPointer), t0;
    }
    var header := SplitFields(lines[1]);
    if header.Err? {
      return Err(header.msg), t0;
    }
    var c := FindColumns(header.value);
    if c.col1 < 0 || c.col2 < 0 || c.iso < 0 {
      return Err(ColumnsMissing), t0;
    }
    var t;
    t, reached := ReadTally(t0, lines[2..], c, code1, code2);
    if t.Err? {
      return Err(t.msg), reached;
    }
    return Ok(Read(t.value, header.value[c.col1], header.value[c.col2])), reached;
  }

  /** The loop making each tabu language unknown. */
  method MakeUnknown(d0: map<string, string>, tabu: seq<string>) returns (d: map<string, string>)
    ensures d == ForceUnknown(d0, tabu)
  {
    d := d0;
    for k := 0 to |tabu|
      invariant d == ForceUnknown(d0, tabu[..k])
    {
      ForceUnknownStep(d0, tabu, k);
      d := d[tabu[k] := Unknown];
    }
    assert tabu[..|tabu|] == tabu;
  }

  /** One more tabu language is one more update. */
  lemma ForceUnknownStep(d0: map<string, string>, tabu: seq<string>, k: nat)
    requires k < |tabu|
    ensures ForceUnknown(d0, tabu[..k + 1]) == ForceUnknown(d0, tabu[..k])[tabu[k] := Unknown]
  {
    assert tabu[..k + 1][..k] == tabu[..k];
  }

  /** The labels with every tabu language made unknown. */
  function ForceUnknown(d: map<string, string>, tabu: seq<string>): (r: map<string, string>)
    ensures forall x :: x in r <==> x in d || x in tabu
    ensures forall x :: x in r ==> r[x] == if x in tabu then Unknown else d[x]
  {
    if |tabu| == 0 then d else ForceUnknown(d, tabu[..|tabu| - 1])[tabu[|tabu| - 1] := Unknown]
  }

  /**
   * The tally the rows leave behind, as Java writes into its maps while reading: the tally after
   * every row when all succeed, else the tally after the rows before the first failing one.
   */
  function TallyPartial(t: Tally, rows: seq<string>, c: Columns, code1: set<string>, code2: set<string>): (r: Tally)
    requires Found(c) && WellKept(t)
    ensures TallyRows(t, rows, c, code1, code2).Ok? ==> r == TallyRows(t, rows, c, code1, code2).value
  {
    if |rows| == 0 then t
    else
      var n := |rows| - 1;
      var prev := TallyRows(t, rows[..n], c, code1, code2);
      if prev.Err? then TallyPartial(t, rows[..n], c, code1, code2)
      else
        var step := TallyRow(prev.value, rows[n], c, code1, code2);
        if step.Err? then prev.value else step.value
  }

  /** The row loop of run; besides the result, the tally as it stands when the loop stops. */
  method ReadTally(t0: Tally, rows: seq<string>, c: Columns, code1: set<string>, code2: set<string>)
    returns (r: Result<Tally>, reached: Tally)
    requires Found(c) && WellKept(t0)
    ensures r == TallyRows(t0, rows, c, code1, code2)
    ensures reached == TallyPartial(t0, rows, c, code1, code2)
  {
    var t := t0;
    for i := 0 to |rows|
      invariant WellKept(t) && TallyRows(t0, rows[..i], c, code1, code2) == Ok(t)
    {
      var next := ReadRow(t, rows[i], c, code1, code2);
      TallyRowsStep(t0, rows, c, code1, code2, i);
      if next.Err? {
        assert rows[..i + 1][..i] == rows[..i];
        TallyErrorSticks(t0, rows, c, code1, code2, i + 1);
        return next, t;
      }
      t := next.value;
    }
    assert rows[..|rows|] == rows;
    return Ok(t), t;
  }

  /** The tally after one more row is the tally so far with that row applied. */
  lemma TallyRowsStep(t0: Tally, rows: seq<string>, c: Columns, code1: set<string>, code2: set<string>, i: nat)
    requires Found(c) && WellKept(t0) && i < |rows|
    requires TallyRows(t0, rows[..i], c, code1, code2).Ok?
    ensures TallyRows(t0, rows[..i + 1], c, code1, code2)
      == TallyRow(TallyRows(t0, rows[..i], c, code1, code2).value, rows[i], c, code1, code2)
  {
    assert rows[..i + 1][..i] == rows[..i];
  }

  /** The body of the row loop: split, check the columns, count the language. */
  method ReadRow(t: Tally, line: string, c: Columns, code1: set<string>, code2: set<string>) returns (r: Result<Tally>)
    requires Found(c) && WellKept(t)
    ensures r == TallyRow(t, line, c, code1, code2)
  {
    var strs := SplitFields(line);
    if strs.Err? {
      return Err(StringIndexOutOfBounds);
    }
    var f := strs.value;
    if c.col1 >= |f| || c.col2 >= |f| || c.iso >= |f| {
      return Err(ArrayIndexOutOfBounds);
    }
    var s1, s2, iso0 := f[c.col1], f[c.col2], f[c.iso];
    if |iso0| >= 3 {
      var u := StepInPlace(t, iso0, Label(Classify(s1, s2, code1, code2)));
      return Ok(u);
    }
    return Ok(t);
  }

  /** The branches of one row, on the two maps. */
  method StepInPlace(t: Tally, iso0: string, l: string) returns (r: Tally)
    requires WellKept(t) && (l in Classes || l == Unknown)
    ensures r == Step(t, iso0, l)
  {
    var data, count := t.data, t.count;
    if l != Unknown {
      if iso0 !in data {
        count := count[l := count[l] + 1];
        data := data[iso0 := l];
      } else if data[iso0] != l {
        var s := data[iso0];
        data := data[iso0 := Unknown];
        count := count[s := count[s] - 1];
      }
    } else {
      data := data[iso0 := Unknown];
    }
    return Tally(data, count);
  }

  /**
   * Once reading fails, it fails with the same message whatever rows follow, and the tally stays
   * as the failing row found it.
   */
  lemma {:induction false} TallyErrorSticks(t: Tally, rows: seq<string>, c: Columns, code1: set<string>, code2: set<string>, k: nat)
    requires Found(c) && WellKept(t) && 0 < k <= |rows|
    requires TallyRows(t, rows[..k], c, code1, code2).Err?
    ensures TallyRows(t, rows, c, code1, code2) == TallyRows(t, rows[..k], c, code1, code2)
    ensures TallyPartial(t, rows, c, code1, code2) == TallyPartial(t, rows[..k], c, code1, code2)
  {
    if k < |rows| {
      var n := |rows| - 1;
      assert rows[..n][..k] == rows[..k];
      TallyErrorSticks(t, rows[..n], c, code1, code2, k);
      assert TallyRows(t, rows, c, code1, code2) == TallyRows(t, rows[..n], c, code1, code2);
    } else {
      assert rows[..k] == rows;
    }
  }

  /** The output loop over the ISO list. */
  method BuildOutput(isos: seq<string>, data: map<string, string>) returns (seqs: seq<string>, taxa: seq<string>)
    ensures seqs == SequenceLines(isos, data) && taxa == TaxaLines(isos, data)
  {
    seqs, taxa := [], [];
    for k := 0 to |isos|
      invariant seqs == SequenceLines(isos[..k], data) && taxa == TaxaLines(isos[..k], data)
    {
      assert isos[..k + 1][..k] == isos[..k];
      var iso := isos[k];
      var value := if iso in data then data[iso] else Unknown;
      seqs := seqs + [SequenceLine(iso, value)];
      if value != Unknown {
        taxa := taxa + [TaxonLine(iso)];
      }
    }
    assert isos[..|isos|] == isos;
  }
}

=== FILE: IndependencyLogger.dfy ===
/**
 * A logger reporting, for every pair of distinct components of a correlated substitution model,
 * whether each depends on the other. A log line is a sequence of tab-terminated cells.
 */
module Independency {
  import opened Common
  import opened CorrelatedSubstitution

  /** The unordered pairs (c1, c2) with c2 < c1 < n: c1 ascending, then c2 ascending. */
  function Pairs(n: nat): (ps: seq<(nat, nat)>)
    ensures forall k :: 0 <= k < |ps| ==> ps[k].1 < ps[k].0 < n
  {
    if n == 0 then [] else Pairs(n - 1) + Below(n - 1, n - 1)
  }

  /** The pairs (c1, c2) for c2 < k. */
  function Below(c1: nat, k: nat): (ps: seq<(nat, nat)>)
    ensures |ps| == k && forall c2 :: 0 <= c2 < k ==> ps[c2] == (c1, c2)
  {
    seq(k, c2 requires 0 <= c2 < k => (c1, c2))
  }

  /**
   * Every pair of distinct components appears once, smaller second: there are n·(n − 1)/2 of them
   * and they are listed in lexicographic order, so without repetition.
   */
  lemma PairsComplete(n: nat)
    ensures 2 * |Pairs(n)| == n * (n - 1)
    ensures forall a, b :: 0 <= b < a < n ==> (a, b) in Pairs(n)
    ensures forall k, l :: 0 <= k < l < |Pairs(n)| ==> Pairs(n)[k] != Pairs(n)[l]
  {
    PairsCount(n);
    PairsCover(n);
    PairsDistinct(n);
  }

  /** There are n·(n − 1)/2 pairs. */
  lemma {:induction false} PairsCount(n: nat)
    ensures 2 * |Pairs(n)| == n * (n - 1)
  {
    if n > 0 {
      PairsCount(n - 1);
      var m := n - 1;
      assert |Pairs(n)| == |Pairs(m)| + m;
      assert m * (m - 1) + 2 * m == m * (m + 1);
    }
  }

  /** Every pair (a, b) with b < a < n is listed. */
  lemma {:induction false} PairsCover(n: nat)
    ensures forall a, b :: 0 <= b < a < n ==> (a, b) in Pairs(n)
  {
    if n > 0 {
      PairsCover(n - 1);
      var ps, bs := Pairs(n - 1), Below(n - 1, n - 1);
      assert Pairs(n) == ps + bs;
      forall a, b | 0 <= b < a < n
        ensures (a, b) in Pairs(n)
      {
        if a == n - 1 {
          assert Pairs(n)[|ps| + b] == (a, b);
        } else {
          assert (a, b) in ps;
        }
      }
    }
  }

  /** No pair is listed twice. */
  lemma {:induction false} PairsDistinct(n: nat)
    ensures forall k, l :: 0 <= k < l < |Pairs(n)| ==> Pairs(n)[k] != Pairs(n)[l]
  {
    if n > 0 {
      PairsDistinct(n - 1);
      var ps, bs := Pairs(n - 1), Below(n - 1, n - 1);
      assert Pairs(n) == ps + bs;
      forall k, l | 0 <= k < l < |Pairs(n)|
        ensures Pairs(n)[k] != Pairs(n)[l]
      {
        if l < |ps| {
          assert Pairs(n)[k] == ps[k] && Pairs(n)[l] == ps[l];
        } else if k < |ps| {
          assert Pairs(n)[k].0 < n - 1 && Pairs(n)[l].0 == n - 1;
        } else {
          assert Pairs(n)[k] == bs[k - |ps|] && Pairs(n)[l] == bs[l - |ps|];
        }
      }
    }
  }

  /** The header cell "<id>_<a>_depends_on_<b>", tab-terminated. */
  function Column(id: string, a: nat, b: nat): string
  {
    id + "_" + NatToString(a) + "_depends_on_" + NatToString(b) + "\t"
  }

  /** `out.print(1)` or `out.print(0)`. */
  function Bit(b: bool): string
  {
    if b then "1" else "0"
  }

  /** What init prints for the pairs ps: two header cells per pair, a on b then b on a. */
  function Header(id: string, ps: seq<(nat, nat)>): (h: seq<string>)
    ensures |h| == 2 * |ps|
  {
    if |ps| == 0 then []
    else
      var p := ps[|ps| - 1];
      Header(id, ps[..|ps| - 1]) + [Column(id, p.0, p.1), Column(id, p.1, p.0)]
  }

  /** Entry (a, b) of a table, false outside it. */
  function At(t: seq<seq<bool>>, a: nat, b: nat): bool
  {
    a < |t| && b < |t[a]| && t[a][b]
  }

  /** What log prints for the pairs ps: the bit of depends(a, b), a tab, the bit of depends(b, a), a tab. */
  function Row(t: seq<seq<bool>>, ps: seq<(nat, nat)>): (r: seq<string>)
    ensures |r| == 4 * |ps|
  {
    if |ps| == 0 then []
    else
      var p := ps[|ps| - 1];
      Row(t, ps[..|ps| - 1]) + [Bit(At(t, p.0, p.1)), "\t", Bit(At(t, p.1, p.0)), "\t"]
  }

  lemma {:induction false} RowAppend(t: seq<seq<bool>>, ps: seq<(nat, nat)>, qs: seq<(nat, nat)>)
    ensures Row(t, ps + qs) == Row(t, ps) + Row(t, qs)
  {
    if |qs| == 0 {
      assert ps + qs == ps;
    } else {
      var n := |qs| - 1;
      assert (ps + qs)[..|ps + qs| - 1] == ps + qs[..n];
      RowAppend(t, ps, qs[..n]);
    }
  }

  /** After what was printed before, the log line for n + 1 components extends the one for n by the pairs (n, c2), c2 < n. */
  lemma RowOfNextPairs(before: seq<string>, t: seq<seq<bool>>, n: nat)
    ensures before + Row(t, Pairs(n + 1)) == (before + Row(t, Pairs(n))) + Row(t, Below(n, n))
  {
    RowAppend(t, Pairs(n), Below(n, n));
  }

  /** After what was printed before, the header for n + 1 components extends the one for n by the pairs (n, c2), c2 < n. */
  lemma HeaderOfNextPairs(before: seq<string>, id: string, n: nat)
    ensures before + Header(id, Pairs(n + 1)) == (before + Header(id, Pairs(n))) + Header(id, Below(n, n))
  {
    HeaderAppend(id, Pairs(n), Below(n, n));
  }

  lemma {:induction false} HeaderAppend(id: string, ps: seq<(nat, nat)>, qs: seq<(nat, nat)>)
    ensures Header(id, ps + qs) == Header(id, ps) + Header(id, qs)
  {
    if |qs| == 0 {
      assert ps + qs == ps;
    } else {
      var n := |qs| - 1;
      assert (ps + qs)[..|ps + qs| - 1] == ps + qs[..n];
      HeaderAppend(id, ps, qs[..n]);
    }
  }

  /** The k-th pair (a, b) gives header cells 2k and 2k + 1: a on b, then b on a. */
  lemma {:induction false} HeaderAt(id: string, ps: seq<(nat, nat)>, k: nat)
    requires k < |ps|
    ensures Header(id, ps)[2 * k] == Column(id, ps[k].0, ps[k].1)
    ensures Header(id, ps)[2 * k + 1] == Column(id, ps[k].1, ps[k].0)
  {
    if k < |ps| - 1 {
      HeaderAt(id, ps[..|ps| - 1], k);
    }
  }

  /** The k-th pair (a, b) gives log cells 4k .. 4k + 3: depends(a, b), a tab, depends(b, a), a tab. */
  lemma {:induction false} RowAt(t: seq<seq<bool>>, ps: seq<(nat, nat)>, k: nat)
    requires k < |ps|
    ensures Row(t, ps)[4 * k] == Bit(At(t, ps[k].0, ps[k].1)) && Row(t, ps)[4 * k + 1] == "\t"
    ensures Row(t, ps)[4 * k + 2] == Bit(At(t, ps[k].1, ps[k].0)) && Row(t, ps)[4 * k + 3] == "\t"
  {
    if k < |ps| - 1 {
      RowAt(t, ps[..|ps| - 1], k);
    }
  }

  /** The header has n·(n − 1) cells and a log line, with its tabs, twice as many. */
  lemma CellCounts(id: string, t: seq<seq<bool>>)
    ensures |Header(id, Pairs(|t|))| == |t| * (|t| - 1)
    ensures |Row(t, Pairs(|t|))| == 2 * (|t| * (|t| - 1))
  {
    PairsComplete(|t|);
  }

  /**
   * Header and log line describe the same cells in the same order: for the k-th pair of distinct
   * components (a, b), header cells 2k and 2k + 1 name "a depends on b" and "b depends on a", and
   * the line's cells 4k and 4k + 2 hold depends(a, b) and depends(b, a).
   */
  lemma HeaderMatchesRow(id: string, t: seq<seq<bool>>, k: nat) returns (a: nat, b: nat)
    requires forall a :: 0 <= a < |t| ==> |t[a]| == |t|
    requires k < |Pairs(|t|)|
    ensures b < a < |t|
    ensures Header(id, Pairs(|t|))[2 * k] == Column(id, a, b) && Row(t, Pairs(|t|))[4 * k] == Bit(t[a][b])
    ensures Header(id, Pairs(|t|))[2 * k + 1] == Column(id, b, a) && Row(t, Pairs(|t|))[4 * k + 2] == Bit(t[b][a])
  {
    var ps := Pairs(|t|);
    HeaderAt(id, ps, k);
    RowAt(t, ps, k);
    a, b := ps[k].0, ps[k].1;
  }

  /** With one component (or none) neither init nor log prints anything. */
  lemma OneComponentPrintsNothing(id: string, t: seq<seq<bool>>)
    requires |t| <= 1 && forall a :: 0 <= a < |t| ==> |t[a]| == |t|
    ensures Header(id, Pairs(|t|)) == [] && Row(t, Pairs(|t|)) == []
  {
    PairsComplete(|t|);
  }

  class IndependencyLogger {
    var csm: CorrelatedSubstitutionModel
    /** The logger's BEAST object ID. */
    var id: string

    constructor (model: CorrelatedSubstitutionModel, name: string)
      ensures csm == model && id == name
    {
      csm := model;
      id := name;
    }

    /** The dependency table of the reported model. */
    function Table(): (t: seq<seq<bool>>)
      reads this, csm
      requires PositiveShape(csm.shape)
      ensures |t| == |csm.shape| && forall a :: 0 <= a < |t| ==> |t[a]| == |t|
    {
      DependsTable(csm.shape, csm.nonzeroTransitions, csm.frequencies, csm.rates)
    }

    /** init: one header cell per ordered pair of distinct components. */
    method Init(out: PrintStream)
      requires csm.Ready()
      modifies out
      ensures out.printed == old(out.printed) + Header(id, Pairs(|csm.shape|))
    {
      var shape := csm.GetShape();
      var components := shape.Length;
      ghost var start := out.printed;
      for component1 := 0 to components
        invariant out.printed == start + Header(id, Pairs(component1))
      {
        InitRow(component1, out);
        HeaderOfNextPairs(start, id, component1);
      }
    }

    /** The inner loop of init for component1. */
    method InitRow(component1: nat, out: PrintStream)
      modifies out
      ensures out.printed == old(out.printed) + Header(id, Below(component1, component1))
    {
      for component2 := 0 to component1
        invariant out.printed == old(out.printed) + Header(id, Below(component1, component2))
      {
        out.Print(Column(id, component1, component2));
        out.Print(Column(id, component2, component1));
        ghost var ps := Below(component1, component2);
        assert (ps + [(component1, component2)])[..|ps|] == ps;
        assert Below(component1, component2 + 1) == ps + [(component1, component2)];
      }
    }

    /** log: a 0/1 cell for depends(c1, c2) and one for depends(c2, c1), for the same pairs as the header. */
    method Log(sample: int, out: PrintStream)
      requires csm.Ready()
      modifies out
      ensures out.printed == old(out.printed) + Row(Table(), Pairs(|csm.shape|))
    {
      var shape := csm.GetShape();
      LogRows(shape.Length, out);
    }

    /** The outer loop of log, over the first `components` components. */
    method LogRows(components: nat, out: PrintStream)
      requires csm.Ready() && components <= |csm.shape|
      modifies out
      ensures out.printed == old(out.printed) + Row(Table(), Pairs(components))
    {
      ghost var t, start := Table(), out.printed;
      for component1 := 0 to components
        invariant out.printed == start + Row(t, Pairs(component1))
      {
        LogRow(component1, out);
        RowOfNextPairs(start, t, component1);
      }
    }

    /** csm.depends(a, b), read as an entry of the dependency table. */
    method DependsAt(a: nat, b: nat) returns (d: bool)
      requires csm.Ready() && a < |csm.shape| && b < |csm.shape|
      ensures d == At(Table(), a, b)
    {
      d := csm.Depends(a, b);
    }

    /** The body of log's inner loop: depends(a, b) then depends(b, a), each as 1 or 0 and a tab. */
    method LogPair(a: nat, b: nat, out: PrintStream)
      requires csm.Ready() && a < |csm.shape| && b < |csm.shape|
      modifies out
      ensures out.printed == old(out.printed) + [Bit(At(Table(), a, b)), "\t", Bit(At(Table(), b, a)), "\t"]
    {
      var d := DependsAt(a, b);
      out.Print(if d then "1" else "0");
      out.Print("\t");
      d := DependsAt(b, a);
      out.Print(if d then "1" else "0");
      out.Print("\t");
    }

    /** The inner loop of log for component1. */
    method LogRow(component1: nat, out: PrintStream)
      requires csm.Ready() && component1 < |csm.shape|
      modifies out
      ensures out.printed == old(out.printed) + Row(Table(), Below(component1, component1))
    {
      ghost var t := Table();
      for component2 := 0 to component1
        invariant out.printed == old(out.printed) + Row(t, Below(component1, component2))
      {
        LogPair(component1, component2, out);
        ghost var ps := Below(component1, component2);
        assert (ps + [(component1, component2)])[..|ps|] == ps;
        assert Below(component1, component2 + 1) == ps + [(component1, component2)];
      }
    }
  }
}

=== FILE: IndependentEvolutionPrior.dfy ===
/**
 * The prior on independent versus dependent evolution: every ordered pair of components whose
 * rates depend on each other contributes log((1 − p)/p) to the log-density.
 */
module IndependentEvolution {
  import opened Common
  import opened CorrelatedSubstitution

  predicate Square(t: seq<seq<bool>>)
  {
    forall a :: 0 <= a < |t| ==> |t[a]| == |t|
  }

  function Ind(b: bool): nat
  {
    if b then 1 else 0
  }

  /** What the inner loop adds for row a after k columns: [t[a][b]] + [t[b][a]] for b < k. */
  function PairRow(t: seq<seq<bool>>, a: nat, k: nat): nat
    requires Square(t) && a < |t| && k <= |t|
  {
    if k == 0 then 0 else PairRow(t, a, k - 1) + Ind(t[a][k - 1]) + Ind(t[k - 1][a])
  }

  /** What the nested loops add over the first k rows. */
  function PairCount(t: seq<seq<bool>>, k: nat): nat
    requires Square(t) && k <= |t|
  {
    if k == 0 then 0 else PairCount(t, k - 1) + PairRow(t, k - 1, |t|)
  }

  /** #{b < k : t[a][b]}. */
  function RowCount(t: seq<seq<bool>>, a: nat, k: nat): nat
    requires Square(t) && a < |t| && k <= |t|
  {
    if k == 0 then 0 else RowCount(t, a, k - 1) + Ind(t[a][k - 1])
  }

  /** #{a < k : t[a][b]}. */
  function ColCount(t: seq<seq<bool>>, b: nat, k: nat): nat
    requires Square(t) && b < |t| && k <= |t|
  {
    if k == 0 then 0 else ColCount(t, b, k - 1) + Ind(t[k - 1][b])
  }

  /** #{(a, b) : a < m, b < k, t[a][b]}, row by row. */
  function Block(t: seq<seq<bool>>, m: nat, k: nat): nat
    requires Square(t) && m <= |t| && k <= |t|
  {
    if m == 0 then 0 else Block(t, m - 1, k) + RowCount(t, m - 1, k)
  }

  /** #{(a, b) : a < k, b < n, t[b][a]}, column by column. */
  function Transposed(t: seq<seq<bool>>, k: nat): nat
    requires Square(t) && k <= |t|
  {
    if k == 0 then 0 else Transposed(t, k - 1) + ColCount(t, k - 1, |t|)
  }

  /** The number of ordered pairs (a, b) with t[a][b]. */
  function Ordered(t: seq<seq<bool>>): nat
    requires Square(t)
  {
    Block(t, |t|, |t|)
  }

  lemma {:induction false} PairRowSplit(t: seq<seq<bool>>, a: nat, k: nat)
    requires Square(t) && a < |t| && k <= |t|
    ensures PairRow(t, a, k) == RowCount(t, a, k) + ColCount(t, a, k)
  {
    if k > 0 {
      PairRowSplit(t, a, k - 1);
    }
  }

  lemma {:induction false} BlockNoColumns(t: seq<seq<bool>>, m: nat)
    requires Square(t) && m <= |t|
    ensures Block(t, m, 0) == 0
  {
    if m > 0 {
      BlockNoColumns(t, m - 1);
    }
  }

  lemma {:induction false} BlockNextColumn(t: seq<seq<bool>>, m: nat, k: nat)
    requires Square(t) && m <= |t| && k < |t|
    ensures Block(t, m, k + 1) == Block(t, m, k) + ColCount(t, k, m)
  {
    if m > 0 {
      BlockNextColumn(t, m - 1, k);
    }
  }

  lemma {:induction false} TransposedIsBlock(t: seq<seq<bool>>, k: nat)
    requires Square(t) && k <= |t|
    ensures Transposed(t, k) == Block(t, |t|, k)
  {
    if k == 0 {
      BlockNoColumns(t, |t|);
    } else {
      TransposedIsBlock(t, k - 1);
      BlockNextColumn(t, |t|, k - 1);
    }
  }

  lemma {:induction false} PairCountSplit(t: seq<seq<bool>>, k: nat)
    requires Square(t) && k <= |t|
    ensures PairCount(t, k) == Block(t, k, |t|) + Transposed(t, k)
  {
    if k > 0 {
      PairCountSplit(t, k - 1);
      PairRowSplit(t, k - 1, |t|);
    }
  }

  /**
   * Counting depends(c1, c2) and depends(c2, c1) over the whole grid counts every ordered
   * dependent pair twice (the diagonal included).
   */
  lemma PairCountIsTwiceOrdered(t: seq<seq<bool>>)
    requires Square(t)
    ensures PairCount(t, |t|) == 2 * Ordered(t)
  {
    PairCountSplit(t, |t|);
    TransposedIsBlock(t, |t|);
  }

  /** With no dependent pair the count is zero. */
  lemma {:induction false} NoDependentPairs(t: seq<seq<bool>>, k: nat)
    requires Square(t) && k <= |t|
    requires forall a, b :: 0 <= a < |t| && 0 <= b < |t| ==> !t[a][b]
    ensures PairCount(t, k) == 0
  {
    if k > 0 {
      NoDependentPairs(t, k - 1);
      PairRowSplit(t, k - 1, |t|);
      NoneInRow(t, k - 1, |t|);
    }
  }

  lemma {:induction false} NoneInRow(t: seq<seq<bool>>, a: nat, k: nat)
    requires Square(t) && a < |t| && k <= |t|
    requires forall a, b :: 0 <= a < |t| && 0 <= b < |t| ==> !t[a][b]
    ensures RowCount(t, a, k) == 0 && ColCount(t, a, k) == 0
  {
    if k > 0 {
      NoneInRow(t, a, k - 1);
    }
  }

  /** x added to itself n times, as the loop accumulates it. */
  function Repeated(x: real, n: nat): real
  {
    if n == 0 then 0.0 else Repeated(x, n - 1) + x
  }

  lemma {:induction false} RepeatedIsProduct(x: real, n: nat)
    ensures Repeated(x, n) == x * (n as real)
  {
    if n > 0 {
      RepeatedIsProduct(x, n - 1);
    }
  }

  /** `if (d) acc += x;` with the number of additions so far carried alongside. */
  method AddIf(acc: real, x: real, d: bool, ghost count: nat) returns (acc': real, ghost count': nat)
    requires acc == Repeated(x, count)
    ensures count' == count + Ind(d) && acc' == Repeated(x, count')
  {
    acc', count' := acc, count;
    if d {
      acc', count' := acc + x, count + 1;
    }
  }

  class IndependentEvolutionPrior {
    var csm: CorrelatedSubstitutionModel
    /** The value of the pIndependent parameter. */
    var pIndependent: real
    var logPDependent: real
    var logP: real

    constructor (model: CorrelatedSubstitutionModel, p: real)
      ensures csm == model && pIndependent == p && logP == 0.0
    {
      csm := model;
      pIndependent := p;
      logPDependent := 0.0;
      logP := 0.0;
    }

    /** The dependency table of the conditioned model. */
    function Table(): seq<seq<bool>>
      reads this, csm
      requires PositiveShape(csm.shape)
    {
      DependsTable(csm.shape, csm.nonzeroTransitions, csm.frequencies, csm.rates)
    }

    /**
     * calculateLogP: recomputes only when the calculation is dirty (BEAST's dirty flag is the
     * `dirty` argument); otherwise the stored value is returned. `ln` is Math.log.
     */
    method CalculateLogP(dirty: bool, ln: real -> real) returns (r: real)
      requires csm.Ready()
      modifies this
      ensures csm == old(csm) && pIndependent == old(pIndependent)
      ensures !dirty ==> logP == old(logP) && logPDependent == old(logPDependent)
      ensures dirty ==> logPDependent == ln(1.0 - pIndependent) - ln(pIndependent)
      ensures dirty ==> logP == Repeated(logPDependent, 2 * Ordered(Table()))
      ensures r == logP
    {
      if dirty {
        CalcLogP(ln);
      }
      return logP;
    }

    /** calcLogP: logPDependent once for every depends(c1, c2) and every depends(c2, c1) over the full grid. */
    method CalcLogP(ln: real -> real)
      requires csm.Ready()
      modifies this
      ensures csm == old(csm) && pIndependent == old(pIndependent)
      ensures logPDependent == ln(1.0 - pIndependent) - ln(pIndependent)
      ensures logP == Repeated(logPDependent, 2 * Ordered(Table()))
    {
      var p := pIndependent;
      var lpd := ln(1.0 - p) - ln(p);
      var acc := SumOverPairs(lpd);
      PairCountIsTwiceOrdered(Table());
      logPDependent := lpd;
      logP := acc;
    }

    /** The nested loops of calcLogP: `x` is added once per depends(c1, c2) and once per depends(c2, c1). */
    method SumOverPairs(x: real) returns (acc: real)
      requires csm.Ready()
      ensures acc == Repeated(x, PairCount(Table(), |csm.shape|))
    {
      var shape := csm.GetShape();
      var components := shape.Length;
      acc := 0.0;
      ghost var t, count: nat := Table(), 0;
      assert Square(t) && |t| == components;
      for c1 := 0 to components
        invariant count == PairCount(t, c1)
        invariant acc == Repeated(x, count)
      {
        acc, count := SumRow(c1, components, x, acc, count);
        assert count == PairCount(t, c1 + 1);
      }
    }

    /** The inner loop of calcLogP for row c1. */
    method SumRow(c1: nat, components: nat, x: real, acc0: real, ghost count0: nat) returns (acc: real, ghost count: nat)
      requires csm.Ready() && components == |csm.shape| && c1 < components
      requires acc0 == Repeated(x, count0)
      ensures count == count0 + PairRow(Table(), c1, components) && acc == Repeated(x, count)
    {
      ghost var t := Table();
      acc, count := acc0, count0;
      for c2 := 0 to components
        invariant count == count0 + PairRow(t, c1, c2)
        invariant acc == Repeated(x, count)
      {
        var d := csm.Depends(c1, c2);
        acc, count := AddIf(acc, x, d, count);
        d := csm.Depends(c2, c1);
        acc, count := AddIf(acc, x, d, count);
      }
    }
  }
}

=== FILE: IndexedTreeFromSet.dfy ===
/**
 * A tree whose content is one tree of a tree set read from file, chosen by an integer index.
 * The tree set is prepared against this tree's own taxa; the index is not range-checked, so an
 * index outside the set is an error wherever the indexed tree is fetched.
 */
module TreeFromSet {
  import opened Common
  import opened JavaErrors
  import opened TreeSet

  class IndexedTreeFromSet {
    /** This tree's content. */
    var tree: Tree
    var trees: seq<Tree>
    /** The value of the index parameter. */
    var index: int

    constructor (initial: Tree, indexValue: int)
      ensures tree == initial && trees == [] && index == indexValue
    {
      tree := initial;
      trees := [];
      index := indexValue;
    }

    /** Whether the index points into the tree set. */
    predicate IndexInRange()
      reads this
    {
      0 <= index < |trees|
    }

    /**
     * initAndValidate: the tree set is prepared against this tree's own taxa, then the indexed
     * tree becomes this tree's content; an index outside the prepared set is an error after the
     * set has been stored. A failed preparation leaves the tree set holding the parsed list,
     * trimmed of the burn-in once the trimming was reached.
     */
    method InitAndValidate(fileName: string, parsed: seq<Tree>, burninPercentage: int) returns (r: Result<()>)
      modifies this
      ensures index == old(index)
      ensures var p := Prepared(fileName, parsed, burninPercentage, old(tree).taxa);
        (p.Err? ==> r.Err? && r.msg == p.msg && trees == TreesAtFailure(parsed, burninPercentage) && tree == old(tree))
        && (p.Ok? ==> trees == p.value && |trees| > 0
                      && (r.Ok? <==> 0 <= index < |trees|)
                      && (r.Ok? ==> tree == trees[index])
                      && (r.Err? ==> r.msg == IndexOutOfBounds && tree == old(tree)))
    {
      var p, held := PrepareTrees(fileName, parsed, burninPercentage, tree.taxa);
      if p.Err? {
        trees := held;
        return Err(p.msg);
      }
      PreparedShape(fileName, parsed, burninPercentage, tree.taxa);
      trees := p.value;
      r := AssignIndexed();
    }

    /** `this.assignFrom(trees.get(index))`: the indexed tree, or an error for an index outside the set. */
    method AssignIndexed() returns (r: Result<()>)
      modifies this
      ensures trees == old(trees) && index == old(index)
      ensures r.Ok? <==> 0 <= index < |trees|
      ensures r.Ok? ==> tree == trees[index]
      ensures r.Err? ==> r.msg == IndexOutOfBounds && tree == old(tree)
    {
      if index < 0 || index >= |trees| {
        return Err(IndexOutOfBounds);
      }
      tree := trees[index];
      return Ok(());
    }

    /** store keeps nothing: the content can always be re-read from the tree set. */
    method Store()
      ensures unchanged(this)
    {
    }

    /** restore: the content is re-read from the tree set at the current index. */
    method Restore() returns (r: Result<()>)
      modifies this
      ensures trees == old(trees) && index == old(index)
      ensures r.Ok? <==> 0 <= index < |trees|
      ensures r.Ok? ==> tree == trees[index]
      ensures r.Err? ==> r.msg == IndexOutOfBounds && tree == old(tree)
    {
      r := AssignIndexed();
    }

    /**
     * requiresRecalculation: the content is re-read from the tree set at the current index, then
     * the base tree's answer (given here) is returned.
     */
    method RequiresRecalculation(baseAnswer: bool) returns (r: Result<bool>)
      modifies this
      ensures trees == old(trees) && index == old(index)
      ensures r.Ok? <==> 0 <= index < |trees|
      ensures r.Ok? ==> tree == trees[index] && r.value == baseAnswer
      ensures r.Err? ==> r.msg == IndexOutOfBounds && tree == old(tree)
    {
      var a := AssignIndexed();
      if a.Err? {
        return Err(a.msg);
      }
      return Ok(baseAnswer);
    }
  }

  /**
   * Restoring after any sequence of changes to the content leaves the tree equal to the indexed
   * tree of the set: the restored state depends only on the set and the index.
   */
  method RestoreAfterChange(t: IndexedTreeFromSet, other: Tree) returns (r: Result<()>)
    requires 0 <= t.index < |t.trees|
    modifies t
    ensures t.trees == old(t.trees) && t.index == old(t.index)
    ensures r.Ok? && t.tree == t.trees[t.index]
  {
    t.Store();
    t.tree := other;
    r := t.Restore();
  }
}

=== FILE: JavaText.dfy ===
/**
 * The few pieces of java.lang.String and Integer that the text-handling code relies on,
 * written out so that their edge cases (dropped trailing fields, signs, 32-bit range) are explicit.
 */
module JavaText {
  import opened Common

  /** All fields of `s` between occurrences of `c`: one more field than there are separators. */
  function Pieces(s: string, c: char): (r: seq<string>)
    ensures |r| >= 1
  {
    if |s| == 0 then [""]
    else if s[0] == c then [""] + Pieces(s[1..], c)
    else
      var rest := Pieces(s[1..], c);
      [[s[0]] + rest[0]] + rest[1..]
  }

  /** Number of occurrences of `c` in `s`. */
  function Occurrences(s: string, c: char): nat
  {
    if |s| == 0 then 0 else (if s[0] == c then 1 else 0) + Occurrences(s[1..], c)
  }

  /** The pieces are one more than the separators, and none of them contains a separator. */
  lemma {:induction false} PiecesShape(s: string, c: char)
    ensures |Pieces(s, c)| == Occurrences(s, c) + 1
    ensures forall k :: 0 <= k < |Pieces(s, c)| ==> c !in Pieces(s, c)[k]
  {
    if |s| > 0 {
      PiecesShape(s[1..], c);
    }
  }

  function DropTrailingEmpty(xs: seq<string>): (r: seq<string>)
    ensures |r| <= |xs| && r == xs[..|r|]
    ensures |r| > 0 ==> r[|r| - 1] != ""
    ensures forall k :: |r| <= k < |xs| ==> xs[k] == ""
  {
    if |xs| > 0 && xs[|xs| - 1] == "" then DropTrailingEmpty(xs[..|xs| - 1]) else xs
  }

  /**
   * `s.split(c)` for a one-character regular expression: a string without the separator is
   * returned whole (so "" gives [""]); otherwise trailing empty fields are removed.
   */
  function Split(s: string, c: char): (r: seq<string>)
    ensures c !in s ==> r == [s]
    ensures c in s && |r| > 0 ==> r[|r| - 1] != ""
  {
    if c !in s then [s] else DropTrailingEmpty(Pieces(s, c))
  }

  /** Dropping a known last character and appending it again gives the string back. */
  lemma RestoreLast(s: string, c: char)
    requires |s| > 0 && s[|s| - 1] == c
    ensures s[..|s| - 1] + [c] == s
  {
  }

  /** A string with no separator is its own single field; with separators no trailing field is empty. */
  lemma SplitShape(s: string, c: char)
    ensures c !in s ==> Split(s, c) == [s]
    ensures c in s ==> |Split(s, c)| <= Occurrences(s, c) + 1
    ensures c in s && |Split(s, c)| > 0 ==> Split(s, c)[|Split(s, c)| - 1] != ""
    ensures forall k :: 0 <= k < |Split(s, c)| ==> c !in Split(s, c)[k]
  {
    PiecesShape(s, c);
  }

  /** Characters matched by the regular-expression class \s. */
  predicate IsRegexSpace(ch: char)
  {
    ch == ' ' || ch == '\t' || ch == '\n' || ch == '\U{000B}' || ch == '\U{000C}' || ch == '\r'
  }

  /** `s.matches("^\\s*$")`: the line is empty or white space only. */
  predicate IsBlank(s: string)
  {
    forall k :: 0 <= k < |s| ==> IsRegexSpace(s[k])
  }

  /** `s.replaceAll("\\s", "")`. */
  function RemoveSpaces(s: string): (r: string)
    ensures forall k :: 0 <= k < |r| ==> !IsRegexSpace(r[k])
    ensures |r| <= |s|
  {
    if |s| == 0 then ""
    else if IsRegexSpace(s[0]) then RemoveSpaces(s[1..])
    else [s[0]] + RemoveSpaces(s[1..])
  }

  /** String.trim(): drop leading and trailing characters up to U+0020. */
  function Trim(s: string): (r: string)
    ensures |r| <= |s|
    ensures |r| > 0 ==> r[0] > ' ' && r[|r| - 1] > ' '
  {
    TrimEnd(TrimStart(s))
  }

  function TrimStart(s: string): (r: string)
    ensures |r| <= |s|
    ensures |r| > 0 ==> r[0] > ' '
  {
    if |s| > 0 && s[0] <= ' ' then TrimStart(s[1..]) else s
  }

  function TrimEnd(s: string): (r: string)
    ensures |r| <= |s| && r == s[..|r|]
    ensures |r| > 0 ==> r[|r| - 1] > ' '
  {
    if |s| > 0 && s[|s| - 1] <= ' ' then TrimEnd(s[..|s| - 1]) else s
  }

  predicate StartsWith(s: string, prefix: string)
  {
    |prefix| <= |s| && s[..|prefix|] == prefix
  }

  predicate IsDigit(ch: char)
  {
    '0' <= ch <= '9'
  }

  /** Value of a non-empty run of ASCII digits, most significant first. */
  function DigitsValue(s: string): (v: int)
    requires forall k :: 0 <= k < |s| ==> IsDigit(s[k])
    ensures v >= 0
  {
    if |s| == 0 then 0
    else
      assert IsDigit(s[|s| - 1]);
      DigitsValue(s[..|s| - 1]) * 10 + (s[|s| - 1] as int - '0' as int)
  }

  const IntMin: int := -0x8000_0000
  const IntMax: int := 0x7FFF_FFFF

  /**
   * Integer.parseInt: an optional sign then at least one digit, within the 32-bit range;
   * anything else is a NumberFormatException (None).
   */
  function ParseInt(s: string): (r: Option<int>)
    ensures r.Some? ==> IntMin <= r.value <= IntMax
  {
    var neg := |s| > 0 && s[0] == '-';
    var body := if |s| > 0 && (s[0] == '-' || s[0] == '+') then s[1..] else s;
    if |body| == 0 || !(forall k :: 0 <= k < |body| ==> IsDigit(body[k])) then None
    else
      var v: int := if neg then -DigitsValue(body) else DigitsValue(body);
      if IntMin <= v <= IntMax then Some(v) else None
  }

  /** Java prints a natural number as its decimal digits; parseInt reads it back. */
  lemma {:induction false} DigitsOfNat(n: nat)
    ensures forall k :: 0 <= k < |NatToString(n)| ==> IsDigit(NatToString(n)[k])
    ensures DigitsValue(NatToString(n)) == n
  {
    var r := NatToString(n);
    if n >= 10 {
      DigitsOfNat(n / 10);
      assert r[..|r| - 1] == NatToString(n / 10);
    } else {
      assert r == [DigitChar(n)];
      assert r[..0] == "";
    }
  }

  /** parseInt(Integer.toString(n)) == n for every non-negative int. */
  lemma ParseIntOfNat(n: nat)
    requires n <= IntMax
    ensures ParseInt(NatToString(n)) == Some(n)
  {
    DigitsOfNat(n);
  }
}

=== FILE: NoChangeSubstitutionModel.dfy ===
/**
 * A substitution model that allows no change of state: the transition matrix keeps every
 * state with positive frequency where it is and loses the others.
 */
module NoChange {
  import opened Common
  import opened JavaErrors

  const BeagleNotSupported: string := "BEAGLE not supported: run with java only"

  /**
   * Cell k of the flat n×n transition matrix as getTransitionProbabilities leaves it: cell k is
   * entry (k / n, k % n); the diagonal entries hold 1 when that state's frequency is positive and
   * every other cell, including any past n·n, holds 0.
   */
  function NoChangeCell(freqs: seq<real>, n: nat, k: nat): real
    requires n == |freqs|
  {
    if n > 0 && k < n * n && k / n == k % n && freqs[k / n] > 0.0 then 1.0 else 0.0
  }

  /** Entry (i, j) of the matrix: the identity, restricted to states of positive frequency. */
  lemma CellAt(freqs: seq<real>, n: nat, i: nat, j: nat)
    requires n == |freqs| && i < n && j < n
    ensures NoChangeCell(freqs, n, i * n + j) == (if i == j && freqs[i] > 0.0 then 1.0 else 0.0)
  {
    DivModUnique(i * n + j, n, i, j);
    MulMonotone(i, n - 1, n);
  }

  /** Σ_{j < m} of row i. */
  function RowSum(freqs: seq<real>, n: nat, i: nat, m: nat): real
    requires n == |freqs| && i < n && m <= n
  {
    if m == 0 then 0.0 else RowSum(freqs, n, i, m - 1) + NoChangeCell(freqs, n, i * n + m - 1)
  }

  /** Row i sums to 1 when freqs[i] > 0 and to 0 otherwise. */
  lemma {:induction false} RowSumIsIndicator(freqs: seq<real>, n: nat, i: nat, m: nat)
    requires n == |freqs| && i < n && m <= n
    ensures RowSum(freqs, n, i, m) == (if i < m && freqs[i] > 0.0 then 1.0 else 0.0)
  {
    if m > 0 {
      RowSumIsIndicator(freqs, n, i, m - 1);
      CellAt(freqs, n, i, m - 1);
    }
  }

  class NoChangeSubstitutionModel {
    /** The frequencies input's values. */
    var frequencies: seq<real>
    var nrOfStates: nat

    constructor (freqs: seq<real>)
      ensures frequencies == freqs && nrOfStates == 0
    {
      frequencies := freqs;
      nrOfStates := 0;
    }

    /** initAndValidate: the state count is the length of the frequency vector. */
    method InitAndValidate()
      modifies this
      ensures frequencies == old(frequencies) && nrOfStates == |frequencies|
    {
      nrOfStates := |frequencies|;
    }

    /**
     * getTransitionProbabilities: the node, the times and the rate are not read. The whole
     * array is zeroed, then the diagonal cells are written in increasing order; a matrix shorter
     * than n·n ends in ArrayIndexOutOfBoundsException after every in-range diagonal cell has been written.
     */
    method GetTransitionProbabilities(startTime: real, endTime: real, rate: real, matrix: array<real>)
      returns (r: Result<()>)
      requires nrOfStates == |frequencies|
      modifies matrix
      ensures forall k :: 0 <= k < matrix.Length ==> matrix[k] == NoChangeCell(frequencies, nrOfStates, k)
      ensures r.Err? <==> nrOfStates > 0 && matrix.Length < nrOfStates * nrOfStates
      ensures r.Err? ==> r.msg == ArrayIndexOutOfBounds
    {
      var n := nrOfStates;
      for k := 0 to matrix.Length
        invariant forall m :: 0 <= m < k ==> matrix[m] == 0.0
      {
        matrix[k] := 0.0;
      }
      var row := 0;
      for i := 0 to n
        invariant row == i * n
        invariant forall k :: 0 <= k < matrix.Length && k < row ==> matrix[k] == NoChangeCell(frequencies, n, k)
        invariant forall k :: 0 <= k < matrix.Length && k >= row ==> matrix[k] == 0.0
        invariant i > 0 ==> row - n + i - 1 < matrix.Length
      {
        RowCells(frequencies, n, i);
        if row + i >= matrix.Length {
          MulMonotone(i + 1, n, n);
          assert (i + 1) * n == row + n;
          return Err(ArrayIndexOutOfBounds);
        }
        matrix[row + i] := if frequencies[i] > 0.0 then 1.0 else 0.0;
        assert (i + 1) * n == row + n;
        row := row + n;
      }
      return Ok(());
    }

    /** getRateMatrix always throws. */
    function GetRateMatrix(): (r: Result<seq<real>>)
      ensures r == Err(BeagleNotSupported)
    {
      Err(BeagleNotSupported)
    }

    /** getEigenDecomposition always throws. */
    function GetEigenDecomposition(): (r: Result<()>)
      ensures r == Err(BeagleNotSupported)
    {
      Err(BeagleNotSupported)
    }

    /** canHandleDataType: no data type is accepted. */
    predicate CanHandleDataType(dataType: string)
      ensures !CanHandleDataType(dataType)
    {
      false
    }
  }

  /** Row i occupies the cells i·n .. i·n + n − 1 and only its cell i·n + i can be non-zero. */
  lemma RowCells(freqs: seq<real>, n: nat, i: nat)
    requires n == |freqs| && i < n
    ensures NoChangeCell(freqs, n, i * n + i) == (if freqs[i] > 0.0 then 1.0 else 0.0)
    ensures forall k :: i * n <= k < i * n + n && k != i * n + i ==> NoChangeCell(freqs, n, k) == 0.0
  {
    CellAt(freqs, n, i, i);
    forall k | i * n <= k < i * n + n && k != i * n + i
      ensures NoChangeCell(freqs, n, k) == 0.0
    {
      CellAt(freqs, n, i, k - i * n);
    }
  }
}

=== FILE: RatesFreqsOperator.dfy ===
/**
 * An MCMC operator on the off-diagonal rates of an asymmetric substitution model. It moves the
 * rate of i→j and the rate of j→i up or down together, then rescales all rates to mean 1.
 * The random index, the uniform draw behind ε and the coin flip are arguments.
 */
module RatesFreqs {
  import opened Common
  import opened JavaErrors

  /** The largest r with r² <= d, searching upwards from a root that is not too large. */
  function SqrtFrom(d: nat, r: nat): (s: nat)
    requires r * r <= d
    ensures s * s <= d < (s + 1) * (s + 1)
    decreases d - r
  {
    if (r + 1) * (r + 1) > d then r
    else
      assert r < d by {
        MulMonotone(1, r + 1, r + 1);
      }
      SqrtFrom(d, r + 1)
  }

  /** `(int) Math.sqrt(d)`: the integer square root. */
  function FloorSqrt(d: nat): (s: nat)
    ensures s * s <= d < (s + 1) * (s + 1)
  {
    SqrtFrom(d, 0)
  }

  /** At most one natural number has d between its square and the next square. */
  lemma SqrtUnique(d: nat, s: nat, t: nat)
    requires s * s <= d < (s + 1) * (s + 1)
    requires t * t <= d < (t + 1) * (t + 1)
    ensures s == t
  {
    if s < t {
      SquareMonotone(s + 1, t);
    } else if t < s {
      SquareMonotone(t + 1, s);
    }
  }

  lemma SquareMonotone(a: nat, b: nat)
    requires a <= b
    ensures a * a <= b * b
  {
    MulMonotone(a, b, a);
    MulMonotone(a, b, b);
  }

  /** A dimension n·(n − 1) gives back n as ⌊√(n·(n − 1))⌋ + 1. */
  lemma RecoverStates(n: nat)
    requires n >= 1
    ensures FloorSqrt(n * (n - 1)) + 1 == n
  {
    var d := n * (n - 1);
    assert (n - 1) * (n - 1) <= d < n * n by {
      assert d == (n - 1) * (n - 1) + (n - 1);
      assert n * n == d + n;
    }
    SqrtUnique(d, FloorSqrt(d), n - 1);
  }

  /**
   * The eight rates of two binary traits are not of the form n·(n − 1): the pairing is built for
   * three states and has six entries, so proposals on entries 6 and 7 fail on the pair lookup.
   */
  lemma EightRatesPairSix()
    ensures FloorSqrt(8) + 1 == 3 && 3 * (3 - 1) == 6
  {
    SqrtUnique(8, FloorSqrt(8), 2);
  }

  /**
   * Position of the off-diagonal cell (i, j) of an n×n matrix when the cells are numbered row by
   * row, skipping the diagonal: the entry for the rate from i to j.
   */
  function Flat(n: nat, i: nat, j: nat): int
  {
    i * (n - 1) + (if j < i then j else j - 1)
  }

  /** The row (source state) of entry k: ⌊k / (n − 1)⌋. */
  function RowOf(n: nat, k: nat): nat
    requires n >= 2
  {
    k / (n - 1)
  }

  /** The column (target state) of entry k: k mod (n − 1), plus one from the diagonal on. */
  function ColOf(n: nat, k: nat): nat
    requires n >= 2
  {
    var c := k % (n - 1);
    if c >= k / (n - 1) then c + 1 else c
  }

  /** Numbering a cell and reading back its row and column is the identity. */
  lemma FlatRoundTrip(n: nat, i: nat, j: nat)
    requires i < n && j < n && i != j
    ensures n >= 2
    ensures 0 <= Flat(n, i, j) < n * (n - 1)
    ensures RowOf(n, Flat(n, i, j)) == i && ColOf(n, Flat(n, i, j)) == j
  {
    var c := if j < i then j else j - 1;
    DivModUnique(Flat(n, i, j), n - 1, i, c);
    MulMonotone(i, n - 1, n - 1);
    assert n * (n - 1) == (n - 1) * (n - 1) + (n - 1);
  }

  /** Every entry below n·(n − 1) is the number of exactly one off-diagonal cell. */
  lemma UnflatRoundTrip(n: nat, k: nat)
    requires n >= 2 && k < n * (n - 1)
    ensures RowOf(n, k) < n && ColOf(n, k) < n && RowOf(n, k) != ColOf(n, k)
    ensures Flat(n, RowOf(n, k), ColOf(n, k)) == k
  {
    var q, c := k / (n - 1), k % (n - 1);
    assert k == q * (n - 1) + c;
    if q >= n {
      MulMonotone(n, q, n - 1);
    }
  }

  /** The entry of the reverse rate: cell (i, j) is paired with cell (j, i). */
  function PairOf(n: nat, k: nat): int
    requires n >= 2 && k < n * (n - 1)
  {
    Flat(n, ColOf(n, k), RowOf(n, k))
  }

  /** The pairing is an involution on [0, n·(n − 1)) without fixed points. */
  lemma PairIsInvolution(n: nat, k: nat)
    requires n >= 2 && k < n * (n - 1)
    ensures 0 <= PairOf(n, k) < n * (n - 1) && PairOf(n, k) != k
    ensures PairOf(n, PairOf(n, k)) == k
  {
    UnflatRoundTrip(n, k);
    var i, j := RowOf(n, k), ColOf(n, k);
    FlatRoundTrip(n, j, i);
    FlatRoundTrip(n, i, j);
  }

  /** `Math.max(Math.min(value, upper), lower)`. */
  function Clamp(value: real, lower: real, upper: real): (r: real)
    ensures lower <= upper ==> lower <= r <= upper
    ensures lower <= value <= upper ==> r == value
    ensures value < lower ==> r == lower
    ensures lower <= upper < value ==> r == upper
  {
    var m := if value <= upper then value else upper;
    if m >= lower then m else lower
  }

  /** rates[i] += d, then rates[j] += d on the updated vector, as two setValue calls do. */
  function Moved(v: seq<real>, i: nat, j: nat, d: real): (w: seq<real>)
    requires i < |v| && j < |v|
    ensures |w| == |v|
  {
    var v1 := v[i := v[i] + d];
    v1[j := v1[j] + d]
  }

  /** Before normalisation only entries i and j change, each by d (2·d when i == j). */
  lemma MovedChangesOnlyPair(v: seq<real>, i: nat, j: nat, d: real)
    requires i < |v| && j < |v|
    ensures forall k :: 0 <= k < |v| && k != i && k != j ==> Moved(v, i, j, d)[k] == v[k]
    ensures i != j ==> Moved(v, i, j, d)[i] == v[i] + d && Moved(v, i, j, d)[j] == v[j] + d
    ensures i == j ==> Moved(v, i, j, d)[i] == v[i] + 2.0 * d
  {
  }

  /** Every entry divided by the mean. */
  function Normalised(v: seq<real>): (w: seq<real>)
    requires |v| > 0 && Sum(v) != 0.0
    ensures |w| == |v|
  {
    Scale(v, Mean(v))
  }

  /** The mean of the rates, non-zero when their sum is. */
  function Mean(v: seq<real>): (m: real)
    requires |v| > 0 && Sum(v) != 0.0
    ensures m != 0.0 && Sum(v) / m == |v| as real
  {
    Sum(v) / (|v| as real)
  }

  /** Every entry divided by m. */
  function Scale(v: seq<real>, m: real): (w: seq<real>)
    requires m != 0.0
    ensures |w| == |v|
  {
    seq(|v|, k requires 0 <= k < |v| => v[k] / m)
  }

  /** Dividing by a common m keeps every ratio between entries. */
  lemma ScaleKeepsRatios(v: seq<real>, m: real, a: nat, b: nat)
    requires m != 0.0 && a < |v| && b < |v|
    ensures Scale(v, m)[a] * v[b] == Scale(v, m)[b] * v[a]
  {
    CrossDivide(v[a], v[b], m, Scale(v, m)[a], Scale(v, m)[b]);
  }

  /** After normalisation the rates sum to the dimension, i.e. their mean is 1. */
  lemma NormalisedSumIsDimension(v: seq<real>)
    requires |v| > 0 && Sum(v) != 0.0
    ensures Sum(Normalised(v)) == |v| as real
  {
    SumScale(v, Mean(v));
  }

  /** Dividing every entry by m divides the sum by m. */
  lemma SumScale(v: seq<real>, m: real)
    requires m != 0.0
    ensures Sum(Scale(v, m)) == Sum(v) / m
  {
    SumScaled(v, Scale(v, m), m);
  }


  /** Two values divided by the same m keep their ratio: (x/m)·y == (y/m)·x. */
  lemma CrossDivide(x: real, y: real, m: real, xm: real, ym: real)
    requires m != 0.0 && xm == x / m && ym == y / m
    ensures xm * y == ym * x
  {
    assert (x / m) * y == (x * y) / m;
  }

  /** Normalisation keeps every ratio between rates. */
  lemma NormalisedKeepsRatios(v: seq<real>, a: nat, b: nat)
    requires |v| > 0 && Sum(v) != 0.0 && a < |v| && b < |v|
    ensures Normalised(v)[a] * v[b] == Normalised(v)[b] * v[a]
  {
    ScaleKeepsRatios(v, Mean(v), a, b);
  }

  const ZeroTotal: string := "rates sum to zero"

  class RatesFreqsOperator {
    /** The values of the rates parameter, updated in place. */
    var rates: array<real>
    var scaleFactor: real
    var pair: array<int>
    var upper: real
    var lower: real
    /** The state count the pairing was built for. */
    ghost var states: nat

    constructor (r: array<real>, initialScale: real)
      ensures rates == r && scaleFactor == initialScale && pair.Length == 0
    {
      rates := r;
      scaleFactor := initialScale;
      pair := new int[0];
      upper, lower := 0.0, 0.0;
      states := 0;
    }

    /** `pair` maps every entry to the entry of the reverse rate. */
    ghost predicate Paired()
      reads this, pair
    {
      states >= 1 && pair.Length == states * (states - 1)
        && forall k :: 0 <= k < pair.Length ==> pair[k] == PairOf(states, k)
    }

    /**
     * initAndValidate: the bounds come from the parameter (the lower one at least 0), the state
     * count is ⌊√dimension⌋ + 1 and `pair` is built through the table of cell numbers.
     */
    method InitAndValidate(ratesLower: real, ratesUpper: real, scaleFactorValue: real)
      modifies this
      ensures rates == old(rates) && fresh(pair)
      ensures upper == ratesUpper && lower == RealMax(ratesLower, 0.0) && scaleFactor == scaleFactorValue
      ensures states == FloorSqrt(rates.Length) + 1 && Paired()
    {
      upper := ratesUpper;
      lower := if ratesLower >= 0.0 then ratesLower else 0.0;
      scaleFactor := scaleFactorValue;
      var n := FloorSqrt(rates.Length) + 1;
      states := n;
      pair := PairTable(n);
    }

    /** The second loop of initAndValidate: pair[k] is map[j][i] for the k-th off-diagonal cell (i, j). */
    static method PairTable(n: nat) returns (pair: array<int>)
      requires n >= 1
      ensures fresh(pair) && pair.Length == n * (n - 1)
      ensures forall k :: 0 <= k < pair.Length ==> pair[k] == PairOf(n, k)
    {
      var cells := CellNumbers(n);
      pair := new int[n * (n - 1)];
      var k := 0;
      for i := 0 to n
        invariant k == i * (n - 1) && k <= pair.Length
        invariant forall a, b :: 0 <= a < n && 0 <= b < n && a != b ==> cells[a, b] == Flat(n, a, b)
        invariant forall m :: 0 <= m < k ==> pair[m] == PairOf(n, m)
      {
        assert (i + 1) * (n - 1) == i * (n - 1) + (n - 1);
        MulMonotone(i + 1, n, n - 1);
        k := PairRow(n, i, cells, pair, k);
      }
    }

    /** One pass of the outer loop: the entries of row i, from k0 = i·(n − 1) on. */
    static method PairRow(n: nat, i: nat, cells: array2<int>, pair: array<int>, k0: nat) returns (k: nat)
      requires i < n && k0 == i * (n - 1) && pair.Length == n * (n - 1) && k0 + (n - 1) <= pair.Length
      requires cells.Length0 == n && cells.Length1 == n
      requires forall a, b :: 0 <= a < n && 0 <= b < n && a != b ==> cells[a, b] == Flat(n, a, b)
      requires forall m :: 0 <= m < k0 ==> pair[m] == PairOf(n, m)
      modifies pair
      ensures k == k0 + (n - 1) && k <= pair.Length
      ensures forall m :: 0 <= m < k ==> pair[m] == PairOf(n, m)
    {
      k := k0;
      for j := 0 to n
        invariant k == k0 + (if j <= i then j else j - 1) && k <= k0 + (n - 1)
        invariant forall m :: 0 <= m < k ==> pair[m] == PairOf(n, m)
      {
        if i != j {
          FlatRoundTrip(n, i, j);
          assert k == Flat(n, i, j);
          pair[k] := cells[j, i];
          k := k + 1;
        }
      }
    }

    /** The first loop of initAndValidate: map[i][j] numbers the off-diagonal cells row by row. */
    static method CellNumbers(n: nat) returns (cells: array2<int>)
      ensures cells.Length0 == n && cells.Length1 == n
      ensures forall i, j :: 0 <= i < n && 0 <= j < n && i != j ==> cells[i, j] == Flat(n, i, j)
    {
      cells := new int[n, n];
      var k := 0;
      for i := 0 to n
        invariant k == i * (n - 1)
        invariant forall a, b :: 0 <= a < i && 0 <= b < n && a != b ==> cells[a, b] == Flat(n, a, b)
      {
        for j := 0 to n
          invariant k == i * (n - 1) + (if j <= i then j else j - 1)
          invariant forall a, b :: 0 <= a < i && 0 <= b < n && a != b ==> cells[a, b] == Flat(n, a, b)
          invariant forall b :: 0 <= b < j && b != i ==> cells[i, b] == Flat(n, i, b)
        {
          if i != j {
            cells[i, j] := k;
            k := k + 1;
          }
        }
        assert (i + 1) * (n - 1) == i * (n - 1) + (n - 1);
      }
    }

    /**
     * proposal. Up: both rates grow by ε unless one would exceed `upper`. Down: both shrink by
     * ε/(1 + ε) unless one would fall below `lower`. A rejected move returns −∞ with the rates
     * untouched; an accepted one is normalised and returns 0. `index` is nextInt(dimension),
     * `epsilon` is nextDouble()·scaleFactor and `up` is nextBoolean(). The bound tests short-circuit, so entry
     * pair[index] is read only when entry index passes.
     */
    method Proposal(index: nat, epsilon: real, up: bool) returns (r: Result<ExtReal>)
      requires index < rates.Length && Paired()
      requires 1.0 + epsilon != 0.0
      modifies rates
      ensures index >= pair.Length ==> r == Err(ArrayIndexOutOfBounds) && rates[..] == old(rates[..])
      ensures index < pair.Length ==> (r, rates[..]) == Propose(old(rates[..]), index, pair[index], epsilon, up, lower, upper)
    {
      if index >= pair.Length {
        return Err(ArrayIndexOutOfBounds);
      }
      var j := pair[index];
      var d;
      if up {
        if rates[index] + epsilon > upper {
          return Ok(NegInf);
        }
        if !(0 <= j < rates.Length) {
          return Err(ArrayIndexOutOfBounds);
        }
        if rates[j] + epsilon > upper {
          return Ok(NegInf);
        }
        d := epsilon;
      } else {
        var delta := epsilon / (1.0 + epsilon);
        if rates[index] - delta < lower {
          return Ok(NegInf);
        }
        if !(0 <= j < rates.Length) {
          return Err(ArrayIndexOutOfBounds);
        }
        if rates[j] - delta < lower {
          return Ok(NegInf);
        }
        d := -delta;
      }
      Shift(index, j, d);
      var ok := Normalise();
      r := if ok then Ok(Finite(0.0)) else Err(ZeroTotal);
    }

    /** `rates.setValue(i, rates.getValue(i) + d); rates.setValue(j, rates.getValue(j) + d);` */
    method Shift(i: nat, j: nat, d: real)
      requires i < rates.Length && j < rates.Length
      modifies rates
      ensures rates[..] == Moved(old(rates[..]), i, j, d)
    {
      rates[i] := rates[i] + d;
      rates[j] := rates[j] + d;
    }

    /**
     * normalise: sum the rates in index order, divide by the dimension, then divide every rate by
     * that mean. A zero total would divide by zero; it is reported instead (false).
     */
    method Normalise() returns (ok: bool)
      requires rates.Length > 0
      modifies rates
      ensures ok <==> Sum(old(rates[..])) != 0.0
      ensures ok ==> rates[..] == Normalised(old(rates[..]))
      ensures !ok ==> rates[..] == old(rates[..])
    {
      var sum := 0.0;
      for i := 0 to rates.Length
        invariant sum == Sum(rates[..i])
      {
        assert rates[..i + 1][..i] == rates[..i];
        sum := sum + rates[i];
      }
      assert rates[..rates.Length] == rates[..];
      if sum == 0.0 {
        return false;
      }
      sum := sum / (rates.Length as real);
      ghost var v := rates[..];
      for i := 0 to rates.Length
        invariant forall k :: 0 <= k < i ==> rates[k] == v[k] / sum
        invariant forall k :: i <= k < rates.Length ==> rates[k] == v[k]
      {
        rates[i] := rates[i] / sum;
      }
      assert rates[..] == Normalised(v);
      return true;
    }

    /** setCoercableParameterValue: the scale factor is clamped into [lower, upper]. */
    method SetCoercableParameterValue(value: real)
      modifies this
      ensures scaleFactor == Clamp(value, lower, upper)
      ensures rates == old(rates) && pair == old(pair) && upper == old(upper) && lower == old(lower)
      ensures states == old(states)
    {
      scaleFactor := if value <= upper then value else upper;
      if scaleFactor < lower {
        scaleFactor := lower;
      }
    }
  }

  /** Whether entry value x may take the step: up by ε to at most `upper`, or down by ε/(1 + ε) to at least `lower`. */
  predicate InBounds(x: real, up: bool, eps: real, lower: real, upper: real)
    requires 1.0 + eps != 0.0
  {
    if up then !(x + eps > upper) else !(x - eps / (1.0 + eps) < lower)
  }

  /** The signed step: ε up, −ε/(1 + ε) down. */
  function StepOf(up: bool, eps: real): real
    requires 1.0 + eps != 0.0
  {
    if up then eps else -(eps / (1.0 + eps))
  }

  /**
   * What one proposal does to the rates v for entry i and its partner j: the value returned and
   * the new rates. A move that takes either entry out of bounds is rejected (−∞, rates unchanged);
   * a partner beyond the rates is an index error; an accepted move shifts entries i and j by the
   * step and rescales the rates to mean 1, and the proposal returns 0.
   */
  function Propose(v: seq<real>, i: nat, j: int, eps: real, up: bool, lower: real, upper: real): (p: (Result<ExtReal>, seq<real>))
    requires i < |v| && 1.0 + eps != 0.0
    ensures p.0 == Ok(NegInf) ==>
      (p.1 == v && (!InBounds(v[i], up, eps, lower, upper)
      || (0 <= j < |v| && !InBounds(v[j], up, eps, lower, upper))))
    ensures p.0 == Ok(Finite(0.0)) ==>
      (0 <= j < |v|
      && InBounds(v[i], up, eps, lower, upper) && InBounds(v[j], up, eps, lower, upper)
      && Sum(Moved(v, i, j, StepOf(up, eps))) != 0.0
      && p.1 == Normalised(Moved(v, i, j, StepOf(up, eps)))
      && Sum(p.1) == |v| as real)
    ensures p.0 == Err(ArrayIndexOutOfBounds) ==> p.1 == v && !(0 <= j < |v|)
    ensures p.0 in {Ok(NegInf), Ok(Finite(0.0)), Err(ArrayIndexOutOfBounds), Err(ZeroTotal)}
    ensures !InBounds(v[i], up, eps, lower, upper) ==> p == (Ok(NegInf), v)
    ensures InBounds(v[i], up, eps, lower, upper) && !(0 <= j < |v|) ==> p == (Err(ArrayIndexOutOfBounds), v)
    ensures (InBounds(v[i], up, eps, lower, upper) && 0 <= j < |v| && !InBounds(v[j], up, eps, lower, upper)
      ==> p == (Ok(NegInf), v))
    ensures (InBounds(v[i], up, eps, lower, upper) && 0 <= j < |v| && InBounds(v[j], up, eps, lower, upper)
      ==> (p.0 == Ok(Finite(0.0)) <==> Sum(Moved(v, i, j, StepOf(up, eps))) != 0.0))
    ensures (p.0 == Err(ZeroTotal) ==>
      (0 <= j < |v| && InBounds(v[i], up, eps, lower, upper) && InBounds(v[j], up, eps, lower, upper)
      && Sum(Moved(v, i, j, StepOf(up, eps))) == 0.0 && p.1 == Moved(v, i, j, StepOf(up, eps))))
  {
    if !InBounds(v[i], up, eps, lower, upper) then (Ok(NegInf), v)
    else if !(0 <= j < |v|) then (Err(ArrayIndexOutOfBounds), v)
    else if !InBounds(v[j], up, eps, lower, upper) then (Ok(NegInf), v)
    else
      var m := Moved(v, i, j, StepOf(up, eps));
      if Sum(m) == 0.0 then (Err(ZeroTotal), m)
      else
        NormalisedSumIsDimension(m);
        (Ok(Finite(0.0)), Normalised(m))
  }
}

=== FILE: TSAModelSelector.dfy ===
/**
 * The model selector's helpers: the table of the sixteen rate groupings of the two-feature
 * correlated model, the posterior odds of one rate being distinct, the binary model labels, the
 * reading of the feature thresholds, and the conversion of a D-PLACE export into binary sequences.
 */
module ModelSelector {
  import opened Common
  import opened JavaErrors
  import opened JavaText

  // ---------------------------------------------------------------------------------------------
  // The rate groupings

  function Pow2(b: nat): (r: nat)
    ensures r >= 1
  {
    if b == 0 then 1 else 2 * Pow2(b - 1)
  }

  /** Bit b of i. */
  function Bit(i: nat, b: nat): nat
  {
    (i / Pow2(b)) % 2
  }

  /** Number of set bits of i. */
  function Popcount(i: nat): nat
  {
    if i == 0 then 0 else i % 2 + Popcount(i / 2)
  }

  /**
   * The rate pairs of the eight rates, one per bit of the model number: bit 0 pairs rates 4 and 6,
   * bit 1 rates 2 and 7, bit 2 rates 1 and 3, bit 3 rates 0 and 5.
   */
  const PairFirst: seq<nat> := [4, 2, 1, 0]
  const PairSecond: seq<nat> := [6, 7, 3, 5]

  /** The bit whose pair holds rate p. */
  function PairBit(p: nat): (b: nat)
    requires p < 8
    ensures b < 4 && (PairFirst[b] == p || PairSecond[b] == p)
  {
    if p == 4 || p == 6 then 0 else if p == 2 || p == 7 then 1 else if p == 1 || p == 3 then 2 else 3
  }

  /** The other rate of p's pair. */
  function Other(p: nat): (q: nat)
    requires p < 8
    ensures q < 8 && q != p && PairBit(q) == PairBit(p)
  {
    var b := PairBit(p);
    if PairFirst[b] == p then PairSecond[b] else PairFirst[b]
  }

  /** The rate that shares p's group in model i: the other rate of its pair when that bit is 0, else p itself. */
  function Partner(i: nat, p: nat): (q: nat)
    requires p < 8
    ensures q < 8
  {
    if Bit(i, PairBit(p)) == 0 then Other(p) else p
  }

  /** Rates p and q share a group in model i: they are equal or form a pair whose bit of i is 0. */
  predicate SameGroup(i: nat, p: nat, q: nat)
  {
    p == q || exists b :: (0 <= b < 4 && Bit(i, b) == 0
      && ((p == PairFirst[b] && q == PairSecond[b]) || (p == PairSecond[b] && q == PairFirst[b])))
  }

  /** The partner function is the pair rule. */
  lemma PartnerIsPairRule(i: nat, p: nat, q: nat)
    requires p < 8 && q < 8
    ensures SameGroup(i, p, q) <==> p == q || Partner(i, p) == q
  {
    if p != q && Partner(i, p) == q {
      var b := PairBit(p);
      assert Bit(i, b) == 0;
    }
  }

  /** The table of the sixteen models: entry i gives the group id of each of the eight rates. */
  const Indices: seq<seq<nat>> := [
    [0, 1, 2, 1, 3, 0, 3, 2],
    [0, 1, 2, 1, 3, 0, 4, 2],
    [0, 1, 2, 1, 3, 0, 3, 4],
    [0, 1, 2, 1, 3, 0, 4, 5],
    [0, 1, 2, 4, 3, 0, 3, 2],
    [0, 1, 2, 4, 3, 0, 5, 2],
    [0, 1, 2, 3, 4, 0, 4, 5],
    [0, 1, 2, 3, 4, 0, 5, 6],
    [0, 1, 2, 1, 3, 4, 3, 2],
    [0, 1, 2, 1, 3, 4, 5, 2],
    [0, 1, 2, 1, 3, 4, 3, 5],
    [0, 1, 2, 1, 3, 4, 5, 6],
    [0, 1, 2, 3, 4, 5, 4, 2],
    [0, 1, 2, 3, 4, 5, 6, 2],
    [0, 1, 2, 3, 4, 5, 4, 6],
    [0, 1, 2, 3, 4, 5, 6, 7]
  ]

  /** The table row agrees with the pair rule on (p, q), …, (p, 7). */
  function CheckPairs(row: seq<nat>, i: nat, p: nat, q: nat): bool
    requires |row| == 8 && p < 8 && q <= 8
    decreases 8 - q
  {
    if q == 8 then true
    else ((row[p] == row[q]) == (p == q || Partner(i, p) == q)) && CheckPairs(row, i, p, q + 1)
  }

  /** The table row agrees with the pair rule on every pair (p', q) with p <= p' < q. */
  function CheckFrom(row: seq<nat>, i: nat, p: nat): bool
    requires |row| == 8 && p <= 8
    decreases 8 - p
  {
    if p == 8 then true else CheckPairs(row, i, p, p + 1) && CheckFrom(row, i, p + 1)
  }

  lemma {:induction false} CheckPairsSound(row: seq<nat>, i: nat, p: nat, q0: nat, q: nat)
    requires |row| == 8 && p < 8 && q0 <= q < 8 && CheckPairs(row, i, p, q0)
    ensures (row[p] == row[q]) == (p == q || Partner(i, p) == q)
    decreases q - q0
  {
    if q0 < q {
      CheckPairsSound(row, i, p, q0 + 1, q);
    }
  }

  lemma {:induction false} CheckFromSound(row: seq<nat>, i: nat, p0: nat, p: nat, q: nat)
    requires |row| == 8 && p0 <= p < q < 8 && CheckFrom(row, i, p0)
    ensures (row[p] == row[q]) == (Partner(i, p) == q)
    decreases p - p0
  {
    if p0 < p {
      CheckFromSound(row, i, p0 + 1, p, q);
    } else {
      CheckPairsSound(row, i, p, p + 1, q);
    }
  }

  /** Partners come in pairs. */
  lemma PartnerSymmetric(i: nat, p: nat, q: nat)
    requires p < 8 && q < 8 && p != q
    ensures Partner(i, p) == q <==> Partner(i, q) == p
  {
  }

  /** Number of positions before n whose id does not occur earlier in the row. */
  function NewIds(row: seq<nat>, n: nat): nat
    requires n <= |row|
  {
    if n == 0 then 0 else NewIds(row, n - 1) + (if row[n - 1] in row[..n - 1] then 0 else 1)
  }

  /** The ids used before position n. */
  function IdsBefore(row: seq<nat>, n: nat): set<nat>
    requires n <= |row|
  {
    set x | x in row[..n]
  }

  /** The first occurrences count the distinct ids. */
  lemma {:induction false} NewIdsCount(row: seq<nat>, n: nat)
    requires n <= |row|
    ensures |IdsBefore(row, n)| == NewIds(row, n)
  {
    if n > 0 {
      NewIdsCount(row, n - 1);
      var before := IdsBefore(row, n - 1);
      var after := IdsBefore(row, n);
      assert row[..n] == row[..n - 1] + [row[n - 1]];
      assert after == before + {row[n - 1]};
      if row[n - 1] !in row[..n - 1] {
        assert row[n - 1] !in before;
        assert |after| == |before| + 1;
        assert NewIds(row, n) == NewIds(row, n - 1) + 1;
      } else {
        assert row[n - 1] in before;
        assert after == before;
      }
    }
  }

  /** Each table row passes the pair check and has 4 + popcount(i) groups, by evaluation. */
  lemma Row0Pairs()
    ensures |Indices[0]| == 8 && CheckFrom(Indices[0], 0, 0)
  {
  }

  lemma Row0Ids()
    ensures |Indices[0]| == 8 && NewIds(Indices[0], 8) == 4 + Popcount(0)
  {
  }

  lemma Row1Pairs()
    ensures |Indices[1]| == 8 && CheckFrom(Indices[1], 1, 0)
  {
  }

  lemma Row1Ids()
    ensures |Indices[1]| == 8 && NewIds(Indices[1], 8) == 4 + Popcount(1)
  {
  }

  lemma Row2Pairs()
    ensures |Indices[2]| == 8 && CheckFrom(Indices[2], 2, 0)
  {
  }

  lemma Row2Ids()
    ensures |Indices[2]| == 8 && NewIds(Indices[2], 8) == 4 + Popcount(2)
  {
  }

  lemma Row3Pairs()
    ensures |Indices[3]| == 8 && CheckFrom(Indices[3], 3, 0)
  {
  }

  lemma Row3Ids()
    ensures |Indices[3]| == 8 && NewIds(Indices[3], 8) == 4 + Popcount(3)
  {
  }

  lemma Row4Pairs()
    ensures |Indices[4]| == 8 && CheckFrom(Indices[4], 4, 0)
  {
  }

  lemma Row4Ids()
    ensures |Indices[4]| == 8 && NewIds(Indices[4], 8) == 4 + Popcount(4)
  {
  }

  lemma Row5Pairs()
    ensures |Indices[5]| == 8 && CheckFrom(Indices[5], 5, 0)
  {
  }

  lemma Row5Ids()
    ensures |Indices[5]| == 8 && NewIds(Indices[5], 8) == 4 + Popcount(5)
  {
  }

  lemma Row6Pairs()
    ensures |Indices[6]| == 8 && CheckFrom(Indices[6], 6, 0)
  {
  }

  lemma Row6Ids()
    ensures |Indices[6]| == 8 && NewIds(Indices[6], 8) == 4 + Popcount(6)
  {
  }

  lemma Row7Pairs()
    ensures |Indices[7]| == 8 && CheckFrom(Indices[7], 7, 0)
  {
  }

  lemma Row7Ids()
    ensures |Indices[7]| == 8 && NewIds(Indices[7], 8) == 4 + Popcount(7)
  {
  }

  lemma Row8Pairs()
    ensures |Indices[8]| == 8 && CheckFrom(Indices[8], 8, 0)
  {
  }

  lemma Row8Ids()
    ensures |Indices[8]| == 8 && NewIds(Indices[8], 8) == 4 + Popcount(8)
  {
  }

  lemma Row9Pairs()
    ensures |Indices[9]| == 8 && CheckFrom(Indices[9], 9, 0)
  {
  }

  lemma Row9Ids()
    ensures |Indices[9]| == 8 && NewIds(Indices[9], 8) == 4 + Popcount(9)
  {
  }

  lemma Row10Pairs()
    ensures |Indices[10]| == 8 && CheckFrom(Indices[10], 10, 0)
  {
  }

  lemma Row10Ids()
    ensures |Indices[10]| == 8 && NewIds(Indices[10], 8) == 4 + Popcount(10)
  {
  }

  lemma Row11Pairs()
    ensures |Indices[11]| == 8 && CheckFrom(Indices[11], 11, 0)
  {
  }

  lemma Row11Ids()
    ensures |Indices[11]| == 8 && NewIds(Indices[11], 8) == 4 + Popcount(11)
  {
  }

  lemma Row12Pairs()
    ensures |Indices[12]| == 8 && CheckFrom(Indices[12], 12, 0)
  {
  }

  lemma Row12Ids()
    ensures |Indices[12]| == 8 && NewIds(Indices[12], 8) == 4 + Popcount(12)
  {
  }

  lemma Row13Pairs()
    ensures |Indices[13]| == 8 && CheckFrom(Indices[13], 13, 0)
  {
  }

  lemma Row13Ids()
    ensures |Indices[13]| == 8 && NewIds(Indices[13], 8) == 4 + Popcount(13)
  {
  }

  lemma Row14Pairs()
    ensures |Indices[14]| == 8 && CheckFrom(Indices[14], 14, 0)
  {
  }

  lemma Row14Ids()
    ensures |Indices[14]| == 8 && NewIds(Indices[14], 8) == 4 + Popcount(14)
  {
  }

  lemma Row15Pairs()
    ensures |Indices[15]| == 8 && CheckFrom(Indices[15], 15, 0)
  {
  }

  lemma Row15Ids()
    ensures |Indices[15]| == 8 && NewIds(Indices[15], 8) == 4 + Popcount(15)
  {
  }

  lemma TableChecks(i: nat)
    requires i < 16
    ensures |Indices[i]| == 8 && CheckFrom(Indices[i], i, 0) && NewIds(Indices[i], 8) == 4 + Popcount(i)
  {
    if i == 0 { Row0Pairs(); Row0Ids(); }
    else if i == 1 { Row1Pairs(); Row1Ids(); }
    else if i == 2 { Row2Pairs(); Row2Ids(); }
    else if i == 3 { Row3Pairs(); Row3Ids(); }
    else if i == 4 { Row4Pairs(); Row4Ids(); }
    else if i == 5 { Row5Pairs(); Row5Ids(); }
    else if i == 6 { Row6Pairs(); Row6Ids(); }
    else if i == 7 { Row7Pairs(); Row7Ids(); }
    else if i == 8 { Row8Pairs(); Row8Ids(); }
    else if i == 9 { Row9Pairs(); Row9Ids(); }
    else if i == 10 { Row10Pairs(); Row10Ids(); }
    else if i == 11 { Row11Pairs(); Row11Ids(); }
    else if i == 12 { Row12Pairs(); Row12Ids(); }
    else if i == 13 { Row13Pairs(); Row13Ids(); }
    else if i == 14 { Row14Pairs(); Row14Ids(); }
    else { Row15Pairs(); Row15Ids(); }
  }

  /**
   * In model i two rates share a group id exactly when they are the same rate or form one of the
   * pairs (0,5), (1,3), (2,7), (4,6) whose bit 3, 2, 1, 0 of i is 0.
   */
  lemma IndicesGrouping(i: nat, p: nat, q: nat)
    requires i < 16 && p < 8 && q < 8
    ensures |Indices[i]| == 8
    ensures Indices[i][p] == Indices[i][q] <==> SameGroup(i, p, q)
  {
    TableChecks(i);
    if p < q {
      CheckFromSound(Indices[i], i, 0, p, q);
    } else if q < p {
      CheckFromSound(Indices[i], i, 0, q, p);
      PartnerSymmetric(i, p, q);
    }
    PartnerIsPairRule(i, p, q);
  }

  /** Model i has 4 + popcount(i) distinct rate groups. */
  lemma DistinctIds(i: nat)
    requires i < 16
    ensures |set x | x in Indices[i]| == 4 + Popcount(i)
  {
    TableChecks(i);
    NewIdsCount(Indices[i], 8);
    assert Indices[i][..8] == Indices[i];
    assert IdsBefore(Indices[i], 8) == set x | x in Indices[i];
  }

  // ---------------------------------------------------------------------------------------------
  // Posterior odds of a rate being distinct

  /**
   * The isOn table of `odds`: for rates 1 to 4 the listed 0/1 row; any other rate keeps the
   * all-zero array the table is created with.
   */
  function IsOn(rate: int): (on: seq<nat>)
    ensures |on| == 16
    ensures forall j :: 0 <= j < 16 ==> on[j] <= 1
    ensures !(1 <= rate <= 4) ==> forall j :: 0 <= j < 16 ==> on[j] == 0
  {
    if rate == 1 then [0, 0, 0, 0, 0, 0, 0, 0, 1, 1, 1, 1, 1, 1, 1, 1]
    else if rate == 2 then [0, 0, 0, 0, 1, 1, 1, 1, 0, 0, 0, 0, 1, 1, 1, 1]
    else if rate == 3 then [0, 0, 1, 1, 0, 0, 1, 1, 0, 0, 1, 1, 0, 0, 1, 1]
    else if rate == 4 then [0, 1, 0, 1, 0, 1, 0, 1, 0, 1, 0, 1, 0, 1, 0, 1]
    else seq(16, j => 0)
  }

  /** The row agrees with bit b of every model number from j on. */
  function CheckOn(on: seq<nat>, b: nat, j: nat): bool
    requires |on| == 16 && j <= 16
    decreases 16 - j
  {
    if j == 16 then true else on[j] == Bit(j, b) && CheckOn(on, b, j + 1)
  }

  lemma {:induction false} CheckOnSound(on: seq<nat>, b: nat, j0: nat, j: nat)
    requires |on| == 16 && j0 <= j < 16 && CheckOn(on, b, j0)
    ensures on[j] == Bit(j, b)
    decreases j - j0
  {
    if j0 < j {
      CheckOnSound(on, b, j0 + 1, j);
    }
  }

  lemma Rate1On()
    ensures CheckOn(IsOn(1), 3, 0)
  {
    assert CheckOn(IsOn(1), 3, 12);
    assert CheckOn(IsOn(1), 3, 8);
    assert CheckOn(IsOn(1), 3, 4);
  }

  lemma Rate2On()
    ensures CheckOn(IsOn(2), 2, 0)
  {
    assert CheckOn(IsOn(2), 2, 12);
    assert CheckOn(IsOn(2), 2, 8);
    assert CheckOn(IsOn(2), 2, 4);
  }

  lemma Rate3On()
    ensures CheckOn(IsOn(3), 1, 0)
  {
    assert CheckOn(IsOn(3), 1, 12);
    assert CheckOn(IsOn(3), 1, 8);
    assert CheckOn(IsOn(3), 1, 4);
  }

  lemma Rate4On()
    ensures CheckOn(IsOn(4), 0, 0)
  {
    assert CheckOn(IsOn(4), 0, 12);
    assert CheckOn(IsOn(4), 0, 8);
    assert CheckOn(IsOn(4), 0, 4);
  }

  /** For rates 1, 2, 3, 4 the table marks the models whose bit 3, 2, 1, 0 is set. */
  lemma IsOnIsBit(rate: int, j: nat)
    requires 1 <= rate <= 4 && j < 16
    ensures IsOn(rate)[j] == Bit(j, 4 - rate)
  {
    if rate == 1 { Rate1On(); } else if rate == 2 { Rate2On(); } else if rate == 3 { Rate3On(); } else { Rate4On(); }
    CheckOnSound(IsOn(rate), 4 - rate, 0, j);
  }

  /** Sum of exp(ml[j] - mx) over the models j < n with on[j] == side. */
  function Weight(ml: seq<real>, mx: real, exp: real -> real, on: seq<nat>, side: nat, n: nat): real
    requires n <= |ml| && n <= |on|
  {
    if n == 0 then 0.0
    else Weight(ml, mx, exp, on, side, n - 1) + (if on[n - 1] == side then exp(ml[n - 1] - mx) else 0.0)
  }

  lemma {:induction false} WeightPositive(ml: seq<real>, mx: real, exp: real -> real, on: seq<nat>, n: nat)
    requires n <= |ml| && n <= |on| && forall x :: exp(x) > 0.0
    requires forall j :: 0 <= j < n ==> on[j] <= 1
    ensures Weight(ml, mx, exp, on, 0, n) >= 0.0 && Weight(ml, mx, exp, on, 1, n) >= 0.0
    ensures n > 0 ==> Weight(ml, mx, exp, on, 0, n) + Weight(ml, mx, exp, on, 1, n) > 0.0
  {
    if n > 0 {
      WeightPositive(ml, mx, exp, on, n - 1);
    }
  }

  /**
   * `odds`: the percentages of posterior mass on the models where the rate is tied (p0) and where
   * it is separate (p1), each model weighted by exp(ml - max ml); exp is a parameter.
   */
  method Odds(rate: int, ml: seq<real>, exp: real -> real) returns (p0: real, p1: real)
    requires |ml| == 16
    requires forall x :: exp(x) > 0.0
    ensures var on := IsOn(rate);
      var w0 := Weight(ml, Max(ml), exp, on, 0, 16);
      var w1 := Weight(ml, Max(ml), exp, on, 1, 16);
      w0 + w1 > 0.0 && p0 == 100.0 * w0 / (w0 + w1) && p1 == 100.0 * w1 / (w0 + w1)
    ensures p0 >= 0.0 && p1 >= 0.0 && p0 + p1 == 100.0
  {
    var mx := MaxOf16(ml);
    var on := IsOn(rate);
    var w0, w1 := Weights(ml, mx, exp, on);
    WeightPositive(ml, mx, exp, on, 16);
    var sum := (w0 + w1) / 100.0;
    p0 := w0 / sum;
    p1 := w1 / sum;
    Percentages(w0, w1);
  }

  /** The first loop of odds: the largest marginal likelihood. */
  method MaxOf16(ml: seq<real>) returns (mx: real)
    requires |ml| == 16
    ensures mx == Max(ml)
  {
    mx := ml[0];
    var j := 0;
    while j < 16
      invariant 0 <= j <= 16
      invariant mx == Max(ml[..if j == 0 then 1 else j])
    {
      assert ml[..j + 1][..j] == ml[..j];
      mx := RealMax(ml[j], mx);
      j := j + 1;
    }
    assert ml[..16] == ml;
  }

  /** The second loop of odds: the weights of the two sides. */
  method Weights(ml: seq<real>, mx: real, exp: real -> real, on: seq<nat>) returns (w0: real, w1: real)
    requires |ml| == 16 && |on| == 16 && forall j :: 0 <= j < 16 ==> on[j] <= 1
    ensures w0 == Weight(ml, mx, exp, on, 0, 16) && w1 == Weight(ml, mx, exp, on, 1, 16)
  {
    w0, w1 := 0.0, 0.0;
    var j := 0;
    while j < 16
      invariant 0 <= j <= 16
      invariant w0 == Weight(ml, mx, exp, on, 0, j) && w1 == Weight(ml, mx, exp, on, 1, j)
    {
      if on[j] == 0 {
        w0 := w0 + exp(ml[j] - mx);
      } else {
        w1 := w1 + exp(ml[j] - mx);
      }
      j := j + 1;
    }
  }

  /** Dividing by one hundredth of the total gives percentages that add up to 100. */
  lemma Percentages(w0: real, w1: real)
    requires w0 >= 0.0 && w1 >= 0.0 && w0 + w1 > 0.0
    ensures w0 / ((w0 + w1) / 100.0) == 100.0 * w0 / (w0 + w1)
    ensures w1 / ((w0 + w1) / 100.0) == 100.0 * w1 / (w0 + w1)
    ensures w0 / ((w0 + w1) / 100.0) >= 0.0 && w1 / ((w0 + w1) / 100.0) >= 0.0
    ensures w0 / ((w0 + w1) / 100.0) + w1 / ((w0 + w1) / 100.0) == 100.0
  {
    DivAdd(w0, w1, w0 + w1);
  }

  // ---------------------------------------------------------------------------------------------
  // Binary model labels

  /** Integer.toBinaryString for a non-negative value: no leading zeros, "0" for zero. */
  function BinaryString(n: nat): (s: string)
    ensures |s| >= 1 && forall k :: 0 <= k < |s| ==> s[k] == '0' || s[k] == '1'
  {
    if n < 2 then [if n == 0 then '0' else '1']
    else BinaryString(n / 2) + [if n % 2 == 0 then '0' else '1']
  }

  /** The number a string of binary digits denotes, most significant first. */
  function BinValue(s: string): nat
  {
    if |s| == 0 then 0 else 2 * BinValue(s[..|s| - 1]) + (if s[|s| - 1] == '1' then 1 else 0)
  }

  /** toBinaryString denotes its argument, in at most k digits below 2^k. */
  lemma {:induction false} BinaryStringValue(n: nat, k: nat)
    requires 1 <= k && n < Pow2(k)
    ensures BinValue(BinaryString(n)) == n
    ensures |BinaryString(n)| <= k
  {
    var s := BinaryString(n);
    if n >= 2 {
      assert k >= 2;
      BinaryStringValue(n / 2, k - 1);
      assert s[..|s| - 1] == BinaryString(n / 2);
    } else {
      assert s[..0] == "";
    }
  }

  /** A leading zero does not change the value. */
  lemma {:induction false} LeadingZero(s: string)
    ensures BinValue("0" + s) == BinValue(s)
  {
    if |s| > 0 {
      LeadingZero(s[..|s| - 1]);
      assert ("0" + s)[..|"0" + s| - 1] == "0" + s[..|s| - 1];
    } else {
      assert ("0" + s)[..0] == "";
    }
  }

  /** In a four-digit label, digit k is bit 3 - k of the value. */
  lemma LabelBits(bin: string)
    requires |bin| == 4 && forall k :: 0 <= k < 4 ==> bin[k] == '0' || bin[k] == '1'
    ensures forall k :: 0 <= k < 4 ==> (bin[k] == '1' <==> Bit(BinValue(bin), 3 - k) == 1)
  {
    var a, b, c, d := (if bin[0] == '1' then 1 else 0), (if bin[1] == '1' then 1 else 0),
      (if bin[2] == '1' then 1 else 0), (if bin[3] == '1' then 1 else 0);
    assert bin[..3][..2][..1][..0] == "";
    assert BinValue(bin[..1]) == a by { assert bin[..1][..0] == ""; }
    assert BinValue(bin[..2]) == 2 * a + b by { assert bin[..2][..1] == bin[..1]; }
    assert BinValue(bin[..3]) == 4 * a + 2 * b + c by { assert bin[..3][..2] == bin[..2]; }
    assert BinValue(bin) == 8 * a + 4 * b + 2 * c + d by { assert bin[..3] == bin[..|bin| - 1]; }
    NibbleBits(a, b, c, d);
  }

  /** The four bits of 8a + 4b + 2c + d, for a, b, c, d each 0 or 1, are d, c, b, a. */
  lemma NibbleBits(a: nat, b: nat, c: nat, d: nat)
    requires a <= 1 && b <= 1 && c <= 1 && d <= 1
    ensures var v := 8 * a + 4 * b + 2 * c + d;
      Bit(v, 3) == a && Bit(v, 2) == b && Bit(v, 1) == c && Bit(v, 0) == d
  {
    var v := 8 * a + 4 * b + 2 * c + d;
    assert Pow2(3) == 8 && Pow2(2) == 4 && Pow2(1) == 2 && Pow2(0) == 1;
    assert v / 8 == a && v / 4 == 2 * a + b && v / 2 == 4 * a + 2 * b + c;
  }

  /**
   * The label of model i in the report and the dot graph: toBinaryString padded on the left with
   * zeros to four characters. For the sixteen models digit k is bit 3 - k of i.
   */
  method BinaryLabel(i: nat) returns (bin: string)
    requires i < 16
    ensures |bin| == 4 && BinValue(bin) == i
    ensures forall k :: 0 <= k < 4 ==> (bin[k] == '1' <==> Bit(i, 3 - k) == 1)
    ensures forall k :: 0 <= k < 4 ==> bin[k] == '0' || bin[k] == '1'
  {
    bin := BinaryString(i);
    BinaryStringValue(i, 4);
    while |bin| < 4
      invariant |bin| <= 4 && BinValue(bin) == i
      invariant forall k :: 0 <= k < |bin| ==> bin[k] == '0' || bin[k] == '1'
      decreases 4 - |bin|
    {
      LeadingZero(bin);
      bin := "0" + bin;
    }
    LabelBits(bin);
  }

  // ---------------------------------------------------------------------------------------------
  // Feature thresholds

  const NumberFormatError: string := "java.lang.NumberFormatException"

  /**
   * The values the pieces list, read left to right; the first piece that is not an integer, or
   * lies outside the 100-slot table, stops the reading.
   */
  function Thresholds(pieces: seq<string>): (r: Result<set<int>>)
    ensures r.Ok? ==> forall x :: x in r.value ==> 0 <= x < 100
    ensures r.Err? ==> r.msg == NumberFormatError || r.msg == ArrayIndexOutOfBounds
  {
    if |pieces| == 0 then Ok({})
    else
      var before := Thresholds(pieces[..|pieces| - 1]);
      var p := ParseInt(pieces[|pieces| - 1]);
      if before.Err? then before
      else if p.None? then Err(NumberFormatError)
      else if !(0 <= p.value < 100) then Err(ArrayIndexOutOfBounds)
      else Ok(before.value + {p.value})
  }

  predicate ValidPiece(piece: string)
  {
    ParseInt(piece).Some? && 0 <= ParseInt(piece).value < 100
  }

  /**
   * The reading succeeds exactly when every piece is an integer in 0..99, and then yields the
   * listed values; otherwise the first bad piece decides the exception.
   */
  lemma ThresholdsMeaning(pieces: seq<string>)
    ensures Thresholds(pieces).Ok? <==> forall k :: 0 <= k < |pieces| ==> ValidPiece(pieces[k])
    ensures Thresholds(pieces).Ok? ==>
      forall v :: v in Thresholds(pieces).value <==> exists k :: 0 <= k < |pieces| && ParseInt(pieces[k]) == Some(v)
    ensures Thresholds(pieces).Err? ==>
      exists k :: (0 <= k < |pieces| && !ValidPiece(pieces[k]) && (forall j :: 0 <= j < k ==> ValidPiece(pieces[j]))
        && Thresholds(pieces).msg == (if ParseInt(pieces[k]).None? then NumberFormatError else ArrayIndexOutOfBounds))
  {
    ThresholdsOk(pieces);
    if Thresholds(pieces).Ok? {
      ThresholdsValues(pieces);
    } else {
      ThresholdsFirstBad(pieces);
    }
  }

  lemma {:induction false} ThresholdsOk(pieces: seq<string>)
    ensures Thresholds(pieces).Ok? <==> forall k :: 0 <= k < |pieces| ==> ValidPiece(pieces[k])
  {
    if |pieces| > 0 {
      var init := pieces[..|pieces| - 1];
      ThresholdsOk(init);
      assert forall k :: 0 <= k < |init| ==> init[k] == pieces[k];
      if Thresholds(init).Err? {
        var k :| 0 <= k < |init| && !ValidPiece(init[k]);
        assert !ValidPiece(pieces[k]);
      } else if !ValidPiece(pieces[|pieces| - 1]) {
        assert !ValidPiece(pieces[|pieces| - 1]);
      }
    }
  }

  lemma {:induction false} ThresholdsValues(pieces: seq<string>)
    requires Thresholds(pieces).Ok?
    ensures forall v :: v in Thresholds(pieces).value <==> exists k :: 0 <= k < |pieces| && ParseInt(pieces[k]) == Some(v)
  {
    if |pieces| > 0 {
      var init := pieces[..|pieces| - 1];
      var last := pieces[|pieces| - 1];
      assert Thresholds(init).Ok?;
      ThresholdsValues(init);
      var s, s0 := Thresholds(pieces).value, Thresholds(init).value;
      assert s == s0 + {ParseInt(last).value};
      forall v | v in s
        ensures exists k :: 0 <= k < |pieces| && ParseInt(pieces[k]) == Some(v)
      {
        if v in s0 {
          var k :| 0 <= k < |init| && ParseInt(init[k]) == Some(v);
          assert pieces[k] == init[k];
        } else {
          assert ParseInt(pieces[|pieces| - 1]) == Some(v);
        }
      }
      forall v | exists k :: 0 <= k < |pieces| && ParseInt(pieces[k]) == Some(v)
        ensures v in s
      {
        var k :| 0 <= k < |pieces| && ParseInt(pieces[k]) == Some(v);
        if k < |init| {
          assert pieces[k] == init[k];
        }
      }
    }
  }

  lemma {:induction false} ThresholdsFirstBad(pieces: seq<string>)
    requires Thresholds(pieces).Err?
    ensures exists k :: (0 <= k < |pieces| && !ValidPiece(pieces[k]) && (forall j :: 0 <= j < k ==> ValidPiece(pieces[j]))
      && Thresholds(pieces).msg == (if ParseInt(pieces[k]).None? then NumberFormatError else ArrayIndexOutOfBounds))
  {
    var init := pieces[..|pieces| - 1];
    assert forall k :: 0 <= k < |init| ==> init[k] == pieces[k];
    if Thresholds(init).Err? {
      ThresholdsFirstBad(init);
      var k :| 0 <= k < |init| && !ValidPiece(init[k]) && (forall j :: 0 <= j < k ==> ValidPiece(init[j]))
        && Thresholds(init).msg == (if ParseInt(init[k]).None? then NumberFormatError else ArrayIndexOutOfBounds);
      assert !ValidPiece(pieces[k]);
    } else {
      ThresholdsOk(init);
      var k := |pieces| - 1;
      assert forall j :: 0 <= j < k ==> ValidPiece(pieces[j]);
    }
  }

  /** Once a prefix of the pieces fails, the whole reading fails with the same exception. */
  lemma {:induction false} ThresholdsPrefixErr(pieces: seq<string>, n: nat)
    requires n <= |pieces| && Thresholds(pieces[..n]).Err?
    ensures Thresholds(pieces) == Thresholds(pieces[..n])
    decreases |pieces| - n
  {
    if n < |pieces| {
      var next := pieces[..n + 1];
      assert next[..n] == pieces[..n];
      ThresholdsPrefixErr(pieces, n + 1);
    } else {
      assert pieces[..n] == pieces;
    }
  }

  /**
   * `toBoolean`: white space removed, split on commas, and each listed value marked in a table of
   * 100 slots; a piece that is not an integer, or lies outside 0..99, throws.
   */
  method ToBoolean(str: string) returns (r: Result<seq<bool>>)
    ensures var t := Thresholds(Split(RemoveSpaces(str), ','));
      (r.Ok? <==> t.Ok?) && (r.Err? ==> r.msg == t.msg)
      && (r.Ok? ==> |r.value| == 100 && forall v :: 0 <= v < 100 ==> (r.value[v] <==> v in t.value))
  {
    var pieces := Split(RemoveSpaces(str), ',');
    var b := new bool[100](_ => false);
    var k := 0;
    while k < |pieces|
      invariant 0 <= k <= |pieces|
      invariant Thresholds(pieces[..k]).Ok?
      invariant forall v :: 0 <= v < 100 ==> (b[v] <==> v in Thresholds(pieces[..k]).value)
    {
      var p := ParseInt(pieces[k]);
      if p.None? {
        assert pieces[..k + 1][..k] == pieces[..k];
        ThresholdsPrefixErr(pieces, k + 1);
        return Err(NumberFormatError);
      }
      if p.value < 0 || p.value >= 100 {
        assert pieces[..k + 1][..k] == pieces[..k];
        ThresholdsPrefixErr(pieces, k + 1);
        return Err(ArrayIndexOutOfBounds);
      }
      ThresholdsExtend(pieces, k);
      b[p.value] := true;
      k := k + 1;
    }
    assert pieces[..k] == pieces;
    return Ok(b[..]);
  }

  /** A valid next piece adds its value to the values read so far. */
  lemma ThresholdsExtend(pieces: seq<string>, k: nat)
    requires k < |pieces| && Thresholds(pieces[..k]).Ok? && ValidPiece(pieces[k])
    ensures Thresholds(pieces[..k + 1]) == Ok(Thresholds(pieces[..k]).value + {ParseInt(pieces[k]).value})
  {
    assert pieces[..k + 1][..k] == pieces[..k];
  }

  /** The table toBoolean builds: slot v is set exactly when v is listed. */
  function ThresholdTable(str: string): (r: Result<seq<bool>>)
    ensures r.Ok? ==> |r.value| == 100
  {
    var t := Thresholds(Split(RemoveSpaces(str), ','));
    if t.Err? then Err(t.msg) else Ok(seq(100, v => v in t.value))
  }

  /**
   * `normalise`: "NA" and text that is not an integer are missing ("?"); an integer is "1" when
   * its slot is set and "0" otherwise; an integer outside the table throws, since only the
   * number-format exception is caught.
   */
  function Normalise(v: string, threshold: seq<bool>): (r: Result<string>)
    requires |threshold| == 100
    ensures r.Ok? ==> r.value == "?" || r.value == "0" || r.value == "1"
    ensures r == Ok("?") <==> v == "NA" || ParseInt(v).None?
    ensures r.Err? <==> v != "NA" && ParseInt(v).Some? && !(0 <= ParseInt(v).value < 100)
    ensures r.Err? ==> r.msg == ArrayIndexOutOfBounds
    ensures r == Ok("1") <==> v != "NA" && ValidPiece(v) && threshold[ParseInt(v).value]
  {
    if v == "NA" then Ok("?")
    else
      var p := ParseInt(v);
      if p.None? then Ok("?")
      else if p.value < 0 || p.value >= 100 then Err(ArrayIndexOutOfBounds)
      else if threshold[p.value] then Ok("1")
      else Ok("0")
  }

  /** With the table read from a threshold list, a value becomes "1" exactly when it is listed. */
  lemma NormaliseListed(v: string, str: string)
    requires ThresholdTable(str).Ok?
    ensures var pieces := Split(RemoveSpaces(str), ',');
      Normalise(v, ThresholdTable(str).value) == Ok("1")
      <==> v != "NA" && ParseInt(v).Some? && exists k :: 0 <= k < |pieces| && ParseInt(pieces[k]) == ParseInt(v)
  {
    var pieces := Split(RemoveSpaces(str), ',');
    ThresholdsMeaning(pieces);
    var t := Thresholds(pieces).value;
    var p := ParseInt(v);
    if v != "NA" && p.Some? {
      if exists k :: 0 <= k < |pieces| && ParseInt(pieces[k]) == p {
        var k :| 0 <= k < |pieces| && ParseInt(pieces[k]) == p;
        assert ValidPiece(pieces[k]);
        assert p.value in t;
        assert ThresholdTable(str).value[p.value];
      } else if 0 <= p.value < 100 {
        assert p.value !in t;
        assert !ThresholdTable(str).value[p.value];
      }
    }
  }

  // ---------------------------------------------------------------------------------------------
  // Reading the D-PLACE export

  /** Index of the first double quote in t. */
  function FirstQuote(t: string): (r: Option<nat>)
    ensures r.Some? ==> r.value < |t| && t[r.value] == '"' && '"' !in t[..r.value]
    ensures r.None? ==> '"' !in t
  {
    if |t| == 0 then None
    else if t[0] == '"' then Some(0)
    else
      var q := FirstQuote(t[1..]);
      if q.None? then None
      else
        assert t[..q.value + 1] == [t[0]] + t[1..][..q.value];
        Some(q.value + 1)
  }

  /**
   * `replaceAll("\"[^\"]+\"", "")`: scanning left to right, a double quote followed by at least one
   * other character and then a closing double quote is removed with its contents; a quote that
   * starts no such section is kept.
   */
  function RemoveQuoted(s: string): (r: string)
    ensures |r| <= |s|
    decreases |s|
  {
    if |s| == 0 then ""
    else if s[0] == '"' then
      var q := FirstQuote(s[1..]);
      if q.Some? && q.value > 0 then RemoveQuoted(s[q.value + 2..])
      else [s[0]] + RemoveQuoted(s[1..])
    else [s[0]] + RemoveQuoted(s[1..])
  }

  /** Text without quotes is kept as it is. */
  lemma {:induction false} PlainKept(a: string, rest: string)
    requires '"' !in a
    ensures RemoveQuoted(a + rest) == a + RemoveQuoted(rest)
  {
    if |a| > 0 {
      assert (a + rest)[1..] == a[1..] + rest;
      assert a[0] != '"';
      PlainKept(a[1..], rest);
    } else {
      assert a + rest == rest;
    }
  }

  /** A non-empty quoted section is removed with its quotes. */
  lemma QuotedRemoved(q: string, rest: string)
    requires |q| > 0 && '"' !in q
    ensures RemoveQuoted("\"" + q + "\"" + rest) == RemoveQuoted(rest)
  {
    var s := "\"" + q + "\"" + rest;
    assert s[1..] == q + ("\"" + rest);
    assert FirstQuote(s[1..]) == Some(|q|) by {
      FirstQuoteAfterPlain(q, "\"" + rest);
    }
    assert s[|q| + 2..] == rest;
  }

  lemma {:induction false} FirstQuoteAfterPlain(a: string, rest: string)
    requires '"' !in a && |rest| > 0 && rest[0] == '"'
    ensures FirstQuote(a + rest) == Some(|a|)
  {
    if |a| > 0 {
      assert (a + rest)[1..] == a[1..] + rest;
      assert a[0] != '"';
      FirstQuoteAfterPlain(a[1..], rest);
    } else {
      assert a + rest == rest;
    }
  }

  /** A column whose name starts with "Code: " holds a feature. */
  predicate IsFeatureColumn(name: string)
  {
    StartsWith(name, "Code: ")
  }

  /** Number of header fields equal to the code column's name. */
  function CodeColumns(fs: seq<string>, code: string): nat
  {
    if |fs| == 0 then 0 else CodeColumns(fs[..|fs| - 1], code) + (if fs[|fs| - 1] == code then 1 else 0)
  }

  /** Number of feature columns in the header. */
  function FeatureColumns(fs: seq<string>): nat
  {
    if |fs| == 0 then 0 else FeatureColumns(fs[..|fs| - 1]) + (if IsFeatureColumn(fs[|fs| - 1]) then 1 else 0)
  }

  /** Counting over a prefix never exceeds counting over the whole header. */
  lemma {:induction false} ColumnsPrefix(fs: seq<string>, code: string, n: nat)
    requires n <= |fs|
    ensures CodeColumns(fs[..n], code) <= CodeColumns(fs, code)
    ensures FeatureColumns(fs[..n]) <= FeatureColumns(fs)
    decreases |fs| - n
  {
    if n < |fs| {
      assert fs[..n + 1][..n] == fs[..n];
      ColumnsPrefix(fs, code, n + 1);
    } else {
      assert fs[..n] == fs;
    }
  }

  /** The positions of the code column and of the two feature columns. */
  datatype SelectorColumns = SelectorColumns(soc: nat, v1: nat, v2: nat)

  /** cols names the one code column and the two feature columns, in header order. */
  predicate HeaderColumns(fs: seq<string>, code: string, cols: SelectorColumns)
  {
    CodeColumns(fs, code) == 1 && FeatureColumns(fs) == 2
    && cols.soc < |fs| && fs[cols.soc] == code
    && cols.v1 < cols.v2 < |fs| && IsFeatureColumn(fs[cols.v1]) && IsFeatureColumn(fs[cols.v2])
  }

  function CodeColumnTwice(code: string): string
  {
    "more than one " + code + " column found"
  }

  const TooManyFeatureColumns: string := "Found more than 2 Code: columns, but expected 2"
  const CodeColumnMissing: string := "Could not find code column"
  const NoFeatureColumn: string := "Could not find any Code: column"
  const OneFeatureColumn: string := "Could only find one Code: column, but expected 2"

  /** The columns met so far by the header scan; −1 for none yet. */
  datatype HeaderScan = HeaderScan(soc: int, v1: int, v2: int)

  /**
   * The header scan over a prefix, column by column: the first `code` column is soc and a second
   * one fails; the first two "Code: " columns are v1 and v2 and a third one fails.
   */
  function ScanPrefix(fs: seq<string>, code: string): Result<HeaderScan>
  {
    if |fs| == 0 then Ok(HeaderScan(-1, -1, -1))
    else
      var i := |fs| - 1;
      var prev := ScanPrefix(fs[..i], code);
      if prev.Err? then prev
      else if fs[i] == code && prev.value.soc >= 0 then Err(CodeColumnTwice(code))
      else
        var s := if fs[i] == code then prev.value.(soc := i) else prev.value;
        if !IsFeatureColumn(fs[i]) then Ok(s)
        else if s.v1 < 0 then Ok(s.(v1 := i))
        else if s.v2 < 0 then Ok(s.(v2 := i))
        else Err(TooManyFeatureColumns)
  }

  /** The outcome of the header scan: a failure met during the scan, else a missing column, else the columns. */
  function SelectorColumnsOf(fs: seq<string>, code: string): (r: Result<SelectorColumns>)
    ensures r.Ok? ==> r.value.soc >= 0 && r.value.v1 >= 0 && r.value.v2 >= 0
  {
    var s := ScanPrefix(fs, code);
    if s.Err? then Err(s.msg)
    else if s.value.soc < 0 then Err(CodeColumnMissing)
    else if s.value.v1 < 0 then Err(NoFeatureColumn)
    else if s.value.v2 < 0 then Err(OneFeatureColumn)
    else Ok(SelectorColumns(s.value.soc, s.value.v1, s.value.v2))
  }

  /** One more header field: the counts and the scan advance by that field alone. */
  lemma HeaderStep(fs: seq<string>, code: string, i: nat)
    requires i < |fs|
    ensures CodeColumns(fs[..i + 1], code) == CodeColumns(fs[..i], code) + (if fs[i] == code then 1 else 0)
    ensures FeatureColumns(fs[..i + 1]) == FeatureColumns(fs[..i]) + (if IsFeatureColumn(fs[i]) then 1 else 0)
    ensures var prev := ScanPrefix(fs[..i], code);
      ScanPrefix(fs[..i + 1], code)
      == if prev.Err? then prev
         else if fs[i] == code && prev.value.soc >= 0 then Err(CodeColumnTwice(code))
         else
           var s := if fs[i] == code then prev.value.(soc := i) else prev.value;
           if !IsFeatureColumn(fs[i]) then Ok(s)
           else if s.v1 < 0 then Ok(s.(v1 := i))
           else if s.v2 < 0 then Ok(s.(v2 := i))
           else Err(TooManyFeatureColumns)
  {
    assert fs[..i + 1][..i] == fs[..i];
  }

  /** Once the scan fails, it fails with the same message whatever columns follow. */
  lemma {:induction false} ScanErrorSticks(fs: seq<string>, code: string, k: nat)
    requires k <= |fs| && ScanPrefix(fs[..k], code).Err?
    ensures ScanPrefix(fs, code) == ScanPrefix(fs[..k], code)
    decreases |fs| - k
  {
    if k < |fs| {
      assert fs[..k + 1][..k] == fs[..k];
      ScanErrorSticks(fs, code, k + 1);
    } else {
      assert fs[..k] == fs;
    }
  }

  /**
   * The header scan of `processDataFile`: exactly one column named `code` and exactly two
   * "Code: " columns are required; a second code column or a third feature column throws as
   * soon as it is met, and a missing column throws after the scan.
   */
  method FindSelectorColumns(fs: seq<string>, code: string) returns (r: Result<SelectorColumns>)
    ensures r == SelectorColumnsOf(fs, code)
    ensures r.Ok? <==> CodeColumns(fs, code) == 1 && FeatureColumns(fs) == 2
    ensures r.Ok? ==> HeaderColumns(fs, code, r.value)
    ensures CodeColumns(fs, code) >= 2 && FeatureColumns(fs) <= 2 ==> r == Err(CodeColumnTwice(code))
    ensures CodeColumns(fs, code) <= 1 && FeatureColumns(fs) >= 3 ==> r == Err(TooManyFeatureColumns)
    ensures CodeColumns(fs, code) >= 2 && FeatureColumns(fs) >= 3 ==>
      r == Err(CodeColumnTwice(code)) || r == Err(TooManyFeatureColumns)
    ensures CodeColumns(fs, code) == 0 && FeatureColumns(fs) <= 2 ==> r == Err(CodeColumnMissing)
    ensures CodeColumns(fs, code) == 1 && FeatureColumns(fs) == 0 ==> r == Err(NoFeatureColumn)
    ensures CodeColumns(fs, code) == 1 && FeatureColumns(fs) == 1 ==> r == Err(OneFeatureColumn)
  {
    var soc, v1, v2 := -1, -1, -1;
    var i := 0;
    while i < |fs|
      invariant 0 <= i <= |fs|
      invariant CodeColumns(fs[..i], code) <= 1 && FeatureColumns(fs[..i]) <= 2
      invariant soc == -1 <==> CodeColumns(fs[..i], code) == 0
      invariant soc != -1 ==> 0 <= soc < i && fs[soc] == code
      invariant v1 == -1 <==> FeatureColumns(fs[..i]) == 0
      invariant v2 == -1 <==> FeatureColumns(fs[..i]) <= 1
      invariant v1 != -1 ==> 0 <= v1 < i && IsFeatureColumn(fs[v1])
      invariant v2 != -1 ==> v1 < v2 < i && IsFeatureColumn(fs[v2])
      invariant ScanPrefix(fs[..i], code) == Ok(HeaderScan(soc, v1, v2))
    {
      HeaderStep(fs, code, i);
      if fs[i] == code {
        if soc < 0 {
          soc := i;
        } else {
          ColumnsPrefix(fs, code, i + 1);
          assert CodeColumns(fs[..i + 1], code) == 2;
          ScanErrorSticks(fs, code, i + 1);
          return Err(CodeColumnTwice(code));
        }
      }
      if IsFeatureColumn(fs[i]) {
        if v1 < 0 {
          v1 := i;
        } else if v2 < 0 {
          v2 := i;
        } else {
          ColumnsPrefix(fs, code, i + 1);
          assert FeatureColumns(fs[..i + 1]) == 3;
          ScanErrorSticks(fs, code, i + 1);
          return Err(TooManyFeatureColumns);
        }
      }
      i := i + 1;
    }
    assert fs[..i] == fs;
    if soc < 0 {
      return Err(CodeColumnMissing);
    }
    if v1 < 0 {
      return Err(NoFeatureColumn);
    }
    if v2 < 0 {
      return Err(OneFeatureColumn);
    }
    return Ok(SelectorColumns(soc, v1, v2));
  }

  /** The codes a row can carry: two binary digits, or "??" when either feature is missing. */
  const RowCodes: set<string> := {"00", "01", "10", "11", "??"}

  /** The row's code: v1 + v2, or "??" when either normalised value is missing. */
  function RowCode(n1: string, n2: string): (code: string)
    requires n1 == "?" || n1 == "0" || n1 == "1"
    requires n2 == "?" || n2 == "0" || n2 == "1"
    ensures code in RowCodes && |code| == 2
    ensures code == "??" <==> n1 == "?" || n2 == "?"
    ensures code != "??" ==> code[0] == n1[0] && code[1] == n2[0]
  {
    if n1[0] == '?' || n2[0] == '?' then "??"
    else if n1 == "0" then (if n2 == "0" then "00" else "01")
    else (if n2 == "0" then "10" else "11")
  }

  /**
   * The merge of a row into the stored string: when the code differs from what is stored and
   * that is not "??", the taxon becomes "??"; otherwise the code and the raw values are stored.
   */
  function Merge(stored: string, code: string, raw: string): string
  {
    if code != stored && stored != "??" then "??" else code + " " + raw
  }

  /** A stored string is "??" or a row code followed by a space and the raw values. */
  predicate StoredEntry(stored: string)
  {
    stored == "??" || (|stored| >= 3 && stored[..2] in RowCodes && stored[2] == ' ')
  }

  predicate WellStored(m: map<string, string>)
  {
    forall k :: k in m ==> StoredEntry(m[k])
  }

  /**
   * Because stored strings carry the raw values, a code never equals a stored entry: a taxon
   * holding "??" takes the row, and a taxon already holding a row becomes "??", whether the
   * codes agree or not.
   */
  lemma MergeToggles(stored: string, code: string, raw: string)
    requires StoredEntry(stored) && code in RowCodes
    ensures StoredEntry(Merge(stored, code, raw))
    ensures Merge(stored, code, raw) == (if stored == "??" then code + " " + raw else "??")
  {
    var m := Merge(stored, code, raw);
    if stored != "??" {
      assert |code| == 2 && |stored| >= 3;
    } else {
      assert m == code + " " + raw;
      assert m[..2] == code;
    }
  }

  /** Two rows with the same code leave the taxon at "??"; a third brings the code back. */
  lemma RepeatedRowsToggle(code: string, raw: string)
    requires code in RowCodes
    ensures Merge(Merge("??", code, raw), code, raw) == "??"
    ensures Merge(Merge(Merge("??", code, raw), code, raw), code, raw) == code + " " + raw
  {
    MergeToggles("??", code, raw);
    MergeToggles(code + " " + raw, code, raw);
  }

  /**
   * One data row: quoted text removed, split on commas, the code column read, and when it is not
   * empty both feature values read and normalised; only taxa already in the map are updated.
   * A row too short for a column it reads throws.
   */
  function RowUpdate(m: map<string, string>, line: string, cols: SelectorColumns,
                     th1: seq<bool>, th2: seq<bool>): (r: Result<map<string, string>>)
    requires |th1| == 100 && |th2| == 100
    ensures r.Ok? ==> r.value.Keys == m.Keys
    ensures r.Ok? ==> forall k :: k in m && (RowTaxon(line, cols).None? || k != RowTaxon(line, cols).value) ==> r.value[k] == m[k]
  {
    var strs := Split(RemoveQuoted(line), ',');
    if cols.soc >= |strs| then Err(ArrayIndexOutOfBounds)
    else
      var iso := strs[cols.soc];
      if |iso| == 0 then Ok(m)
      else if cols.v1 >= |strs| then Err(ArrayIndexOutOfBounds)
      else
        var n1 := Normalise(strs[cols.v1], th1);
        if n1.Err? then Err(n1.msg)
        else if cols.v2 >= |strs| then Err(ArrayIndexOutOfBounds)
        else
          var n2 := Normalise(strs[cols.v2], th2);
          if n2.Err? then Err(n2.msg)
          else if iso in m then Ok(m[iso := Merge(m[iso], RowCode(n1.value, n2.value), strs[cols.v1] + strs[cols.v2])])
          else Ok(m)
  }

  /** The code-column value of a row, when the row has that column. */
  function RowTaxon(line: string, cols: SelectorColumns): Option<string>
  {
    var strs := Split(RemoveQuoted(line), ',');
    if cols.soc < |strs| then Some(strs[cols.soc]) else None
  }

  /**
   * A row changes at most the entry of the taxon in its code column, never the set of taxa, and
   * keeps entries well formed; a row whose code is not a taxon of the map changes nothing.
   */
  lemma RowUpdateKeeps(m: map<string, string>, line: string, cols: SelectorColumns, th1: seq<bool>, th2: seq<bool>)
    requires |th1| == 100 && |th2| == 100
    requires WellStored(m)
    ensures var r := RowUpdate(m, line, cols, th1, th2);
      r.Ok? ==> (r.value.Keys == m.Keys && WellStored(r.value)
        && forall k :: k in m && RowTaxon(line, cols) != Some(k) ==> r.value[k] == m[k])
    ensures var r := RowUpdate(m, line, cols, th1, th2);
      r.Ok? && RowTaxon(line, cols).Some? && RowTaxon(line, cols).value !in m ==> r.value == m
  {
    var r := RowUpdate(m, line, cols, th1, th2);
    if r.Ok? {
      var strs := Split(RemoveQuoted(line), ',');
      var iso := strs[cols.soc];
      if |iso| > 0 && iso in m {
        var n1 := Normalise(strs[cols.v1], th1);
        var n2 := Normalise(strs[cols.v2], th2);
        MergeToggles(m[iso], RowCode(n1.value, n2.value), strs[cols.v1] + strs[cols.v2]);
      }
    }
  }

  /** All data rows in order; the first row that throws ends the reading. */
  function RowsUpdate(m: map<string, string>, rows: seq<string>, cols: SelectorColumns,
                      th1: seq<bool>, th2: seq<bool>): Result<map<string, string>>
    requires |th1| == 100 && |th2| == 100
  {
    if |rows| == 0 then Ok(m)
    else
      var before := RowsUpdate(m, rows[..|rows| - 1], cols, th1, th2);
      if before.Err? then before else RowUpdate(before.value, rows[|rows| - 1], cols, th1, th2)
  }

  /** Reading all rows keeps the taxa and keeps every entry "??" or a code with its raw values. */
  lemma {:induction false} RowsUpdateKeeps(m: map<string, string>, rows: seq<string>, cols: SelectorColumns,
                                          th1: seq<bool>, th2: seq<bool>)
    requires |th1| == 100 && |th2| == 100
    requires WellStored(m)
    ensures var r := RowsUpdate(m, rows, cols, th1, th2);
      r.Ok? ==> (r.value.Keys == m.Keys && WellStored(r.value))
  {
    if |rows| > 0 {
      RowsUpdateKeeps(m, rows[..|rows| - 1], cols, th1, th2);
      var before := RowsUpdate(m, rows[..|rows| - 1], cols, th1, th2);
      if before.Ok? {
        RowUpdateKeeps(before.value, rows[|rows| - 1], cols, th1, th2);
      }
    }
  }

  /** One output sequence: the taxon, its data, and its id "seq<n>_<raw values>". */
  datatype TaxonSequence = TaxonSequence(taxon: string, data: string, id: string)

  /**
   * The sequence of the n-th taxon: the stored string split on spaces, the first part the data,
   * the second (when there is one) the suffix of the id, "??" otherwise.
   */
  function OutputSequence(iso: string, stored: string, n: nat): Result<TaxonSequence>
  {
    var v := Split(stored, ' ');
    if |v| == 0 then Err(ArrayIndexOutOfBounds)
    else Ok(TaxonSequence(iso, v[0], "seq" + NatToString(n) + "_" + (if |v| > 1 then v[1] else "??")))
  }

  /** The first part of a stored entry is its row code. */
  lemma StoredData(stored: string)
    requires StoredEntry(stored)
    ensures |Split(stored, ' ')| > 0 && Split(stored, ' ')[0] == (if stored == "??" then "??" else stored[..2])
  {
    if stored != "??" {
      assert stored[2] == ' ';
      PiecesPrefix(stored, ' ', 2);
      assert ' ' in stored;
    }
  }

  /** The first piece is the text before the first separator. */
  lemma {:induction false} PiecesPrefix(s: string, c: char, n: nat)
    requires n < |s| && s[n] == c && c !in s[..n]
    ensures Pieces(s, c)[0] == s[..n]
  {
    if n > 0 {
      assert s[0] != c by { assert s[0] == s[..n][0]; }
      assert s[1..][..n - 1] == s[..n][1..];
      PiecesPrefix(s[1..], c, n - 1);
      assert s[..n] == [s[0]] + s[1..][..n - 1];
    }
  }

  /** The sequences of the taxa in map order, numbered from 0. */
  function OutputSequences(order: seq<string>, m: map<string, string>): Result<seq<TaxonSequence>>
    requires forall k :: 0 <= k < |order| ==> order[k] in m
  {
    if |order| == 0 then Ok([])
    else
      var before := OutputSequences(order[..|order| - 1], m);
      var last := OutputSequence(order[|order| - 1], m[order[|order| - 1]], |order| - 1);
      if before.Err? then before else if last.Err? then Err(last.msg) else Ok(before.value + [last.value])
  }

  /** With well-formed entries every taxon gets a sequence whose data is its row code or "??". */
  lemma {:induction false} OutputSequencesShape(order: seq<string>, m: map<string, string>)
    requires forall k :: 0 <= k < |order| ==> order[k] in m
    requires WellStored(m)
    ensures OutputSequences(order, m).Ok?
    ensures |OutputSequences(order, m).value| == |order|
    ensures forall k :: 0 <= k < |order| ==>
      (OutputSequences(order, m).value[k].taxon == order[k] && OutputSequences(order, m).value[k].data in RowCodes)
  {
    if |order| > 0 {
      var n := |order| - 1;
      var init := order[..n];
      OutputSequencesShape(init, m);
      var stored := m[order[n]];
      StoredData(stored);
      var before, last := OutputSequences(init, m).value, OutputSequence(order[n], stored, n);
      assert last.Ok? && last.value.taxon == order[n] && last.value.data in RowCodes;
      assert OutputSequences(order, m) == Ok(before + [last.value]);
      forall k | 0 <= k < |order|
        ensures OutputSequences(order, m).value[k].taxon == order[k] && OutputSequences(order, m).value[k].data in RowCodes
      {
        if k < n {
          assert init[k] == order[k];
        }
      }
    }
  }

  /** The slot the siteCount switch increments for a stored string, if any. */
  function SiteSlot(stored: string): (r: Option<nat>)
    ensures r.Some? ==> r.value < 4
  {
    if stored == "00" then Some(0)
    else if stored == "01" then Some(1)
    else if stored == "10" then Some(2)
    else if stored == "11" then Some(3)
    else None
  }

  /** The switch tests the whole stored string, which always carries more than a code. */
  lemma NoSiteSlot(stored: string)
    requires StoredEntry(stored)
    ensures SiteSlot(stored).None?
  {
  }

  /** The siteCount tally: per slot, the taxa whose stored string is exactly that code. */
  function SiteCounts(order: seq<string>, m: map<string, string>): (c: seq<int>)
    requires forall k :: 0 <= k < |order| ==> order[k] in m
    ensures |c| == 4
  {
    if |order| == 0 then [0, 0, 0, 0]
    else
      var before := SiteCounts(order[..|order| - 1], m);
      var slot := SiteSlot(m[order[|order| - 1]]);
      if slot.Some? then before[slot.value := before[slot.value] + 1] else before
  }

  /** With well-formed entries no taxon is ever counted. */
  lemma {:induction false} SiteCountsZero(order: seq<string>, m: map<string, string>)
    requires forall k :: 0 <= k < |order| ==> order[k] in m
    requires WellStored(m)
    ensures SiteCounts(order, m) == [0, 0, 0, 0]
  {
    if |order| > 0 {
      SiteCountsZero(order[..|order| - 1], m);
      NoSiteSlot(m[order[|order| - 1]]);
    }
  }

  /** The keys of a LinkedHashMap filled from xs, in insertion order: first occurrences only. */
  function Dedup(xs: seq<string>): (r: seq<string>)
    ensures forall y :: y in r <==> y in xs
    ensures forall i, j :: 0 <= i < j < |r| ==> r[i] != r[j]
  {
    if |xs| == 0 then []
    else
      var before := Dedup(xs[..|xs| - 1]);
      assert forall y :: y in xs <==> y in xs[..|xs| - 1] || y == xs[|xs| - 1];
      if xs[|xs| - 1] in before then before else before + [xs[|xs| - 1]]
  }

  /** Every tree taxon starts out missing. */
  function Prefill(taxaNames: seq<string>): (m: map<string, string>)
    ensures m.Keys == set k | k in taxaNames
    ensures WellStored(m)
  {
    map k | k in taxaNames :: "??"
  }

  /** The row loop of `processDataFile`, row by row into the map. */
  method ReadSelectorRows(m0: map<string, string>, rows: seq<string>, cols: SelectorColumns,
                          th1: seq<bool>, th2: seq<bool>) returns (r: Result<map<string, string>>)
    requires |th1| == 100 && |th2| == 100
    ensures r == RowsUpdate(m0, rows, cols, th1, th2)
  {
    var m := m0;
    var i := 0;
    while i < |rows|
      invariant 0 <= i <= |rows|
      invariant RowsUpdate(m0, rows[..i], cols, th1, th2) == Ok(m)
    {
      var next := RowUpdate(m, rows[i], cols, th1, th2);
      RowsUpdateStep(m0, rows, cols, th1, th2, i);
      if next.Err? {
        RowsPrefixErr(m0, rows, cols, th1, th2, i + 1);
        return next;
      }
      m := next.value;
      i := i + 1;
    }
    assert rows[..i] == rows;
    return Ok(m);
  }

  /** Reading one more row applies it to the map read so far. */
  lemma RowsUpdateStep(m0: map<string, string>, rows: seq<string>, cols: SelectorColumns,
                       th1: seq<bool>, th2: seq<bool>, i: nat)
    requires |th1| == 100 && |th2| == 100
    requires i < |rows| && RowsUpdate(m0, rows[..i], cols, th1, th2).Ok?
    ensures RowsUpdate(m0, rows[..i + 1], cols, th1, th2)
      == RowUpdate(RowsUpdate(m0, rows[..i], cols, th1, th2).value, rows[i], cols, th1, th2)
  {
    assert rows[..i + 1][..i] == rows[..i];
  }

  /** A row that throws ends the reading with its exception. */
  lemma {:induction false} RowsPrefixErr(m0: map<string, string>, rows: seq<string>, cols: SelectorColumns,
                                        th1: seq<bool>, th2: seq<bool>, n: nat)
    requires |th1| == 100 && |th2| == 100
    requires n <= |rows| && RowsUpdate(m0, rows[..n], cols, th1, th2).Err?
    ensures RowsUpdate(m0, rows, cols, th1, th2) == RowsUpdate(m0, rows[..n], cols, th1, th2)
    decreases |rows| - n
  {
    if n < |rows| {
      assert rows[..n + 1][..n] == rows[..n];
      RowsPrefixErr(m0, rows, cols, th1, th2, n + 1);
    } else {
      assert rows[..n] == rows;
    }
  }

  /** The output loop of `processDataFile`: one sequence per taxon, and the siteCount tally. */
  method WriteSequences(order: seq<string>, m: map<string, string>) returns (r: Result<seq<TaxonSequence>>, counts: seq<int>)
    requires forall k :: 0 <= k < |order| ==> order[k] in m
    ensures r == OutputSequences(order, m)
    ensures r.Ok? ==> counts == SiteCounts(order, m)
  {
    var seqs: seq<TaxonSequence> := [];
    counts := [0, 0, 0, 0];
    var i := 0;
    while i < |order|
      invariant 0 <= i <= |order|
      invariant OutputSequences(order[..i], m) == Ok(seqs) && |seqs| == i
      invariant counts == SiteCounts(order[..i], m)
    {
      OutputAdvance(order, m, i, seqs, counts);
      var stored := m[order[i]];
      var entry := OutputSequence(order[i], stored, |seqs|);
      if entry.Err? {
        return Err(entry.msg), counts;
      }
      seqs := seqs + [entry.value];
      var slot := SiteSlot(stored);
      if slot.Some? {
        counts := counts[slot.value := counts[slot.value] + 1];
      }
      i := i + 1;
    }
    assert order[..i] == order;
    return Ok(seqs), counts;
  }

  /** siteCount after one more stored entry: its slot, if any, goes up by one. */
  function Tallied(counts: seq<int>, stored: string): (c: seq<int>)
    requires |counts| == 4
    ensures |c| == 4
  {
    var slot := SiteSlot(stored);
    if slot.Some? then counts[slot.value := counts[slot.value] + 1] else counts
  }

  /**
   * One more taxon: a failing entry makes the whole output fail with its message; otherwise the
   * output and the tally grow by that taxon's sequence and slot.
   */
  lemma OutputAdvance(order: seq<string>, m: map<string, string>, i: nat, seqs: seq<TaxonSequence>, counts: seq<int>)
    requires forall k :: 0 <= k < |order| ==> order[k] in m
    requires i < |order| && OutputSequences(order[..i], m) == Ok(seqs) && counts == SiteCounts(order[..i], m)
    ensures var entry := OutputSequence(order[i], m[order[i]], i);
      (entry.Err? ==> OutputSequences(order, m) == Err(entry.msg))
      && (entry.Ok? ==> OutputSequences(order[..i + 1], m) == Ok(seqs + [entry.value]))
      && SiteCounts(order[..i + 1], m) == Tallied(counts, m[order[i]])
  {
    assert order[..i + 1][..i] == order[..i];
    if OutputSequence(order[i], m[order[i]], i).Err? {
      OutputPrefixErr(order, m, i + 1);
    }
  }

  lemma {:induction false} OutputLength(order: seq<string>, m: map<string, string>)
    requires forall k :: 0 <= k < |order| ==> order[k] in m
    ensures OutputSequences(order, m).Ok? ==> |OutputSequences(order, m).value| == |order|
  {
    if |order| > 0 {
      OutputLength(order[..|order| - 1], m);
    }
  }

  lemma {:induction false} OutputPrefixErr(order: seq<string>, m: map<string, string>, n: nat)
    requires forall k :: 0 <= k < |order| ==> order[k] in m
    requires n <= |order| && OutputSequences(order[..n], m).Err?
    ensures OutputSequences(order, m) == OutputSequences(order[..n], m)
    decreases |order| - n
  {
    if n < |order| {
      assert order[..n + 1][..n] == order[..n];
      OutputPrefixErr(order, m, n + 1);
    } else {
      assert order[..n] == order;
    }
  }

  /**
   * What `processDataFile` gives: fewer than two lines hands split a null line; then the header
   * scan, the two threshold lists and the rows can fail, in that order; otherwise one sequence per
   * distinct tree taxon, in first-seen order.
   */
  function SelectorData(taxaNames: seq<string>, lines: seq<string>, code: string, v1Text: string, v2Text: string)
    : (r: Result<seq<TaxonSequence>>)
    ensures r.Ok? ==> (|r.value| == |Dedup(taxaNames)|
      && forall k :: 0 <= k < |r.value| ==> r.value[k].taxon == Dedup(taxaNames)[k] && r.value[k].data in RowCodes)
  {
    if |lines| < 2 then Err(NullPointer)
    else
      var cols := SelectorColumnsOf(Split(lines[1], ','), code);
      var th1 := ThresholdTable(v1Text);
      var th2 := ThresholdTable(v2Text);
      if cols.Err? then Err(cols.msg)
      else if th1.Err? then Err(th1.msg)
      else if th2.Err? then Err(th2.msg)
      else
        var m := RowsUpdate(Prefill(taxaNames), lines[2..], cols.value, th1.value, th2.value);
        if m.Err? then Err(m.msg)
        else
          RowsUpdateKeeps(Prefill(taxaNames), lines[2..], cols.value, th1.value, th2.value);
          OutputSequencesShape(Dedup(taxaNames), m.value);
          OutputSequences(Dedup(taxaNames), m.value)
  }

  /**
   * The data file is read exactly when it has a header line, the header has one code column and
   * two feature columns, both threshold lists parse and every row is read; writing the sequences
   * never fails.
   */
  lemma SelectorDataOk(taxaNames: seq<string>, lines: seq<string>, code: string, v1Text: string, v2Text: string)
    ensures SelectorData(taxaNames, lines, code, v1Text, v2Text).Ok? <==>
      |lines| >= 2 && SelectorColumnsOf(Split(lines[1], ','), code).Ok?
      && ThresholdTable(v1Text).Ok? && ThresholdTable(v2Text).Ok?
      && RowsUpdate(Prefill(taxaNames), lines[2..], SelectorColumnsOf(Split(lines[1], ','), code).value,
                    ThresholdTable(v1Text).value, ThresholdTable(v2Text).value).Ok?
  {
    if |lines| >= 2 && SelectorColumnsOf(Split(lines[1], ','), code).Ok? && ThresholdTable(v1Text).Ok? && ThresholdTable(v2Text).Ok? {
      var cols := SelectorColumnsOf(Split(lines[1], ','), code).value;
      var m := RowsUpdate(Prefill(taxaNames), lines[2..], cols, ThresholdTable(v1Text).value, ThresholdTable(v2Text).value);
      if m.Ok? {
        RowsUpdateKeeps(Prefill(taxaNames), lines[2..], cols, ThresholdTable(v1Text).value, ThresholdTable(v2Text).value);
        OutputSequencesShape(Dedup(taxaNames), m.value);
      }
    }
  }

  /** The model selector's state: the tally of taxa per binary code, read by the report. */
  class TSAModelSelector {
    /** siteCount; empty until a data file has been processed. */
    var siteCount: seq<int>

    constructor ()
      ensures siteCount == []
    {
      siteCount := [];
    }

    /**
     * `processDataFile`: the first line is skipped, the second is the header, the rest are data
     * rows; each tree taxon gets one binary sequence of its two features, "??" when missing or
     * ambiguous. siteCount is replaced only when the whole file is read.
     */
    method ProcessDataFile(taxaNames: seq<string>, lines: seq<string>, code: string, v1Text: string, v2Text: string)
      returns (r: Result<seq<TaxonSequence>>)
      modifies this
      ensures r == SelectorData(taxaNames, lines, code, v1Text, v2Text)
      ensures r.Err? ==> siteCount == old(siteCount)
      ensures r.Ok? ==> (|r.value| == |Dedup(taxaNames)|
        && forall k :: 0 <= k < |r.value| ==> (r.value[k].taxon == Dedup(taxaNames)[k] && r.value[k].data in RowCodes))
      ensures r.Ok? ==> siteCount == [0, 0, 0, 0]
    {
      if |lines| < 2 {
        return Err(NullPointer);
      }
      var header := Split(lines[1], ',');
      var cols := FindSelectorColumns(header, code);
      if cols.Err? {
        return Err(cols.msg);
      }
      var m0 := Prefill(taxaNames);
      var th1 := ToBoolean(v1Text);
      if th1.Err? {
        return Err(th1.msg);
      }
      var th2 := ToBoolean(v2Text);
      if th2.Err? {
        return Err(th2.msg);
      }
      assert th1.value == ThresholdTable(v1Text).value;
      assert th2.value == ThresholdTable(v2Text).value;
      var m := ReadSelectorRows(m0, lines[2..], cols.value, th1.value, th2.value);
      if m.Err? {
        return Err(m.msg);
      }
      RowsUpdateKeeps(m0, lines[2..], cols.value, th1.value, th2.value);
      var order := Dedup(taxaNames);
      var seqs, counts := WriteSequences(order, m.value);
      OutputSequencesShape(order, m.value);
      SiteCountsZero(order, m.value);
      siteCount := counts;
      return seqs;
    }
  }
}

=== FILE: ThreadedTreeSetLikelihood.dfy ===
/**
 * The tree-set likelihood split over a pool of workers: the tree indices are cut into one
 * contiguous range per worker, each worker evaluates the trees of its range into a shared array,
 * and the array is reduced as in the sequential likelihood.
 */
module ThreadedTreeSet {
  import opened Common
  import opened TreeSet

  /**
   * Boundary k of calcBoundaryPoints for n trees and the given number of workers: k times
   * ⌊n / workers⌋, except the last, which is n.
   */
  function Boundary(n: nat, threads: nat, k: nat): int
    requires threads >= 1 && k <= threads
  {
    if k == threads then n else (n / threads) * k
  }

  /** The worker whose range holds tree i: ⌊i / range⌋, with everything past the last full range going to the last worker. */
  function WorkerOf(n: nat, threads: nat, i: nat): (k: nat)
    requires threads >= 1
    ensures k < threads
  {
    var range := n / threads;
    if range == 0 then threads - 1
    else if i / range < threads - 1 then i / range
    else threads - 1
  }

  /** The boundaries start at 0, end at n and never decrease. */
  lemma BoundariesMonotone(n: nat, threads: nat, j: nat, k: nat)
    requires threads >= 1 && j <= k <= threads
    ensures Boundary(n, threads, 0) == 0 && Boundary(n, threads, threads) == n
    ensures 0 <= Boundary(n, threads, j) <= Boundary(n, threads, k) <= n
  {
    var range := n / threads;
    MulMonotone(j, k, range);
    MulMonotone(k, threads, range);
    MulMonotone(j, threads, range);
    MulMonotone(0, j, range);
    assert range * threads <= n;
  }

  /** Tree i lies in the range of worker k exactly when k is its worker: every tree is evaluated by exactly one worker. */
  lemma WorkerRange(n: nat, threads: nat, i: nat, k: nat)
    requires threads >= 1 && i < n && k < threads
    ensures Boundary(n, threads, k) <= i < Boundary(n, threads, k + 1) <==> WorkerOf(n, threads, i) == k
  {
    var range := n / threads;
    if range > 0 {
      var q := i / range;
      assert i == q * range + i % range;
      if k < threads - 1 {
        if range * k <= i < range * (k + 1) {
          DivModUnique(i, range, k, i - range * k);
        }
        if WorkerOf(n, threads, i) == k {
          assert q == k;
        }
      } else {
        if i >= range * (threads - 1) && q < threads - 1 {
          MulMonotone(q + 1, threads - 1, range);
          assert false;
        }
        if q >= threads - 1 {
          MulMonotone(threads - 1, q, range);
        }
      }
    }
  }

  /**
   * Every worker but the last gets ⌊n / workers⌋ trees; the last gets the remainder as well, so
   * it has at least that many and fewer than that plus the number of workers.
   */
  lemma RangeSizes(n: nat, threads: nat, k: nat)
    requires threads >= 1 && k < threads
    ensures k < threads - 1 ==> Boundary(n, threads, k + 1) - Boundary(n, threads, k) == n / threads
    ensures k == threads - 1 ==>
      n / threads <= Boundary(n, threads, k + 1) - Boundary(n, threads, k) < n / threads + threads
  {
    var range := n / threads;
    assert n == range * threads + n % threads;
  }

  class ThreadedTreeSetLikelihood {
    var trees: seq<Tree>
    /** The tree of the tree likelihood, whose taxa are the reference names. */
    var tree0: Tree
    var threadCount: nat
    /** The per-tree log-likelihoods, written by the workers. */
    var treeLogP: array<real>
    /** The range boundaries: worker k evaluates trees boundaries[k] .. boundaries[k + 1] − 1. */
    var boundaries: array<int>
    var logP: real

    constructor (tree: Tree)
      ensures tree0 == tree && trees == [] && logP == 0.0 && threadCount == 0
      ensures fresh(treeLogP) && fresh(boundaries) && treeLogP.Length == 0 && boundaries.Length == 0
    {
      tree0 := tree;
      trees := [];
      threadCount := 0;
      treeLogP := new real[0];
      boundaries := new int[0];
      logP := 0.0;
    }

    /** The state calculateLogP relies on: per-tree storage for the whole set and one range per worker. */
    predicate Ready()
      reads this, boundaries
    {
      threadCount >= 1 && |trees| > 0 && treeLogP.Length == |trees|
      && boundaries.Length == threadCount + 1
      && forall k :: 0 <= k <= threadCount ==> boundaries[k] == Boundary(|trees|, threadCount, k)
    }

    /**
     * initAndValidate: the tree set as in the sequential likelihood, a zeroed array of one value
     * per kept tree, and the workers' boundaries.
     */
    method InitAndValidate(fileName: string, parsed: seq<Tree>, burninPercentage: int, threads: nat) returns (r: Result<()>)
      requires threads >= 1
      modifies this
      ensures tree0 == old(tree0) && logP == old(logP)
      ensures var p := Prepared(fileName, parsed, burninPercentage, tree0.taxa);
        (r.Ok? <==> p.Ok?)
        && (p.Err? ==> (r.msg == p.msg && trees == TreesAtFailure(parsed, burninPercentage)
                        && threadCount == old(threadCount) && treeLogP == old(treeLogP) && boundaries == old(boundaries)))
        && (p.Ok? ==> trees == p.value && threadCount == threads && Ready()
                      && fresh(treeLogP) && forall i :: 0 <= i < treeLogP.Length ==> treeLogP[i] == 0.0)
    {
      var p, held := PrepareTrees(fileName, parsed, burninPercentage, tree0.taxa);
      if p.Err? {
        trees := held;
        return Err(p.msg);
      }
      PreparedShape(fileName, parsed, burninPercentage, tree0.taxa);
      trees := p.value;
      treeLogP := new real[|trees|](_ => 0.0);
      threadCount := threads;
      boundaries := CalcBoundaryPoints(|trees|);
      return Ok(());
    }

    /** calcBoundaryPoints: a zeroed array of workers + 1 entries, then the inner boundaries and the last. */
    method CalcBoundaryPoints(n: nat) returns (b: array<int>)
      requires threadCount >= 1
      ensures fresh(b) && b.Length == threadCount + 1
      ensures forall k :: 0 <= k <= threadCount ==> b[k] == Boundary(n, threadCount, k)
    {
      b := new int[threadCount + 1](_ => 0);
      var range := n / threadCount;
      for i := 0 to threadCount - 1
        invariant b[0] == 0
        invariant forall k :: 1 <= k <= i ==> b[k] == range * k
      {
        b[i + 1] := range * (i + 1);
      }
      b[threadCount] := n;
    }

    /**
     * One worker's call: each tree of [start, end) in turn is assigned to the worker's own tree
     * and its likelihood stored at its index; no other entry changes.
     */
    method Call(start: int, end: int, eval: Tree -> real)
      requires 0 <= start && end <= |trees| == treeLogP.Length
      modifies treeLogP
      ensures forall i :: 0 <= i < treeLogP.Length ==>
        treeLogP[i] == if start <= i < end then eval(trees[i]) else old(treeLogP[i])
    {
      if start >= end {
        return;
      }
      var working := trees[start];
      for i := start to end
        invariant forall k :: 0 <= k < treeLogP.Length ==>
          treeLogP[k] == if start <= k < i then eval(trees[k]) else old(treeLogP[k])
      {
        working := trees[i];
        treeLogP[i] := eval(working);
      }
    }

    /**
     * calculateLogP: the workers run, in any order in which each appears at least once, then the
     * values are reduced. The result is the same for every order and equals the sequential
     * likelihood of the same tree set.
     */
    method CalculateLogP(eval: Tree -> real, exp: real -> real, ln: real -> real, order: seq<nat>) returns (r: real)
      requires Ready()
      requires forall j :: 0 <= j < |order| ==> order[j] < threadCount
      requires forall k :: 0 <= k < threadCount ==> k in order
      modifies this, treeLogP
      ensures trees == old(trees) && tree0 == old(tree0) && threadCount == old(threadCount)
      ensures treeLogP == old(treeLogP) && boundaries == old(boundaries) && Ready()
      ensures treeLogP[..] == Evaluated(trees, eval)
      ensures r == logP == LogMeanExp(Evaluated(trees, eval), exp, ln)
    {
      logP := 0.0;
      RunWorkers(eval, order);
      logP := Reduce(treeLogP, exp, ln);
      r := logP;
    }

    /** invokeAll over the callers, one after the other in the given order. */
    method RunWorkers(eval: Tree -> real, order: seq<nat>)
      requires Ready()
      requires forall j :: 0 <= j < |order| ==> order[j] < threadCount
      requires forall k :: 0 <= k < threadCount ==> k in order
      modifies treeLogP
      ensures treeLogP[..] == Evaluated(trees, eval)
    {
      var n := |trees|;
      ghost var done: set<nat> := {};
      for j := 0 to |order|
        invariant done == set x | x in order[..j]
        invariant forall i :: 0 <= i < n && WorkerOf(n, threadCount, i) in done ==> treeLogP[i] == eval(trees[i])
      {
        var k := order[j];
        BoundariesMonotone(n, threadCount, k, k + 1);
        Call(boundaries[k], boundaries[k + 1], eval);
        forall i | 0 <= i < n && WorkerOf(n, threadCount, i) == k
          ensures treeLogP[i] == eval(trees[i])
        {
          WorkerRange(n, threadCount, i, k);
        }
        done := done + {k};
        assert order[..j + 1] == order[..j] + [k];
      }
      assert order[..|order|] == order;
      forall i | 0 <= i < n
        ensures treeLogP[i] == eval(trees[i])
      {
        assert WorkerOf(n, threadCount, i) in order;
      }
    }
  }
}

=== FILE: TreeFossiliser.dfy ===
/**
 * The tree fossiliser: each configured taxon is grafted into a tree as a new leaf, joined by a
 * new internal node placed on the branch above the most recent common ancestor of a clade, both
 * at that ancestor's height, so that the leaf fixes the clade's value in an ancestral
 * reconstruction.
 *
 * Nodes live in an arena: node x of a tree is index x of its fields, and a parent of -1 stands
 * for Java's null. A ghost depth that strictly decreases from child to parent stands for the
 * acyclicity of the node links, and makes climbing toward the root terminate.
 */
module Fossiliser {
  import opened Common
  import opened JavaErrors
  import opened JavaText

  // ---------------------------------------------------------------------------------------------
  // Tree shape, on values

  /** Every parent link is null or a node, and leads to a strictly smaller depth. */
  predicate Linked(parent: seq<int>, depth: seq<nat>)
  {
    |depth| == |parent|
    && (forall x :: 0 <= x < |parent| ==> -1 <= parent[x] < |parent|)
    && (forall x :: 0 <= x < |parent| && parent[x] >= 0 ==> depth[parent[x]] < depth[x])
  }

  /** Node a is x or one of x's ancestors. */
  predicate AncestorOrSelf(parent: seq<int>, depth: seq<nat>, a: int, x: nat)
    requires Linked(parent, depth) && x < |parent|
    decreases depth[x]
  {
    x == a || (parent[x] >= 0 && AncestorOrSelf(parent, depth, a, parent[x]))
  }

  /**
   * A well-formed tree: one root, parent and child links that agree, heights that never
   * decrease toward the root, node numbers inside the tree's node count.
   */
  predicate ValidShape(parent: seq<int>, children: seq<seq<nat>>, height: seq<real>, nr: seq<nat>,
                       nodeCount: nat, root: nat, externalNodes: seq<nat>, depth: seq<nat>)
  {
    Linked(parent, depth)
    && |children| == |parent| && |height| == |parent| && |nr| == |parent|
    && root < |parent|
    && (forall x :: 0 <= x < |parent| ==> (parent[x] == -1 <==> x == root))
    && (forall x :: 0 <= x < |parent| && parent[x] >= 0 ==> height[x] <= height[parent[x]])
    && (forall x :: 0 <= x < |parent| && parent[x] >= 0 ==> x in children[parent[x]])
    && (forall x, j :: 0 <= x < |parent| && 0 <= j < |children[x]| ==>
          (children[x][j] < |parent| && parent[children[x][j]] == x))
    && (forall x :: 0 <= x < |parent| ==> nr[x] < nodeCount)
    && (forall k :: 0 <= k < |externalNodes| ==> externalNodes[k] < |parent|)
  }

  /** Ancestry is transitive. */
  lemma {:induction false} AncestorTrans(parent: seq<int>, depth: seq<nat>, a: nat, b: nat, c: nat)
    requires Linked(parent, depth) && a < |parent| && b < |parent| && c < |parent|
    requires AncestorOrSelf(parent, depth, a, b) && AncestorOrSelf(parent, depth, b, c)
    ensures AncestorOrSelf(parent, depth, a, c)
    decreases depth[c]
  {
    if c != b {
      AncestorTrans(parent, depth, a, b, parent[c]);
    }
  }

  /** An ancestor is no deeper, and no lower, than its descendant. */
  lemma {:induction false} AncestorAbove(parent: seq<int>, depth: seq<nat>, height: seq<real>, a: nat, x: nat)
    requires Linked(parent, depth) && |height| == |parent| && a < |parent| && x < |parent|
    requires forall y :: 0 <= y < |parent| && parent[y] >= 0 ==> height[y] <= height[parent[y]]
    requires AncestorOrSelf(parent, depth, a, x)
    ensures depth[a] <= depth[x] && height[x] <= height[a]
    ensures a != x ==> depth[a] < depth[x]
    decreases depth[x]
  {
    if x != a {
      AncestorAbove(parent, depth, height, a, parent[x]);
    }
  }

  /** Two nodes that are each other's ancestor are the same node. */
  lemma AncestorAntisymmetric(parent: seq<int>, depth: seq<nat>, height: seq<real>, a: nat, b: nat)
    requires Linked(parent, depth) && |height| == |parent| && a < |parent| && b < |parent|
    requires forall y :: 0 <= y < |parent| && parent[y] >= 0 ==> height[y] <= height[parent[y]]
    requires AncestorOrSelf(parent, depth, a, b) && AncestorOrSelf(parent, depth, b, a)
    ensures a == b
  {
    AncestorAbove(parent, depth, height, a, b);
    AncestorAbove(parent, depth, height, b, a);
  }

  /** The root is an ancestor of every node. */
  lemma {:induction false} RootAbove(parent: seq<int>, depth: seq<nat>, root: nat, x: nat)
    requires Linked(parent, depth) && root < |parent| && x < |parent|
    requires forall y :: 0 <= y < |parent| ==> (parent[y] == -1 <==> y == root)
    ensures AncestorOrSelf(parent, depth, root, x)
    decreases depth[x]
  {
    if x != root {
      RootAbove(parent, depth, root, parent[x]);
    }
  }

  /**
   * cur is the most recent common ancestor of the nodes xs: an ancestor of each of them, and a
   * descendant of every node that is an ancestor of all of them.
   */
  predicate IsMrca(parent: seq<int>, depth: seq<nat>, cur: nat, xs: seq<nat>)
    requires Linked(parent, depth) && cur < |parent|
    requires forall k :: 0 <= k < |xs| ==> xs[k] < |parent|
  {
    (forall k :: 0 <= k < |xs| ==> AncestorOrSelf(parent, depth, cur, xs[k]))
    && forall a :: 0 <= a < |parent| && (forall k :: 0 <= k < |xs| ==> AncestorOrSelf(parent, depth, a, xs[k]))
         ==> AncestorOrSelf(parent, depth, a, cur)
  }

  /** The most recent common ancestor is unique. */
  lemma MrcaUnique(parent: seq<int>, depth: seq<nat>, height: seq<real>, c1: nat, c2: nat, xs: seq<nat>)
    requires Linked(parent, depth) && |height| == |parent| && c1 < |parent| && c2 < |parent|
    requires forall y :: 0 <= y < |parent| && parent[y] >= 0 ==> height[y] <= height[parent[y]]
    requires forall k :: 0 <= k < |xs| ==> xs[k] < |parent|
    requires IsMrca(parent, depth, c1, xs) && IsMrca(parent, depth, c2, xs)
    ensures c1 == c2
  {
    AncestorAntisymmetric(parent, depth, height, c1, c2);
  }

  // ---------------------------------------------------------------------------------------------
  // Trees

  /** A tree being fossilised: the nodes' links, heights, IDs and numbers. */
  class Tree {
    var parent: seq<int>
    var children: seq<seq<nat>>
    var height: seq<real>
    /** Node IDs; "" where a node has none. */
    var id: seq<string>
    /** getNr(); nodes created by the graft keep the default 0. */
    var nr: seq<nat>
    /** getNodeCount(), as the tree was read. */
    var nodeCount: nat
    var root: nat
    /** getExternalNodes(): the leaves the tree was read with, in node-number order. */
    var externalNodes: seq<nat>
    ghost var depth: seq<nat>

    ghost predicate Valid()
      reads this
    {
      ValidShape(parent, children, height, nr, nodeCount, root, externalNodes, depth) && |id| == |parent|
    }

    /** getLength(): the branch above the node, 0 at the root. */
    function Length(x: nat): real
      reads this
      requires Valid() && x < |parent|
    {
      if parent[x] < 0 then 0.0 else height[parent[x]] - height[x]
    }

    ghost predicate Above(a: int, x: nat)
      reads this
      requires Valid() && x < |parent|
    {
      AncestorOrSelf(parent, depth, a, x)
    }

    /** The links, leaves, labels and heights as they are now. */
    ghost function Snap(): Snapshot
      reads this
    {
      Snapshot(parent, depth, externalNodes, id, height)
    }
  }

  /** A tree's links, leaves, labels and heights at one moment, as values. */
  datatype Snapshot = Snapshot(parent: seq<int>, depth: seq<nat>, externalNodes: seq<nat>, id: seq<string>, height: seq<real>)

  /**
   * A climb step is safe when the climbing node x is not an ancestor of the other node y: x is
   * then not the root, and every common ancestor of the two is still above x's parent.
   */
  lemma ClimbStep(t: Tree, x: nat, y: nat)
    requires t.Valid() && x < |t.parent| && y < |t.parent|
    requires !t.Above(x, y)
    ensures t.parent[x] >= 0
    ensures forall a :: 0 <= a < |t.parent| && t.Above(a, x) && t.Above(a, y) ==> t.Above(a, t.parent[x])
    ensures t.Above(t.parent[x], x)
  {
    RootAbove(t.parent, t.depth, t.root, y);
    assert AncestorOrSelf(t.parent, t.depth, t.parent[x], t.parent[x]);
  }

  /**
   * The state of the climb from a1 and a2: n1 is above a1, n2 above a2, and every common
   * ancestor of a1 and a2 is above both.
   */
  ghost predicate Climbing(t: Tree, n1: nat, n2: nat, a1: nat, a2: nat)
    reads t
    requires t.Valid() && n1 < |t.parent| && n2 < |t.parent| && a1 < |t.parent| && a2 < |t.parent|
  {
    t.Above(n1, a1) && t.Above(n2, a2)
    && forall a :: 0 <= a < |t.parent| && t.Above(a, a1) && t.Above(a, a2) ==> t.Above(a, n1) && t.Above(a, n2)
  }

  lemma ClimbingSymmetric(t: Tree, n1: nat, n2: nat, a1: nat, a2: nat)
    requires t.Valid() && n1 < |t.parent| && n2 < |t.parent| && a1 < |t.parent| && a2 < |t.parent|
    ensures Climbing(t, n1, n2, a1, a2) <==> Climbing(t, n2, n1, a2, a1)
  {
  }

  /**
   * Climbing x, which is not an ancestor of y, keeps the climb's state and reaches a smaller
   * depth.
   */
  lemma ClimbKeeps(t: Tree, x: nat, y: nat, ax: nat, ay: nat)
    requires t.Valid() && x < |t.parent| && y < |t.parent| && ax < |t.parent| && ay < |t.parent|
    requires !t.Above(x, y) && Climbing(t, x, y, ax, ay)
    ensures t.parent[x] >= 0 && t.depth[t.parent[x]] < t.depth[x]
    ensures Climbing(t, t.parent[x], y, ax, ay)
  {
    ClimbStep(t, x, y);
    AncestorTrans(t.parent, t.depth, t.parent[x], x, ax);
  }

  /** A climb whose two nodes have met has reached the most recent common ancestor. */
  lemma ClimbDone(t: Tree, n: nat, a1: nat, a2: nat)
    requires t.Valid() && n < |t.parent| && a1 < |t.parent| && a2 < |t.parent|
    requires Climbing(t, n, n, a1, a2)
    ensures IsMrca(t.parent, t.depth, n, [a1, a2])
  {
    var xs := [a1, a2];
    forall a | 0 <= a < |t.parent| && (forall k :: 0 <= k < |xs| ==> AncestorOrSelf(t.parent, t.depth, a, xs[k]))
      ensures AncestorOrSelf(t.parent, t.depth, a, n)
    {
      assert AncestorOrSelf(t.parent, t.depth, a, xs[0]) && AncestorOrSelf(t.parent, t.depth, a, xs[1]);
      assert t.Above(a, a1) && t.Above(a, a2);
    }
  }

  /** Marks are only ever added. */
  predicate MarksGrow(before: seq<bool>, after: seq<bool>)
  {
    |before| == |after| && forall k :: 0 <= k < |after| && before[k] ==> after[k]
  }

  /** Marks that survive two searches survive both together. */
  lemma MarksGrowTrans(a: seq<bool>, b: seq<bool>, c: seq<bool>)
    requires MarksGrow(a, b) && MarksGrow(b, c)
    ensures MarksGrow(a, c)
  { }

  /** A node strictly above another at the same height has a zero-length branch below it. */
  lemma SameHeightAncestor(t: Tree, x: nat, y: nat)
    requires t.Valid() && x < |t.parent| && y < |t.parent|
    requires t.Above(x, y) && x != y && t.height[x] == t.height[y]
    ensures t.Length(y) <= 0.0
  {
    AncestorAbove(t.parent, t.depth, t.height, x, t.parent[y]);
  }

  // ---------------------------------------------------------------------------------------------
  // The configuration file

  /** One configuration entry: the taxon to add and the clade to graft it above. */
  datatype CfgEntry = CfgEntry(name: string, clade: set<string>)

  /** The lines that are not white space only, in order. */
  function NonBlank(lines: seq<string>): (r: seq<string>)
    ensures |r| <= |lines|
    ensures forall k :: 0 <= k < |r| ==> !IsBlank(r[k]) && r[k] in lines
  {
    if |lines| == 0 then []
    else
      var before := NonBlank(lines[..|lines| - 1]);
      if IsBlank(lines[|lines| - 1]) then before else before + [lines[|lines| - 1]]
  }

  /** A non-blank line: the name is the first tab field, the clade the comma list of the second. */
  function CfgLine(line: string): Result<CfgEntry>
  {
    var strs := Split(line, '\t');
    if |strs| < 2 then Err(ArrayIndexOutOfBounds)
    else Ok(CfgEntry(strs[0], set t | t in Split(strs[1], ',')))
  }

  /** The entries of the non-blank lines, in order; a line without a second field throws. */
  function CfgEntries(lines: seq<string>): Result<seq<CfgEntry>>
  {
    if |lines| == 0 then Ok([])
    else
      var before := CfgEntries(lines[..|lines| - 1]);
      if before.Err? then before
      else if IsBlank(lines[|lines| - 1]) then before
      else
        var e := CfgLine(lines[|lines| - 1]);
        if e.Err? then Err(e.msg) else Ok(before.value + [e.value])
  }

  /** One entry per non-blank line, the k-th read from the k-th non-blank line. */
  lemma {:induction false} CfgEntriesShape(lines: seq<string>)
    ensures CfgEntries(lines).Ok? <==> forall k :: 0 <= k < |NonBlank(lines)| ==> CfgLine(NonBlank(lines)[k]).Ok?
    ensures CfgEntries(lines).Ok? ==>
      (|CfgEntries(lines).value| == |NonBlank(lines)|
        && forall k :: 0 <= k < |NonBlank(lines)| ==> CfgEntries(lines).value[k] == CfgLine(NonBlank(lines)[k]).value)
  {
    if |lines| > 0 {
      var init := lines[..|lines| - 1];
      var last := lines[|lines| - 1];
      CfgEntriesShape(init);
      if IsBlank(last) {
        assert NonBlank(lines) == NonBlank(init);
      } else {
        assert NonBlank(lines) == NonBlank(init) + [last];
        if CfgEntries(init).Err? {
          var k :| 0 <= k < |NonBlank(init)| && CfgLine(NonBlank(init)[k]).Err?;
          assert NonBlank(lines)[k] == NonBlank(init)[k];
        } else if CfgLine(last).Err? {
          assert NonBlank(lines)[|NonBlank(init)|] == last;
        }
      }
    }
  }

  /** A line that holds a name, a tab and a comma list reads back as that name and clade. */
  lemma CfgLineReads(name: string, items: string)
    requires '\t' !in name && '\t' !in items && |items| > 0 && items[|items| - 1] != ','
    ensures CfgLine(name + "\t" + items) == Ok(CfgEntry(name, set t | t in Split(items, ',')))
  {
    var line := name + "\t" + items;
    assert line[|name|] == '\t';
    PiecesOfTwo(name, items, '\t');
    assert Split(line, '\t') == [name, items];
  }

  lemma {:induction false} PiecesOfTwo(a: string, b: string, c: char)
    requires c !in a && c !in b
    ensures Pieces(a + [c] + b, c) == [a, b]
  {
    if |a| == 0 {
      assert a + [c] + b == [c] + b;
      assert ([c] + b)[1..] == b;
      PiecesOfNone(b, c);
    } else {
      assert (a + [c] + b)[1..] == a[1..] + [c] + b;
      PiecesOfTwo(a[1..], b, c);
      assert [a[0]] + a[1..] == a;
    }
  }

  lemma {:induction false} PiecesOfNone(s: string, c: char)
    requires c !in s
    ensures Pieces(s, c) == [s]
  {
    if |s| > 0 {
      PiecesOfNone(s[1..], c);
      assert [s[0]] + s[1..] == s;
    }
  }

  /** processCfgFile: the configuration text split into lines and read entry by entry. */
  method ReadCfg(cfg: string) returns (r: Result<seq<CfgEntry>>)
    ensures r == CfgEntries(Split(cfg, '\n'))
  {
    var strs := Split(cfg, '\n');
    var entries: seq<CfgEntry> := [];
    var i := 0;
    while i < |strs|
      invariant 0 <= i <= |strs|
      invariant CfgEntries(strs[..i]) == Ok(entries)
    {
      CfgEntriesStep(strs, i);
      if !IsBlank(strs[i]) {
        var e := CfgLine(strs[i]);
        if e.Err? {
          CfgPrefixErr(strs, i + 1);
          return Err(e.msg);
        }
        entries := entries + [e.value];
      }
      i := i + 1;
    }
    assert strs[..i] == strs;
    return Ok(entries);
  }

  /** Reading one more line: a blank line adds nothing, any other line adds its entry or throws. */
  lemma CfgEntriesStep(lines: seq<string>, i: nat)
    requires i < |lines| && CfgEntries(lines[..i]).Ok?
    ensures CfgEntries(lines[..i + 1]) ==
      if IsBlank(lines[i]) then CfgEntries(lines[..i])
      else if CfgLine(lines[i]).Err? then Err(CfgLine(lines[i]).msg)
      else Ok(CfgEntries(lines[..i]).value + [CfgLine(lines[i]).value])
  {
    assert lines[..i + 1][..i] == lines[..i];
  }

  lemma {:induction false} CfgPrefixErr(lines: seq<string>, n: nat)
    requires n <= |lines| && CfgEntries(lines[..n]).Err?
    ensures CfgEntries(lines) == CfgEntries(lines[..n])
    decreases |lines| - n
  {
    if n < |lines| {
      assert lines[..n + 1][..n] == lines[..n];
      CfgPrefixErr(lines, n + 1);
    } else {
      assert lines[..n] == lines;
    }
  }

  // ---------------------------------------------------------------------------------------------
  // The graft

  /** parent.setChild(j, newNode) for every j holding src. */
  function ReplaceChild(cs: seq<nat>, src: nat, node: nat): (r: seq<nat>)
    ensures |r| == |cs|
    ensures forall j :: 0 <= j < |cs| ==> r[j] == (if cs[j] == src then node else cs[j])
  {
    if |cs| == 0 then []
    else ReplaceChild(cs[..|cs| - 1], src, node) + [if cs[|cs| - 1] == src then node else cs[|cs| - 1]]
  }

  /** The depths after the graft: the clade moves one level down below the new node. */
  ghost function GraftDepth(parent: seq<int>, depth: seq<nat>, src: nat): (d: seq<nat>)
    requires Linked(parent, depth) && src < |parent|
    ensures |d| == |depth| + 2
    ensures forall x :: 0 <= x < |depth| ==> d[x] == (if AncestorOrSelf(parent, depth, src, x) then depth[x] + 1 else depth[x])
    ensures d[|depth|] == depth[src] && d[|depth| + 1] == depth[src] + 1
  {
    seq(|depth|, x requires 0 <= x < |depth| => if AncestorOrSelf(parent, depth, src, x) then depth[x] + 1 else depth[x])
      + [depth[src], depth[src] + 1]
  }

  /** The node links after the graft stay acyclic. */
  lemma GraftLinked(parent: seq<int>, depth: seq<nat>, height: seq<real>, src: nat)
    requires Linked(parent, depth) && |height| == |parent| && src < |parent| && parent[src] >= 0
    requires forall y :: 0 <= y < |parent| && parent[y] >= 0 ==> height[y] <= height[parent[y]]
    ensures var n := |parent|;
      Linked(parent[src := n] + [parent[src], n], GraftDepth(parent, depth, src))
  {
    var n := |parent|;
    var p := parent[src];
    var parent' := parent[src := n] + [p, n];
    var depth' := GraftDepth(parent, depth, src);
    if AncestorOrSelf(parent, depth, src, p) {
      AncestorAbove(parent, depth, height, src, p);
    }
    forall x | 0 <= x < |parent'| && parent'[x] >= 0
      ensures depth'[parent'[x]] < depth'[x]
    {
      if x < n && x != src && parent[x] >= 0 {
        assert AncestorOrSelf(parent, depth, src, x) <==> AncestorOrSelf(parent, depth, src, parent[x]);
      }
    }
  }

  /** The parent links after the graft: new node n above src, below src's parent, and leaf n + 1 below n. */
  function GraftedParent(parent: seq<int>, src: nat): (r: seq<int>)
    requires src < |parent|
    ensures |r| == |parent| + 2
  {
    parent[src := |parent|] + [parent[src], |parent|]
  }

  /** The child lists after the graft: n replaces src below p, and n holds src and leaf n + 1. */
  function GraftedChildren(children: seq<seq<nat>>, p: nat, src: nat, n: nat): (r: seq<seq<nat>>)
    requires p < |children|
    ensures |r| == |children| + 2
  {
    children[p := ReplaceChild(children[p], src, n)] + [[src, n + 1], []]
  }

  /** The graft keeps the tree well formed. */
  lemma GraftValid(parent: seq<int>, children: seq<seq<nat>>, height: seq<real>, nr: seq<nat>,
                   nodeCount: nat, root: nat, externalNodes: seq<nat>, depth: seq<nat>, src: nat)
    requires ValidShape(parent, children, height, nr, nodeCount, root, externalNodes, depth)
    requires src < |parent| && parent[src] >= 0
    ensures ValidShape(GraftedParent(parent, src), GraftedChildren(children, parent[src], src, |parent|),
                       height + [height[src], height[src]],
                       nr + [0, 0], nodeCount, root, externalNodes, GraftDepth(parent, depth, src))
  {
    GraftLinked(parent, depth, height, src);
    GraftRootAndHeights(parent, children, height, nr, nodeCount, root, externalNodes, depth, src);
    GraftParentsListed(parent, children, height, nr, nodeCount, root, externalNodes, depth, src);
    GraftChildrenPointBack(parent, children, height, nr, nodeCount, root, externalNodes, depth, src);
  }

  /** After the graft the root is still the only node without a parent, and heights still fall downwards. */
  lemma GraftRootAndHeights(parent: seq<int>, children: seq<seq<nat>>, height: seq<real>, nr: seq<nat>,
                            nodeCount: nat, root: nat, externalNodes: seq<nat>, depth: seq<nat>, src: nat)
    requires ValidShape(parent, children, height, nr, nodeCount, root, externalNodes, depth)
    requires src < |parent| && parent[src] >= 0
    ensures var parent', height' := GraftedParent(parent, src), height + [height[src], height[src]];
      (forall x :: 0 <= x < |parent'| ==> (parent'[x] == -1 <==> x == root))
      && (forall x :: 0 <= x < |parent'| && parent'[x] >= 0 ==> height'[x] <= height'[parent'[x]])
      && (forall x :: 0 <= x < |parent'| ==> (nr + [0, 0])[x] < nodeCount)
  {
    assert nr[root] < nodeCount;
  }

  /** After the graft every node with a parent is among that parent's children. */
  lemma GraftParentsListed(parent: seq<int>, children: seq<seq<nat>>, height: seq<real>, nr: seq<nat>,
                           nodeCount: nat, root: nat, externalNodes: seq<nat>, depth: seq<nat>, src: nat)
    requires ValidShape(parent, children, height, nr, nodeCount, root, externalNodes, depth)
    requires src < |parent| && parent[src] >= 0
    ensures var parent', children' := GraftedParent(parent, src), GraftedChildren(children, parent[src], src, |parent|);
      forall x :: 0 <= x < |parent'| && parent'[x] >= 0 ==> x in children'[parent'[x]]
  {
    var n := |parent|;
    var p := parent[src];
    var parent', children' := GraftedParent(parent, src), GraftedChildren(children, p, src, n);
    forall x | 0 <= x < |parent'| && parent'[x] >= 0
      ensures x in children'[parent'[x]]
    {
      if x < n && x != src {
        var j :| 0 <= j < |children[parent[x]]| && children[parent[x]][j] == x;
        assert children'[parent'[x]][j] == x;
      } else if x == n {
        var j :| 0 <= j < |children[p]| && children[p][j] == src;
        assert children'[p][j] == n;
      } else if x == src {
        assert children'[n][0] == src;
      } else {
        assert children'[n][1] == n + 1;
      }
    }
  }

  /** After the graft every child's parent link points back to the node that lists it. */
  lemma GraftChildrenPointBack(parent: seq<int>, children: seq<seq<nat>>, height: seq<real>, nr: seq<nat>,
                               nodeCount: nat, root: nat, externalNodes: seq<nat>, depth: seq<nat>, src: nat)
    requires ValidShape(parent, children, height, nr, nodeCount, root, externalNodes, depth)
    requires src < |parent| && parent[src] >= 0
    ensures var parent', children' := GraftedParent(parent, src), GraftedChildren(children, parent[src], src, |parent|);
      forall x, j :: 0 <= x < |parent'| && 0 <= j < |children'[x]| ==>
        (children'[x][j] < |parent'| && parent'[children'[x][j]] == x)
  {
    var n := |parent|;
    var p := parent[src];
    var parent', children' := GraftedParent(parent, src), GraftedChildren(children, p, src, n);
    forall x, j | 0 <= x < |parent'| && 0 <= j < |children'[x]|
      ensures children'[x][j] < |parent'| && parent'[children'[x][j]] == x
    {
      if x < n {
        var c := children[x][j];
        assert c < n && parent[c] == x;
      }
    }
  }

  /**
   * (parent, depth, children, height, id) is (parent0, depth0, children0, height0, id0) with a new
   * node n at src's height placed between src and its parent, holding src and a new leaf n + 1
   * named `name` at the same height.
   */
  ghost predicate GraftedAt(parent0: seq<int>, depth0: seq<nat>, children0: seq<seq<nat>>, height0: seq<real>, id0: seq<string>,
                            parent: seq<int>, depth: seq<nat>, children: seq<seq<nat>>, height: seq<real>, id: seq<string>,
                            src: nat, name: string)
    requires Linked(parent0, depth0) && |children0| == |parent0| && |height0| == |parent0|
    requires src < |parent0| && parent0[src] >= 0
  {
    parent == GraftedParent(parent0, src) && depth == GraftDepth(parent0, depth0, src)
    && children == GraftedChildren(children0, parent0[src], src, |parent0|)
    && height == height0 + [height0[src], height0[src]] && id == id0 + ["", name]
  }

  /**
   * The graft step of `run`: a new node at src's height takes src's place among its parent's
   * children and holds src and a new leaf named `name` at the same height. A root src has no
   * parent, and reading its parent's children throws before the tree is touched.
   */
  method Graft(t: Tree, src: nat, name: string) returns (r: Result<()>)
    requires t.Valid() && src < |t.parent|
    modifies t
    ensures t.Valid()
    ensures old(t.parent[src]) < 0 ==> r == Err(NullPointer) && unchanged(t)
    ensures old(t.parent[src]) >= 0 ==> r.Ok?
    ensures r.Ok? ==> (
      GraftedAt(old(t.parent), old(t.depth), old(t.children), old(t.height), old(t.id),
                t.parent, t.depth, t.children, t.height, t.id, src, name)
      && t.nr == old(t.nr) + [0, 0]
      && t.root == old(t.root) && t.nodeCount == old(t.nodeCount) && t.externalNodes == old(t.externalNodes))
  {
    var p := t.parent[src];
    if p < 0 {
      return Err(NullPointer);
    }
    var n := |t.parent|;
    var h := t.height[src];
    GraftValid(t.parent, t.children, t.height, t.nr, t.nodeCount, t.root, t.externalNodes, t.depth, src);
    // the new node replaces src among the parent's children
    var replaced := ReplaceInChildren(t.children[p], src, n);
    t.depth, t.children, t.parent, t.height, t.id, t.nr :=
      GraftDepth(t.parent, t.depth, src), t.children[p := replaced] + [[src, n + 1], []],
      t.parent[src := n] + [p, n], t.height + [h, h], t.id + ["", name], t.nr + [0, 0];
    return Ok(());
  }

  /** The setChild loop of the graft: every child equal to src becomes node. */
  method ReplaceInChildren(cs: seq<nat>, src: nat, node: nat) returns (replaced: seq<nat>)
    ensures replaced == ReplaceChild(cs, src, node)
  {
    var j := 0;
    replaced := [];
    while j < |cs|
      invariant 0 <= j <= |cs| && replaced == ReplaceChild(cs[..j], src, node)
    {
      assert cs[..j + 1][..j] == cs[..j];
      replaced := replaced + [if cs[j] == src then node else cs[j]];
      j := j + 1;
    }
    assert cs[..j] == cs;
  }

  // ---------------------------------------------------------------------------------------------
  // Ancestry across grafts

  /**
   * Ancestry after one graft above src: among the earlier nodes nothing changes, the new node n
   * is above exactly what src is above, and the new leaf n + 1 is above no earlier node.
   */
  lemma {:induction false} GraftAncestor(parent: seq<int>, depth: seq<nat>, height: seq<real>, src: nat, y: nat, x: nat)
    requires Linked(parent, depth) && |height| == |parent| && src < |parent| && parent[src] >= 0
    requires forall z :: 0 <= z < |parent| && parent[z] >= 0 ==> height[z] <= height[parent[z]]
    requires x < |parent| && y < |parent| + 2
    ensures Linked(GraftedParent(parent, src), GraftDepth(parent, depth, src))
    ensures AncestorOrSelf(GraftedParent(parent, src), GraftDepth(parent, depth, src), y, x) <==>
      (if y < |parent| then AncestorOrSelf(parent, depth, y, x) else y == |parent| && AncestorOrSelf(parent, depth, src, x))
    decreases depth[x]
  {
    GraftLinked(parent, depth, height, src);
    var n := |parent|;
    var parent', depth' := GraftedParent(parent, src), GraftDepth(parent, depth, src);
    if x == y {
    } else if x == src {
      var p := parent[src];
      GraftAncestor(parent, depth, height, src, y, p);
      assert parent'[src] == n && parent'[n] == p;
      if y == n + 1 {
        assert !AncestorOrSelf(parent', depth', y, n);
      }
    } else if parent[x] >= 0 {
      GraftAncestor(parent, depth, height, src, y, parent[x]);
      assert parent'[x] == parent[x];
    } else {
      assert parent'[x] == parent[x];
    }
  }

  /** Among the nodes of the tree before the grafts, ancestry is unchanged. */
  ghost predicate AncestryKept(parent0: seq<int>, depth0: seq<nat>, parent: seq<int>, depth: seq<nat>)
    requires Linked(parent0, depth0) && Linked(parent, depth) && |parent0| <= |parent|
  {
    forall a, x :: 0 <= a < |parent0| && 0 <= x < |parent0| ==>
      (AncestorOrSelf(parent, depth, a, x) <==> AncestorOrSelf(parent0, depth0, a, x))
  }

  /**
   * Node `node` of the grafted tree sits on the branch above m of the tree before the grafts: of
   * that tree's nodes it is above exactly those m is above.
   */
  ghost predicate HangsAbove(parent0: seq<int>, depth0: seq<nat>, parent: seq<int>, depth: seq<nat>, node: nat, m: nat)
    requires Linked(parent0, depth0) && Linked(parent, depth) && |parent0| <= |parent|
    requires node < |parent| && m < |parent0|
  {
    forall x :: 0 <= x < |parent0| ==> (AncestorOrSelf(parent, depth, node, x) <==> AncestorOrSelf(parent0, depth0, m, x))
  }

  /** Node `node` of the grafted tree is above none of the nodes of the tree before the grafts. */
  ghost predicate AboveNone(parent0: seq<int>, parent: seq<int>, depth: seq<nat>, node: nat)
    requires Linked(parent, depth) && |parent0| <= |parent| && node < |parent|
  {
    forall x :: 0 <= x < |parent0| ==> !AncestorOrSelf(parent, depth, node, x)
  }

  /**
   * The tree (parent, depth) arises from (parent0, depth0) by grafts above the nodes srcs, in
   * order: graft k added joining node |parent0| + 2k above srcs[k] and leaf |parent0| + 2k + 1
   * below it, the earlier nodes keep their ancestry, and the root stays the root.
   */
  ghost predicate GraftedAbove(parent0: seq<int>, depth0: seq<nat>, parent: seq<int>, depth: seq<nat>, srcs: seq<nat>)
    requires Linked(parent0, depth0) && Linked(parent, depth)
  {
    var base := |parent0|;
    |parent| == base + 2 * |srcs|
    && AncestryKept(parent0, depth0, parent, depth)
    && (forall x :: 0 <= x < base ==> (parent[x] >= 0 <==> parent0[x] >= 0))
    && forall k :: 0 <= k < |srcs| ==>
         (srcs[k] < base && parent[base + 2 * k + 1] == base + 2 * k
          && HangsAbove(parent0, depth0, parent, depth, base + 2 * k, srcs[k])
          && AboveNone(parent0, parent, depth, base + 2 * k + 1))
  }

  /** The snapshot's links are acyclic and its leaves and labels fit them. */
  ghost predicate Sound(s: Snapshot)
  {
    Linked(s.parent, s.depth) && |s.id| == |s.parent| && |s.height| == |s.parent|
    && forall k :: 0 <= k < |s.externalNodes| ==> s.externalNodes[k] < |s.parent|
  }

  /** Every clade could be grafted into the tree of the snapshot. */
  ghost predicate AllGraftable(s: Snapshot, clades: seq<set<string>>)
  {
    Sound(s)
    && forall j :: 0 <= j < |clades| ==> Graftable(s.parent, s.depth, Leaves(s.externalNodes, s.id, clades[j]))
  }

  /** The tree of s is the one of s0 with the taxa `names` grafted above their clades. */
  ghost predicate FossilisedFrom(s0: Snapshot, s: Snapshot, clades: seq<set<string>>, names: seq<string>)
  {
    Sound(s0) && Linked(s.parent, s.depth) && |clades| == |names|
    && Fossilised(s0.parent, s0.depth, s0.externalNodes, s0.id, s.parent, s.depth, s.id, s.height, clades, names)
  }

  /** One more graft above a node of the tree before the grafts extends the record by that node. */
  lemma GraftedAboveStep(parent0: seq<int>, depth0: seq<nat>, parent: seq<int>, depth: seq<nat>,
                         height: seq<real>, srcs: seq<nat>, src: nat, parent': seq<int>, depth': seq<nat>)
    requires Linked(parent0, depth0) && Linked(parent, depth) && GraftedAbove(parent0, depth0, parent, depth, srcs)
    requires |height| == |parent| && forall z :: 0 <= z < |parent| && parent[z] >= 0 ==> height[z] <= height[parent[z]]
    requires src < |parent0| && parent[src] >= 0
    requires parent' == GraftedParent(parent, src) && depth' == GraftDepth(parent, depth, src)
    ensures Linked(parent', depth') && GraftedAbove(parent0, depth0, parent', depth', srcs + [src])
  {
    AncestryKeptStep(parent0, depth0, parent, depth, height, src, parent', depth');
    GraftsKept(parent0, depth0, parent, depth, height, srcs, src, parent', depth', srcs + [src]);
    assert forall x :: 0 <= x < |parent0| ==> parent'[x] == (if x == src then |parent| else parent[x]);
  }

  /** Each earlier graft, and the new one, hangs where the record says after one more graft. */
  lemma GraftsKept(parent0: seq<int>, depth0: seq<nat>, parent: seq<int>, depth: seq<nat>,
                   height: seq<real>, srcs: seq<nat>, src: nat, parent': seq<int>, depth': seq<nat>, srcs': seq<nat>)
    requires Linked(parent0, depth0) && Linked(parent, depth) && GraftedAbove(parent0, depth0, parent, depth, srcs)
    requires |height| == |parent| && forall z :: 0 <= z < |parent| && parent[z] >= 0 ==> height[z] <= height[parent[z]]
    requires src < |parent0| && parent[src] >= 0
    requires parent' == GraftedParent(parent, src) && depth' == GraftDepth(parent, depth, src) && srcs' == srcs + [src]
    requires Linked(parent', depth')
    ensures forall k :: 0 <= k < |srcs'| ==>
      (srcs'[k] < |parent0| && parent'[|parent0| + 2 * k + 1] == |parent0| + 2 * k
       && HangsAbove(parent0, depth0, parent', depth', |parent0| + 2 * k, srcs'[k])
       && AboveNone(parent0, parent', depth', |parent0| + 2 * k + 1))
  {
    forall k | 0 <= k < |srcs'|
      ensures srcs'[k] < |parent0| && parent'[|parent0| + 2 * k + 1] == |parent0| + 2 * k
      ensures HangsAbove(parent0, depth0, parent', depth', |parent0| + 2 * k, srcs'[k])
      ensures AboveNone(parent0, parent', depth', |parent0| + 2 * k + 1)
    {
      GraftedAboveOne(parent0, depth0, parent, depth, height, srcs, src, parent', depth', srcs', k);
    }
  }

  /** A graft above a node of the original tree keeps the ancestry among the original nodes. */
  lemma AncestryKeptStep(parent0: seq<int>, depth0: seq<nat>, parent: seq<int>, depth: seq<nat>,
                         height: seq<real>, src: nat, parent': seq<int>, depth': seq<nat>)
    requires Linked(parent0, depth0) && Linked(parent, depth) && |parent0| <= |parent|
    requires AncestryKept(parent0, depth0, parent, depth)
    requires |height| == |parent| && forall z :: 0 <= z < |parent| && parent[z] >= 0 ==> height[z] <= height[parent[z]]
    requires src < |parent| && parent[src] >= 0
    requires parent' == GraftedParent(parent, src) && depth' == GraftDepth(parent, depth, src)
    ensures Linked(parent', depth') && AncestryKept(parent0, depth0, parent', depth')
  {
    GraftLinked(parent, depth, height, src);
    forall a, x | 0 <= a < |parent0| && 0 <= x < |parent0|
      ensures AncestorOrSelf(parent', depth', a, x) <==> AncestorOrSelf(parent0, depth0, a, x)
    {
      GraftAncestor(parent, depth, height, src, a, x);
    }
  }

  /** The joining node and the leaf of graft k keep their place under one more graft. */
  lemma GraftedAboveOne(parent0: seq<int>, depth0: seq<nat>, parent: seq<int>, depth: seq<nat>,
                        height: seq<real>, srcs: seq<nat>, src: nat, parent': seq<int>, depth': seq<nat>, srcs': seq<nat>, k: nat)
    requires Linked(parent0, depth0) && Linked(parent, depth) && GraftedAbove(parent0, depth0, parent, depth, srcs)
    requires |height| == |parent| && forall z :: 0 <= z < |parent| && parent[z] >= 0 ==> height[z] <= height[parent[z]]
    requires src < |parent0| && parent[src] >= 0 && k <= |srcs|
    requires parent' == GraftedParent(parent, src) && depth' == GraftDepth(parent, depth, src) && srcs' == srcs + [src]
    requires Linked(parent', depth')
    ensures var base := |parent0|;
      srcs'[k] < base && parent'[base + 2 * k + 1] == base + 2 * k
      && HangsAbove(parent0, depth0, parent', depth', base + 2 * k, srcs'[k])
      && AboveNone(parent0, parent', depth', base + 2 * k + 1)
  {
    var base := |parent0|;
    if k < |srcs| {
      assert HangsAbove(parent0, depth0, parent, depth, base + 2 * k, srcs[k]);
      assert AboveNone(parent0, parent, depth, base + 2 * k + 1);
    }
    var joint, leaf := base + 2 * k, base + 2 * k + 1;
    forall x | 0 <= x < base
      ensures AncestorOrSelf(parent', depth', joint, x) <==> AncestorOrSelf(parent0, depth0, srcs'[k], x)
    {
      GraftAncestor(parent, depth, height, src, joint, x);
      if k == |srcs| {
        GraftAncestor(parent, depth, height, src, src, x);
      }
    }
    forall x | 0 <= x < base
      ensures !AncestorOrSelf(parent', depth', leaf, x)
    {
      GraftAncestor(parent, depth, height, src, leaf, x);
    }
  }

  /**
   * After grafts above nodes of the original tree, the most recent common ancestor of a
   * non-empty set of its nodes is the one it had there.
   */
  lemma GraftedAboveMrca(parent0: seq<int>, depth0: seq<nat>, parent: seq<int>, depth: seq<nat>,
                         height: seq<real>, srcs: seq<nat>, xs: seq<nat>, m: nat)
    requires Linked(parent0, depth0) && Linked(parent, depth) && GraftedAbove(parent0, depth0, parent, depth, srcs)
    requires |height| == |parent| && forall z :: 0 <= z < |parent| && parent[z] >= 0 ==> height[z] <= height[parent[z]]
    requires |xs| > 0 && (forall k :: 0 <= k < |xs| ==> xs[k] < |parent0|) && m < |parent|
    ensures IsMrca(parent, depth, m, xs) <==> (m < |parent0| && IsMrca(parent0, depth0, m, xs))
  {
    var base := |parent0|;
    if m >= base {
      var k := (m - base) / 2;
      if m == base + 2 * k {
        var s := srcs[k];
        if IsMrca(parent, depth, m, xs) {
          assert forall j :: 0 <= j < |xs| ==> AncestorOrSelf(parent, depth, s, xs[j]);
          assert AncestorOrSelf(parent0, depth0, s, s);
          AncestorAntisymmetric(parent, depth, height, s, m);
        }
      } else {
        assert !AncestorOrSelf(parent, depth, m, xs[0]);
      }
    } else if IsMrca(parent0, depth0, m, xs) {
      forall a | 0 <= a < |parent| && (forall j :: 0 <= j < |xs| ==> AncestorOrSelf(parent, depth, a, xs[j]))
        ensures AncestorOrSelf(parent, depth, a, m)
      {
        if a >= base {
          var k := (a - base) / 2;
          var s := srcs[k];
          assert AncestorOrSelf(parent, depth, a, xs[0]);
          if a == base + 2 * k {
            assert forall j :: 0 <= j < |xs| ==> AncestorOrSelf(parent0, depth0, s, xs[j]);
          } else {
            assert false;
          }
        }
      }
    }
  }

  /** Graft IDs are appended, so the external nodes named by a clade are the same ones. */
  lemma {:induction false} LeavesPrefix(externalNodes: seq<nat>, id: seq<string>, id': seq<string>, taxa: set<string>)
    requires forall k :: 0 <= k < |externalNodes| ==> externalNodes[k] < |id|
    requires |id| <= |id'| && id'[..|id|] == id
    ensures Leaves(externalNodes, id', taxa) == Leaves(externalNodes, id, taxa)
  {
    if |externalNodes| > 0 {
      var x := externalNodes[|externalNodes| - 1];
      assert id'[x] == id'[..|id|][x];
      LeavesPrefix(externalNodes[..|externalNodes| - 1], id, id', taxa);
    }
  }

  /**
   * The graft for a clade goes through: the clade names an external node, and the most recent
   * common ancestor of those nodes is not the root.
   */
  ghost predicate Graftable(parent: seq<int>, depth: seq<nat>, leafs: seq<nat>)
    requires Linked(parent, depth) && forall k :: 0 <= k < |leafs| ==> leafs[k] < |parent|
  {
    |leafs| > 0 && exists m :: 0 <= m < |parent| && IsMrca(parent, depth, m, leafs) && parent[m] >= 0
  }

  /** Clade k is the first of the clades that cannot be grafted into the tree. */
  ghost predicate FirstFailing(parent: seq<int>, depth: seq<nat>, externalNodes: seq<nat>, id: seq<string>,
                               clades: seq<set<string>>, k: nat)
  {
    Linked(parent, depth) && |id| == |parent| && (forall x :: 0 <= x < |externalNodes| ==> externalNodes[x] < |parent|)
    && k < |clades|
    && (forall j :: 0 <= j < k ==> Graftable(parent, depth, Leaves(externalNodes, id, clades[j])))
    && !Graftable(parent, depth, Leaves(externalNodes, id, clades[k]))
  }

  /**
   * The loop over the clades of the tree of s throws msg: msg is the exception of the first clade
   * that cannot be grafted.
   */
  ghost predicate FailsWith(s: Snapshot, clades: seq<set<string>>, msg: string)
  {
    exists k: nat :: FirstFailing(s.parent, s.depth, s.externalNodes, s.id, clades, k)
      && msg == GraftFailure(Leaves(s.externalNodes, s.id, clades[k]))
  }

  /** The exception of a graft that does not go through: no leaf to search from, or no parent above the root. */
  function GraftFailure(leafs: seq<nat>): string
  {
    if |leafs| == 0 then IndexOutOfBounds else NullPointer
  }

  /** Whether a clade can be grafted is the same before and after grafts above nodes of the tree. */
  lemma GraftableKept(parent0: seq<int>, depth0: seq<nat>, parent: seq<int>, depth: seq<nat>,
                      height: seq<real>, srcs: seq<nat>, leafs: seq<nat>)
    requires Linked(parent0, depth0) && Linked(parent, depth) && GraftedAbove(parent0, depth0, parent, depth, srcs)
    requires |height| == |parent| && forall z :: 0 <= z < |parent| && parent[z] >= 0 ==> height[z] <= height[parent[z]]
    requires forall k :: 0 <= k < |leafs| ==> leafs[k] < |parent0|
    ensures Graftable(parent, depth, leafs) <==> Graftable(parent0, depth0, leafs)
  {
    if Graftable(parent, depth, leafs) {
      var m :| 0 <= m < |parent| && IsMrca(parent, depth, m, leafs) && parent[m] >= 0;
      GraftedAboveMrca(parent0, depth0, parent, depth, height, srcs, leafs, m);
    }
    if Graftable(parent0, depth0, leafs) {
      var m :| 0 <= m < |parent0| && IsMrca(parent0, depth0, m, leafs) && parent0[m] >= 0;
      GraftedAboveMrca(parent0, depth0, parent, depth, height, srcs, leafs, m);
    }
  }

  /**
   * The tree (parent, depth, id, height) is the tree (parent0, depth0, id0) with the taxa `names`
   * grafted in order, each above the most recent common ancestor in the original tree of the
   * external nodes its clade names: joining node base + 2k hangs on the branch above that
   * ancestor, at its height, and holds the leaf base + 2k + 1 carrying names[k] at the same
   * height; the original nodes keep their ancestry.
   */
  ghost predicate Fossilised(parent0: seq<int>, depth0: seq<nat>, externalNodes: seq<nat>, id0: seq<string>,
                             parent: seq<int>, depth: seq<nat>, id: seq<string>, height: seq<real>,
                             clades: seq<set<string>>, names: seq<string>)
    requires Linked(parent0, depth0) && Linked(parent, depth) && |id0| == |parent0| && |clades| == |names|
    requires forall k :: 0 <= k < |externalNodes| ==> externalNodes[k] < |parent0|
  {
    var base := |parent0|;
    |parent| == base + 2 * |names| && |id| == |parent| && |height| == |parent|
    && AncestryKept(parent0, depth0, parent, depth)
    && forall k :: 0 <= k < |names| ==>
         (id[base + 2 * k + 1] == names[k] && parent[base + 2 * k + 1] == base + 2 * k
          && height[base + 2 * k + 1] == height[base + 2 * k]
          && AboveNone(parent0, parent, depth, base + 2 * k + 1)
          && exists m :: 0 <= m < base && IsMrca(parent0, depth0, m, Leaves(externalNodes, id0, clades[k]))
               && parent0[m] >= 0 && height[base + 2 * k] == height[m]
               && HangsAbove(parent0, depth0, parent, depth, base + 2 * k, m))
  }

  // ---------------------------------------------------------------------------------------------
  // The most recent common ancestor

  /** The external nodes whose ID is in the clade, in the tree's order. */
  function Leaves(externalNodes: seq<nat>, id: seq<string>, taxa: set<string>): (r: seq<nat>)
    requires forall k :: 0 <= k < |externalNodes| ==> externalNodes[k] < |id|
    ensures forall k :: 0 <= k < |r| ==> r[k] in externalNodes && id[r[k]] in taxa
    ensures forall k :: 0 <= k < |externalNodes| && id[externalNodes[k]] in taxa ==> externalNodes[k] in r
  {
    if |externalNodes| == 0 then []
    else
      var x := externalNodes[|externalNodes| - 1];
      var before := Leaves(externalNodes[..|externalNodes| - 1], id, taxa);
      assert forall k :: 0 <= k < |externalNodes| - 1 ==> externalNodes[..|externalNodes| - 1][k] == externalNodes[k];
      if id[x] in taxa then before + [x] else before
  }

  /** The first loop of getMRCA: the external nodes whose ID is in the clade. */
  method CollectLeaves(t: Tree, taxa: set<string>) returns (leafs: seq<nat>)
    requires t.Valid()
    ensures leafs == Leaves(t.externalNodes, t.id, taxa)
  {
    leafs := [];
    var i := 0;
    while i < |t.externalNodes|
      invariant 0 <= i <= |t.externalNodes|
      invariant leafs == Leaves(t.externalNodes[..i], t.id, taxa)
    {
      assert t.externalNodes[..i + 1][..i] == t.externalNodes[..i];
      if t.id[t.externalNodes[i]] in taxa {
        leafs := leafs + [t.externalNodes[i]];
      }
      i := i + 1;
    }
    assert t.externalNodes[..i] == t.externalNodes;
  }

  /** The fossiliser's state: the configuration read, and the climb's diagnostic marks. */
  class TreeFossiliser {
    /** Per node number, whether the current MRCA search has visited it. */
    var nodesTraversed: array<bool>
    /** Number of marks made, over all searches. */
    var nseen: int
    var taxonName: seq<string>
    var subTaxonSets: seq<set<string>>

    constructor ()
      ensures nseen == 0 && taxonName == [] && subTaxonSets == [] && nodesTraversed.Length == 0
    {
      nodesTraversed := new bool[0];
      nseen := 0;
      taxonName := [];
      subTaxonSets := [];
    }

    /** processCfgFile: one name and one clade per non-blank line, in file order. */
    method ProcessCfgFile(cfg: string) returns (r: Result<()>)
      modifies this`taxonName, this`subTaxonSets
      ensures var e := CfgEntries(Split(cfg, '\n'));
        (r.Ok? <==> e.Ok?) && (r.Err? ==> r.msg == e.msg)
        && (r.Ok? ==> (|taxonName| == |e.value| == |subTaxonSets|
             && forall k :: 0 <= k < |e.value| ==> taxonName[k] == e.value[k].name && subTaxonSets[k] == e.value[k].clade))
      ensures nodesTraversed == old(nodesTraversed) && nseen == old(nseen)
    {
      var entries := ReadCfg(cfg);
      if entries.Err? {
        return Err(entries.msg);
      }
      taxonName := seq(|entries.value|, k requires 0 <= k < |entries.value| => entries.value[k].name);
      subTaxonSets := seq(|entries.value|, k requires 0 <= k < |entries.value| => entries.value[k].clade);
      return Ok(());
    }

    /** Marks node number k as visited, counting it when it was not marked yet. */
    method Mark(k: nat)
      requires k < nodesTraversed.Length
      modifies this`nseen, nodesTraversed
      ensures nodesTraversed[..] == old(nodesTraversed[..])[k := true]
      ensures nseen - CountTrue(nodesTraversed[..]) == old(nseen) - CountTrue(old(nodesTraversed[..]))
    {
      if !nodesTraversed[k] {
        CountTrueSet(nodesTraversed[..], k);
        nodesTraversed[k] := true;
        nseen := nseen + 1;
      } else {
        assert nodesTraversed[..][k := true] == nodesTraversed[..];
      }
    }

    /** Whether y is x or one of x's ancestors, by walking up from x. */
    method IsAncestorWalk(t: Tree, x: nat, y: nat) returns (b: bool)
      requires t.Valid() && x < |t.parent| && y < |t.parent|
      ensures b == t.Above(y, x)
    {
      var n: int := x;
      while n != -1 && n != y
        invariant -1 <= n < |t.parent|
        invariant n == -1 ==> !t.Above(y, x)
        invariant n >= 0 ==> (t.Above(y, x) <==> t.Above(y, n))
        decreases if n < 0 then 0 else t.depth[n] + 1
      {
        n := t.parent[n];
      }
      b := n == y;
    }

    /**
     * The choice of getCommonAncestor between its two nodes: the lower one climbs; at equal
     * heights the node above a positive-length branch stays, and with both branches of zero
     * length n1 climbs exactly when n2 is its ancestor. The climber is never an ancestor of the
     * other node.
     */
    method ClimbsFirst(t: Tree, n1: nat, n2: nat) returns (climbFirst: bool)
      requires t.Valid() && n1 < |t.parent| && n2 < |t.parent| && n1 != n2
      ensures t.height[n1] < t.height[n2] ==> climbFirst
      ensures t.height[n2] < t.height[n1] ==> !climbFirst
      ensures t.height[n1] == t.height[n2] ==>
        climbFirst == (t.Length(n1) <= 0.0 && (t.Length(n2) > 0.0 || t.Above(n2, n1)))
      ensures climbFirst ==> !t.Above(n1, n2)
      ensures !climbFirst ==> !t.Above(n2, n1)
    {
      var h1 := t.height[n1];
      var h2 := t.height[n2];
      if h1 < h2 {
        if t.Above(n1, n2) {
          AncestorAbove(t.parent, t.depth, t.height, n1, n2);
        }
        climbFirst := true;
      } else if h2 < h1 {
        if t.Above(n2, n1) {
          AncestorAbove(t.parent, t.depth, t.height, n2, n1);
        }
        climbFirst := false;
      } else {
        // zero-length branches
        var b1 := t.Length(n1);
        var b2 := t.Length(n2);
        if b1 > 0.0 {
          if t.Above(n2, n1) {
            SameHeightAncestor(t, n2, n1);
          }
          climbFirst := false;
        } else if b2 > 0.0 {
          if t.Above(n1, n2) {
            SameHeightAncestor(t, n1, n2);
          }
          climbFirst := true;
        } else {
          var above := IsAncestorWalk(t, n1, n2);
          if above && t.Above(n1, n2) {
            AncestorAntisymmetric(t.parent, t.depth, t.height, n1, n2);
          }
          climbFirst := above;
        }
      }
    }

    /** One step of getCommonAncestor's climb: the chosen node moves to its parent, which is marked. */
    method ClimbOnce(t: Tree, n1: nat, n2: nat, ghost a1: nat, ghost a2: nat) returns (m1: nat, m2: nat)
      requires t.Valid() && n1 < |t.parent| && n2 < |t.parent| && a1 < |t.parent| && a2 < |t.parent|
      requires n1 != n2 && Climbing(t, n1, n2, a1, a2)
      requires nodesTraversed.Length == t.nodeCount
      requires nodesTraversed[t.nr[n1]] && nodesTraversed[t.nr[n2]]
      modifies this`nseen, nodesTraversed
      ensures m1 < |t.parent| && m2 < |t.parent| && Climbing(t, m1, m2, a1, a2)
      ensures nodesTraversed[t.nr[m1]] && nodesTraversed[t.nr[m2]]
      ensures MarksGrow(old(nodesTraversed[..]), nodesTraversed[..])
      ensures (m1 == t.parent[n1] && m2 == n2) || (m1 == n1 && m2 == t.parent[n2])
      ensures t.depth[m1] + t.depth[m2] < t.depth[n1] + t.depth[n2]
      ensures nodesTraversed[..] == old(nodesTraversed[..])[t.nr[if m1 == n1 then m2 else m1] := true]
      ensures nseen - CountTrue(nodesTraversed[..]) == old(nseen) - CountTrue(old(nodesTraversed[..]))
    {
      var climbFirst := ClimbsFirst(t, n1, n2);
      if climbFirst {
        ClimbKeeps(t, n1, n2, a1, a2);
        m1, m2 := t.parent[n1], n2;
        Mark(t.nr[m1]);
      } else {
        ClimbingSymmetric(t, n1, n2, a1, a2);
        ClimbKeeps(t, n2, n1, a2, a1);
        m1, m2 := n1, t.parent[n2];
        ClimbingSymmetric(t, m1, m2, a1, a2);
        Mark(t.nr[m2]);
      }
    }

    /**
     * getCommonAncestor: the lower node climbs to its parent until the two meet; at equal heights
     * the node above a positive-length branch stays, and with both branches of zero length n1
     * climbs exactly when n2 is its ancestor. With heights that never decrease toward the root the
     * climb ends at the most recent common ancestor. Every node reached is marked, and nseen counts
     * the new marks.
     */
    method GetCommonAncestor(t: Tree, a1: nat, a2: nat) returns (r: nat)
      requires t.Valid() && a1 < |t.parent| && a2 < |t.parent|
      requires nodesTraversed.Length == t.nodeCount
      modifies this`nseen, nodesTraversed
      ensures r < |t.parent| && IsMrca(t.parent, t.depth, r, [a1, a2])
      ensures nodesTraversed[t.nr[a1]] && nodesTraversed[t.nr[a2]] && nodesTraversed[t.nr[r]]
      ensures MarksGrow(old(nodesTraversed[..]), nodesTraversed[..])
      ensures nseen - CountTrue(nodesTraversed[..]) == old(nseen) - CountTrue(old(nodesTraversed[..]))
    {
      var n1: nat, n2: nat := a1, a2;
      Mark(t.nr[n1]);
      Mark(t.nr[n2]);
      assert AncestorOrSelf(t.parent, t.depth, a1, a1) && AncestorOrSelf(t.parent, t.depth, a2, a2);
      ghost var marks0 := nodesTraversed[..];
      while n1 != n2
        invariant n1 < |t.parent| && n2 < |t.parent| && Climbing(t, n1, n2, a1, a2)
        invariant nodesTraversed[t.nr[n1]] && nodesTraversed[t.nr[n2]]
        invariant MarksGrow(marks0, nodesTraversed[..])
        invariant nseen - CountTrue(nodesTraversed[..]) == old(nseen) - CountTrue(old(nodesTraversed[..]))
        decreases t.depth[n1] + t.depth[n2]
      {
        ghost var marks := nodesTraversed[..];
        n1, n2 := ClimbOnce(t, n1, n2, a1, a2);
        MarksGrowTrans(marks0, marks, nodesTraversed[..]);
      }
      ClimbDone(t, n1, a1, a2);
      r := n1;
    }

    /** The fold of getMRCA: getCommonAncestor applied from the first leaf onward. */
    method FoldCommonAncestor(t: Tree, leafs: seq<nat>) returns (cur: nat)
      requires t.Valid() && |leafs| > 0 && forall k :: 0 <= k < |leafs| ==> leafs[k] < |t.parent|
      requires nodesTraversed.Length == t.nodeCount
      modifies this`nseen, nodesTraversed
      ensures cur < |t.parent| && IsMrca(t.parent, t.depth, cur, leafs)
      ensures nseen - CountTrue(nodesTraversed[..]) == old(nseen) - CountTrue(old(nodesTraversed[..]))
    {
      cur := leafs[0];
      assert AncestorOrSelf(t.parent, t.depth, cur, cur);
      var k := 1;
      while k < |leafs|
        invariant 1 <= k <= |leafs| && cur < |t.parent|
        invariant IsMrca(t.parent, t.depth, cur, leafs[..k])
        invariant nseen - CountTrue(nodesTraversed[..]) == old(nseen) - CountTrue(old(nodesTraversed[..]))
      {
        var next := GetCommonAncestor(t, cur, leafs[k]);
        MrcaExtend(t, cur, next, leafs, k);
        cur := next;
        k := k + 1;
      }
      assert leafs[..k] == leafs;
    }

    /**
     * getMRCA: the external nodes whose ID is in the clade, folded with getCommonAncestor from the
     * first; the marks are reset for every search, nseen is not. A clade that names no external
     * node throws.
     */
    method GetMRCA(t: Tree, taxa: set<string>) returns (r: Result<nat>)
      requires t.Valid()
      modifies this
      ensures fresh(nodesTraversed) && nodesTraversed.Length == t.nodeCount
      ensures var leafs := Leaves(t.externalNodes, t.id, taxa);
        (r.Ok? <==> |leafs| > 0)
        && (r.Ok? ==> r.value < |t.parent| && IsMrca(t.parent, t.depth, r.value, leafs))
      ensures r.Err? ==> r.msg == IndexOutOfBounds && nseen == old(nseen)
      ensures r.Ok? ==> nseen == old(nseen) + CountTrue(nodesTraversed[..])
      ensures taxonName == old(taxonName) && subTaxonSets == old(subTaxonSets)
    {
      var leafs := CollectLeaves(t, taxa);
      nodesTraversed := new bool[t.nodeCount](_ => false);
      AllFalse(nodesTraversed[..]);
      if |leafs| == 0 {
        return Err(IndexOutOfBounds);
      }
      var cur := FoldCommonAncestor(t, leafs);
      return Ok(cur);
    }

    /**
     * The per-tree step of `run`: every configured taxon, in file order, is grafted above the MRCA
     * of its clade in the tree as changed by the earlier grafts, which is the clade's MRCA in the
     * tree as read. The first clade that cannot be grafted ends the loop with its exception.
     */
    method FossiliseTree(t: Tree) returns (r: Result<()>)
      requires t.Valid() && |taxonName| == |subTaxonSets|
      modifies this, t
      ensures t.Valid()
      ensures taxonName == old(taxonName) && subTaxonSets == old(subTaxonSets)
      ensures t.root == old(t.root) && t.externalNodes == old(t.externalNodes)
      ensures r.Ok? <==> AllGraftable(old(t.Snap()), subTaxonSets)
      ensures r.Err? ==> exists k: nat :: (FirstFailing(old(t.parent), old(t.depth), old(t.externalNodes), old(t.id), subTaxonSets, k)
        && r.msg == GraftFailure(Leaves(old(t.externalNodes), old(t.id), subTaxonSets[k])))
      ensures r.Ok? ==> FossilisedFrom(old(t.Snap()), t.Snap(), subTaxonSets, taxonName)
    {
      ghost var srcs;
      r, srcs := GraftTaxa(t, t.parent, t.depth, t.id, t.height);
      if r.Ok? {
        ProgressDone(old(t.parent), old(t.depth), t.externalNodes, old(t.id), old(t.height),
                     t.parent, t.depth, t.id, t.height, subTaxonSets, taxonName, srcs);
      } else {
        ghost var k: nat :| FirstFailing(old(t.parent), old(t.depth), old(t.externalNodes), old(t.id), subTaxonSets, k)
          && r.msg == GraftFailure(Leaves(old(t.externalNodes), old(t.id), subTaxonSets[k]));
        assert !Graftable(old(t.parent), old(t.depth), Leaves(old(t.externalNodes), old(t.id), subTaxonSets[k]));
      }
    }

    /**
     * The loop of fossiliseTree: the taxa are grafted in order, each above the MRCA its clade has
     * in the tree as it was before the loop, until one cannot be grafted. `srcs` records those MRCAs.
     */
    method GraftTaxa(t: Tree, ghost parent0: seq<int>, ghost depth0: seq<nat>, ghost id0: seq<string>, ghost height0: seq<real>)
      returns (r: Result<()>, ghost srcs: seq<nat>)
      requires t.Valid() && |taxonName| == |subTaxonSets|
      requires parent0 == t.parent && depth0 == t.depth && id0 == t.id && height0 == t.height
      modifies this, t
      ensures t.Valid()
      ensures taxonName == old(taxonName) && subTaxonSets == old(subTaxonSets)
      ensures t.root == old(t.root) && t.externalNodes == old(t.externalNodes)
      ensures r.Err? ==> exists k: nat :: (FirstFailing(parent0, depth0, t.externalNodes, id0, subTaxonSets, k)
        && r.msg == GraftFailure(Leaves(t.externalNodes, id0, subTaxonSets[k])))
      ensures r.Ok? ==> (|srcs| == |taxonName|
        && Progress(parent0, depth0, t.externalNodes, id0, height0, t.parent, t.depth, t.id, t.height, subTaxonSets, taxonName, srcs))
    {
      srcs := [];
      var i := 0;
      while i < |taxonName|
        invariant 0 <= i <= |taxonName| && t.Valid()
        invariant taxonName == old(taxonName) && subTaxonSets == old(subTaxonSets)
        invariant t.root == old(t.root) && t.externalNodes == old(t.externalNodes)
        invariant |srcs| == i
          && Progress(parent0, depth0, t.externalNodes, id0, height0, t.parent, t.depth, t.id, t.height, subTaxonSets, taxonName, srcs)
      {
        r, srcs := GraftNext(t, i, parent0, depth0, id0, height0, srcs);
        if r.Err? {
          return;
        }
        i := i + 1;
      }
      return Ok(()), srcs;
    }

    /** One turn of the loop of fossiliseTree, with the record of the grafts made so far. */
    method GraftNext(t: Tree, i: nat, ghost parent0: seq<int>, ghost depth0: seq<nat>, ghost id0: seq<string>,
                     ghost height0: seq<real>, ghost srcs: seq<nat>)
      returns (r: Result<()>, ghost srcs': seq<nat>)
      requires t.Valid() && i < |taxonName| && |taxonName| == |subTaxonSets| && |srcs| == i
      requires Progress(parent0, depth0, t.externalNodes, id0, height0, t.parent, t.depth, t.id, t.height, subTaxonSets, taxonName, srcs)
      modifies this, t
      ensures t.Valid()
      ensures taxonName == old(taxonName) && subTaxonSets == old(subTaxonSets)
      ensures t.root == old(t.root) && t.externalNodes == old(t.externalNodes)
      ensures r.Err? ==> (FirstFailing(parent0, depth0, t.externalNodes, id0, subTaxonSets, i)
        && r.msg == GraftFailure(Leaves(t.externalNodes, id0, subTaxonSets[i])))
      ensures r.Ok? ==> (|srcs'| == i + 1
        && Progress(parent0, depth0, t.externalNodes, id0, height0, t.parent, t.depth, t.id, t.height, subTaxonSets, taxonName, srcs'))
    {
      ProgressGraftable(parent0, depth0, t.externalNodes, id0, height0, t.parent, t.depth, t.id, t.height, subTaxonSets, taxonName, srcs);
      ghost var parent1, depth1, children1, id1, height1 := t.parent, t.depth, t.children, t.id, t.height;
      ghost var m;
      r, m := FossiliseOne(t, i);
      if r.Err? {
        return r, srcs;
      }
      ProgressStep(parent0, depth0, t.externalNodes, id0, height0, parent1, depth1, id1, height1,
                   t.parent, t.depth, t.id, t.height, subTaxonSets, taxonName, srcs, m);
      srcs' := srcs + [m];
    }

    /**
     * One iteration of the per-tree loop: the i-th taxon is grafted above the MRCA of the external
     * nodes its clade names. A clade that names none throws IndexOutOfBoundsException and an MRCA
     * at the root throws NullPointerException; the tree is then untouched.
     */
    method FossiliseOne(t: Tree, i: nat) returns (r: Result<()>, ghost m: nat)
      requires t.Valid() && i < |taxonName| && |taxonName| == |subTaxonSets|
      modifies this, t
      ensures t.Valid()
      ensures taxonName == old(taxonName) && subTaxonSets == old(subTaxonSets)
      ensures t.root == old(t.root) && t.externalNodes == old(t.externalNodes)
      ensures var leafs := Leaves(old(t.externalNodes), old(t.id), subTaxonSets[i]);
        (r.Ok? <==> Graftable(old(t.parent), old(t.depth), leafs))
        && (r.Err? ==> r.msg == GraftFailure(leafs) && unchanged(t))
        && (r.Ok? ==> (m < old(|t.parent|) && IsMrca(old(t.parent), old(t.depth), m, leafs) && old(t.parent)[m] >= 0
              && GraftedAt(old(t.parent), old(t.depth), old(t.children), old(t.height), old(t.id),
                           t.parent, t.depth, t.children, t.height, t.id, m, taxonName[i])))
    {
      var src := GetMRCA(t, subTaxonSets[i]);
      if src.Err? {
        return Err(src.msg), 0;
      }
      m := src.value;
      ghost var leafs := Leaves(t.externalNodes, t.id, subTaxonSets[i]);
      r := Graft(t, src.value, taxonName[i]);
      if r.Err? {
        // the MRCA is unique, and this one is the root
        forall m' | 0 <= m' < |t.parent| && IsMrca(t.parent, t.depth, m', leafs)
          ensures t.parent[m'] < 0
        {
          MrcaUnique(t.parent, t.depth, t.height, m', src.value, leafs);
        }
        return;
      }
    }

    /** Fossilises the i-th of a batch of distinct trees; the other trees are untouched. */
    method FossiliseAt(trees: seq<Tree>, i: nat) returns (r: Result<()>)
      requires i < |trees| && |taxonName| == |subTaxonSets|
      requires forall k :: 0 <= k < |trees| ==> trees[k].Valid()
      requires forall j, k :: 0 <= j < k < |trees| ==> trees[j] != trees[k]
      modifies this, trees[i]
      ensures taxonName == old(taxonName) && subTaxonSets == old(subTaxonSets)
      ensures forall k :: 0 <= k < |trees| ==> trees[k].Valid()
      ensures forall k :: 0 <= k < |trees| && k != i ==> unchanged(trees[k])
      ensures r.Ok? <==> AllGraftable(old(trees[i].Snap()), subTaxonSets)
      ensures r.Ok? ==> FossilisedFrom(old(trees[i].Snap()), trees[i].Snap(), subTaxonSets, taxonName)
      ensures r.Err? ==> FailsWith(old(trees[i].Snap()), subTaxonSets, r.msg)
    {
      r := FossiliseTree(trees[i]);
    }

    /**
     * run: the configuration is read, then every tree of the set, in order, has all configured
     * taxa grafted into it, until a clade cannot be grafted. On that exception `failed` is the tree
     * that threw: the trees before it are fossilised and the trees after it untouched. Each tree
     * is its own object; writing the trees out is not modelled.
     */
    method Run(cfg: string, trees: seq<Tree>) returns (r: Result<()>, ghost failed: nat)
      requires forall k :: 0 <= k < |trees| ==> trees[k].Valid()
      requires forall j, k :: 0 <= j < k < |trees| ==> trees[j] != trees[k]
      modifies this, set k | 0 <= k < |trees| :: trees[k]
      ensures CfgEntries(Split(cfg, '\n')).Err? ==> r == Err(CfgEntries(Split(cfg, '\n')).msg)
      ensures forall k :: 0 <= k < |trees| ==> trees[k].Valid()
      ensures r.Ok? <==> (CfgEntries(Split(cfg, '\n')).Ok?
        && forall k :: 0 <= k < |trees| ==> AllGraftable(old(trees[k].Snap()), subTaxonSets))
      ensures r.Ok? ==> (|taxonName| == |CfgEntries(Split(cfg, '\n')).value|
        && forall k :: 0 <= k < |trees| ==> FossilisedFrom(old(trees[k].Snap()), trees[k].Snap(), subTaxonSets, taxonName))
      ensures r.Err? && CfgEntries(Split(cfg, '\n')).Ok? ==> (failed < |trees|
        && !AllGraftable(old(trees[failed].Snap()), subTaxonSets) && FailsWith(old(trees[failed].Snap()), subTaxonSets, r.msg)
        && (forall j :: 0 <= j < failed ==> FossilisedFrom(old(trees[j].Snap()), trees[j].Snap(), subTaxonSets, taxonName))
        && (forall j :: failed < j < |trees| ==> unchanged(trees[j])))
    {
      failed := 0;
      r := ProcessCfgFile(cfg);
      if r.Err? {
        return;
      }
      assert forall j :: 0 <= j < |trees| ==> trees[j].Valid() && trees[j].Snap() == old(trees[j].Snap());
      r, failed := FossiliseTrees(trees);
    }

    /**
     * The loop of run over the trees: each tree in turn is fossilised, until one throws. On an
     * exception `k` is the tree that threw; the trees before it are fossilised and the trees after
     * it are untouched.
     */
    method FossiliseTrees(trees: seq<Tree>) returns (r: Result<()>, ghost k: nat)
      requires |taxonName| == |subTaxonSets|
      requires forall j :: 0 <= j < |trees| ==> trees[j].Valid()
      requires forall i, j :: 0 <= i < j < |trees| ==> trees[i] != trees[j]
      modifies this, set j | 0 <= j < |trees| :: trees[j]
      ensures taxonName == old(taxonName) && subTaxonSets == old(subTaxonSets)
      ensures forall j :: 0 <= j < |trees| ==> trees[j].Valid()
      ensures r.Ok? <==> forall j :: 0 <= j < |trees| ==> AllGraftable(old(trees[j].Snap()), subTaxonSets)
      ensures r.Ok? ==> forall j :: 0 <= j < |trees| ==> FossilisedFrom(old(trees[j].Snap()), trees[j].Snap(), subTaxonSets, taxonName)
      ensures r.Err? ==> (k < |trees|
        && !AllGraftable(old(trees[k].Snap()), subTaxonSets) && FailsWith(old(trees[k].Snap()), subTaxonSets, r.msg)
        && (forall j :: 0 <= j < k ==> FossilisedFrom(old(trees[j].Snap()), trees[j].Snap(), subTaxonSets, taxonName))
        && (forall j :: k < j < |trees| ==> unchanged(trees[j])))
    {
      r, k := Ok(()), 0;
      var i := 0;
      while i < |trees|
        invariant 0 <= i <= |trees| && r.Ok?
        invariant taxonName == old(taxonName) && subTaxonSets == old(subTaxonSets)
        invariant forall j :: 0 <= j < |trees| ==> trees[j].Valid()
        invariant forall j :: i <= j < |trees| ==> unchanged(trees[j])
        invariant forall j :: 0 <= j < i ==> AllGraftable(old(trees[j].Snap()), subTaxonSets)
        invariant forall j :: 0 <= j < i ==> FossilisedFrom(old(trees[j].Snap()), trees[j].Snap(), subTaxonSets, taxonName)
      {
        r := FossiliseAt(trees, i);
        if r.Err? {
          k := i;
          return;
        }
        i := i + 1;
      }
    }
  }

  /**
   * The grafts for names, made from node count base on, left the leaf named names[k] at
   * base + 2k + 1, as high as the new parent at base + 2k.
   */
  predicate FossilLabels(id: seq<string>, height: seq<real>, base: nat, names: seq<string>)
  {
    |id| >= base + 2 * |names| && |height| >= base + 2 * |names|
    && forall k :: 0 <= k < |names| ==> id[base + 2 * k + 1] == names[k] && height[base + 2 * k + 1] == height[base + 2 * k]
  }

  /** One more graft appends a parent and a leaf of the same height. */
  lemma FossilLabelsGrow(id: seq<string>, height: seq<real>, base: nat, names: seq<string>, name: string, h: real)
    requires FossilLabels(id, height, base, names) && |id| == |height| == base + 2 * |names|
    ensures FossilLabels(id + ["", name], height + [h, h], base, names + [name])
  {
    var id', height', names' := id + ["", name], height + [h, h], names + [name];
    forall k | 0 <= k < |names'|
      ensures id'[base + 2 * k + 1] == names'[k] && height'[base + 2 * k + 1] == height'[base + 2 * k]
    {
      if k < |names| {
        assert id'[base + 2 * k + 1] == id[base + 2 * k + 1] && names'[k] == names[k];
        assert height'[base + 2 * k + 1] == height[base + 2 * k + 1] && height'[base + 2 * k] == height[base + 2 * k];
      }
    }
  }

  /**
   * The state of the per-tree loop after |srcs| grafts: the tree arose by grafts above srcs, each
   * the most recent common ancestor in the original tree of the external nodes its clade names,
   * and not its root; the original nodes keep their IDs and heights, and each added leaf carries
   * its name at the height of its joining node, which is that of the ancestor.
   */
  ghost predicate Progress(parent0: seq<int>, depth0: seq<nat>, externalNodes: seq<nat>, id0: seq<string>, height0: seq<real>,
                           parent: seq<int>, depth: seq<nat>, id: seq<string>, height: seq<real>,
                           clades: seq<set<string>>, names: seq<string>, srcs: seq<nat>)
  {
    Linked(parent0, depth0) && Linked(parent, depth)
    && |id0| == |parent0| && |height0| == |parent0| && |clades| == |names| && |srcs| <= |names|
    && (forall k :: 0 <= k < |externalNodes| ==> externalNodes[k] < |parent0|)
    && GraftedAbove(parent0, depth0, parent, depth, srcs)
    && |id| == |parent| && |height| == |parent|
    && Labelled(id0, height0, id, height, names[..|srcs|])
    && CladeSources(parent0, depth0, externalNodes, id0, height0, height, clades, srcs)
  }

  /** The first labels and heights are the original ones, and each graft's leaf carries its name. */
  ghost predicate Labelled(id0: seq<string>, height0: seq<real>, id: seq<string>, height: seq<real>, names: seq<string>)
  {
    |id| >= |id0| && |height| >= |height0| && |id0| == |height0|
    && id[..|id0|] == id0 && height[..|id0|] == height0
    && FossilLabels(id, height, |id0|, names)
  }

  /** Graft k was made above the original MRCA srcs[k] of clade k, at that node's height. */
  ghost predicate CladeSources(parent0: seq<int>, depth0: seq<nat>, externalNodes: seq<nat>, id0: seq<string>, height0: seq<real>,
                               height: seq<real>, clades: seq<set<string>>, srcs: seq<nat>)
    requires Linked(parent0, depth0) && |id0| == |parent0| && |height0| == |parent0| && |srcs| <= |clades|
    requires forall k :: 0 <= k < |externalNodes| ==> externalNodes[k] < |parent0|
  {
    var base := |parent0|;
    |height| >= base + 2 * |srcs|
    && forall k :: 0 <= k < |srcs| ==>
         CladeSource(parent0, depth0, externalNodes, id0, height0, clades[k], srcs[k], height[base + 2 * k])
  }

  /** src is the original MRCA of the clade, it is not the root, and h is its height. */
  ghost predicate CladeSource(parent0: seq<int>, depth0: seq<nat>, externalNodes: seq<nat>, id0: seq<string>, height0: seq<real>,
                              clade: set<string>, src: nat, h: real)
    requires Linked(parent0, depth0) && |id0| == |parent0| && |height0| == |parent0|
    requires forall k :: 0 <= k < |externalNodes| ==> externalNodes[k] < |parent0|
  {
    src < |parent0| && IsMrca(parent0, depth0, src, Leaves(externalNodes, id0, clade)) && parent0[src] >= 0
    && Graftable(parent0, depth0, Leaves(externalNodes, id0, clade)) && h == height0[src]
  }

  /** Appending a graft's parent and leaf extends the labels by the graft's name. */
  lemma LabelledStep(id0: seq<string>, height0: seq<real>, id: seq<string>, height: seq<real>, names: seq<string>,
                     i: nat, h: real, id': seq<string>, height': seq<real>)
    requires i < |names| && Labelled(id0, height0, id, height, names[..i]) && |id| == |height| == |id0| + 2 * i
    requires id' == id + ["", names[i]] && height' == height + [h, h]
    ensures Labelled(id0, height0, id', height', names[..i + 1])
  {
    var name := names[i];
    assert names[..i + 1] == names[..i] + [name];
    FossilLabelsGrow(id, height, |id0|, names[..i], name, h);
    assert (id + ["", name])[..|id0|] == id[..|id0|];
    assert (height + [h, h])[..|id0|] == height[..|id0|];
  }

  /** A graft above the original MRCA of the next clade, at its height, extends the record. */
  lemma CladeSourcesStep(parent0: seq<int>, depth0: seq<nat>, externalNodes: seq<nat>, id0: seq<string>, height0: seq<real>,
                         height: seq<real>, clades: seq<set<string>>, srcs: seq<nat>, m: nat, height': seq<real>)
    requires Linked(parent0, depth0) && |id0| == |parent0| && |height0| == |parent0| && |srcs| < |clades|
    requires forall k :: 0 <= k < |externalNodes| ==> externalNodes[k] < |parent0|
    requires CladeSources(parent0, depth0, externalNodes, id0, height0, height, clades, srcs)
    requires |height| == |parent0| + 2 * |srcs| && m < |parent0|
    requires CladeSource(parent0, depth0, externalNodes, id0, height0, clades[|srcs|], m, height0[m])
    requires height' == height + [height0[m], height0[m]]
    ensures CladeSources(parent0, depth0, externalNodes, id0, height0, height', clades, srcs + [m])
  {
    var base, i := |parent0|, |srcs|;
    var srcs' := srcs + [m];
    forall k | 0 <= k < i + 1
      ensures CladeSource(parent0, depth0, externalNodes, id0, height0, clades[k], srcs'[k], height'[base + 2 * k])
    {
      if k < i {
        assert CladeSource(parent0, depth0, externalNodes, id0, height0, clades[k], srcs[k], height[base + 2 * k]);
        assert srcs'[k] == srcs[k] && height'[base + 2 * k] == height[base + 2 * k];
      } else {
        assert srcs'[k] == m && height'[base + 2 * k] == height0[m];
      }
    }
  }

  /** The original MRCA of a clade, when it is not the root, is a source for grafting that clade. */
  lemma MrcaCladeSource(parent0: seq<int>, depth0: seq<nat>, externalNodes: seq<nat>, id0: seq<string>, height0: seq<real>,
                        clade: set<string>, m: nat)
    requires Linked(parent0, depth0) && |id0| == |parent0| && |height0| == |parent0|
    requires forall k :: 0 <= k < |externalNodes| ==> externalNodes[k] < |parent0|
    requires m < |parent0| && parent0[m] >= 0 && |Leaves(externalNodes, id0, clade)| > 0
    requires IsMrca(parent0, depth0, m, Leaves(externalNodes, id0, clade))
    ensures CladeSource(parent0, depth0, externalNodes, id0, height0, clade, m, height0[m])
  {
    var leafs := Leaves(externalNodes, id0, clade);
    assert 0 <= m < |parent0| && IsMrca(parent0, depth0, m, leafs) && parent0[m] >= 0;
  }

  /** In the loop, the next clade can be grafted exactly when it could be in the original tree. */
  lemma ProgressGraftable(parent0: seq<int>, depth0: seq<nat>, externalNodes: seq<nat>, id0: seq<string>, height0: seq<real>,
                          parent: seq<int>, depth: seq<nat>, id: seq<string>, height: seq<real>,
                          clades: seq<set<string>>, names: seq<string>, srcs: seq<nat>)
    requires Progress(parent0, depth0, externalNodes, id0, height0, parent, depth, id, height, clades, names, srcs)
    requires |srcs| < |names|
    requires forall z :: 0 <= z < |parent| && parent[z] >= 0 ==> height[z] <= height[parent[z]]
    ensures Leaves(externalNodes, id, clades[|srcs|]) == Leaves(externalNodes, id0, clades[|srcs|])
    ensures Graftable(parent, depth, Leaves(externalNodes, id, clades[|srcs|]))
        <==> Graftable(parent0, depth0, Leaves(externalNodes, id0, clades[|srcs|]))
  {
    LeavesPrefix(externalNodes, id0, id, clades[|srcs|]);
    GraftableKept(parent0, depth0, parent, depth, height, srcs, Leaves(externalNodes, id0, clades[|srcs|]));
  }

  /** A graft above the next clade's most recent common ancestor advances the loop's state. */
  lemma ProgressStep(parent0: seq<int>, depth0: seq<nat>, externalNodes: seq<nat>, id0: seq<string>, height0: seq<real>,
                     parent1: seq<int>, depth1: seq<nat>, id1: seq<string>, height1: seq<real>,
                     parent: seq<int>, depth: seq<nat>, id: seq<string>, height: seq<real>,
                     clades: seq<set<string>>, names: seq<string>, srcs: seq<nat>, m: nat)
    requires Progress(parent0, depth0, externalNodes, id0, height0, parent1, depth1, id1, height1, clades, names, srcs)
    requires |srcs| < |names|
    requires forall z :: 0 <= z < |parent1| && parent1[z] >= 0 ==> height1[z] <= height1[parent1[z]]
    requires m < |parent1| && parent1[m] >= 0 && |Leaves(externalNodes, id0, clades[|srcs|])| > 0
    requires IsMrca(parent1, depth1, m, Leaves(externalNodes, id0, clades[|srcs|]))
    requires parent == GraftedParent(parent1, m) && depth == GraftDepth(parent1, depth1, m)
    requires id == id1 + ["", names[|srcs|]] && height == height1 + [height1[m], height1[m]]
    ensures Progress(parent0, depth0, externalNodes, id0, height0, parent, depth, id, height, clades, names, srcs + [m])
  {
    var base, i := |parent0|, |srcs|;
    var leafs := Leaves(externalNodes, id0, clades[i]);
    GraftedAboveMrca(parent0, depth0, parent1, depth1, height1, srcs, leafs, m);
    GraftedAboveStep(parent0, depth0, parent1, depth1, height1, srcs, m, parent, depth);
    LabelledStep(id0, height0, id1, height1, names, i, height1[m], id, height);
    assert height1[m] == height1[..base][m];
    MrcaCladeSource(parent0, depth0, externalNodes, id0, height0, clades[i], m);
    CladeSourcesStep(parent0, depth0, externalNodes, id0, height0, height1, clades, srcs, m, height);
  }

  /** After the last graft the loop's state is the fossilised tree. */
  lemma ProgressDone(parent0: seq<int>, depth0: seq<nat>, externalNodes: seq<nat>, id0: seq<string>, height0: seq<real>,
                     parent: seq<int>, depth: seq<nat>, id: seq<string>, height: seq<real>,
                     clades: seq<set<string>>, names: seq<string>, srcs: seq<nat>)
    requires Progress(parent0, depth0, externalNodes, id0, height0, parent, depth, id, height, clades, names, srcs)
    requires |srcs| == |names|
    ensures Fossilised(parent0, depth0, externalNodes, id0, parent, depth, id, height, clades, names)
    ensures forall j :: 0 <= j < |clades| ==> Graftable(parent0, depth0, Leaves(externalNodes, id0, clades[j]))
  {
    var base := |parent0|;
    assert names[..|srcs|] == names;
    forall k | 0 <= k < |names|
      ensures id[base + 2 * k + 1] == names[k] && parent[base + 2 * k + 1] == base + 2 * k
      ensures height[base + 2 * k + 1] == height[base + 2 * k]
      ensures AboveNone(parent0, parent, depth, base + 2 * k + 1)
      ensures exists m :: 0 <= m < base && IsMrca(parent0, depth0, m, Leaves(externalNodes, id0, clades[k]))
               && parent0[m] >= 0 && height[base + 2 * k] == height[m]
               && HangsAbove(parent0, depth0, parent, depth, base + 2 * k, m)
    {
      ProgressDoneOne(parent0, depth0, externalNodes, id0, height0, parent, depth, id, height, clades, names, srcs, k);
    }
  }

  /** Graft k of the finished loop is the fossil of clade k. */
  lemma ProgressDoneOne(parent0: seq<int>, depth0: seq<nat>, externalNodes: seq<nat>, id0: seq<string>, height0: seq<real>,
                        parent: seq<int>, depth: seq<nat>, id: seq<string>, height: seq<real>,
                        clades: seq<set<string>>, names: seq<string>, srcs: seq<nat>, k: nat)
    requires Progress(parent0, depth0, externalNodes, id0, height0, parent, depth, id, height, clades, names, srcs)
    requires |srcs| == |names| && k < |names|
    ensures var base := |parent0|;
      id[base + 2 * k + 1] == names[k] && parent[base + 2 * k + 1] == base + 2 * k
      && height[base + 2 * k + 1] == height[base + 2 * k]
      && AboveNone(parent0, parent, depth, base + 2 * k + 1)
      && srcs[k] < base && IsMrca(parent0, depth0, srcs[k], Leaves(externalNodes, id0, clades[k]))
      && parent0[srcs[k]] >= 0 && height[base + 2 * k] == height[srcs[k]]
      && HangsAbove(parent0, depth0, parent, depth, base + 2 * k, srcs[k])
  {
    var base, m := |parent0|, srcs[k];
    assert names[..|srcs|] == names;
    assert id[base + 2 * k + 1] == names[k] && height[base + 2 * k + 1] == height[base + 2 * k];
    assert CladeSource(parent0, depth0, externalNodes, id0, height0, clades[k], m, height[base + 2 * k]);
    assert height[m] == height[..base][m];
  }

  /** A fresh table has no marks. */
  lemma {:induction false} AllFalse(s: seq<bool>)
    requires forall k :: 0 <= k < |s| ==> !s[k]
    ensures CountTrue(s) == 0
  {
    if |s| > 0 {
      AllFalse(s[..|s| - 1]);
    }
  }

  /** Folding one more leaf into the MRCA of the first k leaves gives the MRCA of k + 1 leaves. */
  lemma MrcaExtend(t: Tree, cur: nat, next: nat, leafs: seq<nat>, k: nat)
    requires t.Valid() && cur < |t.parent| && next < |t.parent|
    requires 1 <= k < |leafs| && forall j :: 0 <= j < |leafs| ==> leafs[j] < |t.parent|
    requires IsMrca(t.parent, t.depth, cur, leafs[..k])
    requires IsMrca(t.parent, t.depth, next, [cur, leafs[k]])
    ensures IsMrca(t.parent, t.depth, next, leafs[..k + 1])
  {
    var xs := leafs[..k + 1];
    assert AncestorOrSelf(t.parent, t.depth, next, [cur, leafs[k]][0]);
    assert AncestorOrSelf(t.parent, t.depth, next, [cur, leafs[k]][1]);
    forall j | 0 <= j < |xs|
      ensures AncestorOrSelf(t.parent, t.depth, next, xs[j])
    {
      if j < k {
        assert xs[j] == leafs[..k][j];
        AncestorTrans(t.parent, t.depth, next, cur, xs[j]);
      }
    }
    forall a | 0 <= a < |t.parent| && (forall j :: 0 <= j < |xs| ==> AncestorOrSelf(t.parent, t.depth, a, xs[j]))
      ensures AncestorOrSelf(t.parent, t.depth, a, next)
    {
      assert forall j :: 0 <= j < k ==> leafs[..k][j] == xs[j];
      assert AncestorOrSelf(t.parent, t.depth, a, cur);
      assert AncestorOrSelf(t.parent, t.depth, a, [cur, leafs[k]][1]);
    }
  }
}

=== FILE: TreeSet.dfy ===
/**
 * Trees of a tree set and the bookkeeping shared by the classes that read a tree set: burn-in
 * trimming, reconciliation of the set's taxa with a reference tree's taxa (pruning the extra
 * leaves and renumbering the internal nodes that survive), relabelling of the leaves by
 * reference index, and the max + log-mean-exp reduction of per-tree log-likelihoods.
 */
module TreeSet {
  import opened Common
  import opened JavaErrors

  /**
   * A node of a binary tree: a leaf with an optional taxon ID and a number, or an internal node
   * with two children and a number.
   */
  datatype Node = Leaf(id: Option<string>, nr: int) | Internal(left: Node, right: Node, nr: int)

  /** A parsed tree: what getTaxaNames returns for it, and its root. */
  datatype Tree = Tree(taxa: seq<string>, root: Node)

  /** The message for a tree file without trees, which names the file. */
  function NoTrees(fileName: string): string
  {
    "Could not find any trees in nexus file " + fileName
  }

  const BurninTooLarge: string := "burnin percentage should not exceed 100%"

  /** The message for a reference taxon that the tree set lacks, which names the taxon. */
  function MissingTaxon(id: string): string
  {
    "Cannot find taxon " + id + " from tree in list of taxa names "
      + "in tree set. This may be due to a spelling error, or different case (matching is case sensitive)."
  }

  /** indexOf: the first position whose name equals id exactly, or −1. */
  function IndexOf(names: seq<string>, id: string): (r: int)
    ensures -1 <= r < |names|
    ensures r == -1 <==> id !in names
    ensures r >= 0 ==> names[r] == id && forall k :: 0 <= k < r ==> names[k] != id
  {
    if |names| == 0 then -1
    else if names[0] == id then 0
    else
      var r := IndexOf(names[1..], id);
      assert forall k :: 1 <= k < |names| ==> names[k] == names[1..][k - 1];
      if r == -1 then -1 else r + 1
  }

  /** The leaves of a tree, left to right. */
  function Leaves(n: Node): (ls: seq<Node>)
    ensures |ls| >= 1 && forall k :: 0 <= k < |ls| ==> ls[k].Leaf?
  {
    match n
    case Leaf(_, _) => [n]
    case Internal(l, r, _) => Leaves(l) + Leaves(r)
  }

  /** The numbers of the internal nodes, in post-order. */
  function InternalNrs(n: Node): seq<int>
  {
    match n
    case Leaf(_, _) => []
    case Internal(l, r, nr) => InternalNrs(l) + InternalNrs(r) + [nr]
  }

  /** The integers lo, lo + 1, …, hi − 1. */
  function Range(lo: int, hi: int): (s: seq<int>)
    requires lo <= hi
    ensures |s| == hi - lo && forall k :: 0 <= k < |s| ==> s[k] == lo + k
  {
    seq(hi - lo, k requires 0 <= k < hi - lo => lo + k)
  }

  lemma RangeSplit(lo: int, mid: int, hi: int)
    requires lo <= mid <= hi
    ensures Range(lo, mid) + Range(mid, hi) + [hi] == Range(lo, hi + 1)
  {
  }

  /** A leaf whose ID is one of the excluded taxa. */
  predicate Excluded(tabu: set<string>, leaf: Node)
  {
    leaf.Leaf? && leaf.id.Some? && leaf.id.value in tabu
  }

  /** The leaves that are not excluded, in their order. */
  function Surviving(tabu: set<string>, ls: seq<Node>): seq<Node>
  {
    if |ls| == 0 then []
    else (if Excluded(tabu, ls[0]) then [] else [ls[0]]) + Surviving(tabu, ls[1..])
  }

  /** The surviving leaves are leaves of the input, none excluded, and no more than there were. */
  lemma {:induction false} SurvivingSubset(tabu: set<string>, ls: seq<Node>)
    ensures |Surviving(tabu, ls)| <= |ls|
    ensures forall x :: x in Surviving(tabu, ls) ==> x in ls && !Excluded(tabu, x)
  {
    if |ls| > 0 {
      SurvivingSubset(tabu, ls[1..]);
    }
  }

  lemma {:induction false} SurvivingAppend(tabu: set<string>, xs: seq<Node>, ys: seq<Node>)
    ensures Surviving(tabu, xs + ys) == Surviving(tabu, xs) + Surviving(tabu, ys)
  {
    if |xs| > 0 {
      assert (xs + ys)[1..] == xs[1..] + ys;
      SurvivingAppend(tabu, xs[1..], ys);
    } else {
      assert xs + ys == ys;
    }
  }

  /**
   * removeTaxa, with `tabu` the set of taxa to exclude and `counter` the next internal node number:
   * the pruned subtree (None where Java returns null) and the counter afterwards. An internal node
   * that loses one side is replaced by the other side; one that keeps both is renumbered after its
   * children. The result is empty exactly when every leaf below is excluded, otherwise its leaves
   * are the surviving ones in order and its internal nodes are numbered counter, counter + 1, …
   * in post-order, the counter ending one past the last.
   */
  function RemoveTaxa(tabu: set<string>, node: Node, counter: int): (r: (Option<Node>, int))
    ensures r.1 >= counter
    ensures r.0.None? <==> Surviving(tabu, Leaves(node)) == []
    ensures r.0.Some? ==> Leaves(r.0.value) == Surviving(tabu, Leaves(node))
    ensures r.0.Some? ==> InternalNrs(r.0.value) == Range(counter, r.1)
    ensures r.0.None? ==> r.1 == counter
  {
    match node
    case Leaf(id, _) =>
      if id.Some? && id.value in tabu then (None, counter) else (Some(node), counter)
    case Internal(l, r, _) =>
      var (left, c1) := RemoveTaxa(tabu, l, counter);
      var (right, c2) := RemoveTaxa(tabu, r, c1);
      SurvivingAppend(tabu, Leaves(l), Leaves(r));
      if left.None? && right.None? then (None, c2)
      else if left.None? then (right, c2)
      else if right.None? then (left, c2)
      else
        RangeSplit(counter, c1, c2);
        (Some(Internal(left.value, right.value, c2)), c2 + 1)
  }

  /** relabel: every leaf with an ID gets that ID's index in names as its number. */
  function Relabel(names: seq<string>, node: Node): (r: Node)
    ensures |Leaves(r)| == |Leaves(node)|
    ensures forall k :: 0 <= k < |Leaves(r)| ==> Leaves(r)[k].id == Leaves(node)[k].id
    ensures forall k :: 0 <= k < |Leaves(r)| ==>
      Leaves(r)[k].nr == (if Leaves(node)[k].id.Some? then IndexOf(names, Leaves(node)[k].id.value) else Leaves(node)[k].nr)
    ensures InternalNrs(r) == InternalNrs(node)
  {
    match node
    case Leaf(id, nr) => if id.Some? then Leaf(id, IndexOf(names, id.value)) else node
    case Internal(l, rt, nr) =>
      var l', r' := Relabel(names, l), Relabel(names, rt);
      assert Leaves(Internal(l', r', nr)) == Leaves(l') + Leaves(r');
      Internal(l', r', nr)
  }

  /**
   * After pruning the taxa outside names and relabelling, every leaf's number lies in
   * [0, |names|), provided every leaf has an ID that is either one of the names or excluded.
   */
  lemma FilteredLeavesNumbered(names: seq<string>, tabu: set<string>, node: Node, counter: int)
    requires forall k :: 0 <= k < |Leaves(node)| ==>
      Leaves(node)[k].id.Some? && (Leaves(node)[k].id.value in names || Leaves(node)[k].id.value in tabu)
    requires RemoveTaxa(tabu, node, counter).0.Some?
    ensures forall k :: 0 <= k < |Leaves(Relabel(names, RemoveTaxa(tabu, node, counter).0.value))| ==>
      0 <= Leaves(Relabel(names, RemoveTaxa(tabu, node, counter).0.value))[k].nr < |names|
  {
    var pruned := RemoveTaxa(tabu, node, counter).0.value;
    SurvivingSubset(tabu, Leaves(node));
    forall k | 0 <= k < |Leaves(Relabel(names, pruned))|
      ensures 0 <= Leaves(Relabel(names, pruned))[k].nr < |names|
    {
      var leaf := Leaves(pruned)[k];
      assert leaf in Leaves(node) && !Excluded(tabu, leaf);
    }
  }

  /** The IDs of the leaves that have one, left to right: the taxa of a rebuilt tree. */
  function LeafIds(ls: seq<Node>): seq<string>
  {
    if |ls| == 0 then []
    else (if ls[0].Leaf? && ls[0].id.Some? then [ls[0].id.value] else []) + LeafIds(ls[1..])
  }

  /**
   * `size * percentage / 100` in 32-bit int arithmetic (the product wraps, the division
   * truncates toward zero), clamped at 0.
   */
  function BurninCount(size: nat, percentage: int): (b: int)
    ensures b >= 0
  {
    var q := JavaDiv(Wrap32(size * percentage), 100);
    if q < 0 then 0 else q
  }

  /** Java int overflow: the product is taken modulo 2³², as a signed value. */
  function Wrap32(x: int): (w: int)
    ensures IntMinValue <= w <= IntMaxValue
    ensures IntMinValue <= x <= IntMaxValue ==> w == x
  {
    (x - IntMinValue) % 0x1_0000_0000 + IntMinValue
  }

  const IntMinValue: int := -0x8000_0000
  const IntMaxValue: int := 0x7FFF_FFFF

  /** Without overflow and with a non-negative percentage, the count is ⌊size·percentage/100⌋. */
  lemma BurninCountExact(size: nat, percentage: int)
    requires percentage >= 0 && size * percentage <= IntMaxValue
    ensures BurninCount(size, percentage) == size * percentage / 100
  {
    MulMonotone(0, size, percentage);
  }

  /** The set names that the reference names do not contain. */
  function Tabu(setNames: seq<string>, names: seq<string>): (t: set<string>)
    ensures forall x :: x in t <==> x in setNames && x !in names
  {
    set x | x in setNames && x !in names
  }

  /** Each tree pruned to the reference taxa, its internal nodes renumbered from |names|. */
  function Filtered(trees: seq<Tree>, tabu: set<string>, first: nat): (r: Result<seq<Tree>>)
    ensures r.Ok? ==> |r.value| == |trees|
  {
    if |trees| == 0 then Ok([])
    else
      var pruned := RemoveTaxa(tabu, trees[0].root, first).0;
      if pruned.None? then Err(NullPointer)
      else
        var rest := Filtered(trees[1..], tabu, first);
        if rest.Err? then rest
        else Ok([Tree(LeafIds(Leaves(pruned.value)), pruned.value)] + rest.value)
  }

  /** Every tree relabelled against names. */
  function RelabelAll(trees: seq<Tree>, names: seq<string>): (r: seq<Tree>)
    ensures |r| == |trees|
    ensures forall k :: 0 <= k < |r| ==> r[k] == Tree(trees[k].taxa, Relabel(names, trees[k].root))
  {
    seq(|trees|, k requires 0 <= k < |trees| => Tree(trees[k].taxa, Relabel(names, trees[k].root)))
  }

  /** The first of names that setNames lacks, if any. */
  function FirstMissing(names: seq<string>, setNames: seq<string>): (r: Option<string>)
    ensures r.None? <==> forall k :: 0 <= k < |names| ==> names[k] in setNames
    ensures r.Some? ==> r.value in names && r.value !in setNames
  {
    if |names| == 0 then None
    else if IndexOf(setNames, names[0]) == -1 then Some(names[0])
    else FirstMissing(names[1..], setNames)
  }

  /**
   * The tree set initAndValidate keeps: no trees is an error; the burn-in trees are dropped from
   * the front (more than there are is an error, and dropping all of them leaves no first tree to
   * read); a reference taxon absent from the first tree is an error; taxa of the first tree that
   * the reference lacks are pruned from every tree; finally every tree is relabelled.
   */
  function Prepared(fileName: string, parsed: seq<Tree>, percentage: int, names: seq<string>): (r: Result<seq<Tree>>)
    ensures r.Ok? ==> 0 < |r.value| == |parsed| - BurninCount(|parsed|, percentage)
  {
    if |parsed| == 0 then Err(NoTrees(fileName))
    else
      var burnin := BurninCount(|parsed|, percentage);
      if burnin > |parsed| then Err(BurninTooLarge)
      else if burnin == |parsed| then Err(IndexOutOfBounds)
      else
        var trees := parsed[burnin..];
        var setNames := trees[0].taxa;
        if FirstMissing(names, setNames).Some? then Err(MissingTaxon(FirstMissing(names, setNames).value))
        else
          var tabu := Tabu(setNames, names);
          var kept := if |tabu| > 0 then Filtered(trees, tabu, |names|) else Ok(trees);
          if kept.Err? then kept
          else Ok(RelabelAll(kept.value, names))
  }

  /**
   * The tree set is what is left after the burn-in, in order, one tree for each kept tree; the
   * error cases are exactly the ones listed above.
   */
  lemma PreparedShape(fileName: string, parsed: seq<Tree>, percentage: int, names: seq<string>)
    ensures |parsed| == 0 ==> Prepared(fileName, parsed, percentage, names) == Err(NoTrees(fileName))
    ensures |parsed| > 0 && BurninCount(|parsed|, percentage) > |parsed| ==>
      Prepared(fileName, parsed, percentage, names) == Err(BurninTooLarge)
    ensures Prepared(fileName, parsed, percentage, names).Ok? ==>
      BurninCount(|parsed|, percentage) < |parsed|
      && |Prepared(fileName, parsed, percentage, names).value| == |parsed| - BurninCount(|parsed|, percentage)
    ensures Prepared(fileName, parsed, percentage, names).Ok? ==>
      forall k :: 0 <= k < |names| ==> names[k] in parsed[BurninCount(|parsed|, percentage)].taxa
  {
  }

  /** A reference taxon missing from the first kept tree throws, naming the first such taxon. */
  lemma PreparedMissingTaxon(fileName: string, parsed: seq<Tree>, percentage: int, names: seq<string>)
    requires BurninCount(|parsed|, percentage) < |parsed|
    requires FirstMissing(names, parsed[BurninCount(|parsed|, percentage)].taxa).Some?
    ensures Prepared(fileName, parsed, percentage, names)
      == Err(MissingTaxon(FirstMissing(names, parsed[BurninCount(|parsed|, percentage)].taxa).value))
  {
    var trees := parsed[BurninCount(|parsed|, percentage)..];
    assert trees[0] == parsed[BurninCount(|parsed|, percentage)];
  }

  /** When the first tree has no extra taxa, the trees after the burn-in are only relabelled. */
  lemma NoExtraTaxaOnlyRelabels(fileName: string, parsed: seq<Tree>, percentage: int, names: seq<string>)
    requires Prepared(fileName, parsed, percentage, names).Ok?
    requires forall x :: x in parsed[BurninCount(|parsed|, percentage)].taxa ==> x in names
    ensures Prepared(fileName, parsed, percentage, names).value
      == RelabelAll(parsed[BurninCount(|parsed|, percentage)..], names)
  {
    var setNames := parsed[BurninCount(|parsed|, percentage)].taxa;
    assert Tabu(setNames, names) == {};
  }

  /**
   * The list the tree set field refers to when preparation throws. It is the parsed list itself,
   * assigned before any check; once the burn-in count has passed its check, the burn-in trees have
   * been removed from its front. The pruned list is assigned only after every tree was pruned,
   * so a failure while pruning still leaves the trimmed list.
   */
  function TreesAtFailure(parsed: seq<Tree>, percentage: int): (h: seq<Tree>)
    ensures |h| <= |parsed| && h == parsed[|parsed| - |h|..]
    ensures |parsed| > 0 && BurninCount(|parsed|, percentage) <= |parsed| ==>
      |h| == |parsed| - BurninCount(|parsed|, percentage)
    ensures (|parsed| == 0 || BurninCount(|parsed|, percentage) > |parsed|) ==> h == parsed
  {
    if |parsed| == 0 then parsed
    else
      var burnin := BurninCount(|parsed|, percentage);
      if burnin > |parsed| then parsed else parsed[burnin..]
  }

  /**
   * The initAndValidate steps, in the source's loops: drop the burn-in trees one at a time from
   * the front, check every reference taxon, collect the extra taxa, prune every tree, relabel.
   * `held` is the list the tree set field refers to at the point the steps stop.
   */
  method PrepareTrees(fileName: string, parsed: seq<Tree>, percentage: int, names: seq<string>)
    returns (r: Result<seq<Tree>>, held: seq<Tree>)
    ensures r == Prepared(fileName, parsed, percentage, names)
    ensures r.Err? ==> held == TreesAtFailure(parsed, percentage)
    ensures r.Ok? ==> held == r.value
  {
    held := parsed;
    if |parsed| == 0 {
      return Err(NoTrees(fileName)), held;
    }
    var burnin := BurninCount(|parsed|, percentage);
    if burnin > |parsed| {
      return Err(BurninTooLarge), held;
    }
    var trees := DropFront(parsed, burnin);
    held := trees;
    if |trees| == 0 {
      return Err(IndexOutOfBounds), held;
    }
    var setNames := trees[0].taxa;
    var missing := FindMissing(names, setNames);
    if missing.Some? {
      return Err(MissingTaxon(missing.value)), held;
    }
    var tabu := CollectTabu(setNames, names);
    if |tabu| > 0 {
      var filtered := FilterTrees(trees, tabu, |names|);
      if filtered.Err? {
        return filtered, held;
      }
      trees := filtered.value;
    }
    trees := RelabelTrees(trees, names);
    return Ok(trees), trees;
  }

  /** The burn-in loop: `trees.remove(0)` count times. */
  method DropFront(parsed: seq<Tree>, count: nat) returns (trees: seq<Tree>)
    requires count <= |parsed|
    ensures trees == parsed[count..]
  {
    trees := parsed;
    for i := 0 to count
      invariant trees == parsed[i..]
    {
      trees := trees[1..];
    }
  }

  /** The taxon check loop: the first reference name missing from the set's names, if any. */
  method FindMissing(names: seq<string>, setNames: seq<string>) returns (missing: Option<string>)
    ensures missing == FirstMissing(names, setNames)
  {
    for i := 0 to |names|
      invariant FirstMissing(names, setNames) == FirstMissing(names[i..], setNames)
    {
      if IndexOf(setNames, names[i]) == -1 {
        return Some(names[i]);
      }
      assert names[i..][1..] == names[i + 1..];
    }
    return None;
  }

  /** The loop collecting the set's names that the reference lacks. */
  method CollectTabu(setNames: seq<string>, names: seq<string>) returns (tabu: set<string>)
    ensures tabu == Tabu(setNames, names)
  {
    tabu := {};
    for i := 0 to |setNames|
      invariant tabu == Tabu(setNames[..i], names)
    {
      if IndexOf(names, setNames[i]) == -1 {
        tabu := tabu + {setNames[i]};
      }
      assert setNames[..i + 1] == setNames[..i] + [setNames[i]];
    }
    assert setNames[..|setNames|] == setNames;
  }

  /** The loop replacing every tree by `new Tree(removeTaxa(root, tabu, counter))`. */
  method FilterTrees(trees: seq<Tree>, tabu: set<string>, first: nat) returns (r: Result<seq<Tree>>)
    ensures r == Filtered(trees, tabu, first)
  {
    var filtered: seq<Tree> := [];
    assert trees[0..] == trees;
    assert Filtered(trees, tabu, first).Ok? ==> [] + Filtered(trees, tabu, first).value == Filtered(trees, tabu, first).value;
    for i := 0 to |trees|
      invariant Filtered(trees, tabu, first) == FilteredFrom(filtered, trees[i..], tabu, first)
    {
      assert trees[i..][1..] == trees[i + 1..];
      FilteredFromStep(filtered, trees[i..], tabu, first);
      var pruned := RemoveTaxa(tabu, trees[i].root, first).0;
      if pruned.None? {
        return Err(NullPointer);
      }
      filtered := filtered + [Tree(LeafIds(Leaves(pruned.value)), pruned.value)];
    }
    assert trees[|trees|..] == [];
    assert filtered + [] == filtered;
    return Ok(filtered);
  }

  /** Pruning the next pending tree moves it to the pruned ones, or ends with the error. */
  lemma FilteredFromStep(done: seq<Tree>, rest: seq<Tree>, tabu: set<string>, first: nat)
    requires |rest| > 0
    ensures var pruned := RemoveTaxa(tabu, rest[0].root, first).0;
      FilteredFrom(done, rest, tabu, first)
        == if pruned.None? then Err(NullPointer)
           else FilteredFrom(done + [Tree(LeafIds(Leaves(pruned.value)), pruned.value)], rest[1..], tabu, first)
  {
    var pruned := RemoveTaxa(tabu, rest[0].root, first).0;
    if pruned.Some? {
      var t := Tree(LeafIds(Leaves(pruned.value)), pruned.value);
      var tail := Filtered(rest[1..], tabu, first);
      if tail.Ok? {
        assert done + ([t] + tail.value) == (done + [t]) + tail.value;
      }
    }
  }

  /** The relabelling loop. */
  method RelabelTrees(trees: seq<Tree>, names: seq<string>) returns (relabelled: seq<Tree>)
    ensures relabelled == RelabelAll(trees, names)
  {
    relabelled := [];
    for i := 0 to |trees|
      invariant relabelled == RelabelAll(trees[..i], names)
    {
      relabelled := relabelled + [Tree(trees[i].taxa, Relabel(names, trees[i].root))];
    }
    assert trees[..|trees|] == trees;
  }

  /** What Filtered gives when `done` trees have already been pruned. */
  function FilteredFrom(done: seq<Tree>, rest: seq<Tree>, tabu: set<string>, first: nat): Result<seq<Tree>>
  {
    var tail := Filtered(rest, tabu, first);
    if tail.Err? then tail else Ok(done + tail.value)
  }

  /** The tree likelihood of every tree of the set, in order. */
  function Evaluated(trees: seq<Tree>, eval: Tree -> real): (xs: seq<real>)
    ensures |xs| == |trees| && forall k :: 0 <= k < |trees| ==> xs[k] == eval(trees[k])
  {
    seq(|trees|, k requires 0 <= k < |trees| => eval(trees[k]))
  }

  /** exp(x_i − m) for every per-tree value x_i. */
  function Shifted(xs: seq<real>, m: real, exp: real -> real): (s: seq<real>)
    ensures |s| == |xs| && forall k :: 0 <= k < |xs| ==> s[k] == exp(xs[k] - m)
  {
    seq(|xs|, k requires 0 <= k < |xs| => exp(xs[k] - m))
  }

  /** max + log(mean of exp(x_i − max)), with exp and log as given. */
  function LogMeanExp(xs: seq<real>, exp: real -> real, ln: real -> real): real
    requires |xs| > 0
  {
    Max(xs) + ln(Sum(Shifted(xs, Max(xs), exp)) / (|xs| as real))
  }

  /** Sum of n copies of 1. */
  lemma {:induction false} SumOfOnes(s: seq<real>)
    requires forall k :: 0 <= k < |s| ==> s[k] == 1.0
    ensures Sum(s) == |s| as real
  {
    if |s| > 0 {
      SumOfOnes(s[..|s| - 1]);
    }
  }

  /**
   * When every tree has the same value x (in particular with one tree) the reduction gives x,
   * for any exp with exp(0) = 1 and log with log(1) = 0.
   */
  lemma LogMeanExpOfEqual(xs: seq<real>, x: real, exp: real -> real, ln: real -> real)
    requires |xs| > 0 && forall k :: 0 <= k < |xs| ==> xs[k] == x
    requires exp(0.0) == 1.0 && ln(1.0) == 0.0
    ensures LogMeanExp(xs, exp, ln) == x
  {
    MaxIsMaximum(xs);
    assert Max(xs) == x;
    var s := Shifted(xs, x, exp);
    forall k | 0 <= k < |s|
      ensures s[k] == 1.0
    {
      assert xs[k] - x == 0.0;
    }
    SumOfOnes(s);
    var n := |xs| as real;
    assert Sum(s) / n == 1.0;
  }

  /**
   * The evaluation loop of calculateLogP: each tree in turn is assigned to the working tree
   * (returned as it is left, the last tree) and evaluated into a fresh zeroed array.
   */
  method EvaluateInTurn(trees: seq<Tree>, eval: Tree -> real) returns (treeLogP: array<real>, working: Tree)
    requires |trees| > 0
    ensures fresh(treeLogP) && treeLogP[..] == Evaluated(trees, eval) && working == trees[|trees| - 1]
  {
    var n := |trees|;
    treeLogP := new real[n](_ => 0.0);
    working := trees[0];
    for i := 0 to n
      invariant forall k :: 0 <= k < i ==> treeLogP[k] == eval(trees[k])
      invariant forall k :: i <= k < n ==> treeLogP[k] == 0.0
      invariant i > 0 ==> working == trees[i - 1]
    {
      working := trees[i];
      treeLogP[i] := treeLogP[i] + eval(working);
    }
    assert treeLogP[..] == Evaluated(trees, eval);
  }

  /** The reduction loops of calculateLogP over the per-tree values. */
  method Reduce(treeLogP: array<real>, exp: real -> real, ln: real -> real) returns (logP: real)
    requires treeLogP.Length > 0
    ensures logP == LogMeanExp(treeLogP[..], exp, ln)
  {
    var n := treeLogP.Length;
    ghost var xs := treeLogP[..];
    var max := treeLogP[0];
    for i := 0 to n
      invariant max == (if i == 0 then xs[0] else Max(xs[..i]))
    {
      max := if treeLogP[i] >= max then treeLogP[i] else max;
      assert xs[..i + 1][..i] == xs[..i];
    }
    assert xs[..n] == xs;
    var sum := 0.0;
    for i := 0 to n
      invariant sum == Sum(Shifted(xs[..i], max, exp))
    {
      assert Shifted(xs[..i + 1], max, exp)[..i] == Shifted(xs[..i], max, exp);
      sum := sum + exp(treeLogP[i] - max);
    }
    sum := sum / (n as real);
    logP := max + ln(sum);
  }
}

=== FILE: TreeSetLikelihood.dfy ===
/**
 * The likelihood of a tree set: every tree kept after burn-in is assigned in turn to the tree of
 * a tree likelihood, and the per-tree log-likelihoods are combined as the log of their mean
 * likelihood. The indexed variant evaluates only the tree an integer index points to.
 */
module BeastTreeSet {
  import opened Common
  import opened TreeSet

  class TreeSetLikelihood {
    /** The tree set after initAndValidate. */
    var trees: seq<Tree>
    /** The tree of the tree likelihood: its taxa are the reference names, and each tree is assigned into it. */
    var tree0: Tree
    var logP: real

    constructor (tree: Tree)
      ensures tree0 == tree && trees == [] && logP == 0.0
    {
      tree0 := tree;
      trees := [];
      logP := 0.0;
    }

    /**
     * initAndValidate on the parsed trees: the prepared tree set against the reference tree's
     * taxa, or the error that preparation ends in. The tree set is the parsed list from the start,
     * so after an error it holds that list, trimmed of the burn-in once the trimming was reached.
     */
    method InitAndValidate(fileName: string, parsed: seq<Tree>, burninPercentage: int) returns (r: Result<()>)
      modifies this
      ensures tree0 == old(tree0) && logP == old(logP)
      ensures var p := Prepared(fileName, parsed, burninPercentage, tree0.taxa);
        (r.Ok? <==> p.Ok?) && (p.Ok? ==> trees == p.value && |trees| > 0)
        && (p.Err? ==> r.msg == p.msg && trees == TreesAtFailure(parsed, burninPercentage))
    {
      var p, held := PrepareTrees(fileName, parsed, burninPercentage, tree0.taxa);
      if p.Err? {
        trees := held;
        return Err(p.msg);
      }
      PreparedShape(fileName, parsed, burninPercentage, tree0.taxa);
      trees := p.value;
      return Ok(());
    }

    /**
     * calculateLogP: each tree in turn is assigned to the working tree and evaluated; the result
     * is the log of the mean of the trees' likelihoods, computed as max + log(mean exp(x − max)).
     */
    method CalculateLogP(eval: Tree -> real, exp: real -> real, ln: real -> real) returns (r: real)
      requires |trees| > 0
      modifies this
      ensures trees == old(trees) && tree0 == trees[|trees| - 1]
      ensures r == logP == LogMeanExp(Evaluated(trees, eval), exp, ln)
    {
      logP := 0.0;
      var treeLogP, working := EvaluateInTurn(trees, eval);
      tree0 := working;
      logP := Reduce(treeLogP, exp, ln);
      r := logP;
    }
  }

  class IndexedTreeSetLikelihood {
    var trees: seq<Tree>
    var tree0: Tree
    var logP: ExtReal
    /** The value of the index parameter. */
    var index: int
    /** The index parameter's upper bound. */
    var indexUpper: int
    var prevTree: int

    constructor (tree: Tree, indexValue: int, upper: int)
      ensures tree0 == tree && trees == [] && logP == Finite(0.0)
      ensures index == indexValue && indexUpper == upper && prevTree == 0
    {
      tree0 := tree;
      trees := [];
      logP := Finite(0.0);
      index := indexValue;
      indexUpper := upper;
      prevTree := 0;
    }

    /** initAndValidate: the tree set as for the whole-set likelihood; the index's upper bound becomes the set size. */
    method InitAndValidate(fileName: string, parsed: seq<Tree>, burninPercentage: int) returns (r: Result<()>)
      modifies this
      ensures tree0 == old(tree0) && logP == old(logP) && index == old(index)
      ensures var p := Prepared(fileName, parsed, burninPercentage, tree0.taxa);
        (r.Ok? <==> p.Ok?)
        && (p.Ok? ==> trees == p.value && |trees| > 0 && indexUpper == |trees| && prevTree == -1)
        && (p.Err? ==> (r.msg == p.msg && trees == TreesAtFailure(parsed, burninPercentage)
                        && indexUpper == old(indexUpper) && prevTree == old(prevTree)))
    {
      var p, held := PrepareTrees(fileName, parsed, burninPercentage, tree0.taxa);
      if p.Err? {
        trees := held;
        return Err(p.msg);
      }
      PreparedShape(fileName, parsed, burninPercentage, tree0.taxa);
      trees := p.value;
      prevTree := -1;
      indexUpper := |trees|;
      return Ok(());
    }

    /**
     * calculateLogP: an index outside the tree set gives −∞ and leaves the working tree alone;
     * otherwise the indexed tree is assigned to the working tree and its likelihood is the result.
     */
    method CalculateLogP(eval: Tree -> real) returns (r: ExtReal)
      modifies this
      ensures trees == old(trees) && index == old(index) && indexUpper == old(indexUpper) && prevTree == old(prevTree)
      ensures r == logP
      ensures (index < 0 || index >= |trees|) ==> r == NegInf && tree0 == old(tree0)
      ensures 0 <= index < |trees| ==> r == Finite(eval(trees[index])) && tree0 == trees[index]
    {
      logP := Finite(0.0);
      if index < 0 || index >= |trees| {
        logP := NegInf;
        return logP;
      }
      tree0 := trees[index];
      logP := Finite(0.0 + eval(tree0));
      return logP;
    }
  }

  /**
   * An in-range index picks out exactly the value the whole-set likelihood gives that tree, and
   * a set of one tree has the same likelihood under both.
   */
  lemma IndexedPicksSetValue(trees: seq<Tree>, eval: Tree -> real, exp: real -> real, ln: real -> real, index: nat)
    requires index < |trees|
    requires exp(0.0) == 1.0 && ln(1.0) == 0.0
    ensures Evaluated(trees, eval)[index] == eval(trees[index])
    ensures |trees| == 1 ==> LogMeanExp(Evaluated(trees, eval), exp, ln) == eval(trees[index])
  {
    if |trees| == 1 {
      LogMeanExpOfEqual(Evaluated(trees, eval), eval(trees[0]), exp, ln);
    }
  }
}

=== FILE: TsaTreeSetLikelihood.dfy ===
/**
 * The simpler tree-set likelihood: every parsed tree is kept, the working tree starts as a copy
 * of the first, and the log-likelihood of the set is the sum of the trees' log-likelihoods. The
 * indexed variant evaluates only the tree an integer index points to, after marking the working
 * tree as entirely dirty.
 */
module TsaTreeSet {
  import opened Common
  import opened JavaErrors
  import opened TreeSet

  /** The likelihood of a one-tree set is that tree's whether the values are summed or averaged. */
  lemma SumAgreesWithMeanForOneTree(trees: seq<Tree>, eval: Tree -> real, exp: real -> real, ln: real -> real)
    requires |trees| == 1 && exp(0.0) == 1.0 && ln(1.0) == 0.0
    ensures Sum(Evaluated(trees, eval)) == LogMeanExp(Evaluated(trees, eval), exp, ln) == eval(trees[0])
  {
    LogMeanExpOfEqual(Evaluated(trees, eval), eval(trees[0]), exp, ln);
  }

  /** Summing the per-tree values of a set split in two sums each part. */
  lemma EvaluatedSplit(trees: seq<Tree>, eval: Tree -> real, k: nat)
    requires k <= |trees|
    ensures Sum(Evaluated(trees, eval)) == Sum(Evaluated(trees[..k], eval)) + Sum(Evaluated(trees[k..], eval))
  {
    assert Evaluated(trees, eval) == Evaluated(trees[..k], eval) + Evaluated(trees[k..], eval);
    SumAppend(Evaluated(trees[..k], eval), Evaluated(trees[k..], eval));
  }

  class TreeSetLikelihood {
    var trees: seq<Tree>
    /** The working tree of the tree likelihood. */
    var tree0: Tree
    var logP: real

    constructor ()
      ensures trees == [] && logP == 0.0
    {
      trees := [];
      tree0 := Tree([], Leaf(None, 0));
      logP := 0.0;
    }

    /**
     * initAndValidate: all parsed trees are kept and the working tree is a copy of the first; no
     * trees is an error, raised after the (empty) parsed list has become the tree set.
     */
    method InitAndValidate(parsed: seq<Tree>) returns (r: Result<()>)
      modifies this
      ensures logP == old(logP)
      ensures r.Err? <==> |parsed| == 0
      ensures trees == parsed
      ensures r.Err? ==> r.msg == IndexOutOfBounds && tree0 == old(tree0)
      ensures r.Ok? ==> tree0 == parsed[0]
    {
      trees := parsed;
      if |trees| == 0 {
        return Err(IndexOutOfBounds);
      }
      tree0 := trees[0];
      return Ok(());
    }

    /** calculateLogP: every tree in turn is assigned to the working tree and its log-likelihood added. */
    method CalculateLogP(eval: Tree -> real) returns (r: real)
      modifies this
      ensures trees == old(trees)
      ensures tree0 == if |trees| > 0 then trees[|trees| - 1] else old(tree0)
      ensures r == logP == Sum(Evaluated(trees, eval))
    {
      logP := 0.0;
      for i := 0 to |trees|
        invariant trees == old(trees)
        invariant tree0 == if i > 0 then trees[i - 1] else old(tree0)
        invariant logP == Sum(Evaluated(trees[..i], eval))
      {
        tree0 := trees[i];
        assert Evaluated(trees[..i + 1], eval) == Evaluated(trees[..i], eval) + [eval(trees[i])];
        logP := logP + eval(tree0);
      }
      assert trees[..|trees|] == trees;
      return logP;
    }
  }

  class IndexedTreeSetLikelihood {
    var trees: seq<Tree>
    var tree0: Tree
    /** Whether the working tree has been marked as entirely dirty. */
    var everythingDirty: bool
    var logP: ExtReal
    /** The value of the index parameter and its bounds. */
    var index: int
    var indexLower: int
    var indexUpper: int
    var prevTree: int

    constructor (indexValue: int, lower: int, upper: int)
      ensures trees == [] && logP == Finite(0.0) && !everythingDirty
      ensures index == indexValue && indexLower == lower && indexUpper == upper && prevTree == 0
    {
      trees := [];
      tree0 := Tree([], Leaf(None, 0));
      everythingDirty := false;
      logP := Finite(0.0);
      index := indexValue;
      indexLower := lower;
      indexUpper := upper;
      prevTree := 0;
    }

    /** initAndValidate: the tree set as in the summing likelihood; the index is bounded to [0, set size]. */
    method InitAndValidate(parsed: seq<Tree>) returns (r: Result<()>)
      modifies this
      ensures logP == old(logP) && index == old(index) && everythingDirty == old(everythingDirty)
      ensures r.Err? <==> |parsed| == 0
      ensures trees == parsed
      ensures r.Err? ==> (r.msg == IndexOutOfBounds && tree0 == old(tree0)
        && indexLower == old(indexLower) && indexUpper == old(indexUpper) && prevTree == old(prevTree))
      ensures r.Ok? ==> (tree0 == parsed[0]
        && prevTree == -1 && indexLower == 0 && indexUpper == |parsed|)
    {
      trees := parsed;
      if |trees| == 0 {
        return Err(IndexOutOfBounds);
      }
      tree0 := trees[0];
      prevTree := -1;
      indexLower := 0;
      indexUpper := |trees|;
      return Ok(());
    }

    /**
     * calculateLogP: an index outside the tree set gives −∞ and changes nothing else; otherwise
     * the indexed tree is assigned to the working tree, which is marked entirely dirty, and its
     * likelihood is the result.
     */
    method CalculateLogP(eval: Tree -> real) returns (r: ExtReal)
      modifies this
      ensures trees == old(trees) && index == old(index) && prevTree == old(prevTree)
      ensures indexLower == old(indexLower) && indexUpper == old(indexUpper)
      ensures r == logP
      ensures (index < 0 || index >= |trees|) ==>
        r == NegInf && tree0 == old(tree0) && everythingDirty == old(everythingDirty)
      ensures 0 <= index < |trees| ==>
        r == Finite(eval(trees[index])) && tree0 == trees[index] && everythingDirty
    {
      logP := Finite(0.0);
      if index < 0 || index >= |trees| {
        logP := NegInf;
        return logP;
      }
      tree0 := trees[index];
      everythingDirty := true;
      logP := Finite(0.0 + eval(tree0));
      return logP;
    }
  }
}
